=== FILE: README.md ===
# MQTT-RPC core, modelled in Dafny

MQTT-RPC is a Java RPC framework, with a .NET mirror of its message classes.
A client proxy turns a method call into a request and sends it on a queue whose name is derived from the interface and the method.
It is meant to block on a per-request latch until the reply arrives. As written, that wait dereferences a latch map that is never created, so every call that expects a result ends in a `NullPointerException` (see Findings).
The server decodes the arguments, invokes the registered method and writes the reply into the same envelope.

This project models the parts of that path that hold logic:

- **Correlation.** The latch-like `Synchronizer` and the two `SynchronizerManager`s. These are maps from request id to synchronizer and response, with exactly-once release, take-versus-peek reads and expiry sweeps.
- **Dispatch keys.** The method keys of `MethodRegistry`, `MethodInfo` and `RpcMethod`. The queue names that `ObjectProxy` registers and looks up. The decode, invoke and reply decision of `RpcServerHandler`.
- **Envelopes.** The Java `RpcMessage`, `RpcRequest` and `RpcResponse`, their builders and the status-code rules. The .NET `RpcMessage`, `RpcRequest` and `RpcResponse`. The `SuperMsgMulti` request/response switch.
- **Id digits.** The fixed-width base-64 and base-32 digit writers of `EasyFastFormat`, with their custom alphabet.
- **Configuration and lifecycle.** Both `RpcConfig` rule sets with their factories. `RpcConfiguration.merge`. The start/stop state machine of `ImprovedRpcBootstrap`.
- **Caches and counters.** The two IOC containers, the two proxy factories, `MetricsCollector` and `RpcMonitor`.
- **Errors.** The three `RpcException` classes, their error codes, factories and renderings.

Objects whose fields the source updates in place are classes with `modifies` frames. Values with only final fields are datatypes. Loops are methods proved against specification functions.

Java `null` strings are `Option<string>`. Java's `+` and `String.format("%s")` render `null` as "null"; C# interpolation renders it as "".
Java `int` wrap-around and truncating `%` are written out explicitly (module `JavaText`).
The clock, thread ids and GUIDs are parameters.

## Model

| member | source | states |
|---|---|---|
| Synchronizers.Synchronizer.constructor | EF.RPC.Impl/src/main/java/com/wiqer/rpc/impl/sync/Synchronizer.java:16-19 | a new gate is unreleased, has no thread, a wait bound of 0 and a closed one-count latch |
| Synchronizers.Synchronizer.TryAcquire | EF.RPC.Impl/src/main/java/com/wiqer/rpc/impl/sync/Synchronizer.java:24-26 | true exactly when the gate has not been released |
| Synchronizers.Synchronizer.TryRelease | EF.RPC.Impl/src/main/java/com/wiqer/rpc/impl/sync/Synchronizer.java:31-33 | sets the flag; true exactly for the call that changed it; the latch, bound and thread are untouched |
| Synchronizers.Synchronizer.Await | EF.RPC.Impl/src/main/java/com/wiqer/rpc/impl/sync/Synchronizer.java:40-51 | an admitted caller is recorded and waits with the bound when it is positive, without bound otherwise; expiry changes nothing |
| Synchronizers.Synchronizer.Acquire | EF.RPC.Impl/src/main/java/com/wiqer/rpc/impl/sync/Synchronizer.java:38-57 | no wait exactly when the gate was already released; otherwise the bounded or unbounded wait; never releases |
| Synchronizers.Synchronizer.Release | EF.RPC.Impl/src/main/java/com/wiqer/rpc/impl/sync/Synchronizer.java:62-69 | true exactly for the first release, which also opens the latch; the flag never goes back; keeps the latch/flag invariant |
| Synchronizers.Synchronizer.SetSleepTime | EF.RPC.Impl/src/main/java/com/wiqer/rpc/impl/sync/Synchronizer.java:74-76 | changes the wait bound and nothing else |
| Synchronizers.ReleaseIsOneShot | EF.RPC.Impl/src/main/java/com/wiqer/rpc/impl/sync/Synchronizer.java:62-69 | of two releases only the first succeeds, and the latch is open afterwards |
| Synchronizers.TryReleaseLeavesLatchClosed | EF.RPC.Impl/src/main/java/com/wiqer/rpc/impl/sync/Synchronizer.java:31-39 | `tryRelease` sets the flag but leaves the latch closed, and a later `acquire` does not wait |
| SyncManager.UnsafeSynchronizer.constructor | EF.RPC.Impl/src/main/java/com/wiqer/rpc/impl/sync/SynchronizerManager.java:104-108 | a new synchronizer is unreleased, not timed out, starts at `now` and has the fixed 30000 ms window |
| SyncManager.UnsafeSynchronizer.TryAcquire | EF.RPC.Impl/src/main/java/com/wiqer/rpc/impl/sync/SynchronizerManager.java:111-117 | once more than 30000 ms have passed it marks the timeout and refuses; before that it answers as the plain gate does |
| SyncManager.UnsafeSynchronizer.Acquire | EF.RPC.Impl/src/main/java/com/wiqer/rpc/impl/sync/SynchronizerManager.java:111-117 | no wait exactly when the window has passed or the gate was released; the timeout flag is set exactly when the window has passed |
| SyncManager.SynchronizerManager.constructor | EF.RPC.Impl/src/main/java/com/wiqer/rpc/impl/sync/SynchronizerManager.java:19-22 | both maps start empty |
| SyncManager.SynchronizerManager.CreateSynchronizer | EF.RPC.Impl/src/main/java/com/wiqer/rpc/impl/sync/SynchronizerManager.java:27-33 | binds the id to a fresh synchronizer whose wait bound is `timeout`, replacing any earlier binding; the replies are untouched |
| SyncManager.SynchronizerManager.GetSynchronizer | EF.RPC.Impl/src/main/java/com/wiqer/rpc/impl/sync/SynchronizerManager.java:38-40 | the bound synchronizer, or nothing for an unknown id |
| SyncManager.SynchronizerManager.ReleaseSynchronizer | EF.RPC.Impl/src/main/java/com/wiqer/rpc/impl/sync/SynchronizerManager.java:45-53 | removes the id's entry and releases it, true exactly when it was bound and not yet released; an unknown id returns false and changes nothing; a successful release opens the latch (count 0), a repeated one leaves it as it was, and the wait bound and thread never change |
| SyncManager.SynchronizerManager.RemoveSynchronizer | EF.RPC.Impl/src/main/java/com/wiqer/rpc/impl/sync/SynchronizerManager.java:58-62 | removes the id from both maps and no other id |
| SyncManager.SynchronizerManager.SetResponse | EF.RPC.Impl/src/main/java/com/wiqer/rpc/impl/sync/SynchronizerManager.java:67-70 | stores the reply under the id whether or not a synchronizer is bound; the synchronizers are untouched |
| SyncManager.SynchronizerManager.GetResponse | EF.RPC.Impl/src/main/java/com/wiqer/rpc/impl/sync/SynchronizerManager.java:75-77 | reads the stored reply without removing it; nothing for an unknown id |
| SyncManager.SynchronizerManager.CleanupTimeoutSynchronizers | EF.RPC.Impl/src/main/java/com/wiqer/rpc/impl/sync/SynchronizerManager.java:82-92 | removes exactly the entries that have timed out at `now`, with their replies; every other entry and reply is kept as it was |
| SyncManager.SynchronizerManager.GetSynchronizerCount | EF.RPC.Impl/src/main/java/com/wiqer/rpc/impl/sync/SynchronizerManager.java:97-99 | the number of bound ids |
| SyncManager.RequestIdInjective | EF.RPC.Test/src/test/java/com/wiqer/rpc/test/SynchronizerTest.java:91-93 | distinct indices give distinct "test-request-" ids |
| SyncManager.RequestIdsStep | EF.RPC.Test/src/test/java/com/wiqer/rpc/test/SynchronizerTest.java:99-102 | releasing the lowest id of a range leaves the rest of the range |
| SyncManager.RequestIdsLast | EF.RPC.Test/src/test/java/com/wiqer/rpc/test/SynchronizerTest.java:91-94 | the last index of a range adds one new id |
| SyncManager.RequestIdsCount | EF.RPC.Test/src/test/java/com/wiqer/rpc/test/SynchronizerTest.java:91-96 | a range of n indices gives exactly n ids |
| SyncManager.CreateTenReleaseFive | EF.RPC.Test/src/test/java/com/wiqer/rpc/test/SynchronizerTest.java:89-105 | creating ten synchronizers and releasing five leaves exactly five |
| SyncManager.ShortTimeoutDoesNotExpire | EF.RPC.Impl/src/main/java/com/wiqer/rpc/impl/sync/SynchronizerManager.java:27-29 | a synchronizer created with a 100 ms bound has not timed out 200 ms later, because expiry uses the fixed 30000 ms window |
| SyncManager.ResponseReadTwice | EF.RPC.Impl/src/main/java/com/wiqer/rpc/impl/sync/SynchronizerManager.java:67-77 | a stored reply can be read twice and is the same both times |
| CoreSyncManager.UnsafeSynchronizer.constructor | EF.RPC.Impl/src/main/java/com/wiqer/rpc/impl/core/SynchronizerManager.java:84-87 | a new synchronizer keeps its own bound, starts at `now` and is unreleased |
| CoreSyncManager.UnsafeSynchronizer.Acquire | EF.RPC.Impl/src/main/java/com/wiqer/rpc/impl/core/SynchronizerManager.java:92-106 | the waiter returns exactly when the gate is released, throws exactly when it is unreleased and strictly past its bound, and waits otherwise |
| CoreSyncManager.UnsafeSynchronizer.Release | EF.RPC.Impl/src/main/java/com/wiqer/rpc/impl/core/SynchronizerManager.java:111-119 | true only for the first release; the flag stays set |
| CoreSyncManager.SynchronizerManager.constructor | EF.RPC.Impl/src/main/java/com/wiqer/rpc/impl/core/SynchronizerManager.java:17-18 | both maps start empty |
| CoreSyncManager.SynchronizerManager.CreateSynchronizer | EF.RPC.Impl/src/main/java/com/wiqer/rpc/impl/core/SynchronizerManager.java:23-28 | binds the id to a fresh synchronizer with the given bound, replacing any earlier one; replies untouched |
| CoreSyncManager.SynchronizerManager.ReleaseSynchronizer | EF.RPC.Impl/src/main/java/com/wiqer/rpc/impl/core/SynchronizerManager.java:33-39 | removes the id's entry and releases it; an absent id changes nothing |
| CoreSyncManager.SynchronizerManager.SetResponse | EF.RPC.Impl/src/main/java/com/wiqer/rpc/impl/core/SynchronizerManager.java:44-51 | stores the reply and releases the bound synchronizer, which stays in the map |
| CoreSyncManager.SynchronizerManager.GetResponse | EF.RPC.Impl/src/main/java/com/wiqer/rpc/impl/core/SynchronizerManager.java:56-58 | returns the stored reply and removes it; an unknown id gives nothing |
| CoreSyncManager.SynchronizerManager.CleanupExpiredSynchronizers | EF.RPC.Impl/src/main/java/com/wiqer/rpc/impl/core/SynchronizerManager.java:63-73 | removes exactly the synchronizers strictly past their bound at `now`, keeps the others as they were, and leaves the replies alone |
| CoreSyncManager.ReplyWakesWaiter | EF.RPC.Impl/src/main/java/com/wiqer/rpc/impl/core/SynchronizerManager.java:44-51 | a waiter that was waiting returns once a reply is stored, even past its bound |
| CoreSyncManager.UnansweredRequestTimesOut | EF.RPC.Impl/src/main/java/com/wiqer/rpc/impl/core/SynchronizerManager.java:128-130 | without a reply, an `acquire` made at exactly its bound parks, and one made a millisecond later throws at once |
| CoreSyncManager.ReplyTakenOnce | EF.RPC.Impl/src/main/java/com/wiqer/rpc/impl/core/SynchronizerManager.java:56-58 | a reply is handed out once; a second read finds nothing |
| MethodKeys.VersionedKey | EF.RPC.Impl/src/main/java/com/wiqer/rpc/impl/core/MethodRegistry.java:99-101 | the key is the version, then the owner's full name, a dot and the method name, each part in place and with no separator after the version |
| MethodKeys.VersionedKeyNameInjective | EF.RPC.Impl/src/main/java/com/wiqer/rpc/impl/core/MethodRegistry.java:99-101 | under one version and owner, two names share a key exactly when they render alike |
| MethodKeys.VersionedKeyBoundaryCollision | EF.RPC.Impl/src/main/java/com/wiqer/rpc/impl/core/MethodInfo.java:81-83 | without a separator, "v1"+"com.A" and "v1c"+"om.A" give the same key |
| MethodKeys.VersionedKeyNullIsText | EF.RPC.Impl/src/main/java/com/wiqer/rpc/impl/core/MethodRegistry.java:99-101 | a null version gives the same key as the text "null" |
| MethodRegistries.MethodRegistry.constructor | EF.RPC.Impl/src/main/java/com/wiqer/rpc/impl/core/MethodRegistry.java:29-33 | an empty table with the given version and interface name |
| MethodRegistries.MethodRegistry.RegisterMethod | EF.RPC.Impl/src/main/java/com/wiqer/rpc/impl/core/MethodRegistry.java:38-42 | inserts or overwrites the entry at the name's full key; nothing else changes |
| MethodRegistries.MethodRegistry.GetMethod | EF.RPC.Impl/src/main/java/com/wiqer/rpc/impl/core/MethodRegistry.java:47-50 | the entry at the name's full key, or nothing |
| MethodRegistries.MethodRegistry.ContainsMethod | EF.RPC.Impl/src/main/java/com/wiqer/rpc/impl/core/MethodRegistry.java:55-58 | true exactly when the name's full key has an entry |
| MethodRegistries.MethodRegistry.GetMethodNames | EF.RPC.Impl/src/main/java/com/wiqer/rpc/impl/core/MethodRegistry.java:63-65 | the table's keys, which are full versioned keys and not bare names |
| MethodRegistries.MethodRegistry.Size | EF.RPC.Impl/src/main/java/com/wiqer/rpc/impl/core/MethodRegistry.java:77-79 | the number of entries |
| MethodRegistries.MethodRegistry.IsEmpty | EF.RPC.Impl/src/main/java/com/wiqer/rpc/impl/core/MethodRegistry.java:84-86 | true exactly when the table is empty |
| MethodRegistries.MethodRegistry.Clear | EF.RPC.Impl/src/main/java/com/wiqer/rpc/impl/core/MethodRegistry.java:91-94 | empties the table; version and interface name are constants |
| MethodRegistries.RegisterTwiceThenClear | EF.RPC.Impl/src/main/java/com/wiqer/rpc/impl/core/MethodRegistry.java:38-94 | registering one name twice keeps one entry holding the later info, listed under "v1com.x.Svc.send"; clearing empties the table |
| MethodRegistries.UnknownNameMissing | EF.RPC.Impl/src/main/java/com/wiqer/rpc/impl/core/MethodRegistry.java:47-58 | a name never registered is neither found nor contained |
| MethodInfos.MethodInfo.Empty | EF.RPC.Impl/src/main/java/com/wiqer/rpc/impl/core/MethodInfo.java:64 | after the no-argument constructor every field is null, `reqFullName` included, and there is no key yet |
| MethodInfos.MethodInfo.constructor | EF.RPC.Impl/src/main/java/com/wiqer/rpc/impl/core/MethodInfo.java:66-76 | name, return and parameter types, simple class name, full class name and package come from the method and its declaring class; the key is version + full name + "." + name; `reqFullName` stays null |
| MethodInfos.MethodInfo.SetVersion | EF.RPC.Impl/src/main/java/com/wiqer/rpc/impl/core/MethodInfo.java:11-57 | the Lombok setter changes the version only: the other names, the types, the reflected method and `reqFullName` are unchanged, and a stored key is not recomputed |
| MethodInfos.MethodInfo.SetFullName | EF.RPC.Impl/src/main/java/com/wiqer/rpc/impl/core/MethodInfo.java:11-27 | the Lombok setter changes the full name only: the other names, the types, the reflected method and `reqFullName` are unchanged, and a stored key is not recomputed |
| MethodInfos.MethodInfo.SetName | EF.RPC.Impl/src/main/java/com/wiqer/rpc/impl/core/MethodInfo.java:11-42 | the Lombok setter changes the name only: the other names, the types, the reflected method and `reqFullName` are unchanged, and a stored key is not recomputed |
| MethodInfos.MethodInfo.GetMethodKey | EF.RPC.Impl/src/main/java/com/wiqer/rpc/impl/core/MethodInfo.java:88-93 | computes and stores the key only while it is null; afterwards returns the stored key |
| MethodInfos.LazyKeyIsFrozen | EF.RPC.Impl/src/main/java/com/wiqer/rpc/impl/core/MethodInfo.java:81-93 | after the no-argument constructor the key is absent; the first request yields "v1com.x.Svc.echo" and a later rename does not change it |
| MethodInfos.OverloadsShareKey | EF.RPC.Impl/src/main/java/com/wiqer/rpc/impl/core/MethodInfo.java:81-83 | two overloads with different parameter types get the same key |
| RpcMethods.GenerateMethodKey | EF.RPC.Impl/src/main/java/com/wiqer/rpc/impl/core/improved/RpcMethod.java:30-42 | the builder loop yields version "." name, followed by "(" and the comma-joined simple parameter-type names and ")" only when there are parameters |
| RpcMethods.RpcMethod.constructor | EF.RPC.Impl/src/main/java/com/wiqer/rpc/impl/core/improved/RpcMethod.java:18-25 | copies the signature and fixes the key once; every field is final |
| RpcMethods.RpcMethod.HashCode | EF.RPC.Impl/src/main/java/com/wiqer/rpc/impl/core/improved/RpcMethod.java:88-90 | the key's 32-bit Java string hash |
| RpcMethods.EqualsIsKeyEquality | EF.RPC.Impl/src/main/java/com/wiqer/rpc/impl/core/improved/RpcMethod.java:80-90 | two methods are equal exactly when their keys are equal; equality is symmetric and equal methods hash alike |
| RpcMethods.MethodKeyShape | EF.RPC.Impl/src/main/java/com/wiqer/rpc/impl/core/improved/RpcMethod.java:30-42 | without parameters the key is exactly version "." name; with parameters it ends in ')' |
| RpcMethods.SimpleNamesDecideKey | EF.RPC.Impl/src/main/java/com/wiqer/rpc/impl/core/improved/RpcMethod.java:37 | parameter types with the same simple names give the same key whatever their packages |
| RpcMethods.SamePackagelessSignatureIsEqual | EF.RPC.Impl/src/main/java/com/wiqer/rpc/impl/core/improved/RpcMethod.java:37 | `send(a.Msg)` and `send(b.Msg)` have the key "v2.send(Msg)" and are equal |
| ObjectProxies.ParamSuffix | EF.RPC.Impl/src/main/java/com/wiqer/rpc/impl/proxy/ObjectProxy.java:47 | a parameter type contributes one to three characters, the decimal text of its hash's truncating remainder by 100, which starts with '-' exactly when that remainder is negative |
| ObjectProxies.QueueName | EF.RPC.Impl/src/main/java/com/wiqer/rpc/impl/proxy/ObjectProxy.java:45-49 | the accumulation loop yields the service key, ".", the method name and the digit groups of all parameter types in order |
| ObjectProxies.ObjectProxy.constructor | EF.RPC.Impl/src/main/java/com/wiqer/rpc/impl/proxy/ObjectProxy.java:25-29 | the proxy keeps the interface's methods and version and registers them all |
| ObjectProxies.ObjectProxy.GetMathsInfoMulti | EF.RPC.Impl/src/main/java/com/wiqer/rpc/impl/proxy/ObjectProxy.java:30-52 | the table becomes the ordered registration of every method not named like an `Object` method, each under its queue name, later ones overwriting earlier ones |
| ObjectProxies.ObjectProxy.RegisteredKeys | EF.RPC.Impl/src/main/java/com/wiqer/rpc/impl/proxy/ObjectProxy.java:35-50 | a queue name is registered exactly when some method not named like an `Object` method has it |
| ObjectProxies.ObjectProxy.CollidingOverloadsShareEntry | EF.RPC.Impl/src/main/java/com/wiqer/rpc/impl/proxy/ObjectProxy.java:46-50 | overloads whose digit groups concatenate alike share a queue name, and registering both keeps only the later |
| ObjectProxies.ObjectProxy.Invoke | EF.RPC.Impl/src/main/java/com/wiqer/rpc/impl/proxy/ObjectProxy.java:55-97 | `Object` methods are answered locally (equals by reference, hashCode by identity hash, toString, others illegal); otherwise an unregistered queue name is NoSuchMethod, and a registered one is sent; a `Void.class` return skips waiting, and every other return type ends in WaitFailed, the `NullPointerException` that `acquire` raises |
| ObjectProxies.ObjectProxy.InvokeIntended | EF.RPC.Impl/src/main/java/com/wiqer/rpc/impl/proxy/ObjectProxy.java:78-93 | the same dispatch with a working wait: after sending, a `Void.class` return skips waiting, a missing reply gives null and a stored one is decoded as the return type |
| ObjectProxies.RegisteredCallThrows | EF.RPC.Impl/src/main/java/com/wiqer/rpc/impl/proxy/ObjectProxy.java:81-83 | as written, a call to a registered method returning a value is sent with its arguments and then fails in the wait |
| ObjectProxies.RegisteredMethodIsFound | EF.RPC.Impl/src/main/java/com/wiqer/rpc/impl/proxy/ObjectProxy.java:72-77 | every registered method is found again by `invoke`, which derives the same queue name |
| ObjectProxies.HashStep | EF.RPC.Impl/src/main/java/com/wiqer/rpc/impl/proxy/ObjectProxy.java:47 | one step of `String.hashCode` is `31*h + c` wrapped to 32 bits |
| ObjectProxies.IntHash | EF.RPC.Impl/src/main/java/com/wiqer/rpc/impl/proxy/ObjectProxy.java:47 | "int" hashes to 104431 |
| ObjectProxies.ClassPrefixHash | EF.RPC.Impl/src/main/java/com/wiqer/rpc/impl/proxy/ObjectProxy.java:47 | "class" hashes to 94742904 |
| ObjectProxies.ByteArrayHash | EF.RPC.Impl/src/main/java/com/wiqer/rpc/impl/proxy/ObjectProxy.java:47 | "class [B", the text of `byte[].class`, hashes to 692373231 after wrapping past 2^31 |
| ObjectProxies.SuffixThirtyOne | EF.RPC.Impl/src/main/java/com/wiqer/rpc/impl/proxy/ObjectProxy.java:47 | a non-negative hash ending in the digits 31 contributes "31" |
| ObjectProxies.IntAndByteArrayCollide | EF.RPC.Impl/src/main/java/com/wiqer/rpc/impl/proxy/ObjectProxy.java:47 | `int` and `byte[]` both contribute "31" |
| ObjectProxies.IntAndByteArraySuffixes | EF.RPC.Impl/src/main/java/com/wiqer/rpc/impl/proxy/ObjectProxy.java:46-48 | the one-parameter digit groups of `int` and `byte[]` agree |
| ObjectProxies.OverloadsCollapse | EF.RPC.Impl/src/main/java/com/wiqer/rpc/impl/proxy/ObjectProxy.java:46-50 | registering `send(int)` and then `send(byte[])` leaves one entry, the later one |
| ObjectProxies.RegisteredCallIsAnswered | EF.RPC.Impl/src/main/java/com/wiqer/rpc/impl/proxy/ObjectProxy.java:72-92 | with the intended wait, a call to a registered method is sent with its arguments and a stored reply is decoded as its return type |
| ServerHandlers.DecodeAllSucceeds | EF.RPC.Impl/src/main/java/com/wiqer/rpc/impl/core/RpcServerHandler.java:34-39 | decoding succeeds exactly when no argument is null and there are no more arguments than parameter types; argument j is then decoded with parameter type j |
| ServerHandlers.DecodeArguments | EF.RPC.Impl/src/main/java/com/wiqer/rpc/impl/core/RpcServerHandler.java:34-39 | the loop filling the argument array yields exactly the reference decode, stopping at the first null argument or missing parameter type |
| ServerHandlers.DecodeFailureSticks | EF.RPC.Impl/src/main/java/com/wiqer/rpc/impl/core/RpcServerHandler.java:35-39 | once a prefix of the arguments fails to decode, the whole decode fails the same way |
| ServerHandlers.Handle | EF.RPC.Impl/src/main/java/com/wiqer/rpc/impl/core/RpcServerHandler.java:23-48 | a null bean gives null without invoking; a null or empty argument array gives null without invoking; otherwise decode, and throw if decoding fails, if there are fewer arguments than parameters, or if `Method.invoke` throws; when the target returns, a return type other than `Void.class` stores the result in the envelope and returns its serialization, and nothing is written back on any throwing path |
| ServerHandlers.HandleText | EF.RPC.Impl/src/main/java/com/wiqer/rpc/impl/core/RpcServerHandler.java:17-21 | the string overload deserializes the envelope and then behaves exactly like the envelope overload, throwing on the same decode, arity and invocation failures |
| ServerHandlers.ZeroParameterMethodNeverRuns | EF.RPC.Impl/src/main/java/com/wiqer/rpc/impl/core/RpcServerHandler.java:32-47 | a method without parameters is never invoked |
| ServerHandlers.InvokedExactlyWhenDecodable | EF.RPC.Impl/src/main/java/com/wiqer/rpc/impl/core/RpcServerHandler.java:24-45 | the target is invoked exactly when there is a bean and a non-empty, null-free argument list exactly as long as the parameter list, on argument j decoded with parameter type j; a shorter such list is refused as a wrong argument count; the handler answers exactly when the target returns, a reply carrying the serialized result, and a throwing target makes `handle` throw |
| ServerHandlers.ReplyLandsInEnvelope | EF.RPC.Impl/src/main/java/com/wiqer/rpc/impl/core/RpcServerHandler.java:40-45 | a reply to `square(5)` stores the call's result in the envelope |
| ServerHandlers.FewerArgumentsRefused | EF.RPC.Impl/src/main/java/com/wiqer/rpc/impl/core/RpcServerHandler.java:34-40 | one argument for a two-parameter method is refused by `Method.invoke` and leaves the envelope's response null |
| SuperMessages.SuperMsgMulti.constructor | EF.RPC.Serialize/src/main/java/com/wiqer/rpc/serialize/SuperMsgMulti.java:5-9 | a new envelope has a generated id, the creation time, no arguments and no response |
| SuperMessages.SuperMsgMulti.Decoded | EF.RPC.Serialize/src/main/java/com/wiqer/rpc/serialize/SuperMsgMulti.java:5-9 | an envelope rebuilt from its fields holds exactly those fields |
| SuperMessages.SuperMsgMulti.SetResponse | EF.RPC.Serialize/src/main/java/com/wiqer/rpc/serialize/SuperMsgMulti.java:5-9 | the Lombok setter replaces the response only |
| SuperMessages.SuperMsgMulti.SetMsg | EF.RPC.Serialize/src/main/java/com/wiqer/rpc/serialize/SuperMsgMulti.java:12-16 | installs the arguments, keeps the response, id and date, and returns the same envelope |
| SuperMessages.SuperMsgMulti.SetReq | EF.RPC.Serialize/src/main/java/com/wiqer/rpc/serialize/SuperMsgMulti.java:17-22 | drops the arguments, installs the result, keeps id and date, and returns the same envelope |
| SuperMessages.RequestBecomesReply | EF.RPC.Serialize/src/main/java/com/wiqer/rpc/serialize/SuperMsgMulti.java:12-22 | a request turned into a reply has no arguments, holds the result and keeps the request's id and date |
| SuperMessages.SetMsgKeepsResponse | EF.RPC.Serialize/src/main/java/com/wiqer/rpc/serialize/SuperMsgMulti.java:12-16 | installing arguments after a result keeps that result |
| RpcMessages.GeneratedMessageIdInjective | EF.RPC.Sharing/src/main/java/com/wiqer/rpc/sharing/core/RpcMessage.java:63-65 | generated ids made at different times or on different threads differ: the id gives back both the time and the thread |
| RpcMessages.RpcMessage.Default | EF.RPC.Sharing/src/main/java/com/wiqer/rpc/sharing/core/RpcMessage.java:39-43 | the default constructor generates "msg_" + time + "_" + thread id, takes the current time, starts with empty metadata and no type |
| RpcMessages.RpcMessage.constructor | EF.RPC.Sharing/src/main/java/com/wiqer/rpc/sharing/core/RpcMessage.java:51-56 | the (id, type) constructor keeps the id as given, even null, with empty metadata |
| RpcMessages.RpcMessage.SetMessageType | EF.RPC.Sharing/src/main/java/com/wiqer/rpc/sharing/core/RpcMessage.java:99-101 | changes the type only |
| RpcMessages.RpcMessage.SetMessageId | EF.RPC.Sharing/src/main/java/com/wiqer/rpc/sharing/core/RpcMessage.java:81-83 | changes the id only |
| RpcMessages.RpcMessage.SetMetadata | EF.RPC.Sharing/src/main/java/com/wiqer/rpc/sharing/core/RpcMessage.java:135-137 | replaces the map, possibly by null, and nothing else |
| RpcMessages.RpcMessage.AddMetadata | EF.RPC.Sharing/src/main/java/com/wiqer/rpc/sharing/core/RpcMessage.java:145-150 | creates the map when it is null, then maps the key to the value, overwriting |
| RpcMessages.RpcMessage.GetMetadata | EF.RPC.Sharing/src/main/java/com/wiqer/rpc/sharing/core/RpcMessage.java:158-160 | the value for the key, or null when the map is null or lacks the key |
| RpcMessages.RpcHeartbeat.constructor | EF.RPC.Sharing/src/main/java/com/wiqer/rpc/sharing/core/RpcMessage.java:426-431 | a heartbeat is a default message tagged HEARTBEAT holding the client and server ids |
| RpcMessages.RpcErrorMessage.constructor | EF.RPC.Sharing/src/main/java/com/wiqer/rpc/sharing/core/RpcMessage.java:490-495 | an error message is a default message tagged ERROR holding the code and message, with no details |
| RpcMessages.MetadataOverNullMap | EF.RPC.Sharing/src/main/java/com/wiqer/rpc/sharing/core/RpcMessage.java:145-160 | over a null map a missing key reads null, adding creates a map, and a second add of the key overwrites |
| RpcMessages.SubclassesAreTagged | EF.RPC.Sharing/src/main/java/com/wiqer/rpc/sharing/core/RpcMessage.java:415-492 | heartbeats and error messages carry their tags; a plain default message has no type |
| NetRpcMessages.NetRpcMessage.Default | external-dependencies/MQTT-RPC.NET/EF.RPC.Sharing/RpcMessage.cs:35-40 | a GUID id, the current time, an empty dictionary and the enum default Request |
| NetRpcMessages.NetRpcMessage.constructor | external-dependencies/MQTT-RPC.NET/EF.RPC.Sharing/RpcMessage.cs:47-53 | a null id is replaced by a GUID, a given one kept; the type as given |
| NetRpcMessages.NetRpcMessage.SetMessageType | external-dependencies/MQTT-RPC.NET/EF.RPC.Sharing/RpcMessage.cs:20 | the property setter changes the type only |
| NetRpcMessages.NetRpcMessage.SetMetadata | external-dependencies/MQTT-RPC.NET/EF.RPC.Sharing/RpcMessage.cs:30 | the property setter replaces the dictionary, possibly by null, and nothing else |
| NetRpcMessages.NetRpcMessage.AddMetadata | external-dependencies/MQTT-RPC.NET/EF.RPC.Sharing/RpcMessage.cs:60-67 | creates the dictionary when it is null, then sets the key, overwriting |
| NetRpcMessages.NetRpcMessage.GetMetadata | external-dependencies/MQTT-RPC.NET/EF.RPC.Sharing/RpcMessage.cs:74-77 | the value for a contained key, null otherwise |
| NetRpcMessages.NetRpcMessage.RemoveMetadata | external-dependencies/MQTT-RPC.NET/EF.RPC.Sharing/RpcMessage.cs:94-97 | true exactly when the key was contained, and then it alone is removed; afterwards the key is absent |
| NetRpcMessages.NetRpcMessage.ClearMetadata | external-dependencies/MQTT-RPC.NET/EF.RPC.Sharing/RpcMessage.cs:102-105 | empties a dictionary; a null one stays null |
| NetRpcMessages.EqualsIsEquivalence | external-dependencies/MQTT-RPC.NET/EF.RPC.Sharing/RpcMessage.cs:121-134 | equality is reflexive, symmetric and transitive, and holds exactly when id, type and timestamp agree |
| NetRpcMessages.MetadataIgnoredByEquals | external-dependencies/MQTT-RPC.NET/EF.RPC.Sharing/RpcMessage.cs:47-134 | a null id is replaced by the GUID; two messages differing only in metadata are equal; removing a missing key gives false |
| RpcRequests.ServiceKeyOf | EF.RPC.Sharing/src/main/java/com/wiqer/rpc/sharing/core/RpcRequest.java:196-198 | the service key is the service name, ':' and the version, each part in place |
| RpcRequests.MethodKeyOf | EF.RPC.Sharing/src/main/java/com/wiqer/rpc/sharing/core/RpcRequest.java:205-207 | the method key is service name, '.', method name, ':' and version, each part in place |
| RpcRequests.ServiceKeyInjective | EF.RPC.Sharing/src/main/java/com/wiqer/rpc/sharing/core/RpcRequest.java:196-198 | for service names without ':', two service keys are equal exactly when service and version are |
| RpcRequests.MethodKeyInjective | EF.RPC.Sharing/src/main/java/com/wiqer/rpc/sharing/core/RpcRequest.java:205-207 | for service names without '.' and method names without ':', two method keys are equal exactly when all three parts are |
| RpcRequests.KeysShareVersionSuffix | EF.RPC.Sharing/src/main/java/com/wiqer/rpc/sharing/core/RpcRequest.java:196-207 | both keys of a request end in ':' and the version |
| RpcRequests.RpcRequest.Default | EF.RPC.Sharing/src/main/java/com/wiqer/rpc/sharing/core/RpcRequest.java:46-49 | a default message tagged REQUEST with every request field null |
| RpcRequests.RpcRequest.WithId | EF.RPC.Sharing/src/main/java/com/wiqer/rpc/sharing/core/RpcRequest.java:59-64 | the id kept as given, even null; tagged REQUEST; names and version as given |
| RpcRequests.RpcRequest.constructor | EF.RPC.Sharing/src/main/java/com/wiqer/rpc/sharing/core/RpcRequest.java:74-81 | a generated id, tagged REQUEST, names, version and arguments as given |
| RpcRequests.RpcRequest.SetArguments | EF.RPC.Sharing/src/main/java/com/wiqer/rpc/sharing/core/RpcRequest.java:151-153 | changes the arguments only |
| RpcRequests.RpcRequest.SetParameterTypes | EF.RPC.Sharing/src/main/java/com/wiqer/rpc/sharing/core/RpcRequest.java:169-171 | changes the parameter types only |
| RpcRequests.RpcRequest.SetReturnType | EF.RPC.Sharing/src/main/java/com/wiqer/rpc/sharing/core/RpcRequest.java:187-189 | changes the return type only |
| RpcRequests.RpcRequest.GetArgumentCount | EF.RPC.Sharing/src/main/java/com/wiqer/rpc/sharing/core/RpcRequest.java:223-225 | the length of the argument array, or 0 when it is null |
| RpcRequests.HasArgumentsIffCounted | EF.RPC.Sharing/src/main/java/com/wiqer/rpc/sharing/core/RpcRequest.java:214-225 | a request has arguments exactly when it counts at least one |
| RpcRequests.EqualsIsIdentity | EF.RPC.Sharing/src/main/java/com/wiqer/rpc/sharing/core/RpcRequest.java:236-259 | because the inherited `equals` is `Object`'s identity test, a request equals only itself |
| RpcRequests.Builder.constructor | EF.RPC.Sharing/src/main/java/com/wiqer/rpc/sharing/core/RpcRequest.java:290-297 | every builder field starts null |
| RpcRequests.Builder.MessageId | EF.RPC.Sharing/src/main/java/com/wiqer/rpc/sharing/core/RpcRequest.java:299-302 | records the id and returns the same builder; nothing else changes |
| RpcRequests.Builder.ServiceName | EF.RPC.Sharing/src/main/java/com/wiqer/rpc/sharing/core/RpcRequest.java:304-307 | records the service name and returns the same builder; nothing else changes |
| RpcRequests.Builder.MethodName | EF.RPC.Sharing/src/main/java/com/wiqer/rpc/sharing/core/RpcRequest.java:309-312 | records the method name and returns the same builder; nothing else changes |
| RpcRequests.Builder.Version | EF.RPC.Sharing/src/main/java/com/wiqer/rpc/sharing/core/RpcRequest.java:314-317 | records the version and returns the same builder; nothing else changes |
| RpcRequests.Builder.Arguments | EF.RPC.Sharing/src/main/java/com/wiqer/rpc/sharing/core/RpcRequest.java:319-322 | records the arguments and returns the same builder; nothing else changes |
| RpcRequests.Builder.ParameterTypes | EF.RPC.Sharing/src/main/java/com/wiqer/rpc/sharing/core/RpcRequest.java:324-327 | records the parameter types and returns the same builder; nothing else changes |
| RpcRequests.Builder.ReturnType | EF.RPC.Sharing/src/main/java/com/wiqer/rpc/sharing/core/RpcRequest.java:329-332 | records the return type and returns the same builder; nothing else changes |
| RpcRequests.Builder.Build | EF.RPC.Sharing/src/main/java/com/wiqer/rpc/sharing/core/RpcRequest.java:334-340 | a fresh request holding every recorded field, tagged REQUEST; the id stays as given, even null |
| RpcRequests.BuiltCalculatorRequest | EF.RPC.Sharing/src/main/java/com/wiqer/rpc/sharing/core/RpcRequest.java:196-225 | the calculator request built without an id has a null id, is tagged REQUEST, counts two arguments and has the keys "CalculatorService:v1" and "CalculatorService.add:v1" |
| RpcRequests.SameFieldsNotEqual | EF.RPC.Sharing/src/main/java/com/wiqer/rpc/sharing/core/RpcRequest.java:236-259 | two requests built from one builder have equal fields yet are not equal |
| RpcRequests.NullNamesInKeys | EF.RPC.Sharing/src/main/java/com/wiqer/rpc/sharing/core/RpcRequest.java:196-198 | a default request keys its null service and version as "null:null" and counts no arguments |
| NetRpcRequests.NetRpcRequest.Default | external-dependencies/MQTT-RPC.NET/EF.RPC.Sharing/RpcRequest.cs:44-47 | a GUID id, tagged Request, every request field null |
| NetRpcRequests.NetRpcRequest.WithId | external-dependencies/MQTT-RPC.NET/EF.RPC.Sharing/RpcRequest.cs:56-62 | a null id becomes a GUID; tagged Request; names and version as given |
| NetRpcRequests.NetRpcRequest.constructor | external-dependencies/MQTT-RPC.NET/EF.RPC.Sharing/RpcRequest.cs:71-79 | a GUID id, tagged Request, names, version and argument array as given |
| NetRpcRequests.NetRpcRequest.GetArgumentCount | external-dependencies/MQTT-RPC.NET/EF.RPC.Sharing/RpcRequest.cs:112-115 | the length of the argument array, or 0 when it is null |
| NetRpcRequests.HasArgumentsIffCounted | external-dependencies/MQTT-RPC.NET/EF.RPC.Sharing/RpcRequest.cs:103-115 | a request has arguments exactly when it counts at least one |
| NetRpcRequests.EqualsByValue | external-dependencies/MQTT-RPC.NET/EF.RPC.Sharing/RpcRequest.cs:131-146 | two distinct requests are equal exactly when id, type, timestamp, names and version agree and they hold the very same argument array; equality is symmetric |
| NetRpcRequests.NullServiceKeysDiffer | external-dependencies/MQTT-RPC.NET/EF.RPC.Sharing/RpcRequest.cs:85-88 | a null service name keys as "null:" + version in Java but ":" + version in .NET |
| NetRpcRequests.Builder.constructor | external-dependencies/MQTT-RPC.NET/EF.RPC.Sharing/RpcRequest.cs:183-191 | every builder field starts null |
| NetRpcRequests.Builder.SetMessageId | external-dependencies/MQTT-RPC.NET/EF.RPC.Sharing/RpcRequest.cs:193-197 | records the id and returns the same builder; nothing else changes |
| NetRpcRequests.Builder.SetServiceName | external-dependencies/MQTT-RPC.NET/EF.RPC.Sharing/RpcRequest.cs:199-203 | records the service name and returns the same builder; nothing else changes |
| NetRpcRequests.Builder.SetMethodName | external-dependencies/MQTT-RPC.NET/EF.RPC.Sharing/RpcRequest.cs:205-209 | records the method name and returns the same builder; nothing else changes |
| NetRpcRequests.Builder.SetVersion | external-dependencies/MQTT-RPC.NET/EF.RPC.Sharing/RpcRequest.cs:211-215 | records the version and returns the same builder; nothing else changes |
| NetRpcRequests.Builder.SetArguments | external-dependencies/MQTT-RPC.NET/EF.RPC.Sharing/RpcRequest.cs:217-221 | records the argument array and returns the same builder; nothing else changes |
| NetRpcRequests.Builder.SetParameterTypes | external-dependencies/MQTT-RPC.NET/EF.RPC.Sharing/RpcRequest.cs:223-227 | records the parameter types and returns the same builder; nothing else changes |
| NetRpcRequests.Builder.SetReturnType | external-dependencies/MQTT-RPC.NET/EF.RPC.Sharing/RpcRequest.cs:229-233 | records the return type and returns the same builder; nothing else changes |
| NetRpcRequests.Builder.Build | external-dependencies/MQTT-RPC.NET/EF.RPC.Sharing/RpcRequest.cs:235-244 | a fresh request holding every recorded field; a missing id becomes a GUID |
| NetRpcRequests.BuilderIdsAndArrayIdentity | external-dependencies/MQTT-RPC.NET/EF.RPC.Sharing/RpcRequest.cs:131-146 | a request built without an id still gets one; two builds sharing an id and an argument array are equal, while an equal but separate array makes them unequal |
| RpcResponses.StatusVerdictsExclusive | EF.RPC.Sharing/src/main/java/com/wiqer/rpc/sharing/core/RpcResponse.java:190-219 | a success has no exception and a 2xx code, so it is never a timeout or unavailable; at 200 it is a success exactly when no exception is set; 408, 500 and 503 are never successes |
| RpcResponses.RpcResponse.Default | EF.RPC.Sharing/src/main/java/com/wiqer/rpc/sharing/core/RpcResponse.java:41-46 | a generated id, tagged RESPONSE, no request id, result or exception, at 200 "OK" |
| RpcResponses.RpcResponse.WithIds | EF.RPC.Sharing/src/main/java/com/wiqer/rpc/sharing/core/RpcResponse.java:54-59 | the message id and request id as given, at 200 "OK" |
| RpcResponses.RpcResponse.Succeeded | EF.RPC.Sharing/src/main/java/com/wiqer/rpc/sharing/core/RpcResponse.java:67-74 | a generated id, the request id and result as given, no exception, at 200 "OK" |
| RpcResponses.RpcResponse.Failed | EF.RPC.Sharing/src/main/java/com/wiqer/rpc/sharing/core/RpcResponse.java:82-89 | a generated id, the request id and exception as given, at 500 "Internal Server Error" |
| RpcResponses.RpcResponse.SetRequestId | EF.RPC.Sharing/src/main/java/com/wiqer/rpc/sharing/core/RpcResponse.java:105-107 | changes the request id only |
| RpcResponses.RpcResponse.SetResult | EF.RPC.Sharing/src/main/java/com/wiqer/rpc/sharing/core/RpcResponse.java:123-125 | changes the result only |
| RpcResponses.RpcResponse.SetException | EF.RPC.Sharing/src/main/java/com/wiqer/rpc/sharing/core/RpcResponse.java:141-147 | stores the exception; a non-null one forces 500 "Internal Server Error" and makes the response no success, a null one keeps the status |
| RpcResponses.RpcResponse.SetStatusCode | EF.RPC.Sharing/src/main/java/com/wiqer/rpc/sharing/core/RpcResponse.java:163-165 | changes the status code only |
| RpcResponses.RpcResponse.SetStatusMessage | EF.RPC.Sharing/src/main/java/com/wiqer/rpc/sharing/core/RpcResponse.java:181-183 | changes the status message only |
| RpcResponses.EqualsIsIdentity | EF.RPC.Sharing/src/main/java/com/wiqer/rpc/sharing/core/RpcResponse.java:278-290 | because the inherited `equals` is `Object`'s identity test, a response equals only itself |
| RpcResponses.SuccessResponse | EF.RPC.Sharing/src/main/java/com/wiqer/rpc/sharing/core/RpcResponse.java:228-230 | the request id and result kept, 200 "OK", a success |
| RpcResponses.FailureResponse | EF.RPC.Sharing/src/main/java/com/wiqer/rpc/sharing/core/RpcResponse.java:239-241 | the request id and exception kept, 500 "Internal Server Error", never a success |
| RpcResponses.TimeoutResponse | EF.RPC.Sharing/src/main/java/com/wiqer/rpc/sharing/core/RpcResponse.java:249-255 | 408 "Request Timeout", a timeout and neither a success nor unavailable |
| RpcResponses.ServiceUnavailableResponse | EF.RPC.Sharing/src/main/java/com/wiqer/rpc/sharing/core/RpcResponse.java:263-269 | 503 "Service Unavailable", unavailable and neither a success nor a timeout |
| RpcResponses.Builder.constructor | EF.RPC.Sharing/src/main/java/com/wiqer/rpc/sharing/core/RpcResponse.java:315-321 | every field null, status 200 "OK" |
| RpcResponses.Builder.MessageId | EF.RPC.Sharing/src/main/java/com/wiqer/rpc/sharing/core/RpcResponse.java:323-326 | records the id and returns the same builder; nothing else changes |
| RpcResponses.Builder.RequestId | EF.RPC.Sharing/src/main/java/com/wiqer/rpc/sharing/core/RpcResponse.java:328-331 | records the request id and returns the same builder; nothing else changes |
| RpcResponses.Builder.Result | EF.RPC.Sharing/src/main/java/com/wiqer/rpc/sharing/core/RpcResponse.java:333-336 | records the result and returns the same builder; nothing else changes |
| RpcResponses.Builder.Exception | EF.RPC.Sharing/src/main/java/com/wiqer/rpc/sharing/core/RpcResponse.java:338-345 | records the exception; a non-null one also sets 500 "Internal Server Error"; returns the same builder |
| RpcResponses.Builder.StatusCode | EF.RPC.Sharing/src/main/java/com/wiqer/rpc/sharing/core/RpcResponse.java:347-350 | records the code and returns the same builder; nothing else changes |
| RpcResponses.Builder.StatusMessage | EF.RPC.Sharing/src/main/java/com/wiqer/rpc/sharing/core/RpcResponse.java:352-355 | records the status message and returns the same builder; nothing else changes |
| RpcResponses.Builder.Build | EF.RPC.Sharing/src/main/java/com/wiqer/rpc/sharing/core/RpcResponse.java:357-364 | a fresh response holding every recorded field as it stands; it is a success exactly when no exception is recorded and the code is 2xx |
| RpcResponses.ResultOnlyBuilderSucceeds | EF.RPC.Sharing/src/main/java/com/wiqer/rpc/sharing/core/RpcResponse.java:328-364 | a builder given only a request id and a result yields a 200 success holding that result |
| RpcResponses.ExceptionBuilderFails | EF.RPC.Sharing/src/main/java/com/wiqer/rpc/sharing/core/RpcResponse.java:338-364 | a builder given an exception yields 500 "Internal Server Error", no success |
| RpcResponses.LastBuilderCallWins | EF.RPC.Sharing/src/main/java/com/wiqer/rpc/sharing/core/RpcResponse.java:338-350 | a code set after the exception replaces its 500, one set before is replaced by 500; with an exception it is no success either way |
| RpcResponses.SetExceptionCoupling | EF.RPC.Sharing/src/main/java/com/wiqer/rpc/sharing/core/RpcResponse.java:141-147 | clearing the exception of a timeout leaves it a timeout; setting one on a success turns it into a 500 failure |
| NetRpcResponses.NetRpcResponse.Default | external-dependencies/MQTT-RPC.NET/EF.RPC.Sharing/RpcResponse.cs:39-44 | a GUID id, tagged Response, no request id, result or exception, at 200 "OK" |
| NetRpcResponses.NetRpcResponse.WithIds | external-dependencies/MQTT-RPC.NET/EF.RPC.Sharing/RpcResponse.cs:51-57 | a null message id becomes a GUID; the request id as given; 200 "OK" |
| NetRpcResponses.NetRpcResponse.Succeeded | external-dependencies/MQTT-RPC.NET/EF.RPC.Sharing/RpcResponse.cs:64-72 | the request id and result as given, no exception, 200 "OK" |
| NetRpcResponses.NetRpcResponse.Failed | external-dependencies/MQTT-RPC.NET/EF.RPC.Sharing/RpcResponse.cs:79-87 | the request id and exception as given, 500 "Internal Server Error" |
| NetRpcResponses.NetRpcResponse.SetException | external-dependencies/MQTT-RPC.NET/EF.RPC.Sharing/RpcResponse.cs:24 | the auto-property setter stores the exception and leaves the status code and message as they were |
| NetRpcResponses.SuccessResponse | external-dependencies/MQTT-RPC.NET/EF.RPC.Sharing/RpcResponse.cs:131-134 | the request id and result kept, 200 "OK", a success |
| NetRpcResponses.FailureResponse | external-dependencies/MQTT-RPC.NET/EF.RPC.Sharing/RpcResponse.cs:142-145 | the request id and exception kept, 500 "Internal Server Error", never a success |
| NetRpcResponses.TimeoutResponse | external-dependencies/MQTT-RPC.NET/EF.RPC.Sharing/RpcResponse.cs:152-159 | 408 "Request Timeout", a timeout and neither a success nor unavailable |
| NetRpcResponses.ServiceUnavailableResponse | external-dependencies/MQTT-RPC.NET/EF.RPC.Sharing/RpcResponse.cs:166-173 | 503 "Service Unavailable", unavailable and neither a success nor a timeout |
| NetRpcResponses.Builder.constructor | external-dependencies/MQTT-RPC.NET/EF.RPC.Sharing/RpcResponse.cs:234-241 | every field null, status 200 "OK" |
| NetRpcResponses.Builder.SetMessageId | external-dependencies/MQTT-RPC.NET/EF.RPC.Sharing/RpcResponse.cs:243-247 | records the id and returns the same builder; nothing else changes |
| NetRpcResponses.Builder.SetRequestId | external-dependencies/MQTT-RPC.NET/EF.RPC.Sharing/RpcResponse.cs:249-253 | records the request id and returns the same builder; nothing else changes |
| NetRpcResponses.Builder.SetResult | external-dependencies/MQTT-RPC.NET/EF.RPC.Sharing/RpcResponse.cs:255-259 | records the result and returns the same builder; nothing else changes |
| NetRpcResponses.Builder.SetException | external-dependencies/MQTT-RPC.NET/EF.RPC.Sharing/RpcResponse.cs:261-270 | records the exception; a non-null one also sets 500 "Internal Server Error"; returns the same builder |
| NetRpcResponses.Builder.SetStatusCode | external-dependencies/MQTT-RPC.NET/EF.RPC.Sharing/RpcResponse.cs:272-276 | records the code and returns the same builder; nothing else changes |
| NetRpcResponses.Builder.SetStatusMessage | external-dependencies/MQTT-RPC.NET/EF.RPC.Sharing/RpcResponse.cs:278-282 | records the status message and returns the same builder; nothing else changes |
| NetRpcResponses.Builder.Build | external-dependencies/MQTT-RPC.NET/EF.RPC.Sharing/RpcResponse.cs:284-294 | a fresh response with the recorded fields, a missing id replaced by a GUID; a success exactly when no exception is recorded and the code is 2xx |
| NetRpcResponses.ExceptionPropertyKeepsStatus | external-dependencies/MQTT-RPC.NET/EF.RPC.Sharing/RpcResponse.cs:24 | setting the Exception property on a 200 response leaves 200 "OK" but the response is no longer a success |
| NetRpcResponses.LastBuilderCallWins | external-dependencies/MQTT-RPC.NET/EF.RPC.Sharing/RpcResponse.cs:261-294 | in the builder a code set after the exception replaces its 500 and one set before is replaced; with no id recorded the response takes the GUID |
| NetRpcResponses.EqualByValue | external-dependencies/MQTT-RPC.NET/EF.RPC.Sharing/RpcResponse.cs:189-205 | two separately built responses with the same id and contents are equal |
| EasyFastFormat.AlphabetSymbol | EF.RPC.Serialize/src/main/java/com/wiqer/rpc/serialize/utils/EasyFastFormat.java:4-8 | the 64-entry table holds 0-9, a-z, A-Z, '-' and '_' in that order |
| EasyFastFormat.SymbolValueInverts | EF.RPC.Serialize/src/main/java/com/wiqer/rpc/serialize/utils/EasyFastFormat.java:4-8 | reading a table entry back gives its index, so distinct digits render as distinct symbols |
| EasyFastFormat.Pow | EF.RPC.Serialize/src/main/java/com/wiqer/rpc/serialize/utils/EasyFastFormat.java:18-26 | a power of a positive base is positive |
| EasyFastFormat.Encode | EF.RPC.Serialize/src/main/java/com/wiqer/rpc/serialize/utils/EasyFastFormat.java:18-26 | exactly n symbols, however large the value |
| EasyFastFormat.EncodeSymbolsInBase | EF.RPC.Serialize/src/main/java/com/wiqer/rpc/serialize/utils/EasyFastFormat.java:18-26 | every symbol written is a digit below the base, since each is the table entry of a remainder |
| EasyFastFormat.EncodeDigitAt | EF.RPC.Serialize/src/main/java/com/wiqer/rpc/serialize/utils/EasyFastFormat.java:18-26 | the symbol at position n-1-k is the table entry of digit k of the value, i.e. `(val >>> bits*k) & mask` |
| EasyFastFormat.EncodeRoundTrip | EF.RPC.Serialize/src/main/java/com/wiqer/rpc/serialize/utils/EasyFastFormat.java:18-26 | decoding the n symbols gives the value modulo base^n: only the low n digits are kept |
| EasyFastFormat.EncodeRoundTripExact | EF.RPC.Serialize/src/main/java/com/wiqer/rpc/serialize/utils/EasyFastFormat.java:18-26 | a value below base^n is recovered exactly from its n symbols |
| EasyFastFormat.FillDigits | EF.RPC.Serialize/src/main/java/com/wiqer/rpc/serialize/utils/EasyFastFormat.java:19-23 | the do-while fills the whole buffer, last cell first, with the encoding of the value |
| EasyFastFormat.DigitsOf | EF.RPC.Serialize/src/main/java/com/wiqer/rpc/serialize/utils/EasyFastFormat.java:19-24 | a negative size fails at allocation, size 0 fails at `buf[-1]`, otherwise a fresh buffer holding the n-symbol encoding |
| EasyFastFormat.DigitsInt | EF.RPC.Serialize/src/main/java/com/wiqer/rpc/serialize/utils/EasyFastFormat.java:18-26 | n base-64 symbols of the unsigned 32-bit pattern, with the two failures for n <= 0 |
| EasyFastFormat.DigitsLong | EF.RPC.Serialize/src/main/java/com/wiqer/rpc/serialize/utils/EasyFastFormat.java:27-44 | n base-64 symbols of the unsigned 64-bit pattern; a null Long fails when unboxed, after allocation and before the first store |
| EasyFastFormat.Digits32Int | EF.RPC.Serialize/src/main/java/com/wiqer/rpc/serialize/utils/EasyFastFormat.java:58-66 | n base-32 symbols of the unsigned 32-bit pattern, with the two failures for n <= 0 |
| EasyFastFormat.Digits32Long | EF.RPC.Serialize/src/main/java/com/wiqer/rpc/serialize/utils/EasyFastFormat.java:67-75 | n base-32 symbols of the unsigned 64-bit pattern, with the null and size failures |
| EasyFastFormat.ZeroBreak | EF.RPC.Serialize/src/main/java/com/wiqer/rpc/serialize/utils/EasyFastFormat.java:51-53 | the break keeps the length of the text |
| EasyFastFormat.ZeroBreakShape | EF.RPC.Serialize/src/main/java/com/wiqer/rpc/serialize/utils/EasyFastFormat.java:51-53 | up to the last symbol other than '0' the text is unchanged and every later cell is NUL |
| EasyFastFormat.BreakTrailingZeros | EF.RPC.Serialize/src/main/java/com/wiqer/rpc/serialize/utils/EasyFastFormat.java:51-53 | as written, the loop fails exactly when the buffer is all '0' (it reads `buf[-1]`); otherwise the buffer becomes ZeroBreak of its old contents |
| EasyFastFormat.BreakTrailingZerosGuarded | EF.RPC.Serialize/src/main/java/com/wiqer/rpc/serialize/utils/EasyFastFormat.java:51-53 | with the bounds test first the loop always succeeds and leaves ZeroBreak of the old contents |
| EasyFastFormat.Digits64ZeroBreak | EF.RPC.Serialize/src/main/java/com/wiqer/rpc/serialize/utils/EasyFastFormat.java:45-57 | the base-64 encoding with its trailing '0' symbols made NUL; an all-'0' encoding ends in an index error |
| EasyFastFormat.Digits32ZeroBreak | EF.RPC.Serialize/src/main/java/com/wiqer/rpc/serialize/utils/EasyFastFormat.java:77-89 | the base-32 encoding with its trailing '0' symbols made NUL; an all-'0' encoding ends in an index error |
| EasyFastFormat.EncodeZero | EF.RPC.Serialize/src/main/java/com/wiqer/rpc/serialize/utils/EasyFastFormat.java:18-26 | the value 0 encodes as nothing but '0' symbols |
| EasyFastFormat.ZeroIdBreakFails | EF.RPC.Serialize/src/main/java/com/wiqer/rpc/serialize/utils/EasyFastFormat.java:45-57 | `digits64ZeroBreak(0L, 4)` ends in an index error |
| EasyFastFormat.Uint32 | EF.RPC.Serialize/src/main/java/com/wiqer/rpc/serialize/utils/EasyFastFormat.java:9-12 | the low 31 bits of the 64-bit value: never negative, equal to z mod 2^31 |
| EasyFastFormat.UintNBit | EF.RPC.Serialize/src/main/java/com/wiqer/rpc/serialize/utils/EasyFastFormat.java:14-17 | as written the mask is `1 << (n-1)`: the result is 0 or the int value of bit (n-1) mod 32, non-zero exactly when that bit of z is set |
| EasyFastFormat.UintNBitIntended | EF.RPC.Serialize/src/main/java/com/wiqer/rpc/serialize/utils/EasyFastFormat.java:13-17 | keeping the n low bits: the result is below 2^n and equals z when z already fits |
| EasyFastFormat.UintNBitKeepsOneBit | EF.RPC.Serialize/src/main/java/com/wiqer/rpc/serialize/utils/EasyFastFormat.java:14-17 | for z = 3, n = 2 the written mask yields 2 where keeping two bits yields 3 |
| LegacyRpcConfigs.ValidateIffAcceptable | EF.RPC.Impl/src/main/java/com/wiqer/rpc/impl/config/RpcConfig.java:92-117 | `validate` throws exactly when one of its eight numeric rules is broken, never with a null dereference, and its verdict does not depend on the serializer |
| LegacyRpcConfigs.StricterOnCountsLaxerOnSerializer | EF.RPC.Impl/src/main/java/com/wiqer/rpc/impl/config/RpcConfig.java:92-117 | with json or protobuf every config accepted here is accepted by the improved rules; zero core threads passes there only, an unknown serializer passes here only |
| LegacyRpcConfigs.RpcConfig.constructor | EF.RPC.Impl/src/main/java/com/wiqer/rpc/impl/config/RpcConfig.java:13-52 | every field starts at its declared default |
| LegacyRpcConfigs.RpcConfig.Set | EF.RPC.Impl/src/main/java/com/wiqer/rpc/impl/config/RpcConfig.java:9-10 | a generated setter changes its own field and no other |
| LegacyRpcConfigs.CreateDefault | EF.RPC.Impl/src/main/java/com/wiqer/rpc/impl/config/RpcConfig.java:57-59 | the defaults, which pass `validate` |
| LegacyRpcConfigs.CreateHighPerformance | EF.RPC.Impl/src/main/java/com/wiqer/rpc/impl/config/RpcConfig.java:64-74 | the defaults with 200/20 connections, 32/64 threads, queue 2000, protobuf and compression; it passes `validate` |
| LegacyRpcConfigs.CreateLowLatency | EF.RPC.Impl/src/main/java/com/wiqer/rpc/impl/config/RpcConfig.java:79-87 | the defaults with 5000 ms requests, 10000 ms connections and heartbeats, protobuf, no compression; it passes `validate` |
| LegacyRpcConfigs.FactorySettingsAccepted | EF.RPC.Impl/src/main/java/com/wiqer/rpc/impl/config/RpcConfig.java:57-117 | all three factory settings are accepted, and a negative minimum is reported before a zero request timeout |
| ImprovedRpcConfigs.ValidateIffAcceptable | EF.RPC.Impl/src/main/java/com/wiqer/rpc/impl/core/improved/RpcConfig.java:88-107 | `validate` throws exactly when a rule is broken; a null serializer throws NullPointerException only after every numeric rule passed; the connection bounds are checked first |
| ImprovedRpcConfigs.RpcConfig.constructor | EF.RPC.Impl/src/main/java/com/wiqer/rpc/impl/core/improved/RpcConfig.java:12-51 | every field starts at its declared default |
| ImprovedRpcConfigs.RpcConfig.Set | EF.RPC.Impl/src/main/java/com/wiqer/rpc/impl/core/improved/RpcConfig.java:110-300 | a setter changes its own field and no other |
| ImprovedRpcConfigs.CreateDefault | EF.RPC.Impl/src/main/java/com/wiqer/rpc/impl/core/improved/RpcConfig.java:56-58 | the defaults, which pass `validate` |
| ImprovedRpcConfigs.CreateHighPerformance | EF.RPC.Impl/src/main/java/com/wiqer/rpc/impl/core/improved/RpcConfig.java:63-71 | the defaults with 500 connections, 32/64 threads, compression and protobuf; it passes `validate` |
| ImprovedRpcConfigs.CreateHighAvailability | EF.RPC.Impl/src/main/java/com/wiqer/rpc/impl/core/improved/RpcConfig.java:76-83 | the defaults with five retries, health checks and metrics on and least-connections balancing; it passes `validate` |
| ImprovedRpcConfigs.FactorySettingsAccepted | EF.RPC.Impl/src/main/java/com/wiqer/rpc/impl/core/improved/RpcConfig.java:56-107 | the three factory settings are accepted, and the defaults with serializer "xml" are rejected with the serializer message |
| EnhancedBootstraps.DefaultConfiguration | EF.RPC.Impl/src/main/java/com/wiqer/rpc/impl/bootstrap/EnhancedRpcBootstrap.java:122-127 | version "v1", run mode "auto", 5000 ms, an empty scan package, cache and logging on |
| EnhancedBootstraps.MergeFieldByField | EF.RPC.Impl/src/main/java/com/wiqer/rpc/impl/bootstrap/EnhancedRpcBootstrap.java:150-157 | a null string or a non-positive timeout in the other configuration keeps the current value, anything else is taken, and both flags are always copied |
| EnhancedBootstraps.MergeLaws | EF.RPC.Impl/src/main/java/com/wiqer/rpc/impl/bootstrap/EnhancedRpcBootstrap.java:150-157 | merging twice is merging once; merging a then b is merging b-merged-into-a; merging a fresh configuration restores every default |
| EnhancedBootstraps.RpcConfiguration.constructor | EF.RPC.Impl/src/main/java/com/wiqer/rpc/impl/bootstrap/EnhancedRpcBootstrap.java:122-127 | the field initialisers |
| EnhancedBootstraps.RpcConfiguration.Set | EF.RPC.Impl/src/main/java/com/wiqer/rpc/impl/bootstrap/EnhancedRpcBootstrap.java:129-145 | a setter changes its own field and no other |
| EnhancedBootstraps.RpcConfiguration.Merge | EF.RPC.Impl/src/main/java/com/wiqer/rpc/impl/bootstrap/EnhancedRpcBootstrap.java:150-157 | the new value is the merge of the old value and the other configuration's, even when the other is this very object |
| EnhancedBootstraps.EnhancedRpcBootstrap.constructor | EF.RPC.Impl/src/main/java/com/wiqer/rpc/impl/bootstrap/EnhancedRpcBootstrap.java:18-22 | the shared container, a fresh empty proxy factory and a default configuration |
| EnhancedBootstraps.EnhancedRpcBootstrap.Configure | EF.RPC.Impl/src/main/java/com/wiqer/rpc/impl/bootstrap/EnhancedRpcBootstrap.java:27-31 | the held configuration absorbs the given one by merge and is never replaced |
| EnhancedBootstraps.EnhancedRpcBootstrap.Stop | EF.RPC.Impl/src/main/java/com/wiqer/rpc/impl/bootstrap/EnhancedRpcBootstrap.java:55-63 | every cache of the container and of the proxy factory is empty afterwards |
| EnhancedBootstraps.EnhancedRpcBootstrap.GetController | EF.RPC.Impl/src/main/java/com/wiqer/rpc/impl/bootstrap/EnhancedRpcBootstrap.java:69-71 | the first singleton assignable to the class if any; otherwise the bean named by the first definition of the class; otherwise nothing; only the definition path can add a singleton, and the definitions, method infos and dependencies are unchanged |
| EnhancedBootstraps.ConfigureTwice | EF.RPC.Impl/src/main/java/com/wiqer/rpc/impl/bootstrap/EnhancedRpcBootstrap.java:150-157 | a second configure that only names a scan package switches logging back on, because the flags are always copied, while the version survives |
| ImprovedBootstraps.StopCalls | EF.RPC.Impl/src/main/java/com/wiqer/rpc/impl/core/improved/ImprovedRpcBootstrap.java:115-126 | a shutdown makes at most one `stop` call per component walked |
| ImprovedBootstraps.StopCallsOnlyRunning | EF.RPC.Impl/src/main/java/com/wiqer/rpc/impl/core/improved/ImprovedRpcBootstrap.java:118-121 | a shutdown calls `stop` only on walked components that were running |
| ImprovedBootstraps.StopCallsDescending | EF.RPC.Impl/src/main/java/com/wiqer/rpc/impl/core/improved/ImprovedRpcBootstrap.java:115-117 | of any two `stop` calls of a shutdown, the later one's component name is not larger: reverse name order |
| ImprovedBootstraps.AfterStopAt | EF.RPC.Impl/src/main/java/com/wiqer/rpc/impl/core/improved/ImprovedRpcBootstrap.java:118-125 | after a shutdown a component is stopped exactly when it was walked, was running and its `stop` returned; a throwing `stop` is skipped |
| ImprovedBootstraps.ShutdownLeavesOnlyFailedStops | EF.RPC.Impl/src/main/java/com/wiqer/rpc/impl/core/improved/ImprovedRpcBootstrap.java:115-126 | after a shutdown over every component, exactly those running ones whose `stop` throws still run |
| ImprovedBootstraps.RunningUpToAt | EF.RPC.Impl/src/main/java/com/wiqer/rpc/impl/core/improved/ImprovedRpcBootstrap.java:84-86 | once a prefix of the components has started, exactly those in it run |
| ImprovedBootstraps.RunningUpToEvery | EF.RPC.Impl/src/main/java/com/wiqer/rpc/impl/core/improved/ImprovedRpcBootstrap.java:84-86 | once every component has started, all of them run |
| ImprovedBootstraps.StopEach | EF.RPC.Impl/src/main/java/com/wiqer/rpc/impl/core/improved/ImprovedRpcBootstrap.java:115-126 | the shutdown stream ends with the components as AfterStop describes and the `stop` calls StopCalls lists |
| ImprovedBootstraps.FirstInitFailure | EF.RPC.Impl/src/main/java/com/wiqer/rpc/impl/core/improved/ImprovedRpcBootstrap.java:73-81 | the position of the first component whose `initialize` throws, or the count when none does; nothing before it throws |
| ImprovedBootstraps.FirstStartFailure | EF.RPC.Impl/src/main/java/com/wiqer/rpc/impl/core/improved/ImprovedRpcBootstrap.java:84-92 | the position of the first component whose `start` throws, or the count when none does; nothing before it throws |
| ImprovedBootstraps.HealthyIffNoFailure | EF.RPC.Impl/src/main/java/com/wiqer/rpc/impl/core/improved/ImprovedRpcBootstrap.java:73-92 | every component initializes and starts exactly when neither loop meets a failure |
| ImprovedBootstraps.InitializeEach | EF.RPC.Impl/src/main/java/com/wiqer/rpc/impl/core/improved/ImprovedRpcBootstrap.java:73-81 | `initialize` is called on each component in turn, up to and including the first that throws |
| ImprovedBootstraps.StartEach | EF.RPC.Impl/src/main/java/com/wiqer/rpc/impl/core/improved/ImprovedRpcBootstrap.java:84-92 | `start` is called on each component in turn, up to and including the first that throws; those before it run |
| ImprovedBootstraps.Launch | EF.RPC.Impl/src/main/java/com/wiqer/rpc/impl/core/improved/ImprovedRpcBootstrap.java:71-100 | both loops and, on the first failure, the cleanup shutdown, with the outcome, components and calls LaunchResult gives |
| ImprovedBootstraps.LaunchSucceedsIffHealthy | EF.RPC.Impl/src/main/java/com/wiqer/rpc/impl/core/improved/ImprovedRpcBootstrap.java:71-100 | `start` returns normally exactly when no `initialize` or `start` throws; then every component runs and all were initialized before any started |
| ImprovedBootstraps.FailedLaunchCleansUp | EF.RPC.Impl/src/main/java/com/wiqer/rpc/impl/core/improved/ImprovedRpcBootstrap.java:96-99 | after a failed `start` only components whose `stop` throws still run, and the registered names and keys are kept |
| ImprovedBootstraps.ImprovedRpcBootstrap.constructor | EF.RPC.Impl/src/main/java/com/wiqer/rpc/impl/core/improved/ImprovedRpcBootstrap.java:24-26 | the default configuration, no components, neither started nor shut down |
| ImprovedBootstraps.ImprovedRpcBootstrap.Configure | EF.RPC.Impl/src/main/java/com/wiqer/rpc/impl/core/improved/ImprovedRpcBootstrap.java:31-42 | refused once started; otherwise the configuration is validated first and replaces the old one only when accepted |
| ImprovedBootstraps.ImprovedRpcBootstrap.RegisterComponent | EF.RPC.Impl/src/main/java/com/wiqer/rpc/impl/core/improved/ImprovedRpcBootstrap.java:47-55 | refused once started; otherwise inserts or replaces the name's entry |
| ImprovedBootstraps.ImprovedRpcBootstrap.Stop | EF.RPC.Impl/src/main/java/com/wiqer/rpc/impl/core/improved/ImprovedRpcBootstrap.java:108-131 | only the first call acts: it sets shutdown, stops running components in reverse name order and clears started; a later call changes nothing |
| ImprovedBootstraps.ImprovedRpcBootstrap.Start | EF.RPC.Impl/src/main/java/com/wiqer/rpc/impl/core/improved/ImprovedRpcBootstrap.java:60-103 | refused when started; sets started before the shutdown test, so a start after stop throws and leaves started set; otherwise Launch, ending shut down on failure |
| ImprovedBootstraps.ImprovedRpcBootstrap.GetComponent | EF.RPC.Impl/src/main/java/com/wiqer/rpc/impl/core/improved/ImprovedRpcBootstrap.java:137-148 | the component exactly when the name is registered and is of the type; otherwise the not-found or type-mismatch message |
| ImprovedBootstraps.ImprovedRpcBootstrap.GetStatus | EF.RPC.Impl/src/main/java/com/wiqer/rpc/impl/core/improved/ImprovedRpcBootstrap.java:188-202 | SHUTDOWN exactly when shut down; RUNNING when started and every component runs; ERROR when started and one does not; else STOPPED |
| ImprovedBootstraps.CreateDefault | EF.RPC.Impl/src/main/java/com/wiqer/rpc/impl/core/improved/ImprovedRpcBootstrap.java:217-219 | a fresh bootstrap with the default configuration |
| ImprovedBootstraps.CreateHighPerformance | EF.RPC.Impl/src/main/java/com/wiqer/rpc/impl/core/improved/ImprovedRpcBootstrap.java:224-228 | a fresh bootstrap holding the high-performance configuration |
| ImprovedBootstraps.CreateHighAvailability | EF.RPC.Impl/src/main/java/com/wiqer/rpc/impl/core/improved/ImprovedRpcBootstrap.java:233-237 | a fresh bootstrap holding the high-availability configuration |
| ImprovedBootstraps.StartAfterStop | EF.RPC.Impl/src/main/java/com/wiqer/rpc/impl/core/improved/ImprovedRpcBootstrap.java:60-67 | `stop` before `start`: the start throws "RPC framework is shutdown" yet leaves started set, so configure is refused too |
| ImprovedBootstraps.SecondStartRefused | EF.RPC.Impl/src/main/java/com/wiqer/rpc/impl/core/improved/ImprovedRpcBootstrap.java:61-63 | a second `start` throws "RPC framework already started" and the framework keeps running |
| ImprovedBootstraps.TwoComponentLaunch | EF.RPC.Impl/src/main/java/com/wiqer/rpc/impl/core/improved/ImprovedRpcBootstrap.java:71-93 | two healthy components are both initialized, then both started, and both run |
| ImprovedBootstraps.LifecycleCalls | EF.RPC.Impl/src/main/java/com/wiqer/rpc/impl/core/improved/ImprovedRpcBootstrap.java:60-131 | start then stop on "alpha" and "beta": two initializes, two starts, then "beta" stopped before "alpha"; a second stop adds no call |
| ImprovedBootstraps.TwoComponentStartFails | EF.RPC.Impl/src/main/java/com/wiqer/rpc/impl/core/improved/ImprovedRpcBootstrap.java:84-99 | when "beta"'s start throws, "alpha", already started, is stopped again and the components end as registered |
| ImprovedBootstraps.FailedStartCleansUp | EF.RPC.Impl/src/main/java/com/wiqer/rpc/impl/core/improved/ImprovedRpcBootstrap.java:84-99 | a failing start ends with "Failed to start RPC framework", the framework shut down and the started component stopped |
| ImprovedBootstraps.ConfigureAndLookup | EF.RPC.Impl/src/main/java/com/wiqer/rpc/impl/core/improved/ImprovedRpcBootstrap.java:31-148 | a rejected configuration leaves the defaults; a lookup of an unknown name or a wrong type reports it |
| IocContainers.FirstAssignableSound | EF.RPC.Impl/src/main/java/com/wiqer/rpc/impl/ioc/IOCContainer.java:89-96 | the type walk finds a bean exactly when the cache holds one assignable to the type, and what it finds is such a cached bean |
| IocContainers.FindAssignable | EF.RPC.Impl/src/main/java/com/wiqer/rpc/impl/ioc/IOCContainer.java:90-94 | the loop over `values()` returns the first bean, in walk order, assignable to the type |
| IocContainers.IOCContainer.constructor | EF.RPC.Impl/src/main/java/com/wiqer/rpc/impl/ioc/IOCContainer.java:22-30 | three empty caches |
| IocContainers.IOCContainer.RegisterBean | EF.RPC.Impl/src/main/java/com/wiqer/rpc/impl/ioc/IOCContainer.java:46-49 | inserts or overwrites one bean; nothing else changes |
| IocContainers.IOCContainer.RegisterBeanDefinition | EF.RPC.Impl/src/main/java/com/wiqer/rpc/impl/ioc/IOCContainer.java:54-57 | inserts or overwrites one definition; nothing else changes |
| IocContainers.IOCContainer.GetBean | EF.RPC.Impl/src/main/java/com/wiqer/rpc/impl/ioc/IOCContainer.java:62-83 | a cached bean as it is; else a fresh instance of the definition's class, cached under the name; a class that cannot be built throws "创建Bean失败: " + name and caches nothing; else null |
| IocContainers.IOCContainer.GetBeanByType | EF.RPC.Impl/src/main/java/com/wiqer/rpc/impl/ioc/IOCContainer.java:89-96 | the first cached bean of the type, or null exactly when no cached bean is of it; definitions are not consulted |
| IocContainers.IOCContainer.ContainsBean | EF.RPC.Impl/src/main/java/com/wiqer/rpc/impl/ioc/IOCContainer.java:101-103 | true exactly when the name has a bean or a definition |
| IocContainers.IOCContainer.GetBeanNames | EF.RPC.Impl/src/main/java/com/wiqer/rpc/impl/ioc/IOCContainer.java:108-113 | exactly the names with a bean or a definition |
| IocContainers.IOCContainer.GetBeanDefinition | EF.RPC.Impl/src/main/java/com/wiqer/rpc/impl/ioc/IOCContainer.java:118-120 | the stored definition, or null when there is none |
| IocContainers.IOCContainer.ClearCache | EF.RPC.Impl/src/main/java/com/wiqer/rpc/impl/ioc/IOCContainer.java:125-130 | all three caches emptied |
| IocContainers.DefinitionInstantiatedOnce | EF.RPC.Impl/src/main/java/com/wiqer/rpc/impl/ioc/IOCContainer.java:62-96 | a second `getBean` returns the very object the first created, and the type lookup then finds it |
| IocContainers.TypeLookupIgnoresDefinitions | EF.RPC.Impl/src/main/java/com/wiqer/rpc/impl/ioc/IOCContainer.java:89-103 | a defined bean is contained yet invisible to the type lookup until instantiated; an unknown name gives null |
| EnhancedIocContainers.SingletonDefinition | EF.RPC.Impl/src/main/java/com/wiqer/rpc/impl/ioc/EnhancedIOCContainer.java:244-246 | the three-argument definition is a singleton with the given name, class and version |
| EnhancedIocContainers.FirstDefinitionSound | EF.RPC.Impl/src/main/java/com/wiqer/rpc/impl/ioc/EnhancedIOCContainer.java:106-111 | the definition walk finds one exactly when some definition's class is of the type, and what it finds is such a definition |
| EnhancedIocContainers.FindDefinition | EF.RPC.Impl/src/main/java/com/wiqer/rpc/impl/ioc/EnhancedIOCContainer.java:106-111 | the loop over the definitions returns the first, in walk order, whose class is of the type |
| EnhancedIocContainers.EnhancedIOCContainer.constructor | EF.RPC.Impl/src/main/java/com/wiqer/rpc/impl/ioc/EnhancedIOCContainer.java:20-33 | four empty caches |
| EnhancedIocContainers.EnhancedIOCContainer.RegisterSingleton | EF.RPC.Impl/src/main/java/com/wiqer/rpc/impl/ioc/EnhancedIOCContainer.java:49-52 | inserts or overwrites one singleton; nothing else changes |
| EnhancedIocContainers.EnhancedIOCContainer.RegisterBeanDefinition | EF.RPC.Impl/src/main/java/com/wiqer/rpc/impl/ioc/EnhancedIOCContainer.java:57-60 | inserts or overwrites one definition; nothing else changes |
| EnhancedIocContainers.EnhancedIOCContainer.GetBean | EF.RPC.Impl/src/main/java/com/wiqer/rpc/impl/ioc/EnhancedIOCContainer.java:65-93 | a singleton as it is; else a fresh instance of the definition's class, kept only for a singleton definition; a class that cannot be built throws; else null |
| EnhancedIocContainers.EnhancedIOCContainer.GetBeanByType | EF.RPC.Impl/src/main/java/com/wiqer/rpc/impl/ioc/EnhancedIOCContainer.java:99-114 | the first singleton of the type; else `getBean` on the name recorded inside the first definition of the type; else null |
| EnhancedIocContainers.EnhancedIOCContainer.ContainsBean | EF.RPC.Impl/src/main/java/com/wiqer/rpc/impl/ioc/EnhancedIOCContainer.java:140-142 | true exactly when the name has a singleton or a definition |
| EnhancedIocContainers.EnhancedIOCContainer.GetBeanNames | EF.RPC.Impl/src/main/java/com/wiqer/rpc/impl/ioc/EnhancedIOCContainer.java:147-152 | exactly the names with a singleton or a definition |
| EnhancedIocContainers.EnhancedIOCContainer.GetBeanDefinition | EF.RPC.Impl/src/main/java/com/wiqer/rpc/impl/ioc/EnhancedIOCContainer.java:157-159 | the stored definition, or null when there is none |
| EnhancedIocContainers.EnhancedIOCContainer.CacheMethodInfo | EF.RPC.Impl/src/main/java/com/wiqer/rpc/impl/ioc/EnhancedIOCContainer.java:164-167 | inserts or overwrites one method-info entry; nothing else changes |
| EnhancedIocContainers.EnhancedIOCContainer.GetMethodInfo | EF.RPC.Impl/src/main/java/com/wiqer/rpc/impl/ioc/EnhancedIOCContainer.java:172-174 | the stored entry, or null |
| EnhancedIocContainers.EnhancedIOCContainer.ClearCache | EF.RPC.Impl/src/main/java/com/wiqer/rpc/impl/ioc/EnhancedIOCContainer.java:179-185 | all four caches emptied |
| EnhancedIocContainers.EnhancedIOCContainer.GetCacheStats | EF.RPC.Impl/src/main/java/com/wiqer/rpc/impl/ioc/EnhancedIOCContainer.java:190-197 | the sizes of the four caches |
| EnhancedIocContainers.PrototypeYieldsFreshBeans | EF.RPC.Impl/src/main/java/com/wiqer/rpc/impl/ioc/EnhancedIOCContainer.java:65-93 | a prototype definition yields a different object on each `getBean` and none is kept |
| EnhancedIocContainers.TypeLookupInstantiates | EF.RPC.Impl/src/main/java/com/wiqer/rpc/impl/ioc/EnhancedIOCContainer.java:99-114 | the type lookup instantiates a singleton definition and keeps it, so a second lookup returns the same object |
| EnhancedIocContainers.DefinitionNameMismatch | EF.RPC.Impl/src/main/java/com/wiqer/rpc/impl/ioc/EnhancedIOCContainer.java:106-111 | a definition registered under a key other than its own bean name is found by type, yet the lookup by that name gives null |
| EnhancedIocContainers.ClearedStats | EF.RPC.Impl/src/main/java/com/wiqer/rpc/impl/ioc/EnhancedIOCContainer.java:179-197 | after `clearCache` every count is zero |
| EnhancedIocContainers.MethodInfoRoundTrip | EF.RPC.Impl/src/main/java/com/wiqer/rpc/impl/ioc/EnhancedIOCContainer.java:164-174 | a cached method info is read back, and the next entry under its key overwrites it |
| DynamicProxyFactories.ProxyObject.constructor | EF.RPC.Impl/src/main/java/com/wiqer/rpc/impl/proxy/DynamicProxyFactory.java:39-43 | the new proxy remembers its interface and its handler |
| DynamicProxyFactories.Invoke | EF.RPC.Impl/src/main/java/com/wiqer/rpc/impl/proxy/DynamicProxyFactory.java:97-106 | the handler's answer to a MethodInfo carrying the proxy's interface and version and the call's method and argument array |
| DynamicProxyFactories.InvocationKeyIsMethodKey | EF.RPC.Impl/src/main/java/com/wiqer/rpc/impl/proxy/DynamicProxyFactory.java:108-110 | the key `invoke` computes equals the MethodInfo's `getMethodKey`, and under one interface and version it tells methods apart by name only |
| DynamicProxyFactories.DynamicProxyFactory.constructor | EF.RPC.Impl/src/main/java/com/wiqer/rpc/impl/proxy/DynamicProxyFactory.java:21-24 | both caches empty |
| DynamicProxyFactories.DynamicProxyFactory.CreateProxy | EF.RPC.Impl/src/main/java/com/wiqer/rpc/impl/proxy/DynamicProxyFactory.java:30-49 | a hit returns the cached proxy whatever handler is passed now; a miss makes a fresh proxy over this handler and caches it |
| DynamicProxyFactories.DynamicProxyFactory.CreateRpcProxy | EF.RPC.Impl/src/main/java/com/wiqer/rpc/impl/proxy/DynamicProxyFactory.java:54-56 | `createProxy` with a new RPC invocation handler for the interface and version |
| DynamicProxyFactories.DynamicProxyFactory.GetMethodInfo | EF.RPC.Impl/src/main/java/com/wiqer/rpc/impl/proxy/DynamicProxyFactory.java:61-63 | the cached entry, or null |
| DynamicProxyFactories.DynamicProxyFactory.CacheMethodInfo | EF.RPC.Impl/src/main/java/com/wiqer/rpc/impl/proxy/DynamicProxyFactory.java:68-70 | inserts or overwrites one entry; the proxies are untouched |
| DynamicProxyFactories.DynamicProxyFactory.ClearCache | EF.RPC.Impl/src/main/java/com/wiqer/rpc/impl/proxy/DynamicProxyFactory.java:75-79 | both caches emptied |
| DynamicProxyFactories.FirstHandlerWins | EF.RPC.Impl/src/main/java/com/wiqer/rpc/impl/proxy/DynamicProxyFactory.java:30-79 | a second `createProxy` returns the first proxy, still bound to the first handler; after `clearCache` a new proxy is made |
| DynamicProxyFactories.MethodInfoCached | EF.RPC.Impl/src/main/java/com/wiqer/rpc/impl/proxy/DynamicProxyFactory.java:61-79 | a cached method info is read back unchanged, and `clearCache` drops it |
| EnhancedProxyFactories.EnhancedDynamicProxyFactory.constructor | EF.RPC.Impl/src/main/java/com/wiqer/rpc/impl/proxy/EnhancedDynamicProxyFactory.java:21-27 | three empty caches |
| EnhancedProxyFactories.EnhancedDynamicProxyFactory.CreateProxy | EF.RPC.Impl/src/main/java/com/wiqer/rpc/impl/proxy/EnhancedDynamicProxyFactory.java:33-54 | a hit returns the cached proxy and changes no cache; a miss makes a fresh proxy over the handler and caches proxy and handler; proxies and handlers stay cached for the same interfaces, each handler that of its proxy |
| EnhancedProxyFactories.EnhancedDynamicProxyFactory.CreateRpcProxy | EF.RPC.Impl/src/main/java/com/wiqer/rpc/impl/proxy/EnhancedDynamicProxyFactory.java:59-61 | `createProxy` with the given handler; the version is not used |
| EnhancedProxyFactories.EnhancedDynamicProxyFactory.GetMethodInfo | EF.RPC.Impl/src/main/java/com/wiqer/rpc/impl/proxy/EnhancedDynamicProxyFactory.java:66-68 | the cached entry, or null |
| EnhancedProxyFactories.EnhancedDynamicProxyFactory.CacheMethodInfo | EF.RPC.Impl/src/main/java/com/wiqer/rpc/impl/proxy/EnhancedDynamicProxyFactory.java:73-76 | inserts or overwrites one entry; proxies and handlers untouched |
| EnhancedProxyFactories.EnhancedDynamicProxyFactory.GetHandler | EF.RPC.Impl/src/main/java/com/wiqer/rpc/impl/proxy/EnhancedDynamicProxyFactory.java:81-83 | the cached handler, which is the one the interface's cached proxy was made with, or null |
| EnhancedProxyFactories.EnhancedDynamicProxyFactory.ClearCache | EF.RPC.Impl/src/main/java/com/wiqer/rpc/impl/proxy/EnhancedDynamicProxyFactory.java:88-93 | all three caches emptied |
| EnhancedProxyFactories.EnhancedDynamicProxyFactory.ClearInterface | EF.RPC.Impl/src/main/java/com/wiqer/rpc/impl/proxy/EnhancedDynamicProxyFactory.java:98-102 | that interface's proxy and handler removed; every method info kept |
| EnhancedProxyFactories.EnhancedDynamicProxyFactory.GetCacheStats | EF.RPC.Impl/src/main/java/com/wiqer/rpc/impl/proxy/EnhancedDynamicProxyFactory.java:107-113 | the three cache sizes, with exactly as many handlers as proxies |
| EnhancedProxyFactories.HandlersWithinProxies | EF.RPC.Impl/src/main/java/com/wiqer/rpc/impl/proxy/EnhancedDynamicProxyFactory.java:50-51 | a handler cache keyed only by interfaces with proxies is no larger than the proxy cache |
| EnhancedProxyFactories.DropOneInterface | EF.RPC.Impl/src/main/java/com/wiqer/rpc/impl/proxy/EnhancedDynamicProxyFactory.java:98-113 | dropping one of two interfaces leaves one proxy, one handler (the other's) and the method info |
| EnhancedProxyFactories.RecreateAfterDrop | EF.RPC.Impl/src/main/java/com/wiqer/rpc/impl/proxy/EnhancedDynamicProxyFactory.java:33-102 | after an interface is dropped the next request makes a new proxy over the new handler |
| EnhancedProxyFactories.HitKeepsHandler | EF.RPC.Impl/src/main/java/com/wiqer/rpc/impl/proxy/EnhancedDynamicProxyFactory.java:35-38 | a cache hit ignores the new handler; the first one stays cached |
| MetricsCollectors.LeastIsMinimum | EF.RPC.Impl/src/main/java/com/wiqer/rpc/impl/core/improved/MetricsCollector.java:196-200 | the running minimum is no larger than its start or any sample, and is one of them |
| MetricsCollectors.GreatestIsMaximum | EF.RPC.Impl/src/main/java/com/wiqer/rpc/impl/core/improved/MetricsCollector.java:202-206 | the running maximum is no smaller than its start or any sample, and is one of them |
| MetricsCollectors.KeysCollide | EF.RPC.Impl/src/main/java/com/wiqer/rpc/impl/core/improved/MetricsCollector.java:50 | dot-joined keys collide: service "a.b" with method "c" shares its key with service "a" and method "b.c", and with the error key of ("a", "b", "c") |
| MetricsCollectors.ResponseTimeStats.constructor | EF.RPC.Impl/src/main/java/com/wiqer/rpc/impl/core/improved/MetricsCollector.java:186-190 | no samples, minimum Long.MAX_VALUE, no timeouts |
| MetricsCollectors.ResponseTimeStats.RecordResponse | EF.RPC.Impl/src/main/java/com/wiqer/rpc/impl/core/improved/MetricsCollector.java:192-207 | one more sample: count, total, minimum and maximum stay those of the samples recorded; the timeouts are untouched |
| MetricsCollectors.ResponseTimeStats.RecordTimeout | EF.RPC.Impl/src/main/java/com/wiqer/rpc/impl/core/improved/MetricsCollector.java:209-211 | one more timeout; the samples are untouched |
| MetricsCollectors.ReportedExtremes | EF.RPC.Impl/src/main/java/com/wiqer/rpc/impl/core/improved/MetricsCollector.java:215-216 | `getMinTime` and `getMaxTime` report 0 before any sample; then the least sample (below Long.MAX_VALUE) and the greatest sample, or 0 while every sample is negative |
| MetricsCollectors.MetricsCollector.constructor | EF.RPC.Impl/src/main/java/com/wiqer/rpc/impl/core/improved/MetricsCollector.java:17-43 | every counter zero, both maps empty, the reset time taken |
| MetricsCollectors.MetricsCollector.RecordRequest | EF.RPC.Impl/src/main/java/com/wiqer/rpc/impl/core/improved/MetricsCollector.java:48-56 | total requests and the per-second count up by one, and a fresh empty statistics object for a key seen for the first time; the counter invariant is kept |
| MetricsCollectors.MetricsCollector.RecordResponse | EF.RPC.Impl/src/main/java/com/wiqer/rpc/impl/core/improved/MetricsCollector.java:61-76 | the key's statistics take the sample only if the key was requested before; success or failure is counted either way; no other statistics object changes |
| MetricsCollectors.MetricsCollector.RecordTimeout | EF.RPC.Impl/src/main/java/com/wiqer/rpc/impl/core/improved/MetricsCollector.java:81-92 | a timeout and a failure counted, and the key's timeout count if the key is known; every timeout stays counted as a failure |
| MetricsCollectors.MetricsCollector.RecordError | EF.RPC.Impl/src/main/java/com/wiqer/rpc/impl/core/improved/MetricsCollector.java:97-103 | the error key's counter up by one (created at 1) and the failure count up by one |
| MetricsCollectors.MetricsCollector.RecordConnectionCreated | EF.RPC.Impl/src/main/java/com/wiqer/rpc/impl/core/improved/MetricsCollector.java:108-111 | total and active connections up by one |
| MetricsCollectors.MetricsCollector.RecordConnectionClosed | EF.RPC.Impl/src/main/java/com/wiqer/rpc/impl/core/improved/MetricsCollector.java:113-115 | active connections down by one, with no floor at zero |
| MetricsCollectors.MetricsCollector.RecordConnectionError | EF.RPC.Impl/src/main/java/com/wiqer/rpc/impl/core/improved/MetricsCollector.java:117-119 | connection errors up by one |
| MetricsCollectors.MetricsCollector.RecordSerialization | EF.RPC.Impl/src/main/java/com/wiqer/rpc/impl/core/improved/MetricsCollector.java:124-130 | the serialization count on success, the serialization errors otherwise |
| MetricsCollectors.MetricsCollector.RecordDeserialization | EF.RPC.Impl/src/main/java/com/wiqer/rpc/impl/core/improved/MetricsCollector.java:132-138 | the deserialization count on success, the deserialization errors otherwise |
| MetricsCollectors.MetricsCollector.Reset | EF.RPC.Impl/src/main/java/com/wiqer/rpc/impl/core/improved/MetricsCollector.java:169-180 | as written: request, timeout and per-second counters zero, both maps empty, the reset time taken, but the failure count goes up by one |
| MetricsCollectors.MetricsCollector.ResetIntended | EF.RPC.Impl/src/main/java/com/wiqer/rpc/impl/core/improved/MetricsCollector.java:169-180 | every request counter zero and both maps empty, as on a new collector; connection and serialization counters kept |
| MetricsCollectors.ResetKeepsFailures | EF.RPC.Impl/src/main/java/com/wiqer/rpc/impl/core/improved/MetricsCollector.java:169-180 | one failed call, then reset: as written the collector reports two failures and no requests; the intended reset reports none |
| MetricsCollectors.SampleStatistics | EF.RPC.Impl/src/main/java/com/wiqer/rpc/impl/core/improved/MetricsCollector.java:192-217 | responses of 30 and 10 ms and a timeout: count 2, total 40, minimum 10, maximum 30, one timeout |
| MetricsCollectors.ResponseWithoutRequest | EF.RPC.Impl/src/main/java/com/wiqer/rpc/impl/core/improved/MetricsCollector.java:48-92 | a response for a method never requested is counted as a success but leaves no statistics; a timeout of the requested method reaches its statistics |
| MetricsCollectors.ClosingUnopened | EF.RPC.Impl/src/main/java/com/wiqer/rpc/impl/core/improved/MetricsCollector.java:113-115 | closing a connection never opened drives the active count to -1 |
| RpcMonitors.RecordMovesOneCount | EF.RPC.Impl/src/main/java/com/wiqer/rpc/impl/monitor/RpcMonitor.java:305-312 | each `record*` call on an entry moves exactly its own counter by one; only a success adds a time |
| RpcMonitors.RecordEventSummarises | EF.RPC.Impl/src/main/java/com/wiqer/rpc/impl/monitor/RpcMonitor.java:296-324 | a new entry sums up no events, and recording an event into an entry that sums up a tally gives an entry that sums up the tally with that event |
| RpcMonitors.StatsExtremes | EF.RPC.Impl/src/main/java/com/wiqer/rpc/impl/monitor/RpcMonitor.java:296-324 | before any success an entry reports Long.MAX_VALUE and 0; after one, its minimum is one of the recorded times, no larger than its maximum, and every time lies between the two |
| RpcMonitors.MethodKeysCollide | EF.RPC.Impl/src/main/java/com/wiqer/rpc/impl/monitor/RpcMonitor.java:50 | the "service.method" key makes ("a.b", "c") and ("a", "b.c") share one entry, and a null service shares "null.add" with the service "null" |
| RpcMonitors.Tallied | EF.RPC.Impl/src/main/java/com/wiqer/rpc/impl/monitor/RpcMonitor.java:52-53 | computeIfAbsent then record: the key is present afterwards, its entry took the event (starting from a new entry if it was absent), and every other entry is unchanged |
| RpcMonitors.TalliedSummarises | EF.RPC.Impl/src/main/java/com/wiqer/rpc/impl/monitor/RpcMonitor.java:52-53 | recording into a map whose entries all sum up their tallies keeps every entry consistent with its tally |
| RpcMonitors.RpcMonitor.constructor | EF.RPC.Impl/src/main/java/com/wiqer/rpc/impl/monitor/RpcMonitor.java:32-41 | every counter is 0, the global minimum Long.MAX_VALUE and maximum 0, both maps empty |
| RpcMonitors.RpcMonitor.Note | EF.RPC.Impl/src/main/java/com/wiqer/rpc/impl/monitor/RpcMonitor.java:46-96 | the global figure takes the event first; a null service name then throws before either map changes, otherwise the service entry and the "service.method" entry take it |
| RpcMonitors.RpcMonitor.CountGlobally | EF.RPC.Impl/src/main/java/com/wiqer/rpc/impl/monitor/RpcMonitor.java:46-96 | the event's global counter moves by one and a success also updates the global time figures; neither map changes |
| RpcMonitors.RpcMonitor.RecordRequestStart | EF.RPC.Impl/src/main/java/com/wiqer/rpc/impl/monitor/RpcMonitor.java:46-54 | one more request globally, for the service and for the method; a null service name throws after the global count |
| RpcMonitors.RpcMonitor.RecordRequestSuccess | EF.RPC.Impl/src/main/java/com/wiqer/rpc/impl/monitor/RpcMonitor.java:59-70 | one more response and its time globally, for the service and for the method, keeping every summary consistent |
| RpcMonitors.RpcMonitor.RecordRequestError | EF.RPC.Impl/src/main/java/com/wiqer/rpc/impl/monitor/RpcMonitor.java:75-83 | one more error globally, for the service and for the method; the error text is not kept |
| RpcMonitors.RpcMonitor.RecordRequestTimeout | EF.RPC.Impl/src/main/java/com/wiqer/rpc/impl/monitor/RpcMonitor.java:88-96 | one more timeout globally, for the service and for the method |
| RpcMonitors.RpcMonitor.UpdateResponseTimeStats | EF.RPC.Impl/src/main/java/com/wiqer/rpc/impl/monitor/RpcMonitor.java:101-115 | the total becomes the sum of all recorded times, the minimum the least of Long.MAX_VALUE and them, the maximum the greatest of 0 and them; the counters are untouched |
| RpcMonitors.RpcMonitor.GetOverallStats | EF.RPC.Impl/src/main/java/com/wiqer/rpc/impl/monitor/RpcMonitor.java:120-136 | the counters and extremes as recorded; with no response the extremes are Long.MAX_VALUE and 0, otherwise the minimum is at most the maximum |
| RpcMonitors.RpcMonitor.GlobalExtremes | EF.RPC.Impl/src/main/java/com/wiqer/rpc/impl/monitor/RpcMonitor.java:101-115 | the global minimum and maximum bound every recorded time, and are Long.MAX_VALUE and 0 before any |
| RpcMonitors.RpcMonitor.GetServiceStats | EF.RPC.Impl/src/main/java/com/wiqer/rpc/impl/monitor/RpcMonitor.java:141-143 | the service's entry, nothing for a name never recorded, and a NullPointerException for a null name |
| RpcMonitors.RpcMonitor.GetMethodStats | EF.RPC.Impl/src/main/java/com/wiqer/rpc/impl/monitor/RpcMonitor.java:148-150 | the entry under "service.method", nothing for a pair never recorded |
| RpcMonitors.TwoSuccesses | EF.RPC.Impl/src/main/java/com/wiqer/rpc/impl/monitor/RpcMonitor.java:59-70 | successes of 30 ms and 10 ms give the service and the method entry 2 responses, total 40, minimum 10, maximum 30, and the same global extremes |
| RpcMonitors.ExtremesBeforeSuccess | EF.RPC.Impl/src/main/java/com/wiqer/rpc/impl/monitor/RpcMonitor.java:75-83 | after only an error the entry and the monitor still report Long.MAX_VALUE and 0 as extremes |
| RpcMonitors.NullServiceName | EF.RPC.Impl/src/main/java/com/wiqer/rpc/impl/monitor/RpcMonitor.java:46-54 | a null service name counts one request globally, throws, and leaves no "null.add" method entry |
| JavaText.NatToString | EF.RPC.Impl/src/main/java/com/wiqer/rpc/impl/core/improved/RpcException.java:90 | the decimal text of a natural is non-empty, all digits, and a single digit exactly for values below 10 |
| JavaText.NatToStringRoundTrip | EF.RPC.Impl/src/main/java/com/wiqer/rpc/impl/core/improved/RpcException.java:90 | reading the digits back gives the number |
| JavaText.NatToStringInjective | EF.RPC.Impl/src/main/java/com/wiqer/rpc/impl/core/improved/RpcException.java:90 | distinct naturals render as distinct texts |
| JavaText.IntToStringSign | EF.RPC.Impl/src/main/java/com/wiqer/rpc/impl/core/improved/RpcException.java:120 | the text of an integer starts with '-' exactly when it is negative |
| JavaText.IntToStringInjective | EF.RPC.Impl/src/main/java/com/wiqer/rpc/impl/core/improved/RpcException.java:120 | distinct integers render as distinct texts, so a rendered timestamp or timeout identifies the number |
| JavaText.JavaRem | EF.RPC.Impl/src/main/java/com/wiqer/rpc/impl/proxy/ObjectProxy.java:47 | Java's remainder is smaller in magnitude than the divisor and takes the dividend's sign (never positive for a negative dividend) |
| JavaText.JavaQuotRem | EF.RPC.Impl/src/main/java/com/wiqer/rpc/impl/proxy/ObjectProxy.java:47 | Java's truncating quotient times the divisor plus the remainder gives the dividend back |
| JavaText.ToInt32 | EF.RPC.Impl/src/main/java/com/wiqer/rpc/impl/proxy/ObjectProxy.java:47 | Java int arithmetic: the result is a 32-bit value congruent to the input modulo 2^32, and a value already in range is kept |
| JavaText.StringHash | EF.RPC.Impl/src/main/java/com/wiqer/rpc/impl/proxy/ObjectProxy.java:47 | String.hashCode is always a 32-bit int |
| CoreRpcExceptions.FromMessage | EF.RPC.Impl/src/main/java/com/wiqer/rpc/impl/core/RpcException.java:13-25 | the one- and two-argument constructors take the code RPC_ERROR, keep message and cause, and name no service or method |
| CoreRpcExceptions.Coded | EF.RPC.Impl/src/main/java/com/wiqer/rpc/impl/core/RpcException.java:27-32 | a coded exception keeps code, message and cause and names no service or method |
| CoreRpcExceptions.Named | EF.RPC.Impl/src/main/java/com/wiqer/rpc/impl/core/RpcException.java:34-39 | the only constructor that keeps service and method names; it takes no cause |
| CoreRpcExceptions.ConstructorsAgree | EF.RPC.Impl/src/main/java/com/wiqer/rpc/impl/core/RpcException.java:13-46 | without a code the constructors are the coded one with RPC_ERROR; naming no service and no method is the same as the coded constructor, naming one is not |
| CoreRpcExceptions.ToStringFrames | EF.RPC.Impl/src/main/java/com/wiqer/rpc/impl/core/RpcException.java:61-74 | toString always opens with the code clause and closes with the message clause |
| CoreRpcExceptions.ToStringShowsSetNames | EF.RPC.Impl/src/main/java/com/wiqer/rpc/impl/core/RpcException.java:61-74 | each name that is set adds exactly its clause to toString, and with none set it is just code and message |
| CoreRpcExceptions.ErrorCodesDistinct | EF.RPC.Impl/src/main/java/com/wiqer/rpc/impl/core/RpcException.java:79-86 | the six named codes and RPC_ERROR are seven distinct texts |
| ImprovedRpcExceptions.FromMessage | EF.RPC.Impl/src/main/java/com/wiqer/rpc/impl/core/improved/RpcException.java:14-28 | without a code the exception takes RPC_GENERAL_ERROR, keeps message, cause and creation time, and names nothing |
| ImprovedRpcExceptions.Coded | EF.RPC.Impl/src/main/java/com/wiqer/rpc/impl/core/improved/RpcException.java:30-52 | code, message, cause and time as given; no names |
| ImprovedRpcExceptions.Named | EF.RPC.Impl/src/main/java/com/wiqer/rpc/impl/core/improved/RpcException.java:38-60 | every argument kept, with the creation time |
| ImprovedRpcExceptions.Timeout | EF.RPC.Impl/src/main/java/com/wiqer/rpc/impl/core/improved/RpcException.java:117-124 | the timeout code, the call's service and method, and "RPC call timeout after {timeout}ms" as the message; no cause, stamped with the current time |
| ImprovedRpcExceptions.ServiceNotFound | EF.RPC.Impl/src/main/java/com/wiqer/rpc/impl/core/improved/RpcException.java:129-136 | the service-not-found code naming the service only, with "Service '{name}' not found"; no cause, stamped with the current time |
| ImprovedRpcExceptions.MethodNotFound | EF.RPC.Impl/src/main/java/com/wiqer/rpc/impl/core/improved/RpcException.java:141-148 | the method-not-found code naming both, with the method first in the message; no cause, stamped with the current time |
| ImprovedRpcExceptions.InvocationError | EF.RPC.Impl/src/main/java/com/wiqer/rpc/impl/core/improved/RpcException.java:167-175 | the invocation code naming both and keeping the cause |
| ImprovedRpcExceptions.FromFactory | EF.RPC.Impl/src/main/java/com/wiqer/rpc/impl/core/improved/RpcException.java:153-189 | the serialization, network, connection and config factories keep the message under their own code and name nothing; configError drops the cause |
| ImprovedRpcExceptions.FactoryCodesDistinguish | EF.RPC.Impl/src/main/java/com/wiqer/rpc/impl/core/improved/RpcException.java:98-112 | the thirteen codes are distinct, so the code tells the factories apart and none yields the general code |
| ImprovedRpcExceptions.MessagesIdentify | EF.RPC.Impl/src/main/java/com/wiqer/rpc/impl/core/improved/RpcException.java:117-136 | the timeout message determines the timeout and the service-not-found message the rendered service name |
| ImprovedRpcExceptions.ToStringAddsTimestamp | EF.RPC.Impl/src/main/java/com/wiqer/rpc/impl/core/improved/RpcException.java:79-93 | the improved toString is the core one with ", timestamp=…" inserted before the closing brace |
| SharingRpcExceptions.Full | EF.RPC.Sharing/src/main/java/com/wiqer/rpc/sharing/core/RpcException.java:80-105 | the full constructors keep every argument and read the clock once |
| SharingRpcExceptions.FromMessage | EF.RPC.Sharing/src/main/java/com/wiqer/rpc/sharing/core/RpcException.java:27-39 | without a code the exception takes RpcErrorCodes.RPC_ERROR and the type "UNKNOWN", with no request fields |
| SharingRpcExceptions.Typed | EF.RPC.Sharing/src/main/java/com/wiqer/rpc/sharing/core/RpcException.java:48-68 | code and type as given; request id, service and method are null |
| SharingRpcExceptions.WithRequestId | EF.RPC.Sharing/src/main/java/com/wiqer/rpc/sharing/core/RpcException.java:167-169 | a new exception with the request id replaced and a fresh timestamp; every other field kept |
| SharingRpcExceptions.WithServiceInfo | EF.RPC.Sharing/src/main/java/com/wiqer/rpc/sharing/core/RpcException.java:178-180 | a new exception with service and method replaced and a fresh timestamp; every other field kept |
| SharingRpcExceptions.WithersCompose | EF.RPC.Sharing/src/main/java/com/wiqer/rpc/sharing/core/RpcException.java:167-180 | the later of two calls to the same wither wins, the two withers commute, and each is exactly a field update |
| SharingRpcExceptions.ToStringSplits | EF.RPC.Sharing/src/main/java/com/wiqer/rpc/sharing/core/RpcException.java:183-187 | after withServiceInfo, toString agrees with the original's rendering at the new time up to the request clause, which alone shows the new names |
| SharingRpcExceptions.RequestClauseUnset | EF.RPC.Sharing/src/main/java/com/wiqer/rpc/sharing/core/RpcException.java:183-187 | an exception built without request fields renders all three as "null" |
| SharingRpcExceptions.ToStringConflatesNull | EF.RPC.Sharing/src/main/java/com/wiqer/rpc/sharing/core/RpcException.java:183-187 | a null request id and the text "null" render identically though the exceptions differ |

## Left out

- Transports, blocking and threads:
  - The MQTT, RabbitMQ, Netty and WebSocket transports are not part of this model. Their correlation logic is the synchronizer managers.
  - Blocking waits are left out: the latch await, `lock.wait` and the sleeping poll. The model has their outcome as flags and results, with the current time and thread passed as parameters.
  - `CoreSyncManager.UnsafeSynchronizer.Acquire`: the result is the outcome of one check at the given time. When a parked waiter next checks is not modelled: `lock.wait(timeoutMs)` wakes it about `timeoutMs` later or on `notifyAll`, and `wait(0)` parks it without a bound.
  - Concurrent interleavings are left out. Each compare-and-set retry loop is modelled as the single update it makes when uncontended.
- Serialization, reflection and invocation:
  - Serializers, `Method.invoke`, `ServiceUtil.makeServiceKey` and `RpcErrorCodes.RPC_ERROR` are uninterpreted parameters or abstract references, because their code is not part of this model.
  - `ServerHandlers.Handle`: `Method.invoke` is a parameter that returns a value or throws. Its own arity check is modelled. Which arguments it refuses for type mismatch, such as a null decoded for a primitive parameter, is left to that parameter, because the serializer is uninterpreted.
  - Reflection is reduced to the names it yields: class and simple names, parameter types, return types.
- Counters and statistics:
  - Counters and `long` fields are unbounded integers. `LongAdder`/`AtomicLong` overflow is not modelled.
  - `String.hashCode` and the queue-name `% 100` do wrap and truncate as Java does.
  - Floating-point figures are left out: averages, rates, percentages and the health check thresholds. This covers `RpcMonitor.performHealthCheck`, the monitoring scheduler and logging.
  - `MetricsCollector.getSnapshot` is left out. Beyond the counters, which the model keeps as fields, it computes floating-point rates over a clock duration.
  - `RpcMonitor` and `MetricsCollector` statistics entries are modelled as values kept in maps, not as shared mutable objects. Aliasing of an entry returned by `getServiceStats` with later updates is therefore not captured.
- Lifecycle and wiring:
  - `getInstance` singletons, connection pools and executors are left out.
  - Of `EnhancedRpcBootstrap`, `start`, the `initialize*` steps and `scanAndRegisterServices` (Spring and scanning wiring) are left out. `configure`, `stop`, `getController` and `RpcConfiguration.merge` are modelled.
  - `ImprovedRpcBootstrap.withShutdownHook` is left out (JVM hooks).
  - `EnhancedIOCContainer`'s `dependencyCache` is never filled by the source, so only its clearing is modelled.
  - `newInstance` in both IOC containers is modelled as producing either a fresh object or a creation failure, as the class's `instantiable` flag says. Constructor side effects and which reflective exception is thrown are not modelled.
- Messages and exceptions:
  - Plain getters are not listed as members. `MethodInfo.reqFullName` is a Lombok field that neither constructor sets. The model keeps it as a field, null after both constructors, and leaves out its plain setter.
  - `toString`, `hashCode` and `GetHashCode` of the messages, requests and responses are left out. The `GetType()` test of the .NET `Equals` is carried by the parameter's type: a message compares only with messages of its own model class.
  - The package-private duplicates of `RpcRequest` and `RpcResponse` inside `RpcMessage.java` are left out in favour of the public classes.
  - The .NET `RpcException` is left out; it duplicates the Java exceptions.
  - `RpcMessages.RpcMessage.Default`: one clock reading serves both the generated id and the timestamp. The code reads the clock twice, so the two may differ by the time between the reads.
  - `SharingRpcExceptions.WithRequestId` and `WithServiceInfo` read the clock again, as the code does through the full constructor. They therefore do not preserve the timestamp.
  - `ObjectProxies.ObjectProxy.InvokeIntended`: the reply the wait would return is a parameter. `BaseMsgFun.setMsg` and `release`, which as written store nothing and never find the latch, are not part of this model.
  - `JavaText.StringHash`: hashes one character, a Unicode scalar value, per step. A character outside the Basic Multilingual Plane, which Java hashes as two UTF-16 surrogates, is not modelled.
  - `NetRpcMessages.NetRpcMessage.AddMetadata` and `RemoveMetadata`: keys are non-null strings, so the .NET `ArgumentNullException` for a null key is not modelled.
  - `BaseMsgFun`'s other members, id generation (`EFNETID`, `BaseMsg`), scanners, demo services and interfaces are not part of this model.
- `SyncManager.ShortTimeoutDoesNotExpire`: the synchronizer tests expect a 100 ms expiry. The code compares against a fixed 30 000 ms window, and the model follows the code, so a request created with a 100 ms bound has not expired 200 ms later.

## Findings

| source | as written | input that shows it | evidently intended | confidence | as-written member | corrected member |
|---|---|---|---|---|---|---|
| EF.RPC.Serialize/src/main/java/com/wiqer/rpc/serialize/utils/EasyFastFormat.java:14-17 | `z & 1L << n - 1` parses as `z & (1L << (n - 1))`, keeping one bit | z = 3, n = 2 gives 2 | keep the low n bits, `z & ((1L << n) - 1)`, giving 3 | not executed | EasyFastFormat.UintNBitKeepsOneBit | EasyFastFormat.UintNBitIntended |
| EF.RPC.Serialize/src/main/java/com/wiqer/rpc/serialize/utils/EasyFastFormat.java:51-53 | the loop tests `buf[i]=='0'` before `i>=0`, so an all-'0' buffer reads `buf[-1]` | `digits64ZeroBreak(0L, 4)` | test the index first and stop at the start of the buffer | not executed | EasyFastFormat.ZeroIdBreakFails | EasyFastFormat.BreakTrailingZerosGuarded |
| EF.RPC.Impl/src/main/java/com/wiqer/rpc/impl/core/improved/MetricsCollector.java:169-180 | `reset` calls `failedRequests.increment()` where every other counter is reset | one failed call, then `reset()`, reports 2 failures | `failedRequests.reset()` | not executed | MetricsCollectors.ResetKeepsFailures | MetricsCollectors.MetricsCollector.ResetIntended |
| EF.RPC.Impl/src/main/java/com/wiqer/rpc/impl/core/BaseMsgFun.java:27-30 | `acquire` calls `uscd.put(id, latch).await(...)`; `uscd` is never created for the entries `ObjectProxy` registers, and `put` returns the previous latch, which is null for a new id | any call of a registered method not returning `Void.class`, e.g. `echo("hi")` | store the latch, wait on it, and return the stored reply decoded as the return type | not executed | ObjectProxies.RegisteredCallThrows | ObjectProxies.RegisteredCallIsAnswered |

=== FILE: bootstrap_improved.dfy ===
/**
 * `ImprovedRpcBootstrap`: the lifecycle of the improved core. It holds a
 * configuration and named components, and moves through two one-way flags:
 * `started` (set by `start`, cleared by `stop`) and `shutdown` (set once by
 * `stop`, never cleared).
 *
 * `RpcComponent` is an interface whose implementations are not part of this
 * model. A component is a record: its name, the types it is an instance of,
 * whether it runs, and whether its `initialize`, `start` or `stop` throws.
 * A `start` that returns marks it running; a `stop` that returns marks it
 * stopped. The calls the bootstrap makes are kept in `calls`, in order.
 * The map's iteration order and the sorted stop order are parameters.
 */
module ImprovedBootstraps {
  import opened Wrappers
  import opened ConfigSettings
  import ImprovedRpcConfigs
  import opened MapWalks

  datatype Component = Component(componentName: string, className: string, kinds: set<string>, running: bool,
                                 initFails: bool, startFails: bool, stopFails: bool)

  datatype Call = InitializeCall(key: string) | StartCall(key: string) | StopCall(key: string)

  datatype FrameworkStatus = STOPPED | RUNNING | ERROR | SHUTDOWN

  /** How a lifecycle call ends: normally, or with the exception it throws. */
  datatype Outcome =
    | Done
    | IllegalState(message: string)
    | Runtime(message: string)
    | Rejected(rejection: Rejection)    // thrown by the configuration's `validate`

  /** `a.compareTo(b) <= 0` on Java strings: lexicographic, a proper prefix first. */
  predicate NameAtMost(a: string, b: string)
    decreases |a|
  {
    |a| == 0 || (|b| > 0 && (a[0] < b[0] || (a[0] == b[0] && NameAtMost(a[1..], b[1..]))))
  }

  /** Keys of the map, sorted by component name, largest first. */
  predicate Descending(comps: map<string, Component>, order: seq<string>)
  {
    (forall i :: 0 <= i < |order| ==> order[i] in comps)
    && forall i, j :: 0 <= i < j < |order| ==> NameAtMost(comps[order[j]].componentName, comps[order[i]].componentName)
  }

  /** The stream `stop` walks: every component once, sorted by name in reverse. */
  predicate StopOrderFor(comps: map<string, Component>, order: seq<string>)
  {
    IterationOrder(comps, order) && Descending(comps, order)
  }

  predicate SameNames(a: map<string, Component>, b: map<string, Component>)
  {
    a.Keys == b.Keys && forall k :: k in a ==> a[k].componentName == b[k].componentName
  }

  lemma StopOrderKept(a: map<string, Component>, b: map<string, Component>, order: seq<string>)
    requires StopOrderFor(a, order) && SameNames(a, b)
    ensures StopOrderFor(b, order)
  {
    assert forall k :: k in b <==> k in a;
  }

  /** The `stop` calls a shutdown makes: the running components, in the given order. */
  function StopCalls(comps: map<string, Component>, order: seq<string>): (r: seq<Call>)
    ensures |r| <= |order|
  {
    if |order| == 0 then []
    else
      var k := order[|order| - 1];
      StopCalls(comps, order[..|order| - 1]) + (if k in comps && comps[k].running then [StopCall(k)] else [])
  }

  /** A shutdown calls `stop` only on components it walked that were running. */
  lemma {:induction false} StopCallsOnlyRunning(comps: map<string, Component>, order: seq<string>)
    ensures forall c :: c in StopCalls(comps, order) ==>
              c.StopCall? && c.key in order && c.key in comps && comps[c.key].running
  {
    if |order| > 0 {
      var prefix := order[..|order| - 1];
      StopCallsOnlyRunning(comps, prefix);
      assert forall k :: k in prefix ==> k in order;
    }
  }

  /** The components after a shutdown walked `order`: each running one whose `stop` returns is stopped. */
  function AfterStop(comps: map<string, Component>, order: seq<string>): map<string, Component>
  {
    if |order| == 0 then comps
    else
      var m := AfterStop(comps, order[..|order| - 1]);
      var k := order[|order| - 1];
      if k in comps && comps[k].running && !comps[k].stopFails then m[k := comps[k].(running := false)] else m
  }

  /** The `initialize` calls of a walk over `order`, one per key. */
  function InitCalls(order: seq<string>): seq<Call>
  {
    if |order| == 0 then [] else InitCalls(order[..|order| - 1]) + [InitializeCall(order[|order| - 1])]
  }

  /** The `start` calls of a walk over `order`, one per key. */
  function StartCalls(order: seq<string>): seq<Call>
  {
    if |order| == 0 then [] else StartCalls(order[..|order| - 1]) + [StartCall(order[|order| - 1])]
  }

  predicate AllHealthy(comps: map<string, Component>)
  {
    forall k :: k in comps ==> !comps[k].initFails && !comps[k].startFails
  }

  function AllRunning(comps: map<string, Component>): map<string, Component>
  {
    map k | k in comps :: comps[k].(running := true)
  }

  /**
   * A shutdown stops only running components, and it stops them in
   * descending name order: of any two `stop` calls, the later one's
   * component name is not larger.
   */
  lemma {:induction false} StopCallsDescending(comps: map<string, Component>, order: seq<string>)
    requires Descending(comps, order)
    ensures StopsDescending(comps, StopCalls(comps, order))
  {
    if |order| > 0 {
      var n := |order| - 1;
      var prefix := order[..n];
      StopCallsDescending(comps, prefix);
      StopCallsOnlyRunning(comps, prefix);
      var k := order[n];
      var calls := StopCalls(comps, order);
      var pre := StopCalls(comps, prefix);
      assert calls == pre + (if comps[k].running then [StopCall(k)] else []);
      forall i, j | 0 <= i < j < |calls|
        ensures NameAtMost(comps[calls[j].key].componentName, comps[calls[i].key].componentName)
      {
        assert calls[i] == pre[i];
        if j < |pre| {
          assert calls[j] == pre[j];
          assert NameAtMost(comps[pre[j].key].componentName, comps[pre[i].key].componentName);
        } else {
          assert calls[j] == StopCall(k);
          assert pre[i] in pre;
          var p :| 0 <= p < n && prefix[p] == pre[i].key;
          assert order[p] == calls[i].key;
          assert NameAtMost(comps[order[n]].componentName, comps[order[p]].componentName);
        }
      }
    }
  }

  /** Calls on registered components, by component name in reverse. */
  predicate StopsDescending(comps: map<string, Component>, calls: seq<Call>)
  {
    (forall i :: 0 <= i < |calls| ==> calls[i].key in comps)
    && forall i, j :: 0 <= i < j < |calls| ==>
         NameAtMost(comps[calls[j].key].componentName, comps[calls[i].key].componentName)
  }

  /** After a shutdown, a component is stopped exactly when it was walked, was running and its `stop` returned. */
  lemma {:induction false} AfterStopAt(comps: map<string, Component>, order: seq<string>, x: string)
    requires x in comps
    ensures x in AfterStop(comps, order)
    ensures AfterStop(comps, order)[x]
            == if x in order && comps[x].running && !comps[x].stopFails then comps[x].(running := false) else comps[x]
  {
    if |order| > 0 {
      var prefix := order[..|order| - 1];
      AfterStopAt(comps, prefix, x);
      assert x in order <==> x in prefix || x == order[|order| - 1];
    }
  }

  lemma {:induction false} AfterStopKeys(comps: map<string, Component>, order: seq<string>)
    ensures AfterStop(comps, order).Keys == comps.Keys
  {
    if |order| > 0 {
      AfterStopKeys(comps, order[..|order| - 1]);
    }
  }

  /** After a shutdown over every component, exactly those whose `stop` throws can still be running. */
  lemma ShutdownLeavesOnlyFailedStops(comps: map<string, Component>, order: seq<string>)
    requires IterationOrder(comps, order)
    ensures AfterStop(comps, order).Keys == comps.Keys
    ensures forall k :: k in comps ==>
              (AfterStop(comps, order)[k].running <==> comps[k].running && comps[k].stopFails)
  {
    AfterStopKeys(comps, order);
    forall k | k in comps
      ensures AfterStop(comps, order)[k].running <==> comps[k].running && comps[k].stopFails
    {
      AfterStopAt(comps, order, k);
    }
  }

  lemma AfterStopKeepsNames(comps: map<string, Component>, order: seq<string>)
    ensures SameNames(comps, AfterStop(comps, order))
  {
    AfterStopKeys(comps, order);
    forall x | x in comps
      ensures AfterStop(comps, order)[x].componentName == comps[x].componentName
    {
      AfterStopAt(comps, order, x);
    }
  }

  lemma StopStep(comps: map<string, Component>, order: seq<string>, k: string)
    requires k in comps
    ensures StopCalls(comps, order + [k]) == StopCalls(comps, order) + (if comps[k].running then [StopCall(k)] else [])
    ensures AfterStop(comps, order + [k])
            == if comps[k].running && !comps[k].stopFails then AfterStop(comps, order)[k := comps[k].(running := false)]
               else AfterStop(comps, order)
  {
    assert (order + [k])[..|order|] == order;
  }

  /** The shutdown stream's `i`-th step, in terms of the prefix already walked. */
  lemma StopLoopStep(comps: map<string, Component>, order: seq<string>, i: nat)
    requires IterationOrder(comps, order) && i < |order|
    ensures order[i] in comps && order[i] in AfterStop(comps, order[..i])
    ensures AfterStop(comps, order[..i])[order[i]] == comps[order[i]]
    ensures var k := order[i];
      StopCalls(comps, order[..i + 1]) == StopCalls(comps, order[..i]) + (if comps[k].running then [StopCall(k)] else [])
    ensures var k := order[i];
      AfterStop(comps, order[..i + 1])
      == if comps[k].running && !comps[k].stopFails then AfterStop(comps, order[..i])[k := comps[k].(running := false)]
         else AfterStop(comps, order[..i])
  {
    var k := order[i];
    var walked := order[..i];
    assert order[..i + 1] == walked + [k];
    assert k !in walked;
    AfterStopAt(comps, walked, k);
    StopStep(comps, walked, k);
  }

  /** The components once the keys in `keys` have started. */
  function RunningUpTo(comps: map<string, Component>, keys: seq<string>): map<string, Component>
  {
    if |keys| == 0 then comps
    else
      var m := RunningUpTo(comps, keys[..|keys| - 1]);
      var k := keys[|keys| - 1];
      if k in comps then m[k := comps[k].(running := true)] else m
  }

  lemma {:induction false} RunningUpToAt(comps: map<string, Component>, keys: seq<string>, x: string)
    requires x in comps
    ensures x in RunningUpTo(comps, keys)
    ensures RunningUpTo(comps, keys)[x] == if x in keys then comps[x].(running := true) else comps[x]
  {
    if |keys| > 0 {
      var prefix := keys[..|keys| - 1];
      RunningUpToAt(comps, prefix, x);
      assert x in keys <==> x in prefix || x == keys[|keys| - 1];
    }
  }

  lemma {:induction false} RunningUpToKeys(comps: map<string, Component>, keys: seq<string>)
    ensures RunningUpTo(comps, keys).Keys == comps.Keys
  {
    if |keys| > 0 {
      RunningUpToKeys(comps, keys[..|keys| - 1]);
    }
  }

  lemma RunningUpToKeepsNames(comps: map<string, Component>, keys: seq<string>)
    ensures SameNames(comps, RunningUpTo(comps, keys))
  {
    RunningUpToKeys(comps, keys);
    forall x | x in comps
      ensures RunningUpTo(comps, keys)[x].componentName == comps[x].componentName
    {
      RunningUpToAt(comps, keys, x);
    }
  }

  lemma RunningUpToEvery(comps: map<string, Component>, keys: seq<string>)
    requires forall k :: k in comps ==> k in keys
    ensures RunningUpTo(comps, keys) == AllRunning(comps)
  {
    RunningUpToKeys(comps, keys);
    forall x | x in comps
      ensures RunningUpTo(comps, keys)[x] == AllRunning(comps)[x]
    {
      RunningUpToAt(comps, keys, x);
    }
  }

  lemma StartStep(comps: map<string, Component>, keys: seq<string>, k: string)
    requires k in comps
    ensures RunningUpTo(comps, keys + [k]) == RunningUpTo(comps, keys)[k := comps[k].(running := true)]
    ensures StartCalls(keys + [k]) == StartCalls(keys) + [StartCall(k)]
    ensures InitCalls(keys + [k]) == InitCalls(keys) + [InitializeCall(k)]
  {
    assert (keys + [k])[..|keys|] == keys;
  }

  /** The start stream's `i`-th step, in terms of the prefix already walked. */
  lemma StartLoopStep(comps: map<string, Component>, order: seq<string>, i: nat)
    requires IterationOrder(comps, order) && i < |order|
    ensures order[i] in comps && order[i] in RunningUpTo(comps, order[..i])
    ensures RunningUpTo(comps, order[..i])[order[i]] == comps[order[i]]
    ensures StartCalls(order[..i + 1]) == StartCalls(order[..i]) + [StartCall(order[i])]
    ensures RunningUpTo(comps, order[..i + 1])
            == RunningUpTo(comps, order[..i])[order[i] := comps[order[i]].(running := true)]
  {
    var k := order[i];
    var walked := order[..i];
    assert order[..i + 1] == walked + [k];
    assert k !in walked;
    RunningUpToAt(comps, walked, k);
    RunningUpToKeys(comps, walked);
    StartStep(comps, walked, k);
  }

  /** The `stop` stream of a shutdown, walked over the components in the given order. */
  method StopEach(comps: map<string, Component>, order: seq<string>)
    returns (after: map<string, Component>, stops: seq<Call>)
    requires IterationOrder(comps, order)
    ensures after == AfterStop(comps, order) && stops == StopCalls(comps, order)
  {
    after, stops := comps, [];
    var i := 0;
    assert order[..0] == [];
    while i < |order|
      invariant 0 <= i <= |order|
      invariant after == AfterStop(comps, order[..i]) && stops == StopCalls(comps, order[..i])
    {
      var key := order[i];
      StopLoopStep(comps, order, i);
      var c := after[key];
      if c.running {
        stops := stops + [StopCall(key)];
        if !c.stopFails {
          after := after[key := c.(running := false)];
        }
      }
      i := i + 1;
    }
    assert order[..i] == order;
  }

  /** Where the `initialize` loop stops: the first component whose `initialize` throws, or `|order|`. */
  function FirstInitFailure(comps: map<string, Component>, order: seq<string>): (n: nat)
    ensures n <= |order|
    ensures forall j :: 0 <= j < n ==> !(order[j] in comps && comps[order[j]].initFails)
    ensures n < |order| ==> order[n] in comps && comps[order[n]].initFails
  {
    if |order| == 0 then 0
    else if order[0] in comps && comps[order[0]].initFails then 0
    else 1 + FirstInitFailure(comps, order[1..])
  }

  /** Where the `start` loop stops: the first component whose `start` throws, or `|order|`. */
  function FirstStartFailure(comps: map<string, Component>, order: seq<string>): (n: nat)
    ensures n <= |order|
    ensures forall j :: 0 <= j < n ==> !(order[j] in comps && comps[order[j]].startFails)
    ensures n < |order| ==> order[n] in comps && comps[order[n]].startFails
  {
    if |order| == 0 then 0
    else if order[0] in comps && comps[order[0]].startFails then 0
    else 1 + FirstStartFailure(comps, order[1..])
  }

  /** The first-failure position is the one position before which nothing fails and at which something does. */
  lemma FirstFailuresAre(comps: map<string, Component>, order: seq<string>, n: nat, init: bool)
    requires n <= |order|
    requires init ==> (forall j :: 0 <= j < n ==> !(order[j] in comps && comps[order[j]].initFails))
                      && (n < |order| ==> order[n] in comps && comps[order[n]].initFails)
    requires !init ==> (forall j :: 0 <= j < n ==> !(order[j] in comps && comps[order[j]].startFails))
                       && (n < |order| ==> order[n] in comps && comps[order[n]].startFails)
    ensures init ==> FirstInitFailure(comps, order) == n
    ensures !init ==> FirstStartFailure(comps, order) == n
  {
  }

  /** Every component initializes and starts exactly when neither loop meets a failure. */
  lemma HealthyIffNoFailure(comps: map<string, Component>, order: seq<string>)
    requires IterationOrder(comps, order)
    ensures AllHealthy(comps) <==> FirstInitFailure(comps, order) == |order| && FirstStartFailure(comps, order) == |order|
  {
    var n, m := FirstInitFailure(comps, order), FirstStartFailure(comps, order);
    if n == |order| && m == |order| {
      forall k | k in comps ensures !comps[k].initFails && !comps[k].startFails
      {
        var i :| 0 <= i < |order| && order[i] == k;
      }
    }
  }

  /**
   * The first loop of `start`: `initialize` on each component in turn,
   * up to and including the first one that throws, at position `n`
   * (`n == |order|` when none throws).
   */
  method InitializeEach(comps: map<string, Component>, order: seq<string>) returns (log: seq<Call>, n: nat)
    requires IterationOrder(comps, order)
    ensures n == FirstInitFailure(comps, order)
    ensures n < |order| ==> log == InitCalls(order[..n + 1])
    ensures n == |order| ==> log == InitCalls(order)
  {
    log := [];
    n := 0;
    assert order[..0] == [];
    while n < |order|
      invariant 0 <= n <= |order|
      invariant log == InitCalls(order[..n])
      invariant forall j :: 0 <= j < n ==> !comps[order[j]].initFails
    {
      var key := order[n];
      assert order[..n + 1] == order[..n] + [key];
      StartStep(comps, order[..n], key);
      log := log + [InitializeCall(key)];
      if comps[key].initFails {
        FirstFailuresAre(comps, order, n, true);
        return;
      }
      n := n + 1;
    }
    assert order[..n] == order;
    FirstFailuresAre(comps, order, n, true);
  }

  /**
   * The second loop of `start`: `start` on each component in turn, up to
   * and including the first one that throws, at position `n`; those before
   * it are left running.
   */
  method StartEach(comps: map<string, Component>, order: seq<string>)
    returns (after: map<string, Component>, log: seq<Call>, n: nat)
    requires IterationOrder(comps, order)
    ensures n == FirstStartFailure(comps, order)
    ensures n < |order| ==> log == StartCalls(order[..n + 1]) && after == RunningUpTo(comps, order[..n])
    ensures n == |order| ==> after == RunningUpTo(comps, order) && log == StartCalls(order)
    ensures SameNames(comps, after)
  {
    after, log := comps, [];
    n := 0;
    assert order[..0] == [];
    while n < |order|
      invariant 0 <= n <= |order|
      invariant after == RunningUpTo(comps, order[..n]) && log == StartCalls(order[..n])
      invariant forall j :: 0 <= j < n ==> !comps[order[j]].startFails
    {
      var key := order[n];
      StartLoopStep(comps, order, n);
      log := log + [StartCall(key)];
      if comps[key].startFails {
        FirstFailuresAre(comps, order, n, false);
        RunningUpToKeepsNames(comps, order[..n]);
        return;
      }
      after := after[key := after[key].(running := true)];
      n := n + 1;
    }
    assert order[..n] == order;
    FirstFailuresAre(comps, order, n, false);
    RunningUpToKeepsNames(comps, order);
  }

  /** What the body of `start` does once both flags have been checked: whether it returns normally, the components after it, and its calls. */
  datatype Launched = Launched(ok: bool, after: map<string, Component>, log: seq<Call>)

  /**
   * Both loops of `start`, and on the first failure the cleanup `stop` walk:
   * an `initialize` that throws stops the components as they were; a
   * `start` that throws stops them with those before it running.
   */
  function LaunchResult(comps: map<string, Component>, order: seq<string>, stopOrder: seq<string>): Launched
  {
    var n := FirstInitFailure(comps, order);
    if n < |order| then
      Launched(false, AfterStop(comps, stopOrder), InitCalls(order[..n + 1]) + StopCalls(comps, stopOrder))
    else
      var m := FirstStartFailure(comps, order);
      var partial := RunningUpTo(comps, order[..m]);
      if m < |order| then
        Launched(false, AfterStop(partial, stopOrder),
                 InitCalls(order) + StartCalls(order[..m + 1]) + StopCalls(partial, stopOrder))
      else Launched(true, RunningUpTo(comps, order), InitCalls(order) + StartCalls(order))
  }

  /** The components once the first `m` have started can be walked in the stop order. */
  lemma StartedPrefixWalk(comps: map<string, Component>, order: seq<string>, m: nat, stopOrder: seq<string>)
    requires IterationOrder(comps, stopOrder) && m <= |order|
    ensures IterationOrder(RunningUpTo(comps, order[..m]), stopOrder)
  {
    RunningUpToKeys(comps, order[..m]);
  }

  /** The body of `start` after the flag checks, as `LaunchResult` describes it. */
  method Launch(comps: map<string, Component>, order: seq<string>, stopOrder: seq<string>)
    returns (ok: bool, after: map<string, Component>, log: seq<Call>)
    requires IterationOrder(comps, order) && IterationOrder(comps, stopOrder)
    ensures Launched(ok, after, log) == LaunchResult(comps, order, stopOrder)
  {
    var inits, initialized := InitializeEach(comps, order);
    if initialized < |order| {
      var stopped, stops := StopEach(comps, stopOrder);
      ok, after, log := false, stopped, inits + stops;
      assert Launched(ok, after, log) == LaunchResult(comps, order, stopOrder);
      return;
    }
    ok, after, log := StartOrRollBack(comps, order, stopOrder, inits);
  }

  /** The second half of `Launch`, once every `initialize` has returned: the start loop and, if it fails, the cleanup. */
  method StartOrRollBack(comps: map<string, Component>, order: seq<string>, stopOrder: seq<string>, inits: seq<Call>)
    returns (ok: bool, after: map<string, Component>, log: seq<Call>)
    requires IterationOrder(comps, order) && IterationOrder(comps, stopOrder)
    requires FirstInitFailure(comps, order) == |order| && inits == InitCalls(order)
    ensures Launched(ok, after, log) == LaunchResult(comps, order, stopOrder)
  {
    var running, starts, startedCount := StartEach(comps, order);
    if startedCount < |order| {
      StartedPrefixWalk(comps, order, startedCount, stopOrder);
      var stopped, stops := StopEach(running, stopOrder);
      ok, after, log := false, stopped, inits + starts + stops;
    } else {
      ok, after, log := true, running, inits + starts;
    }
  }

  /**
   * `start` returns normally exactly when no component's `initialize` or
   * `start` throws; then every component runs, and every component was
   * initialized before any was started.
   */
  lemma LaunchSucceedsIffHealthy(comps: map<string, Component>, order: seq<string>, stopOrder: seq<string>)
    requires IterationOrder(comps, order)
    ensures LaunchResult(comps, order, stopOrder).ok <==> AllHealthy(comps)
    ensures AllHealthy(comps) ==> LaunchResult(comps, order, stopOrder).after == AllRunning(comps)
                                  && LaunchResult(comps, order, stopOrder).log == InitCalls(order) + StartCalls(order)
  {
    HealthyIffNoFailure(comps, order);
    if AllHealthy(comps) {
      RunningUpToEvery(comps, order);
    }
  }

  /**
   * A failed `start` leaves running only components whose `stop` throws,
   * its cleanup stops them in descending name order, and the names and keys
   * are those registered.
   */
  lemma FailedLaunchCleansUp(comps: map<string, Component>, order: seq<string>, stopOrder: seq<string>)
    requires IterationOrder(comps, order) && StopOrderFor(comps, stopOrder)
    requires !LaunchResult(comps, order, stopOrder).ok
    ensures var r := LaunchResult(comps, order, stopOrder);
      SameNames(comps, r.after) && forall k :: k in r.after && r.after[k].running ==> r.after[k].stopFails
  {
    var n := FirstInitFailure(comps, order);
    var r := LaunchResult(comps, order, stopOrder);
    var before := if n < |order| then comps else RunningUpTo(comps, order[..FirstStartFailure(comps, order)]);
    if n < |order| {
      assert r.after == AfterStop(before, stopOrder);
    } else {
      RunningUpToKeepsNames(comps, order[..FirstStartFailure(comps, order)]);
      assert r.after == AfterStop(before, stopOrder);
    }
    assert SameNames(comps, before);
    StopOrderKept(comps, before, stopOrder);
    ShutdownLeavesOnlyFailedStops(before, stopOrder);
    AfterStopKeepsNames(before, stopOrder);
    forall k | k in r.after && r.after[k].running ensures r.after[k].stopFails
    {
      assert r.after[k].stopFails == before[k].stopFails by {
        AfterStopAt(before, stopOrder, k);
      }
    }
  }

  class ImprovedRpcBootstrap {
    var components: map<string, Component>
    var started: bool
    var shutdown: bool
    var config: Settings
    /** The component calls made so far, in order. */
    var calls: seq<Call>

    /** A bootstrap with the default configuration, no components, neither started nor shut down. */
    constructor ()
      ensures components == map[] && !started && !shutdown && config == DefaultSettings() && calls == []
    {
      components := map[];
      started, shutdown := false, false;
      config := DefaultSettings();
      calls := [];
    }

    /** `configure`: refused once started; otherwise validated first, so a rejected config leaves the old one. */
    method Configure(cfg: Settings) returns (out: Outcome)
      modifies this
      ensures old(started) ==> out == IllegalState("Cannot configure after startup") && config == old(config)
      ensures !old(started) && ImprovedRpcConfigs.Validate(cfg).None? ==> out == Done && config == cfg
      ensures !old(started) && ImprovedRpcConfigs.Validate(cfg).Some? ==>
                out == Rejected(ImprovedRpcConfigs.Validate(cfg).value) && config == old(config)
      ensures components == old(components) && started == old(started) && shutdown == old(shutdown)
      ensures calls == old(calls)
    {
      if started {
        return IllegalState("Cannot configure after startup");
      }
      var verdict := ImprovedRpcConfigs.Validate(cfg);
      if verdict.Some? {
        return Rejected(verdict.value);
      }
      config := cfg;
      return Done;
    }

    /** `registerComponent`: refused once started; otherwise inserts or replaces the name's entry. */
    method RegisterComponent(name: string, component: Component) returns (out: Outcome)
      modifies this
      ensures old(started) ==> out == IllegalState("Cannot register component after startup")
                               && components == old(components)
      ensures !old(started) ==> out == Done && components == old(components)[name := component]
      ensures config == old(config) && started == old(started) && shutdown == old(shutdown)
      ensures calls == old(calls)
    {
      if started {
        return IllegalState("Cannot register component after startup");
      }
      components := components[name := component];
      return Done;
    }

    /**
     * `stop`: only the first call acts. It sets `shutdown`, calls `stop` on
     * each running component in the sorted order (a throwing `stop` is
     * logged and skipped), and clears `started`.
     */
    method Stop(stopOrder: seq<string>)
      requires !shutdown ==> StopOrderFor(components, stopOrder)
      modifies this
      ensures old(shutdown) ==> shutdown && started == old(started) && components == old(components)
                                && calls == old(calls)
      ensures !old(shutdown) ==> shutdown && !started && components == AfterStop(old(components), stopOrder)
                                 && calls == old(calls) + StopCalls(old(components), stopOrder)
      ensures config == old(config)
    {
      if shutdown {
        return;
      }
      shutdown := true;
      AfterStopKeepsNames(components, stopOrder);
      var after, stops := StopEach(components, stopOrder);
      components, calls := after, calls + stops;
      started := false;
    }

    /**
     * `start`: refused when already started; otherwise `started` is set
     * before the shutdown check, so a start after a stop throws yet leaves
     * `started` set. Then every component is initialized and then started;
     * the first failure stops the bootstrap and throws.
     */
    method Start(order: seq<string>, stopOrder: seq<string>) returns (out: Outcome)
      requires !started && !shutdown ==> IterationOrder(components, order) && StopOrderFor(components, stopOrder)
      modifies this
      ensures old(started) ==> out == IllegalState("RPC framework already started") && started
                               && shutdown == old(shutdown) && components == old(components) && calls == old(calls)
      ensures !old(started) && old(shutdown) ==> out == IllegalState("RPC framework is shutdown") && started
                                                 && shutdown && components == old(components) && calls == old(calls)
      ensures !old(started) && !old(shutdown) ==>
                var r := LaunchResult(old(components), order, stopOrder);
                components == r.after && calls == old(calls) + r.log
                && (r.ok ==> out == Done && started && !shutdown)
                && (!r.ok ==> out == Runtime("Failed to start RPC framework") && shutdown && !started)
      ensures config == old(config)
    {
      if started {
        return IllegalState("RPC framework already started");
      }
      started := true;
      if shutdown {
        return IllegalState("RPC framework is shutdown");
      }
      var ok, after, log := Launch(components, order, stopOrder);
      components, calls := after, calls + log;
      if !ok {
        shutdown, started := true, false;
        return Runtime("Failed to start RPC framework");
      }
      return Done;
    }

    /** `getComponent`: the registered object, or the exception for an unknown name or a type it is not. */
    function GetComponent(name: string, typeName: string): (r: Result<Component, string>)
      reads this
      ensures r.Success? <==> name in components && typeName in components[name].kinds
      ensures r.Success? ==> r.value == components[name]
      ensures name !in components ==> r == Failure("Component not found: " + name)
    {
      if name !in components then Failure("Component not found: " + name)
      else if typeName !in components[name].kinds then
        Failure("Component type mismatch: expected " + typeName + ", got " + components[name].className)
      else Success(components[name])
    }

    /** `getStatus`: shut down wins; a started framework runs only if every component runs. */
    function GetStatus(): (s: FrameworkStatus)
      reads this
      ensures s == SHUTDOWN <==> shutdown
      ensures s == RUNNING <==> !shutdown && started && forall k :: k in components ==> components[k].running
      ensures s == ERROR <==> !shutdown && started && exists k :: k in components && !components[k].running
      ensures s == STOPPED <==> !shutdown && !started
    {
      if shutdown then SHUTDOWN
      else if started then (if forall k :: k in components ==> components[k].running then RUNNING else ERROR)
      else STOPPED
    }
  }

  /** `createDefault`. */
  method CreateDefault() returns (b: ImprovedRpcBootstrap)
    ensures fresh(b) && b.config == DefaultSettings() && b.components == map[] && !b.started && !b.shutdown
  {
    b := new ImprovedRpcBootstrap();
  }

  /** `createHighPerformance`: a new bootstrap configured with the high-performance settings. */
  method CreateHighPerformance() returns (b: ImprovedRpcBootstrap)
    ensures fresh(b) && b.components == map[] && !b.started && !b.shutdown
    ensures b.config == DefaultSettings().(maxConnections := 500, coreThreads := 32, maxThreads := 64,
                                           enableCompression := true, serializerType := Some("protobuf"))
  {
    b := new ImprovedRpcBootstrap();
    var cfg := ImprovedRpcConfigs.CreateHighPerformance();
    var _ := b.Configure(cfg.settings);
  }

  /** `createHighAvailability`: a new bootstrap configured with the high-availability settings. */
  method CreateHighAvailability() returns (b: ImprovedRpcBootstrap)
    ensures fresh(b) && b.components == map[] && !b.started && !b.shutdown
    ensures b.config == DefaultSettings().(maxRetries := 5, enableHealthCheck := true, enableMetrics := true,
                                           loadBalanceStrategy := Some("least_connections"))
  {
    b := new ImprovedRpcBootstrap();
    var cfg := ImprovedRpcConfigs.CreateHighAvailability();
    var _ := b.Configure(cfg.settings);
  }

  /**
   * `stop` before `start`: the start throws because of the shutdown, yet
   * leaves `started` set, so configuring afterwards is refused as well.
   */
  method StartAfterStop() returns (first: Outcome, second: Outcome, status: FrameworkStatus, startedFlag: bool)
    ensures first == IllegalState("RPC framework is shutdown")
    ensures second == IllegalState("Cannot configure after startup")
    ensures status == SHUTDOWN && startedFlag
  {
    var b := new ImprovedRpcBootstrap();
    b.Stop([]);
    first := b.Start([], []);
    second := b.Configure(DefaultSettings());
    status, startedFlag := b.GetStatus(), b.started;
  }

  /** A second `start` throws and changes nothing. */
  method SecondStartRefused() returns (first: Outcome, second: Outcome, status: FrameworkStatus)
    ensures first == Done && second == IllegalState("RPC framework already started") && status == RUNNING
  {
    var b := new ImprovedRpcBootstrap();
    first := b.Start([], []);
    second := b.Start([], []);
    status := b.GetStatus();
  }

  /** The walks `start` and `stop` make over two components named "alpha" and "beta", keyed "a" and "b". */
  lemma TwoComponentWalks(alpha: Component, beta: Component)
    requires alpha.componentName == "alpha" && beta.componentName == "beta"
    ensures var comps := map["a" := alpha, "b" := beta];
      IterationOrder(comps, ["a", "b"]) && StopOrderFor(comps, ["b", "a"])
      && InitCalls(["a", "b"]) == [InitializeCall("a"), InitializeCall("b")]
      && StartCalls(["a", "b"]) == [StartCall("a"), StartCall("b")]
  {
    var comps := map["a" := alpha, "b" := beta];
    assert NameAtMost("alpha", "beta");
    assert ["a", "b"][..1] == ["a"];
    assert ["a"][..0] == [];
    assert forall k :: k in comps ==> k in ["a", "b"] && k in ["b", "a"];
  }

  lemma TwoComponentsRun(alpha: Component, beta: Component)
    ensures RunningUpTo(map["a" := alpha, "b" := beta], ["a", "b"])
            == map["a" := alpha.(running := true), "b" := beta.(running := true)]
  {
    var comps := map["a" := alpha, "b" := beta];
    RunningUpToEvery(comps, ["a", "b"]);
  }

  /** The stop stream over two components, once "a" alone runs or both run. */
  lemma TwoComponentStops(alpha: Component, beta: Component)
    ensures var comps := map["a" := alpha, "b" := beta];
      StopCalls(comps, ["b", "a"])
      == (if beta.running then [StopCall("b")] else []) + (if alpha.running then [StopCall("a")] else [])
  {
    var comps := map["a" := alpha, "b" := beta];
    assert ["b", "a"][..1] == ["b"];
    assert ["b"][..0] == [];
  }

  /** `start` over two healthy components: both initialized, then both started, and both run. */
  lemma TwoComponentLaunch(alpha: Component, beta: Component)
    requires alpha.componentName == "alpha" && beta.componentName == "beta"
    requires !alpha.initFails && !alpha.startFails && !beta.initFails && !beta.startFails
    ensures LaunchResult(map["a" := alpha, "b" := beta], ["a", "b"], ["b", "a"])
            == Launched(true, map["a" := alpha.(running := true), "b" := beta.(running := true)],
                        [InitializeCall("a"), InitializeCall("b"), StartCall("a"), StartCall("b")])
  {
    var comps := map["a" := alpha, "b" := beta];
    var order := ["a", "b"];
    TwoComponentWalks(alpha, beta);
    TwoComponentsRun(alpha, beta);
    assert FirstInitFailure(comps, order[1..]) == 1;
    assert FirstStartFailure(comps, order[1..]) == 1;
  }

  /**
   * Two healthy components: `start` initializes both, then starts both;
   * `stop` stops "beta" before "alpha", and a second `stop` makes no call.
   */
  method LifecycleCalls() returns (log: seq<Call>, running: FrameworkStatus, stopped: FrameworkStatus)
    ensures running == RUNNING && stopped == SHUTDOWN
    ensures log == [InitializeCall("a"), InitializeCall("b"), StartCall("a"), StartCall("b"),
                    StopCall("b"), StopCall("a")]
  {
    var b := new ImprovedRpcBootstrap();
    var alpha := Component("alpha", "AlphaComponent", {"RpcComponent"}, false, false, false, false);
    var beta := Component("beta", "BetaComponent", {"RpcComponent"}, false, false, false, false);
    var _ := b.RegisterComponent("a", alpha);
    var _ := b.RegisterComponent("b", beta);
    TwoComponentWalks(alpha, beta);
    TwoComponentLaunch(alpha, beta);
    var _ := b.Start(["a", "b"], ["b", "a"]);
    var started := [InitializeCall("a"), InitializeCall("b"), StartCall("a"), StartCall("b")];
    assert b.calls == [] + started;
    running := b.GetStatus();
    var alpha', beta' := alpha.(running := true), beta.(running := true);
    TwoComponentWalks(alpha', beta');
    TwoComponentStops(alpha', beta');
    b.Stop(["b", "a"]);
    assert b.calls == started + [StopCall("b"), StopCall("a")];
    b.Stop(["b", "a"]);
    log, stopped := b.calls, b.GetStatus();
  }

  /** Starting "a" and then rolling back over `["b", "a"]` stops "a" again, with one `stop` call. */
  lemma TwoComponentRollback(alpha: Component, beta: Component)
    requires !alpha.running && !alpha.stopFails && !beta.running
    ensures var comps := map["a" := alpha, "b" := beta];
      var partial := RunningUpTo(comps, ["a"]);
      AfterStop(partial, ["b", "a"]) == comps && StopCalls(partial, ["b", "a"]) == [StopCall("a")]
  {
    var comps := map["a" := alpha, "b" := beta];
    assert [] + ["a"] == ["a"] && [] + ["b"] == ["b"] && ["b"] + ["a"] == ["b", "a"];
    StartStep(comps, [], "a");
    var partial := RunningUpTo(comps, ["a"]);
    assert partial == comps["a" := alpha.(running := true)];
    StopStep(partial, [], "b");
    assert AfterStop(partial, ["b"]) == partial && StopCalls(partial, ["b"]) == [];
    StopStep(partial, ["b"], "a");
    assert AfterStop(partial, ["b", "a"]) == partial["a" := alpha];
    assert partial["a" := alpha] == comps;
  }

  /** `start` over two components when "beta"'s `start` throws: "alpha" is started, then stopped again. */
  lemma TwoComponentStartFails(alpha: Component, beta: Component)
    requires alpha == Component("alpha", "AlphaComponent", {"RpcComponent"}, false, false, false, false)
    requires beta == Component("beta", "BetaComponent", {"RpcComponent"}, false, false, true, false)
    ensures var comps := map["a" := alpha, "b" := beta];
      LaunchResult(comps, ["a", "b"], ["b", "a"])
      == Launched(false, comps, [InitializeCall("a"), InitializeCall("b"), StartCall("a"), StartCall("b"), StopCall("a")])
  {
    var comps := map["a" := alpha, "b" := beta];
    var order := ["a", "b"];
    TwoComponentWalks(alpha, beta);
    assert FirstInitFailure(comps, order[1..]) == 1;
    assert FirstStartFailure(comps, order[1..]) == 0;
    assert order[..1] == ["a"] && order[..2] == order;
    TwoComponentRollback(alpha, beta);
  }

  /**
   * A component whose `start` throws: the one started before it is stopped
   * again by the cleanup, the failing one is not running and so gets no
   * `stop` call, and the framework ends shut down.
   */
  method FailedStartCleansUp() returns (out: Outcome, log: seq<Call>, status: FrameworkStatus, alphaRunning: bool)
    ensures out == Runtime("Failed to start RPC framework") && status == SHUTDOWN && !alphaRunning
    ensures log == [InitializeCall("a"), InitializeCall("b"), StartCall("a"), StartCall("b"), StopCall("a")]
  {
    var b := new ImprovedRpcBootstrap();
    var alpha := Component("alpha", "AlphaComponent", {"RpcComponent"}, false, false, false, false);
    var beta := Component("beta", "BetaComponent", {"RpcComponent"}, false, false, true, false);
    var _ := b.RegisterComponent("a", alpha);
    var _ := b.RegisterComponent("b", beta);
    TwoComponentWalks(alpha, beta);
    TwoComponentStartFails(alpha, beta);
    out := b.Start(["a", "b"], ["b", "a"]);
    log, status, alphaRunning := b.calls, b.GetStatus(), "a" in b.components && b.components["a"].running;
  }

  lemma LookupMessages()
    ensures "Component not found: " + "cache" == "Component not found: cache"
    ensures "Component type mismatch: expected " + "Transport" + ", got " + "AlphaComponent"
            == "Component type mismatch: expected Transport, got AlphaComponent"
  {
  }

  /** A rejected configuration leaves the defaults in place; lookups report what is wrong. */
  method ConfigureAndLookup() returns (rejected: Outcome, kept: bool, missing: Result<Component, string>,
                                       mismatch: Result<Component, string>, found: bool)
    ensures rejected == Rejected(IllegalArgument("maxRetries must be >= 0")) && kept
    ensures missing == Failure("Component not found: cache")
    ensures mismatch == Failure("Component type mismatch: expected Transport, got AlphaComponent")
    ensures found
  {
    var b := new ImprovedRpcBootstrap();
    rejected := b.Configure(DefaultSettings().(maxRetries := -1));
    kept := b.config == DefaultSettings();
    var alpha := Component("alpha", "AlphaComponent", {"RpcComponent", "AlphaComponent"}, false, false, false, false);
    var _ := b.RegisterComponent("a", alpha);
    LookupMessages();
    missing := b.GetComponent("cache", "RpcComponent");
    mismatch := b.GetComponent("a", "Transport");
    found := b.GetComponent("a", "RpcComponent") == Success(alpha);
  }
}

=== FILE: config_improved.dfy ===
/**
 * `RpcConfig` of the improved core: the settings, the three factories and
 * `validate`, which checks the connection bounds, the timeouts, the retry
 * count, the thread bounds and the serializer name, in that order.
 */
module ImprovedRpcConfigs {
  import opened Wrappers
  import opened JavaText
  import opened ConfigSettings

  /** `validate`: `None` when it returns normally, else what the first failing check throws. */
  function Validate(s: Settings): Option<Rejection>
  {
    if s.maxConnections < s.minConnections then Some(IllegalArgument("maxConnections must be >= minConnections"))
    else if s.connectionTimeout <= 0 then Some(IllegalArgument("connectionTimeout must be > 0"))
    else if s.requestTimeout <= 0 then Some(IllegalArgument("requestTimeout must be > 0"))
    else if s.maxRetries < 0 then Some(IllegalArgument("maxRetries must be >= 0"))
    else if s.coreThreads > s.maxThreads then Some(IllegalArgument("coreThreads must be <= maxThreads"))
    else if s.serializerType.None? then Some(NullPointer)
    else if s.serializerType.value != "json" && s.serializerType.value != "protobuf" then
      Some(IllegalArgument("serializerType must be 'json' or 'protobuf'"))
    else None
  }

  /** The rules `validate` enforces, stated together. */
  predicate Acceptable(s: Settings)
  {
    s.minConnections <= s.maxConnections && s.connectionTimeout > 0 && s.requestTimeout > 0
    && s.maxRetries >= 0 && s.coreThreads <= s.maxThreads
    && (s.serializerType == Some("json") || s.serializerType == Some("protobuf"))
  }

  /**
   * `validate` throws exactly when a rule is broken; a null serializer type
   * throws `NullPointerException` only once every numeric rule holds, and the
   * connection bounds are reported before anything else.
   */
  lemma ValidateIffAcceptable(s: Settings)
    ensures Validate(s).None? <==> Acceptable(s)
    ensures Validate(s) == Some(NullPointer) ==> s.serializerType.None?
    ensures s.maxConnections < s.minConnections ==>
              Validate(s) == Some(IllegalArgument("maxConnections must be >= minConnections"))
  {
  }

  class RpcConfig {
    var settings: Settings

    constructor ()
      ensures settings == DefaultSettings()
    {
      settings := DefaultSettings();
    }

    /** A setter: its own field changes, no other. */
    method Set(change: Setting)
      modifies this
      ensures settings == Apply(old(settings), change)
    {
      settings := Apply(settings, change);
    }

    /** `validate` reads the settings and changes nothing. */
    function ValidateConfig(): Option<Rejection>
      reads this
    {
      Validate(settings)
    }
  }

  /** `createDefault`: a fresh config, which passes `validate`. */
  method CreateDefault() returns (c: RpcConfig)
    ensures fresh(c) && c.settings == DefaultSettings()
    ensures c.ValidateConfig() == None
  {
    c := new RpcConfig();
  }

  /** `createHighPerformance`: 500 connections, 32/64 threads, compression, protobuf; it passes `validate`. */
  method CreateHighPerformance() returns (c: RpcConfig)
    ensures fresh(c)
    ensures c.settings == DefaultSettings().(maxConnections := 500, coreThreads := 32, maxThreads := 64,
                                             enableCompression := true, serializerType := Some("protobuf"))
    ensures c.ValidateConfig() == None
  {
    c := new RpcConfig();
    c.Set(MaxConnections(500));
    c.Set(CoreThreads(32));
    c.Set(MaxThreads(64));
    c.Set(EnableCompression(true));
    c.Set(SerializerType(Some("protobuf")));
  }

  /** `createHighAvailability`: five retries, health checks and metrics on, least connections; it passes `validate`. */
  method CreateHighAvailability() returns (c: RpcConfig)
    ensures fresh(c)
    ensures c.settings == DefaultSettings().(maxRetries := 5, enableHealthCheck := true, enableMetrics := true,
                                             loadBalanceStrategy := Some("least_connections"))
    ensures c.ValidateConfig() == None
  {
    c := new RpcConfig();
    c.Set(MaxRetries(5));
    c.Set(EnableHealthCheck(true));
    c.Set(EnableMetrics(true));
    c.Set(LoadBalanceStrategy(Some("least_connections")));
  }

  /** The three factory settings are accepted, and changing only the serializer to "xml" is not. */
  lemma FactorySettingsAccepted()
    ensures Acceptable(DefaultSettings())
    ensures Acceptable(DefaultSettings().(maxConnections := 500, coreThreads := 32, maxThreads := 64,
                                          enableCompression := true, serializerType := Some("protobuf")))
    ensures Acceptable(DefaultSettings().(maxRetries := 5, enableHealthCheck := true, enableMetrics := true,
                                          loadBalanceStrategy := Some("least_connections")))
    ensures Validate(DefaultSettings().(serializerType := Some("xml")))
            == Some(IllegalArgument("serializerType must be 'json' or 'protobuf'"))
  {
  }
}

=== FILE: config_legacy.dfy ===
/**
 * `RpcConfig` of the older config package: the same settings, the factories
 * `createDefault`, `createHighPerformance` and `createLowLatency`, and a
 * `validate` with eight numeric checks and no check of the serializer.
 */
module LegacyRpcConfigs {
  import opened Wrappers
  import opened JavaText
  import opened ConfigSettings
  import ImprovedRpcConfigs

  /** `validate`: `None` when it returns normally, else the message of the first failing check. */
  function Validate(s: Settings): Option<Rejection>
  {
    if s.maxConnections <= 0 then Some(IllegalArgument("maxConnections must be positive"))
    else if s.minConnections < 0 then Some(IllegalArgument("minConnections must be non-negative"))
    else if s.minConnections > s.maxConnections then
      Some(IllegalArgument("minConnections cannot be greater than maxConnections"))
    else if s.connectionTimeout <= 0 then Some(IllegalArgument("connectionTimeout must be positive"))
    else if s.requestTimeout <= 0 then Some(IllegalArgument("requestTimeout must be positive"))
    else if s.maxRetries < 0 then Some(IllegalArgument("maxRetries must be non-negative"))
    else if s.coreThreads <= 0 then Some(IllegalArgument("coreThreads must be positive"))
    else if s.maxThreads < s.coreThreads then Some(IllegalArgument("maxThreads cannot be less than coreThreads"))
    else None
  }

  predicate Acceptable(s: Settings)
  {
    s.maxConnections > 0 && s.minConnections >= 0 && s.minConnections <= s.maxConnections
    && s.connectionTimeout > 0 && s.requestTimeout > 0 && s.maxRetries >= 0
    && s.coreThreads > 0 && s.maxThreads >= s.coreThreads
  }

  /** `validate` throws exactly when a rule is broken, never a null dereference, whatever the serializer. */
  lemma ValidateIffAcceptable(s: Settings)
    ensures Validate(s).None? <==> Acceptable(s)
    ensures Validate(s) != Some(NullPointer)
    ensures forall t :: Validate(s.(serializerType := t)) == Validate(s)
  {
  }

  /**
   * Against the improved rules: with a known serializer, every config this
   * one accepts is accepted there too; the converse fails for zero core
   * threads, and an unknown serializer passes here only.
   */
  lemma StricterOnCountsLaxerOnSerializer(s: Settings)
    ensures Acceptable(s) && (s.serializerType == Some("json") || s.serializerType == Some("protobuf"))
            ==> ImprovedRpcConfigs.Acceptable(s)
    ensures ImprovedRpcConfigs.Acceptable(DefaultSettings().(coreThreads := 0))
    ensures !Acceptable(DefaultSettings().(coreThreads := 0))
    ensures Acceptable(DefaultSettings().(serializerType := Some("xml")))
    ensures !ImprovedRpcConfigs.Acceptable(DefaultSettings().(serializerType := Some("xml")))
  {
  }

  class RpcConfig {
    var settings: Settings

    constructor ()
      ensures settings == DefaultSettings()
    {
      settings := DefaultSettings();
    }

    /** A generated setter: its own field changes, no other. */
    method Set(change: Setting)
      modifies this
      ensures settings == Apply(old(settings), change)
    {
      settings := Apply(settings, change);
    }

    function ValidateConfig(): Option<Rejection>
      reads this
    {
      Validate(settings)
    }
  }

  method CreateDefault() returns (c: RpcConfig)
    ensures fresh(c) && c.settings == DefaultSettings()
    ensures c.ValidateConfig() == None
  {
    c := new RpcConfig();
  }

  /** `createHighPerformance`: 200/20 connections, 32/64 threads, queue 2000, protobuf, compression. */
  method CreateHighPerformance() returns (c: RpcConfig)
    ensures fresh(c)
    ensures c.settings == DefaultSettings().(maxConnections := 200, minConnections := 20, coreThreads := 32,
                                             maxThreads := 64, threadQueueSize := 2000,
                                             serializerType := Some("protobuf"), enableCompression := true)
    ensures c.ValidateConfig() == None
  {
    c := new RpcConfig();
    c.Set(MaxConnections(200));
    c.Set(MinConnections(20));
    c.Set(CoreThreads(32));
    c.Set(MaxThreads(64));
    c.Set(ThreadQueueSize(2000));
    c.Set(SerializerType(Some("protobuf")));
    c.Set(EnableCompression(true));
  }

  /** `createLowLatency`: 5000 ms requests, 10000 ms connections and heartbeats, protobuf, no compression. */
  method CreateLowLatency() returns (c: RpcConfig)
    ensures fresh(c)
    ensures c.settings == DefaultSettings().(requestTimeout := 5000, connectionTimeout := 10000,
                                             heartbeatInterval := 10000, serializerType := Some("protobuf"),
                                             enableCompression := false)
    ensures c.ValidateConfig() == None
  {
    c := new RpcConfig();
    c.Set(RequestTimeout(5000));
    c.Set(ConnectionTimeout(10000));
    c.Set(HeartbeatInterval(10000));
    c.Set(SerializerType(Some("protobuf")));
    c.Set(EnableCompression(false));
  }

  /** The factory settings are accepted; a negative minimum is reported before a bad timeout. */
  lemma FactorySettingsAccepted()
    ensures Acceptable(DefaultSettings())
    ensures Acceptable(DefaultSettings().(maxConnections := 200, minConnections := 20, coreThreads := 32,
                                          maxThreads := 64, threadQueueSize := 2000,
                                          serializerType := Some("protobuf"), enableCompression := true))
    ensures Acceptable(DefaultSettings().(requestTimeout := 5000, connectionTimeout := 10000,
                                          heartbeatInterval := 10000, serializerType := Some("protobuf"),
                                          enableCompression := false))
    ensures Validate(DefaultSettings().(minConnections := -1, requestTimeout := 0))
            == Some(IllegalArgument("minConnections must be non-negative"))
  {
  }
}

=== FILE: config_settings.dfy ===
/**
 * The settings record shared by both `RpcConfig` classes (the improved core
 * and the older config package declare the same fields with the same
 * defaults), and the setter calls their factories make.
 */
module ConfigSettings {
  import opened Wrappers
  import opened JavaText

  datatype Settings = Settings(
    maxConnections: int,
    minConnections: int,
    connectionTimeout: int,
    maxIdleTime: int,
    requestTimeout: int,
    heartbeatInterval: int,
    serializerType: JString,
    enableCompression: bool,
    maxRetries: int,
    retryDelay: int,
    loadBalanceStrategy: JString,
    enableMetrics: bool,
    enableHealthCheck: bool,
    metricsInterval: int,
    logLevel: JString,
    enableRequestLog: bool,
    enableResponseLog: bool,
    enableSsl: bool,
    sslCertPath: JString,
    sslKeyPath: JString,
    coreThreads: int,
    maxThreads: int,
    threadKeepAliveTime: int,
    threadQueueSize: int)

  /** The field initializers of a freshly constructed config. */
  function DefaultSettings(): Settings
  {
    Settings(
      maxConnections := 100, minConnections := 10, connectionTimeout := 30000, maxIdleTime := 300000,
      requestTimeout := 30000, heartbeatInterval := 30000,
      serializerType := Some("json"), enableCompression := false,
      maxRetries := 3, retryDelay := 1000,
      loadBalanceStrategy := Some("round_robin"),
      enableMetrics := true, enableHealthCheck := true, metricsInterval := 60000,
      logLevel := Some("INFO"), enableRequestLog := true, enableResponseLog := false,
      enableSsl := false, sslCertPath := None, sslKeyPath := None,
      coreThreads := 16, maxThreads := 32, threadKeepAliveTime := 60000, threadQueueSize := 1000)
  }

  /** One setter call of the kind the factories make. */
  datatype Setting =
    | MaxConnections(n: int)
    | MinConnections(n: int)
    | ConnectionTimeout(n: int)
    | RequestTimeout(n: int)
    | HeartbeatInterval(n: int)
    | SerializerType(text: JString)
    | EnableCompression(flag: bool)
    | MaxRetries(n: int)
    | LoadBalanceStrategy(text: JString)
    | EnableMetrics(flag: bool)
    | EnableHealthCheck(flag: bool)
    | CoreThreads(n: int)
    | MaxThreads(n: int)
    | ThreadQueueSize(n: int)

  /** The settings after one setter call: its field replaced, every other field kept. */
  function Apply(s: Settings, change: Setting): Settings
  {
    match change
    case MaxConnections(n) => s.(maxConnections := n)
    case MinConnections(n) => s.(minConnections := n)
    case ConnectionTimeout(n) => s.(connectionTimeout := n)
    case RequestTimeout(n) => s.(requestTimeout := n)
    case HeartbeatInterval(n) => s.(heartbeatInterval := n)
    case SerializerType(t) => s.(serializerType := t)
    case EnableCompression(b) => s.(enableCompression := b)
    case MaxRetries(n) => s.(maxRetries := n)
    case LoadBalanceStrategy(t) => s.(loadBalanceStrategy := t)
    case EnableMetrics(b) => s.(enableMetrics := b)
    case EnableHealthCheck(b) => s.(enableHealthCheck := b)
    case CoreThreads(n) => s.(coreThreads := n)
    case MaxThreads(n) => s.(maxThreads := n)
    case ThreadQueueSize(n) => s.(threadQueueSize := n)
  }

  /** Why `validate` throws: an `IllegalArgumentException` with its message, or a null serializer type dereferenced. */
  datatype Rejection = IllegalArgument(message: string) | NullPointer
}

=== FILE: core_sync_manager.dfy ===
/**
 * The request registry of the `core` package: each synchronizer carries its
 * own expiry bound, a stored reply releases the waiter at once, and reading a
 * reply takes it out of the registry.
 */
module CoreSyncManager {
  import opened Wrappers
  import opened SuperMessages

  /**
   * What a waiter in `acquire` does when it checks the gate at a given
   * moment: return, throw the timeout exception, or stay parked on the lock.
   */
  datatype AcquireResult = Returned | TimedOut | Waiting

  class UnsafeSynchronizer {
    const timeoutMs: int
    const startTime: int
    var released: bool

    constructor(timeoutMs0: int, now: int)
      ensures timeoutMs == timeoutMs0 && startTime == now && !released
    {
      timeoutMs := timeoutMs0;
      startTime := now;
      released := false;
    }

    /** Strictly more than `timeoutMs` milliseconds have passed since creation. */
    predicate IsExpired(now: int)
    {
      now - startTime > timeoutMs
    }

    /**
     * A released gate lets the waiter return even past expiry; an unreleased,
     * expired one makes it throw; otherwise it keeps waiting.
     */
    method Acquire(now: int) returns (r: AcquireResult)
      ensures r == Returned <==> released
      ensures r == TimedOut <==> !released && IsExpired(now)
    {
      if released {
        return Returned;
      }
      if !IsExpired(now) {
        return Waiting;
      }
      r := TimedOut;
    }

    /** Sets the released flag (and would wake the waiters); true only the first time. */
    method Release() returns (r: bool)
      modifies this
      ensures released
      ensures r <==> !old(released)
    {
      r := !released;
      released := true;
    }

    function IsReleased(): bool
      reads this
    {
      released
    }
  }

  class SynchronizerManager {
    var synchronizerMap: map<string, UnsafeSynchronizer>
    var responseMap: map<string, SuperMsgMulti>

    constructor()
      ensures synchronizerMap == map[] && responseMap == map[]
    {
      synchronizerMap := map[];
      responseMap := map[];
    }

    /** A new synchronizer with its own expiry bound, bound to `requestId` in place of any earlier one. */
    method CreateSynchronizer(requestId: string, timeoutMs: int, now: int) returns (s: UnsafeSynchronizer)
      modifies this
      ensures fresh(s)
      ensures synchronizerMap == old(synchronizerMap)[requestId := s]
      ensures responseMap == old(responseMap)
      ensures s.timeoutMs == timeoutMs && s.startTime == now && !s.released
    {
      s := new UnsafeSynchronizer(timeoutMs, now);
      synchronizerMap := synchronizerMap[requestId := s];
    }

    /** Unbinds `requestId` and releases its synchronizer, if it had one. */
    method ReleaseSynchronizer(requestId: string)
      modifies this, if requestId in synchronizerMap then {synchronizerMap[requestId]} else {}
      ensures synchronizerMap == old(synchronizerMap) - {requestId}
      ensures responseMap == old(responseMap)
      ensures requestId in old(synchronizerMap) ==> old(synchronizerMap)[requestId].released
    {
      if requestId in synchronizerMap {
        var s := synchronizerMap[requestId];
        synchronizerMap := synchronizerMap - {requestId};
        var _ := s.Release();
      }
    }

    /** Stores the reply and releases the waiting synchronizer, which stays bound. */
    method SetResponse(requestId: string, response: SuperMsgMulti)
      modifies this, if requestId in synchronizerMap then {synchronizerMap[requestId]} else {}
      ensures responseMap == old(responseMap)[requestId := response]
      ensures synchronizerMap == old(synchronizerMap)
      ensures requestId in synchronizerMap ==> synchronizerMap[requestId].released
    {
      responseMap := responseMap[requestId := response];
      if requestId in synchronizerMap {
        var _ := synchronizerMap[requestId].Release();
      }
    }

    /** Takes the reply out of the registry: a second read of the same id finds nothing. */
    method GetResponse(requestId: string) returns (r: Option<SuperMsgMulti>)
      modifies this
      ensures r.Some? <==> requestId in old(responseMap)
      ensures r.Some? ==> r.value == old(responseMap)[requestId]
      ensures responseMap == old(responseMap) - {requestId}
      ensures synchronizerMap == old(synchronizerMap)
    {
      if requestId in responseMap {
        r := Some(responseMap[requestId]);
        responseMap := responseMap - {requestId};
      } else {
        r := None;
      }
    }

    /** Drops the synchronizers expired at `now`; stored replies are left alone. */
    method CleanupExpiredSynchronizers(now: int)
      modifies this
      ensures forall id :: id in synchronizerMap <==>
        id in old(synchronizerMap) && !old(synchronizerMap)[id].IsExpired(now)
      ensures forall id :: id in synchronizerMap ==> synchronizerMap[id] == old(synchronizerMap)[id]
      ensures responseMap == old(responseMap)
    {
      ghost var syncs0 := synchronizerMap;
      var pending := synchronizerMap.Keys;
      while pending != {}
        invariant pending <= syncs0.Keys
        invariant forall id :: id in synchronizerMap <==>
          id in syncs0 && (id in pending || !syncs0[id].IsExpired(now))
        invariant forall id :: id in synchronizerMap ==> synchronizerMap[id] == syncs0[id]
        invariant responseMap == old(responseMap)
        decreases pending
      {
        var id :| id in pending;
        if synchronizerMap[id].IsExpired(now) {
          synchronizerMap := synchronizerMap - {id};
        }
        pending := pending - {id};
      }
    }
  }

  /** A reply stored for a waiting request lets the waiter return, even after its bound. */
  method ReplyWakesWaiter(now: int) returns (before: AcquireResult, after: AcquireResult)
    ensures before == Waiting && after == Returned
  {
    var manager := new SynchronizerManager();
    var s := manager.CreateSynchronizer("req", 1000, now);
    before := s.Acquire(now + 10);
    var reply := new SuperMsgMulti("reply", now);
    manager.SetResponse("req", reply);
    after := s.Acquire(now + 5000);
  }

  /**
   * Without a reply, an `acquire` made at exactly the bound parks, and one
   * made a millisecond later throws at once.
   */
  method UnansweredRequestTimesOut(now: int) returns (atBound: AcquireResult, pastBound: AcquireResult)
    ensures atBound == Waiting && pastBound == TimedOut
  {
    var manager := new SynchronizerManager();
    var s := manager.CreateSynchronizer("req", 1000, now);
    atBound := s.Acquire(now + 1000);
    pastBound := s.Acquire(now + 1001);
  }

  /** A reply is handed out once. */
  method ReplyTakenOnce(now: int) returns (first: Option<SuperMsgMulti>, second: Option<SuperMsgMulti>)
    ensures first.Some? && second.None?
  {
    var manager := new SynchronizerManager();
    var reply := new SuperMsgMulti("reply", now);
    manager.SetResponse("req", reply);
    first := manager.GetResponse("req");
    second := manager.GetResponse("req");
  }
}

=== FILE: easy_fast_format.dfy ===
/**
 * Fixed-width id rendering: an integer written as exactly `n` symbols of a
 * custom 64-symbol alphabet (6 bits per symbol) or of its first 32 symbols
 * (5 bits per symbol), most significant symbol first, without padding; and
 * two small masking helpers.
 */
module EasyFastFormat {
  import opened Wrappers
  import opened JavaText

  /** The exceptions a `digits*` call can end in. */
  datatype FormatError = NegativeArraySize | IndexOutOfBounds | NullPointer

  /** Symbol `d` of the table: `0-9`, then `a-z`, then `A-Z`, then `-` and `_`. */
  function Symbol(d: nat): char
    requires d < 64
  {
    if d < 10 then ('0' as int + d) as char
    else if d < 36 then ('a' as int + (d - 10)) as char
    else if d < 62 then ('A' as int + (d - 36)) as char
    else if d == 62 then '-'
    else '_'
  }

  /** The 64-symbol table, written as its four runs. */
  const Alphabet: string := "0123456789" + "abcdefghijklmnopqrstuvwxyz" + "ABCDEFGHIJKLMNOPQRSTUVWXYZ" + "-_"

  /** The `n` consecutive characters that start at `first`. */
  function Run(first: char, n: nat): (r: string)
    requires first as int + n <= 0xD800
    ensures |r| == n && forall i :: 0 <= i < n ==> r[i] == (first as int + i) as char
  {
    seq(n, i requires 0 <= i < n => (first as int + i) as char)
  }

  /** The table holds the symbols in order: each of its first three runs is consecutive. */
  lemma AlphabetSymbol(d: nat)
    requires d < 64
    ensures |Alphabet| == 64 && Alphabet[d] == Symbol(d)
  {
    var digits, lower, upper := "0123456789", "abcdefghijklmnopqrstuvwxyz", "ABCDEFGHIJKLMNOPQRSTUVWXYZ";
    assert digits == Run('0', 10);
    assert lower == Run('a', 26);
    assert upper == Run('A', 26);
    assert Alphabet == digits + lower + upper + "-_";
    if d < 10 {
      assert Alphabet[d] == digits[d];
    } else if d < 36 {
      assert Alphabet[d] == lower[d - 10];
    } else if d < 62 {
      assert Alphabet[d] == upper[d - 36];
    }
  }

  /** The position of a symbol in the table, -1 for any other character. */
  function SymbolValue(c: char): int
  {
    if '0' <= c <= '9' then c as int - '0' as int
    else if 'a' <= c <= 'z' then c as int - 'a' as int + 10
    else if 'A' <= c <= 'Z' then c as int - 'A' as int + 36
    else if c == '-' then 62
    else if c == '_' then 63
    else -1
  }

  lemma SymbolValueInverts(d: nat)
    requires d < 64
    ensures SymbolValue(Alphabet[d]) == d
  {
    AlphabetSymbol(d);
    SymbolValueOf(d);
  }

  /** Symbol `d` reads back as `d`. */
  lemma SymbolValueOf(d: nat)
    requires d < 64
    ensures SymbolValue(Symbol(d)) == d
  {
  }

  function Pow(b: nat, k: nat): (r: nat)
    ensures b > 0 ==> r > 0
  {
    if k == 0 then 1 else b * Pow(b, k - 1)
  }

  const TwoTo64: int := 0x1_0000_0000_0000_0000

  /**
   * The unsigned reading of a 32-bit or 64-bit two's complement pattern:
   * what `>>>` and `&` see. On it, `& (2^k - 1)` is `% 2^k` and `>>> k`
   * is `/ 2^k`.
   */
  function Unsigned32(val: int): nat
  {
    val % TwoTo32
  }

  function Unsigned64(val: int): nat
  {
    val % TwoTo64
  }

  /** The `n` low base-`base` digits of `u` as symbols, most significant first. */
  function Encode(u: nat, base: nat, n: nat): (s: string)
    requires 2 <= base <= 64
    ensures |s| == n
  {
    if n == 0 then []
    else
      DigitBounds(u, base);
      Encode(u / base, base, n - 1) + [Symbol(u % base)]
  }

  /** The quotient by a base is a natural number and the remainder a digit of that base. */
  lemma DigitBounds(u: nat, base: nat)
    requires base > 0
    ensures u / base >= 0 && 0 <= u % base < base
  {
  }

  /** Every symbol of an encoding is a digit below the base. */
  lemma {:induction false} EncodeSymbolsInBase(u: nat, base: nat, n: nat)
    requires 2 <= base <= 64
    ensures forall i :: 0 <= i < n ==> 0 <= SymbolValue(Encode(u, base, n)[i]) < base
    decreases n
  {
    if n > 0 {
      DigitBounds(u, base);
      var high := Encode(u / base, base, n - 1);
      assert Encode(u, base, n) == high + [Symbol(u % base)];
      EncodeSymbolsInBase(u / base, base, n - 1);
      SymbolValueOf(u % base);
    }
  }

  /** Reads symbols back as a base-`base` number. */
  function Decode(s: string, base: nat): nat
  {
    if |s| == 0 then 0
    else
      var d := SymbolValue(s[|s| - 1]);
      Decode(s[..|s| - 1], base) * base + (if d < 0 then 0 else d)
  }

  // ---- division facts the digit lemmas rest on ----

  lemma MulMonotone(m: int, a: int, b: int)
    requires m > 0 && a <= b
    ensures m * a <= m * b
  {
  }

  lemma DivNonNegative(u: nat, m: int)
    requires m > 0
    ensures u / m >= 0
  {
  }

  lemma DivModUnique(u: int, m: int, q: int, r: int)
    requires m > 0 && 0 <= r < m && u == m * q + r
    ensures u / m == q && u % m == r
  {
    var q0 := u / m;
    var r0 := u % m;
    assert u == m * q0 + r0;
    if q0 > q {
      MulMonotone(m, q + 1, q0);
      assert false;
    } else if q0 < q {
      MulMonotone(m, q0 + 1, q);
      assert false;
    }
  }

  lemma DivDiv(u: nat, b: nat, c: nat)
    requires b > 0 && c > 0
    ensures (u / b) / c == u / (b * c)
    ensures (u / b) % c * b + u % b == u % (b * c)
  {
    var q := u / b;
    var r := u % b;
    var q2 := q / c;
    var r2 := q % c;
    assert u == b * q + r;
    assert q == c * q2 + r2;
    assert u == (b * c) * q2 + (b * r2 + r) by {
      assert b * q == b * (c * q2) + b * r2;
      assert b * (c * q2) == (b * c) * q2;
    }
    assert b * r2 + r < b * c by {
      MulMonotone(b, r2, c - 1);
    }
    DivModUnique(u, b * c, q2, b * r2 + r);
  }

  /** Dividing twice is dividing by the product. */
  lemma QuotQuot(u: nat, b: nat, c: nat)
    requires b > 0 && c > 0
    ensures (u / b) / c == u / (b * c)
  {
    DivDiv(u, b, c);
  }

  // ---- properties of the encoding ----

  /** The symbol at position `n-1-k` is digit `k` of `u`: `alphabet[(u >>> bits*k) & mask]`. */
  lemma {:induction false} EncodeDigitAt(u: nat, base: nat, n: nat, k: nat)
    requires 2 <= base <= 64 && k < n
    ensures Encode(u, base, n)[n - 1 - k] == Symbol((u / Pow(base, k)) % base)
    decreases k
  {
    DivNonNegative(u, base);
    var high := Encode(u / base, base, n - 1);
    assert Encode(u, base, n) == high + [Symbol(u % base)];
    if k > 0 {
      EncodeDigitAt(u / base, base, n - 1, k - 1);
      DigitShift(u, base, k);
    } else {
      assert Pow(base, 0) == 1;
    }
  }

  /** Digit `k` of `u` is digit `k - 1` of `u / base`. */
  lemma DigitShift(u: nat, base: nat, k: nat)
    requires base >= 2 && k > 0
    ensures (u / base) / Pow(base, k - 1) == u / Pow(base, k)
  {
    QuotQuot(u, base, Pow(base, k - 1));
  }

  /** Decoding the `n` symbols gives back `u` modulo `base^n`. */
  lemma {:induction false} EncodeRoundTrip(u: nat, base: nat, n: nat)
    requires 2 <= base <= 64
    ensures Decode(Encode(u, base, n), base) == u % Pow(base, n)
    decreases n
  {
    if n > 0 {
      var s := Encode(u, base, n);
      DivNonNegative(u, base);
      assert s[..n - 1] == Encode(u / base, base, n - 1);
      EncodeRoundTrip(u / base, base, n - 1);
      SymbolValueOf(u % base);
      DivDiv(u, base, Pow(base, n - 1));
    }
  }

  /** For `0 <= u < base^n` decoding recovers `u` exactly. */
  lemma EncodeRoundTripExact(u: nat, base: nat, n: nat)
    requires 2 <= base <= 64 && u < Pow(base, n)
    ensures Decode(Encode(u, base, n), base) == u
  {
    EncodeRoundTrip(u, base, n);
    DivModUnique(u, Pow(base, n), 0, u);
  }

  // ---- the digit loop ----

  /**
   * The do-while of every `digits*` function: walk `buf` from its end,
   * writing the symbol of the low digit of `val` and shifting it away.
   */
  method FillDigits(buf: array<char>, u: nat, base: nat)
    requires 2 <= base <= 64 && buf.Length >= 1
    modifies buf
    ensures buf[..] == Encode(u, base, buf.Length)
  {
    var digits := buf.Length;
    var val: nat := u;
    while digits > 0
      invariant 0 <= digits <= buf.Length
      invariant Encode(u, base, buf.Length) == Encode(val, base, digits) + buf[digits..]
    {
      digits := digits - 1;
      DigitBounds(val, base);
      AlphabetSymbol(val % base);
      buf[digits] := Alphabet[val % base];
      val := val / base;
    }
  }

  /** `new char[n]` followed by the do-while, which always writes `buf[n-1]` first. */
  method DigitsOf(u: nat, base: nat, n: int) returns (r: Result<array<char>, FormatError>)
    requires 2 <= base <= 64
    ensures n < 0 ==> r == Failure(NegativeArraySize)
    ensures n == 0 ==> r == Failure(IndexOutOfBounds)
    ensures n > 0 ==> r.Success? && fresh(r.value) && r.value[..] == Encode(u, base, n)
  {
    if n < 0 {
      return Failure(NegativeArraySize);
    }
    var buf := new char[n];
    if n == 0 {
      return Failure(IndexOutOfBounds);
    }
    FillDigits(buf, u, base);
    r := Success(buf);
  }

  /** `digits(int, n)`: 6-bit groups of the 32-bit pattern. */
  method DigitsInt(val: int, n: int) returns (r: Result<string, FormatError>)
    requires IsInt32(val)
    ensures n < 0 ==> r == Failure(NegativeArraySize)
    ensures n == 0 ==> r == Failure(IndexOutOfBounds)
    ensures n > 0 ==> r == Success(Encode(Unsigned32(val), 64, n))
  {
    var buf := DigitsOf(Unsigned32(val), 64, n);
    if buf.Failure? {
      return Failure(buf.error);
    }
    r := Success(buf.value[..]);
  }

  /**
   * `digits(Long, n)` and `digits64(Long, n)`, whose bodies are the same:
   * 6-bit groups of the 64-bit pattern. A null `Long` throws when the loop
   * unboxes it, which happens before the store into `buf[-1]`.
   */
  method DigitsLong(val: Option<int>, n: int) returns (r: Result<string, FormatError>)
    requires val.Some? ==> IsInt64(val.value)
    ensures n < 0 ==> r == Failure(NegativeArraySize)
    ensures n >= 0 && val.None? ==> r == Failure(NullPointer)
    ensures n == 0 && val.Some? ==> r == Failure(IndexOutOfBounds)
    ensures n > 0 && val.Some? ==> r == Success(Encode(Unsigned64(val.value), 64, n))
  {
    if n >= 0 && val.None? {
      return Failure(NullPointer);
    }
    var buf := DigitsOf(if val.Some? then Unsigned64(val.value) else 0, 64, n);
    if buf.Failure? {
      return Failure(buf.error);
    }
    r := Success(buf.value[..]);
  }

  /** `digits32(int, n)`: 5-bit groups of the 32-bit pattern. */
  method Digits32Int(val: int, n: int) returns (r: Result<string, FormatError>)
    requires IsInt32(val)
    ensures n < 0 ==> r == Failure(NegativeArraySize)
    ensures n == 0 ==> r == Failure(IndexOutOfBounds)
    ensures n > 0 ==> r == Success(Encode(Unsigned32(val), 32, n))
  {
    var buf := DigitsOf(Unsigned32(val), 32, n);
    if buf.Failure? {
      return Failure(buf.error);
    }
    r := Success(buf.value[..]);
  }

  /** `digits32(Long, n)`: 5-bit groups of the 64-bit pattern. */
  method Digits32Long(val: Option<int>, n: int) returns (r: Result<string, FormatError>)
    requires val.Some? ==> IsInt64(val.value)
    ensures n < 0 ==> r == Failure(NegativeArraySize)
    ensures n >= 0 && val.None? ==> r == Failure(NullPointer)
    ensures n == 0 && val.Some? ==> r == Failure(IndexOutOfBounds)
    ensures n > 0 && val.Some? ==> r == Success(Encode(Unsigned64(val.value), 32, n))
  {
    if n >= 0 && val.None? {
      return Failure(NullPointer);
    }
    var buf := DigitsOf(if val.Some? then Unsigned64(val.value) else 0, 32, n);
    if buf.Failure? {
      return Failure(buf.error);
    }
    r := Success(buf.value[..]);
  }

  // ---- trailing-zero break ----

  predicate AllZeroSymbols(s: string)
  {
    forall i :: 0 <= i < |s| ==> s[i] == '0'
  }

  predicate AllNul(s: string)
  {
    forall i :: 0 <= i < |s| ==> s[i] == '\0'
  }

  /** The trailing run of '0' symbols replaced, cell for cell, by NUL characters. */
  function ZeroBreak(s: string): (r: string)
    ensures |r| == |s|
  {
    if |s| == 0 then s
    else if s[|s| - 1] == '0' then ZeroBreak(s[..|s| - 1]) + ['\0']
    else s
  }

  /**
   * The shape of `ZeroBreak(s)`: up to the last symbol that is not '0'
   * the text is unchanged, and every cell after it is NUL.
   */
  lemma {:induction false} ZeroBreakShape(s: string, j: nat)
    requires j <= |s| && AllZeroSymbols(s[j..]) && (j > 0 ==> s[j - 1] != '0')
    ensures ZeroBreak(s) == s[..j] + seq(|s| - j, _ => '\0')
    decreases |s|
  {
    if |s| > j {
      var p := s[..|s| - 1];
      assert p[j..] == s[j..|s| - 1];
      ZeroBreakShape(p, j);
      assert p[..j] == s[..j];
    } else {
      assert s[..j] == s;
    }
  }

  /**
   * The loop of the ZeroBreak variants as written: it reads `buf[i]` before
   * testing `i >= 0`, so a buffer of nothing but '0' ends in an index error
   * (reported as `false`) after the loop has cleared every cell.
   */
  method BreakTrailingZeros(buf: array<char>) returns (ok: bool)
    modifies buf
    ensures ok <==> !AllZeroSymbols(old(buf[..]))
    ensures ok ==> buf[..] == ZeroBreak(old(buf[..]))
  {
    ghost var s := buf[..];
    var i := buf.Length - 1;
    assert s[..i + 1] == s && buf[i + 1..] == [];
    while true
      invariant -1 <= i < buf.Length
      invariant buf[..i + 1] == s[..i + 1]
      invariant AllZeroSymbols(s[i + 1..])
      invariant AllNul(buf[i + 1..])
      invariant ZeroBreak(s) == ZeroBreak(s[..i + 1]) + buf[i + 1..]
      decreases i + 1
    {
      if i < 0 {
        assert s == s[i + 1..];
        return false;
      }
      if buf[i] != '0' {
        assert s[i] != '0';
        assert buf[..] == buf[..i + 1] + buf[i + 1..];
        return true;
      }
      assert s[..i + 1][..i] == s[..i];
      buf[i] := '\0';
      i := i - 1;
    }
  }

  /** The same loop with the bounds test first, as the loop evidently intends. */
  method BreakTrailingZerosGuarded(buf: array<char>)
    modifies buf
    ensures buf[..] == ZeroBreak(old(buf[..]))
  {
    ghost var s := buf[..];
    var i := buf.Length - 1;
    assert s[..i + 1] == s && buf[i + 1..] == [];
    while i >= 0 && buf[i] == '0'
      invariant -1 <= i < buf.Length
      invariant buf[..i + 1] == s[..i + 1]
      invariant ZeroBreak(s) == ZeroBreak(s[..i + 1]) + buf[i + 1..]
    {
      assert s[..i + 1][..i] == s[..i];
      buf[i] := '\0';
      i := i - 1;
    }
    assert buf[..] == buf[..i + 1] + buf[i + 1..];
  }

  /** `digits64ZeroBreak(Long, n)`: `digits64`, then the trailing '0' symbols become NUL. */
  method Digits64ZeroBreak(val: Option<int>, n: int) returns (r: Result<string, FormatError>)
    requires val.Some? ==> IsInt64(val.value)
    ensures n < 0 ==> r == Failure(NegativeArraySize)
    ensures n >= 0 && val.None? ==> r == Failure(NullPointer)
    ensures n == 0 && val.Some? ==> r == Failure(IndexOutOfBounds)
    ensures n > 0 && val.Some? ==>
      var digits := Encode(Unsigned64(val.value), 64, n);
      r == if AllZeroSymbols(digits) then Failure(IndexOutOfBounds) else Success(ZeroBreak(digits))
  {
    if n >= 0 && val.None? {
      return Failure(NullPointer);
    }
    var buf := DigitsOf(if val.Some? then Unsigned64(val.value) else 0, 64, n);
    if buf.Failure? {
      return Failure(buf.error);
    }
    var ok := BreakTrailingZeros(buf.value);
    if !ok {
      return Failure(IndexOutOfBounds);
    }
    r := Success(buf.value[..]);
  }

  /** `digits32ZeroBreak(Long, n)`: `digits32`, then the trailing '0' symbols become NUL. */
  method Digits32ZeroBreak(val: Option<int>, n: int) returns (r: Result<string, FormatError>)
    requires val.Some? ==> IsInt64(val.value)
    ensures n < 0 ==> r == Failure(NegativeArraySize)
    ensures n >= 0 && val.None? ==> r == Failure(NullPointer)
    ensures n == 0 && val.Some? ==> r == Failure(IndexOutOfBounds)
    ensures n > 0 && val.Some? ==>
      var digits := Encode(Unsigned64(val.value), 32, n);
      r == if AllZeroSymbols(digits) then Failure(IndexOutOfBounds) else Success(ZeroBreak(digits))
  {
    if n >= 0 && val.None? {
      return Failure(NullPointer);
    }
    var buf := DigitsOf(if val.Some? then Unsigned64(val.value) else 0, 32, n);
    if buf.Failure? {
      return Failure(buf.error);
    }
    var ok := BreakTrailingZeros(buf.value);
    if !ok {
      return Failure(IndexOutOfBounds);
    }
    r := Success(buf.value[..]);
  }

  /** The id 0 renders as all '0' symbols, so its ZeroBreak form ends in an index error. */
  lemma {:induction false} EncodeZero(base: nat, n: nat)
    requires 2 <= base <= 64
    ensures AllZeroSymbols(Encode(0, base, n))
  {
    if n > 0 {
      EncodeZero(base, n - 1);
    }
  }

  method ZeroIdBreakFails() returns (r: Result<string, FormatError>)
    ensures r == Failure(IndexOutOfBounds)
  {
    EncodeZero(64, 4);
    r := Digits64ZeroBreak(Some(0), 4);
  }

  // ---- masking helpers ----

  /** `uint32(long)`: `z & 0x7fffffff`, the low 31 bits, so never negative. */
  function Uint32(z: int): (r: int)
    requires IsInt64(z)
    ensures 0 <= r < TwoTo31
    ensures r == z % TwoTo31
  {
    var low64 := Unsigned64(z);
    LowBitsOfLow64(z);
    low64 % TwoTo31
  }

  lemma LowBitsOfLow64(z: int)
    ensures Unsigned64(z) % TwoTo31 == z % TwoTo31
  {
    var q := z / TwoTo64;
    var low64 := z % TwoTo64;
    assert z == TwoTo64 * q + low64;
    var q2 := low64 / TwoTo31;
    var r := low64 % TwoTo31;
    assert low64 == TwoTo31 * q2 + r;
    assert z == TwoTo31 * (0x2_0000_0000 * q + q2) + r;
    DivModUnique(z, TwoTo31, 0x2_0000_0000 * q + q2, r);
  }

  lemma {:induction false} Pow2Bound(k: nat)
    requires k <= 31
    ensures 1 <= Pow(2, k) <= TwoTo31
  {
    Pow2Monotone(k, 31);
    PowAdd(2, 8, 8);
    PowAdd(2, 16, 15);
    assert Pow(2, 8) == 256;
    assert Pow(2, 15) == 0x8000 by {
      PowAdd(2, 8, 7);
    }
  }

  lemma {:induction false} PowAdd(b: nat, i: nat, j: nat)
    ensures Pow(b, i + j) == Pow(b, i) * Pow(b, j)
    decreases j
  {
    if j > 0 {
      PowAdd(b, i, j - 1);
      assert Pow(b, i + j) == b * Pow(b, i + j - 1);
      assert Pow(b, i) * Pow(b, j) == Pow(b, i) * (b * Pow(b, j - 1));
    }
  }

  lemma {:induction false} Pow2Monotone(k: nat, m: nat)
    requires k <= m
    ensures 1 <= Pow(2, k) <= Pow(2, m)
    decreases m
  {
    if k < m {
      Pow2Monotone(k, m - 1);
    }
  }

  /** Bit `k` of a non-negative number. */
  function Bit(u: nat, k: nat): nat
  {
    (u / Pow(2, k)) % 2
  }

  /**
   * `uintNBit(long z, int n)` as written: `z & (1 << n-1)`. Java parses the
   * mask as `1 << (n-1)`, an `int` shift by `(n-1) & 31`; the mask is
   * sign-extended to `long` and the result cast back to `int`, so what is
   * kept is bit `(n-1) & 31` of `z` alone, in its `int` position.
   */
  function UintNBit(z: int, n: int): (r: int)
    requires IsInt64(z)
    ensures r == 0 || r == ToInt32(Pow(2, (n - 1) % 32))
    ensures r != 0 <==> Bit(Unsigned64(z), (n - 1) % 32) == 1
  {
    var k := (n - 1) % 32;
    Pow2Bound(k);
    if Bit(Unsigned64(z), k) == 1 then ToInt32(Pow(2, k)) else 0
  }

  /** What the "keep n bits" helper evidently means: the `n` low bits, `z & ((1L << n) - 1)`. */
  function UintNBitIntended(z: int, n: nat): (r: nat)
    requires IsInt64(z) && n <= 31
    ensures r < Pow(2, n)
    ensures 0 <= z < Pow(2, n) ==> r == z
  {
    Pow2Bound(n);
    if 0 <= z < Pow(2, n) then
      DivModUnique(z, TwoTo64, 0, z);
      DivModUnique(z, Pow(2, n), 0, z);
      Unsigned64(z) % Pow(2, n)
    else
      Unsigned64(z) % Pow(2, n)
  }

  /** With `z = 3, n = 2` the written mask keeps 2 where the two low bits are 3. */
  lemma UintNBitKeepsOneBit()
    ensures UintNBit(3, 2) == 2
    ensures UintNBitIntended(3, 2) == 3
  {
    assert Pow(2, 1) == 2;
    assert Pow(2, 2) == 4;
    assert Unsigned64(3) == 3;
    assert Bit(3, 1) == 1;
  }
}

=== FILE: enhanced_bootstrap.dfy ===
/**
 * `EnhancedRpcBootstrap`: an enhanced IOC container, an enhanced proxy
 * factory and an `RpcConfiguration`. `configure` merges the given
 * configuration into the one already held, `stop` empties the caches of the
 * container and the factory, and `getController` is the container's
 * lookup by type.
 */
module EnhancedBootstraps {
  import opened Wrappers
  import opened JavaText
  import opened MapWalks
  import opened IocContainers
  import opened EnhancedIocContainers
  import opened EnhancedProxyFactories

  /** The six fields of an `RpcConfiguration`, as a value; a `null` string is `None`. */
  datatype Configuration = Configuration(version: JString, runMode: JString, timeout: int,
                                         scanPackage: JString, enableCache: bool, enableLogging: bool)

  /** The field initialisers: version "v1", run mode "auto", 5000 ms, no package, cache and logging on. */
  function DefaultConfiguration(): (c: Configuration)
    ensures c.version == Some("v1") && c.runMode == Some("auto") && c.timeout == 5000
    ensures c.scanPackage == Some("") && c.enableCache && c.enableLogging
  {
    Configuration(Some("v1"), Some("auto"), 5000, Some(""), true, true)
  }

  /**
   * What `merge` leaves in `current`: each string of `other` that is not
   * `null`, its timeout when positive, and both of its flags whatever they are.
   */
  function Merged(current: Configuration, other: Configuration): Configuration
  {
    Configuration(if other.version.Some? then other.version else current.version,
                  if other.runMode.Some? then other.runMode else current.runMode,
                  if other.timeout > 0 then other.timeout else current.timeout,
                  if other.scanPackage.Some? then other.scanPackage else current.scanPackage,
                  other.enableCache, other.enableLogging)
  }

  /**
   * A `null` string or a non-positive timeout in `other` keeps the current
   * value; anything else is taken from `other`, and the two flags always are.
   */
  lemma MergeFieldByField(current: Configuration, other: Configuration)
    ensures var r := Merged(current, other);
      (other.version.None? ==> r.version == current.version)
      && (other.version.Some? ==> r.version == other.version)
      && (other.runMode.None? ==> r.runMode == current.runMode)
      && (other.runMode.Some? ==> r.runMode == other.runMode)
      && (other.timeout <= 0 ==> r.timeout == current.timeout)
      && (other.timeout > 0 ==> r.timeout == other.timeout)
      && (other.scanPackage.None? ==> r.scanPackage == current.scanPackage)
      && (other.scanPackage.Some? ==> r.scanPackage == other.scanPackage)
      && r.enableCache == other.enableCache && r.enableLogging == other.enableLogging
  {
  }

  /**
   * Merging the same configuration twice changes nothing more; merging two
   * in turn is merging, once, the second merged into the first; and
   * merging a freshly constructed configuration restores every default.
   */
  lemma MergeLaws(current: Configuration, a: Configuration, b: Configuration)
    ensures Merged(Merged(current, a), a) == Merged(current, a)
    ensures Merged(Merged(current, a), b) == Merged(current, Merged(a, b))
    ensures Merged(current, DefaultConfiguration()) == DefaultConfiguration()
  {
  }

  /** A setter of `RpcConfiguration`. */
  datatype Change =
    | Version(version: JString)
    | RunMode(runMode: JString)
    | Timeout(timeout: int)
    | ScanPackage(scanPackage: JString)
    | EnableCache(enableCache: bool)
    | EnableLogging(enableLogging: bool)

  function Apply(c: Configuration, change: Change): Configuration
  {
    match change
    case Version(v) => c.(version := v)
    case RunMode(m) => c.(runMode := m)
    case Timeout(t) => c.(timeout := t)
    case ScanPackage(p) => c.(scanPackage := p)
    case EnableCache(b) => c.(enableCache := b)
    case EnableLogging(b) => c.(enableLogging := b)
  }

  class RpcConfiguration {
    var version: JString
    var runMode: JString
    var timeout: int
    var scanPackage: JString
    var enableCache: bool
    var enableLogging: bool

    function Value(): Configuration
      reads this
    {
      Configuration(version, runMode, timeout, scanPackage, enableCache, enableLogging)
    }

    constructor ()
      ensures Value() == DefaultConfiguration()
    {
      version, runMode, timeout := Some("v1"), Some("auto"), 5000;
      scanPackage, enableCache, enableLogging := Some(""), true, true;
    }

    /** A setter: its own field changes, no other. */
    method Set(change: Change)
      modifies this
      ensures Value() == Apply(old(Value()), change)
    {
      match change
      case Version(v) => version := v;
      case RunMode(m) => runMode := m;
      case Timeout(t) => timeout := t;
      case ScanPackage(p) => scanPackage := p;
      case EnableCache(b) => enableCache := b;
      case EnableLogging(b) => enableLogging := b;
    }

    /** `merge`: field by field, as `Merged` says; `other` may be this very object. */
    method Merge(other: RpcConfiguration)
      modifies this
      ensures Value() == Merged(old(Value()), old(other.Value()))
    {
      if other.version.Some? { version := other.version; }
      if other.runMode.Some? { runMode := other.runMode; }
      if other.timeout > 0 { timeout := other.timeout; }
      if other.scanPackage.Some? { scanPackage := other.scanPackage; }
      enableCache := other.enableCache;
      enableLogging := other.enableLogging;
    }
  }

  class EnhancedRpcBootstrap {
    const iocContainer: EnhancedIOCContainer
    const proxyFactory: EnhancedDynamicProxyFactory
    const configuration: RpcConfiguration

    /** The container is the shared instance, passed in; the factory and the configuration are new. */
    constructor (iocContainer: EnhancedIOCContainer)
      ensures this.iocContainer == iocContainer && fresh(proxyFactory) && fresh(configuration)
      ensures proxyFactory.Valid() && proxyFactory.proxyCache == map[]
      ensures configuration.Value() == DefaultConfiguration()
    {
      this.iocContainer := iocContainer;
      proxyFactory := new EnhancedDynamicProxyFactory();
      configuration := new RpcConfiguration();
    }

    /** `configure`: the held configuration absorbs `config`; it is never replaced. */
    method Configure(config: RpcConfiguration)
      modifies configuration
      ensures configuration.Value() == Merged(old(configuration.Value()), old(config.Value()))
    {
      configuration.Merge(config);
    }

    /** `stop`: every cache of the container and of the factory emptied. */
    method Stop()
      modifies iocContainer, proxyFactory
      ensures iocContainer.singletonCache == map[] && iocContainer.beanDefinitionCache == map[]
      ensures iocContainer.methodInfoCache == map[] && iocContainer.dependencyCache == map[]
      ensures proxyFactory.Valid()
      ensures proxyFactory.proxyCache == map[] && proxyFactory.methodInfoCache == map[]
      ensures proxyFactory.handlerCache == map[]
    {
      iocContainer.ClearCache();
      proxyFactory.ClearCache();
    }

    /**
     * `getController`: a singleton of the class if there is one, else
     * `getBean` on the name recorded in the first definition of the class.
     */
    method GetController(target: string, singletonOrder: seq<string>, definitionOrder: seq<string>)
      returns (r: BeanLookup)
      requires IterationOrder(iocContainer.singletonCache, singletonOrder)
      requires IterationOrder(iocContainer.beanDefinitionCache, definitionOrder)
      modifies iocContainer
      ensures var s := FirstAssignable(old(iocContainer.singletonCache), singletonOrder, target);
        s.Some? ==> r == Found(s.value) && iocContainer.singletonCache == old(iocContainer.singletonCache)
      ensures (FirstAssignable(old(iocContainer.singletonCache), singletonOrder, target).None?
               && FirstDefinition(old(iocContainer.beanDefinitionCache), definitionOrder, target).None?)
              ==> r == Absent && iocContainer.singletonCache == old(iocContainer.singletonCache)
      ensures iocContainer.beanDefinitionCache == old(iocContainer.beanDefinitionCache)
      ensures iocContainer.methodInfoCache == old(iocContainer.methodInfoCache)
      ensures iocContainer.dependencyCache == old(iocContainer.dependencyCache)
      ensures var d := FirstDefinition(old(iocContainer.beanDefinitionCache), definitionOrder, target);
        FirstAssignable(old(iocContainer.singletonCache), singletonOrder, target).None? && d.Some? ==>
          iocContainer.NamedLookup(d.value.beanName, r)
    {
      r := iocContainer.GetBeanByType(target, singletonOrder, definitionOrder);
    }
  }

  /**
   * Two `configure` calls: the first switches logging off and the version
   * to "v2"; the second only names a scan package, yet, because the flags
   * are always copied, it switches logging back on. The version survives.
   */
  method ConfigureTwice(ioc: EnhancedIOCContainer) returns (result: Configuration)
    ensures result == Configuration(Some("v2"), Some("auto"), 5000, Some("com.example"), true, true)
  {
    var bootstrap := new EnhancedRpcBootstrap(ioc);
    var first := new RpcConfiguration();
    first.Set(Version(Some("v2")));
    first.Set(EnableLogging(false));
    first.Set(Timeout(0));
    bootstrap.Configure(first);
    assert bootstrap.configuration.Value() == Configuration(Some("v2"), Some("auto"), 5000, Some(""), true, false);
    var second := new RpcConfiguration();
    second.Set(Version(None));
    second.Set(ScanPackage(Some("com.example")));
    bootstrap.Configure(second);
    result := bootstrap.configuration.Value();
  }
}

=== FILE: ioc_container.dfy ===
/**
 * `IOCContainer`: a bean cache by name, a table of bean definitions by name
 * and a method-info cache that nothing fills. `getBean(name)` answers from
 * the bean cache, else instantiates the definition's class once and caches
 * the new bean; `getBean(Class)` looks among instantiated beans only.
 *
 * A bean is an object of the model's `Instance` class, so a bean made by
 * `newInstance` is a freshly allocated one. A class is recorded with the
 * names it is assignable to and whether `newInstance` can build it.
 */
module IocContainers {
  import opened Wrappers
  import opened JavaText
  import opened Reflect
  import opened MapWalks

  /** A class as `isAssignableFrom` and `newInstance` see it. */
  datatype BeanClass = BeanClass(name: string, supertypes: set<string>, instantiable: bool)

  /** `target.isAssignableFrom(cls)`: the class itself or one of its supertypes. */
  predicate AssignableFrom(target: string, cls: BeanClass)
  {
    target == cls.name || target in cls.supertypes
  }

  /** An object held by a container; its class never changes. */
  class Instance {
    const cls: BeanClass

    constructor (cls: BeanClass)
      ensures this.cls == cls
    {
      this.cls := cls;
    }
  }

  /** How `getBean` ends: the bean, `null`, or the `RuntimeException` thrown when `newInstance` fails. */
  datatype BeanLookup = Found(bean: Instance) | Absent | CreationFailed(message: string)

  function CreationFailure(beanName: string): string
  {
    "创建Bean失败: " + beanName
  }

  datatype BeanDefinition = BeanDefinition(beanName: string, beanClass: BeanClass, version: JString)

  /** The first bean, in walk order, whose class is assignable to `target`. */
  function FirstAssignable(cache: map<string, Instance>, order: seq<string>, target: string): Option<Instance>
  {
    if |order| == 0 then None
    else if order[0] in cache && AssignableFrom(target, cache[order[0]].cls) then Some(cache[order[0]])
    else FirstAssignable(cache, order[1..], target)
  }

  /**
   * The type lookup finds a bean of the type exactly when the cache holds
   * one, and what it finds is a cached bean of that type.
   */
  lemma {:induction false} FirstAssignableSound(cache: map<string, Instance>, order: seq<string>, target: string)
    requires IterationOrder(cache, order)
    ensures var r := FirstAssignable(cache, order, target);
      (r.Some? ==> AssignableFrom(target, r.value.cls) && exists k :: k in cache && cache[k] == r.value)
      && (r.None? ==> forall k :: k in cache ==> !AssignableFrom(target, cache[k].cls))
  {
    FirstAssignableWalk(cache, order, target);
  }

  lemma {:induction false} FirstAssignableWalk(cache: map<string, Instance>, order: seq<string>, target: string)
    ensures var r := FirstAssignable(cache, order, target);
      (r.Some? ==> AssignableFrom(target, r.value.cls) && exists k :: k in order && k in cache && cache[k] == r.value)
      && (r.None? ==> forall k :: k in order && k in cache ==> !AssignableFrom(target, cache[k].cls))
  {
    if |order| > 0 {
      FirstAssignableWalk(cache, order[1..], target);
      var r := FirstAssignable(cache, order, target);
      if !(order[0] in cache && AssignableFrom(target, cache[order[0]].cls)) {
        assert r == FirstAssignable(cache, order[1..], target);
        assert forall k :: k in order ==> k == order[0] || k in order[1..];
        if r.Some? {
          var k :| k in order[1..] && k in cache && cache[k] == r.value;
          assert k in order;
        }
      }
    }
  }

  /** The walk over `values()` that `getBean(Class)` makes. */
  method FindAssignable(cache: map<string, Instance>, order: seq<string>, target: string) returns (r: Option<Instance>)
    ensures r == FirstAssignable(cache, order, target)
  {
    var i := 0;
    while i < |order|
      invariant 0 <= i <= |order|
      invariant FirstAssignable(cache, order, target) == FirstAssignable(cache, order[i..], target)
    {
      var key := order[i];
      assert order[i..][1..] == order[i + 1..];
      if key in cache && AssignableFrom(target, cache[key].cls) {
        return Some(cache[key]);
      }
      i := i + 1;
    }
    return None;
  }

  class IOCContainer {
    var beanCache: map<string, Instance>
    var beanDefinitionCache: map<string, BeanDefinition>
    var methodInfoCache: map<string, ObjRef>

    /** The one instance `getInstance` hands out starts with three empty caches. */
    constructor ()
      ensures beanCache == map[] && beanDefinitionCache == map[] && methodInfoCache == map[]
    {
      beanCache, beanDefinitionCache, methodInfoCache := map[], map[], map[];
    }

    /** `registerBean`: inserts or overwrites one bean. */
    method RegisterBean(beanName: string, bean: Instance)
      modifies this
      ensures beanCache == old(beanCache)[beanName := bean]
      ensures beanDefinitionCache == old(beanDefinitionCache) && methodInfoCache == old(methodInfoCache)
    {
      beanCache := beanCache[beanName := bean];
    }

    /** `registerBeanDefinition`: inserts or overwrites one definition. */
    method RegisterBeanDefinition(beanName: string, definition: BeanDefinition)
      modifies this
      ensures beanDefinitionCache == old(beanDefinitionCache)[beanName := definition]
      ensures beanCache == old(beanCache) && methodInfoCache == old(methodInfoCache)
    {
      beanDefinitionCache := beanDefinitionCache[beanName := definition];
    }

    /**
     * `getBean(name)`: a cached bean as it is; else a new instance of the
     * definition's class, cached under the name; else `null`.
     */
    method GetBean(beanName: string) returns (r: BeanLookup)
      modifies this
      ensures beanName in old(beanCache) ==> r == Found(old(beanCache)[beanName]) && beanCache == old(beanCache)
      ensures beanName !in old(beanCache) && beanName in beanDefinitionCache
              && beanDefinitionCache[beanName].beanClass.instantiable ==>
                r.Found? && fresh(r.bean) && r.bean.cls == beanDefinitionCache[beanName].beanClass
                && beanCache == old(beanCache)[beanName := r.bean]
      ensures beanName !in old(beanCache) && beanName in beanDefinitionCache
              && !beanDefinitionCache[beanName].beanClass.instantiable ==>
                r == CreationFailed(CreationFailure(beanName)) && beanCache == old(beanCache)
      ensures beanName !in old(beanCache) && beanName !in beanDefinitionCache ==>
                r == Absent && beanCache == old(beanCache)
      ensures beanDefinitionCache == old(beanDefinitionCache) && methodInfoCache == old(methodInfoCache)
    {
      if beanName in beanCache {
        return Found(beanCache[beanName]);
      }
      if beanName in beanDefinitionCache {
        var definition := beanDefinitionCache[beanName];
        if !definition.beanClass.instantiable {
          return CreationFailed(CreationFailure(beanName));
        }
        var bean := new Instance(definition.beanClass);
        beanCache := beanCache[beanName := bean];
        return Found(bean);
      }
      return Absent;
    }

    /** `getBean(Class)`: the first instantiated bean of the type, walking the cache in `order`; definitions are not consulted. */
    method GetBeanByType(target: string, order: seq<string>) returns (r: Option<Instance>)
      requires IterationOrder(beanCache, order)
      ensures r == FirstAssignable(beanCache, order, target)
      ensures r.Some? ==> AssignableFrom(target, r.value.cls) && exists k :: k in beanCache && beanCache[k] == r.value
      ensures r.None? ==> forall k :: k in beanCache ==> !AssignableFrom(target, beanCache[k].cls)
    {
      r := FindAssignable(beanCache, order, target);
      FirstAssignableSound(beanCache, order, target);
    }

    method ContainsBean(beanName: string) returns (r: bool)
      ensures r <==> beanName in beanCache || beanName in beanDefinitionCache
    {
      r := beanName in beanCache || beanName in beanDefinitionCache;
    }

    /** `getBeanNames`: every name with a bean or a definition. */
    method GetBeanNames() returns (names: set<string>)
      ensures forall n :: n in names <==> n in beanCache || n in beanDefinitionCache
    {
      names := beanCache.Keys + beanDefinitionCache.Keys;
    }

    method GetBeanDefinition(beanName: string) returns (r: Option<BeanDefinition>)
      ensures beanName in beanDefinitionCache ==> r == Some(beanDefinitionCache[beanName])
      ensures beanName !in beanDefinitionCache ==> r == None
    {
      r := if beanName in beanDefinitionCache then Some(beanDefinitionCache[beanName]) else None;
    }

    /** `clearCache`: all three maps emptied. */
    method ClearCache()
      modifies this
      ensures beanCache == map[] && beanDefinitionCache == map[] && methodInfoCache == map[]
    {
      beanCache, beanDefinitionCache, methodInfoCache := map[], map[], map[];
    }
  }

  /**
   * A bean made from its definition is made once: the second `getBean`
   * returns the very object the first one created, and it is then also
   * found by type.
   */
  method DefinitionInstantiatedOnce() returns (first: BeanLookup, second: BeanLookup, byType: Option<Instance>)
    ensures first.Found? && second == first
    ensures byType == Some(first.bean)
  {
    var ioc := new IOCContainer();
    var cls := BeanClass("com.example.EchoService", {"com.example.Echo"}, true);
    ioc.RegisterBeanDefinition("echo", BeanDefinition("echo", cls, Some("v1")));
    first := ioc.GetBean("echo");
    second := ioc.GetBean("echo");
    assert ioc.beanCache == map["echo" := first.bean];
    byType := ioc.GetBeanByType("com.example.Echo", ["echo"]);
  }

  /** Before `getBean(name)` instantiates it, a defined bean is invisible to `getBean(Class)`. */
  method TypeLookupIgnoresDefinitions() returns (contained: bool, byType: Option<Instance>, unknown: BeanLookup)
    ensures contained && byType == None && unknown == Absent
  {
    var ioc := new IOCContainer();
    var cls := BeanClass("com.example.EchoService", {"com.example.Echo"}, true);
    ioc.RegisterBeanDefinition("echo", BeanDefinition("echo", cls, Some("v1")));
    contained := ioc.ContainsBean("echo");
    byType := ioc.GetBeanByType("com.example.Echo", []);
    unknown := ioc.GetBean("missing");
  }
}

=== FILE: ioc_enhanced.dfy ===
/**
 * `EnhancedIOCContainer`: singletons by name, bean definitions by name
 * (each marked singleton or prototype), a method-info cache and a
 * dependency cache that nothing fills. `getBean(name)` creates a bean from
 * its definition on every call, and keeps it only when the definition is a
 * singleton; `getBean(Class)` tries the singletons, then the definitions.
 */
module EnhancedIocContainers {
  import opened Wrappers
  import opened JavaText
  import opened Reflect
  import opened MapWalks
  import opened IocContainers

  datatype BeanDefinition = BeanDefinition(beanName: string, beanClass: BeanClass, version: JString, singleton: bool)

  /** The three-argument `BeanDefinition` constructor: a singleton. */
  function SingletonDefinition(beanName: string, beanClass: BeanClass, version: JString): (d: BeanDefinition)
    ensures d.singleton
    ensures d.beanName == beanName && d.beanClass == beanClass && d.version == version
  {
    BeanDefinition.BeanDefinition(beanName, beanClass, version, true)
  }

  /** `getCacheStats`: the sizes of the four caches. */
  datatype CacheStats = CacheStats(singletonCount: nat, beanDefinitionCount: nat, methodInfoCount: nat,
                                   dependencyCount: nat)

  /** The first definition, in walk order, whose bean class is assignable to `target`. */
  function FirstDefinition(defs: map<string, BeanDefinition>, order: seq<string>, target: string): Option<BeanDefinition>
  {
    if |order| == 0 then None
    else if order[0] in defs && AssignableFrom(target, defs[order[0]].beanClass) then Some(defs[order[0]])
    else FirstDefinition(defs, order[1..], target)
  }

  /** The definition walk finds one exactly when some definition's class is of the type. */
  lemma {:induction false} FirstDefinitionSound(defs: map<string, BeanDefinition>, order: seq<string>, target: string)
    requires IterationOrder(defs, order)
    ensures var r := FirstDefinition(defs, order, target);
      (r.Some? ==> AssignableFrom(target, r.value.beanClass) && exists k :: k in defs && defs[k] == r.value)
      && (r.None? ==> forall k :: k in defs ==> !AssignableFrom(target, defs[k].beanClass))
  {
    FirstDefinitionWalk(defs, order, target);
  }

  lemma {:induction false} FirstDefinitionWalk(defs: map<string, BeanDefinition>, order: seq<string>, target: string)
    ensures var r := FirstDefinition(defs, order, target);
      (r.Some? ==> AssignableFrom(target, r.value.beanClass) && exists k :: k in order && k in defs && defs[k] == r.value)
      && (r.None? ==> forall k :: k in order && k in defs ==> !AssignableFrom(target, defs[k].beanClass))
  {
    if |order| > 0 {
      FirstDefinitionWalk(defs, order[1..], target);
      var r := FirstDefinition(defs, order, target);
      if !(order[0] in defs && AssignableFrom(target, defs[order[0]].beanClass)) {
        assert forall k :: k in order ==> k == order[0] || k in order[1..];
        if r.Some? {
          var k :| k in order[1..] && k in defs && defs[k] == r.value;
          assert k in order;
        }
      }
    }
  }

  /** The walk over the definitions that `getBean(Class)` makes once no singleton matched. */
  method FindDefinition(defs: map<string, BeanDefinition>, order: seq<string>, target: string)
    returns (r: Option<BeanDefinition>)
    ensures r == FirstDefinition(defs, order, target)
  {
    var i := 0;
    while i < |order|
      invariant 0 <= i <= |order|
      invariant FirstDefinition(defs, order, target) == FirstDefinition(defs, order[i..], target)
    {
      var key := order[i];
      assert order[i..][1..] == order[i + 1..];
      if key in defs && AssignableFrom(target, defs[key].beanClass) {
        return Some(defs[key]);
      }
      i := i + 1;
    }
    return None;
  }

  class EnhancedIOCContainer {
    var singletonCache: map<string, Instance>
    var beanDefinitionCache: map<string, BeanDefinition>
    var methodInfoCache: map<string, ObjRef>
    var dependencyCache: map<string, set<string>>

    constructor ()
      ensures singletonCache == map[] && beanDefinitionCache == map[]
      ensures methodInfoCache == map[] && dependencyCache == map[]
    {
      singletonCache, beanDefinitionCache := map[], map[];
      methodInfoCache, dependencyCache := map[], map[];
    }

    /** `registerSingleton`: inserts or overwrites one singleton. */
    method RegisterSingleton(beanName: string, bean: Instance)
      modifies this
      ensures singletonCache == old(singletonCache)[beanName := bean]
      ensures beanDefinitionCache == old(beanDefinitionCache) && methodInfoCache == old(methodInfoCache)
      ensures dependencyCache == old(dependencyCache)
    {
      singletonCache := singletonCache[beanName := bean];
    }

    /** `registerBeanDefinition`: inserts or overwrites one definition. */
    method RegisterBeanDefinition(beanName: string, definition: BeanDefinition)
      modifies this
      ensures beanDefinitionCache == old(beanDefinitionCache)[beanName := definition]
      ensures singletonCache == old(singletonCache) && methodInfoCache == old(methodInfoCache)
      ensures dependencyCache == old(dependencyCache)
    {
      beanDefinitionCache := beanDefinitionCache[beanName := definition];
    }

    /**
     * What `getBean(name)` does: a singleton as it is; else a new instance
     * of the definition's class, kept under the name only for a singleton
     * definition; else `null`. Only the singleton cache can change.
     */
    twostate predicate NamedLookup(beanName: string, new r: BeanLookup)
      reads this
    {
      && beanDefinitionCache == old(beanDefinitionCache) && methodInfoCache == old(methodInfoCache)
      && dependencyCache == old(dependencyCache)
      && (beanName in old(singletonCache) ==>
            r == Found(old(singletonCache)[beanName]) && singletonCache == old(singletonCache))
      && (beanName !in old(singletonCache) && beanName !in beanDefinitionCache ==>
            r == Absent && singletonCache == old(singletonCache))
      && (beanName !in old(singletonCache) && beanName in beanDefinitionCache ==>
            var definition := beanDefinitionCache[beanName];
            (!definition.beanClass.instantiable ==>
               r == CreationFailed(CreationFailure(beanName)) && singletonCache == old(singletonCache))
            && (definition.beanClass.instantiable ==>
                  r.Found? && fresh(r.bean) && r.bean.cls == definition.beanClass
                  && singletonCache == if definition.singleton then old(singletonCache)[beanName := r.bean]
                                       else old(singletonCache)))
    }

    /** `getBean(name)`. */
    method GetBean(beanName: string) returns (r: BeanLookup)
      modifies this
      ensures NamedLookup(beanName, r)
    {
      if beanName in singletonCache {
        return Found(singletonCache[beanName]);
      }
      if beanName in beanDefinitionCache {
        var definition := beanDefinitionCache[beanName];
        if !definition.beanClass.instantiable {
          return CreationFailed(CreationFailure(beanName));
        }
        var bean := new Instance(definition.beanClass);
        if definition.singleton {
          singletonCache := singletonCache[beanName := bean];
        }
        return Found(bean);
      }
      return Absent;
    }

    /**
     * `getBean(Class)`: the first singleton of the type; failing that,
     * `getBean` on the name recorded inside the first definition of the
     * type (not the key it was registered under); failing that, `null`.
     */
    method GetBeanByType(target: string, singletonOrder: seq<string>, definitionOrder: seq<string>)
      returns (r: BeanLookup)
      requires IterationOrder(singletonCache, singletonOrder)
      requires IterationOrder(beanDefinitionCache, definitionOrder)
      modifies this
      ensures var s := FirstAssignable(old(singletonCache), singletonOrder, target);
        s.Some? ==> r == Found(s.value) && singletonCache == old(singletonCache)
      ensures var d := FirstDefinition(old(beanDefinitionCache), definitionOrder, target);
        FirstAssignable(old(singletonCache), singletonOrder, target).None? && d.None? ==>
          r == Absent && singletonCache == old(singletonCache)
      ensures var d := FirstDefinition(old(beanDefinitionCache), definitionOrder, target);
        FirstAssignable(old(singletonCache), singletonOrder, target).None? && d.Some? ==>
          NamedLookup(d.value.beanName, r)
      ensures beanDefinitionCache == old(beanDefinitionCache) && methodInfoCache == old(methodInfoCache)
      ensures dependencyCache == old(dependencyCache)
    {
      var s := FindAssignable(singletonCache, singletonOrder, target);
      if s.Some? {
        return Found(s.value);
      }
      var d := FindDefinition(beanDefinitionCache, definitionOrder, target);
      if d.Some? {
        r := GetBean(d.value.beanName);
        return;
      }
      return Absent;
    }

    method ContainsBean(beanName: string) returns (r: bool)
      ensures r <==> beanName in singletonCache || beanName in beanDefinitionCache
    {
      r := beanName in singletonCache || beanName in beanDefinitionCache;
    }

    /** `getBeanNames`: every name with a singleton or a definition. */
    method GetBeanNames() returns (names: set<string>)
      ensures forall n :: n in names <==> n in singletonCache || n in beanDefinitionCache
    {
      names := singletonCache.Keys + beanDefinitionCache.Keys;
    }

    method GetBeanDefinition(beanName: string) returns (r: Option<BeanDefinition>)
      ensures beanName in beanDefinitionCache ==> r == Some(beanDefinitionCache[beanName])
      ensures beanName !in beanDefinitionCache ==> r == None
    {
      r := if beanName in beanDefinitionCache then Some(beanDefinitionCache[beanName]) else None;
    }

    /** `cacheMethodInfo`: inserts or overwrites one entry. */
    method CacheMethodInfo(methodKey: string, info: ObjRef)
      modifies this
      ensures methodInfoCache == old(methodInfoCache)[methodKey := info]
      ensures singletonCache == old(singletonCache) && beanDefinitionCache == old(beanDefinitionCache)
      ensures dependencyCache == old(dependencyCache)
    {
      methodInfoCache := methodInfoCache[methodKey := info];
    }

    /** `getMethodInfo`: the stored entry, or `null`. */
    method GetMethodInfo(methodKey: string) returns (r: Option<ObjRef>)
      ensures methodKey in methodInfoCache ==> r == Some(methodInfoCache[methodKey])
      ensures methodKey !in methodInfoCache ==> r == None
    {
      r := if methodKey in methodInfoCache then Some(methodInfoCache[methodKey]) else None;
    }

    /** `clearCache`: all four maps emptied. */
    method ClearCache()
      modifies this
      ensures singletonCache == map[] && beanDefinitionCache == map[]
      ensures methodInfoCache == map[] && dependencyCache == map[]
    {
      singletonCache, beanDefinitionCache := map[], map[];
      methodInfoCache, dependencyCache := map[], map[];
    }

    method GetCacheStats() returns (stats: CacheStats)
      ensures stats == CacheStats(|singletonCache|, |beanDefinitionCache|, |methodInfoCache|, |dependencyCache|)
    {
      stats := CacheStats(|singletonCache|, |beanDefinitionCache|, |methodInfoCache|, |dependencyCache|);
    }
  }

  /** A prototype definition yields a new object on every `getBean`, and none is kept. */
  method PrototypeYieldsFreshBeans() returns (first: BeanLookup, second: BeanLookup, kept: nat)
    ensures first.Found? && second.Found? && first.bean != second.bean && kept == 0
  {
    var ioc := new EnhancedIOCContainer();
    var cls := BeanClass("com.example.Task", {}, true);
    ioc.RegisterBeanDefinition("task", BeanDefinition.BeanDefinition("task", cls, Some("v1"), false));
    first := ioc.GetBean("task");
    second := ioc.GetBean("task");
    var stats := ioc.GetCacheStats();
    kept := stats.singletonCount;
  }

  /**
   * `getBean(Class)` instantiates a singleton definition of the type and
   * keeps it, so a second lookup returns the same object from the singletons.
   */
  method TypeLookupInstantiates() returns (first: BeanLookup, second: BeanLookup)
    ensures first.Found? && second == first
  {
    var ioc := new EnhancedIOCContainer();
    var cls := BeanClass("com.example.EchoService", {"com.example.Echo"}, true);
    ioc.RegisterBeanDefinition("echo", SingletonDefinition("echo", cls, None));
    first := ioc.GetBeanByType("com.example.Echo", [], ["echo"]);
    assert ioc.singletonCache == map["echo" := first.bean];
    second := ioc.GetBeanByType("com.example.Echo", ["echo"], ["echo"]);
  }

  /** A definition registered under a key other than its own name is found by type, yet the lookup by its name finds nothing. */
  method DefinitionNameMismatch() returns (r: BeanLookup)
    ensures r == Absent
  {
    var ioc := new EnhancedIOCContainer();
    var cls := BeanClass("com.example.EchoService", {"com.example.Echo"}, true);
    ioc.RegisterBeanDefinition("echo", SingletonDefinition("echoService", cls, None));
    r := ioc.GetBeanByType("com.example.Echo", [], ["echo"]);
  }

  /** After `clearCache` every count is zero. */
  method ClearedStats(name: string, bean: Instance, key: string, info: ObjRef) returns (stats: CacheStats)
    ensures stats == CacheStats(0, 0, 0, 0)
  {
    var ioc := new EnhancedIOCContainer();
    ioc.RegisterSingleton(name, bean);
    ioc.CacheMethodInfo(key, info);
    ioc.ClearCache();
    stats := ioc.GetCacheStats();
  }

  /** A cached method info is read back unchanged, and overwritten by the next entry under its key. */
  method MethodInfoRoundTrip(key: string, a: ObjRef, b: ObjRef) returns (first: Option<ObjRef>, second: Option<ObjRef>)
    ensures first == Some(a) && second == Some(b)
  {
    var ioc := new EnhancedIOCContainer();
    ioc.CacheMethodInfo(key, a);
    first := ioc.GetMethodInfo(key);
    ioc.CacheMethodInfo(key, b);
    second := ioc.GetMethodInfo(key);
  }
}

=== FILE: java_text.dfy ===
/**
 * The few pieces of Java and C# runtime text and integer semantics that the
 * RPC core leans on: string concatenation of possibly-null references,
 * decimal rendering of integers, truncating remainder, 32-bit wrap-around and
 * `String.hashCode`.
 */
module JavaText {
  import opened Wrappers

  /** A possibly-null string reference. */
  type JString = Option<string>

  /** How Java's `+` renders a string reference: `null` becomes the text "null". */
  function JavaStr(s: JString): string
  {
    match s
    case None => "null"
    case Some(v) => v
  }

  /** How a C# interpolated string `$"{s}"` renders a reference: `null` becomes "". */
  function NetStr(s: JString): string
  {
    match s
    case None => ""
    case Some(v) => v
  }

  predicate IsDecimalDigit(c: char)
  {
    '0' <= c <= '9'
  }

  /** Decimal digits of a natural number, most significant first, no leading zero. */
  function NatToString(n: nat): (r: string)
    ensures |r| >= 1
    ensures forall i :: 0 <= i < |r| ==> IsDecimalDigit(r[i])
    ensures n < 10 <==> |r| == 1
    decreases n
  {
    if n < 10 then ["0123456789"[n]]
    else NatToString(n / 10) + ["0123456789"[n % 10]]
  }

  /** `Integer.toString` / `Long.toString` / `%d`: a minus sign, then the digits of the magnitude. */
  function IntToString(i: int): string
  {
    if i < 0 then "-" + NatToString(-i) else NatToString(i)
  }

  /** The value of a string of decimal digits. */
  function DecimalValue(s: string): nat
    requires forall i :: 0 <= i < |s| ==> IsDecimalDigit(s[i])
  {
    if |s| == 0 then 0
    else
      var last := s[|s| - 1];
      assert IsDecimalDigit(last);
      10 * DecimalValue(s[..|s| - 1]) + (last as int - '0' as int)
  }

  /** Reading back the digits of `n` gives `n`. */
  lemma {:induction false} NatToStringRoundTrip(n: nat)
    ensures DecimalValue(NatToString(n)) == n
    decreases n
  {
    if n >= 10 {
      var r := NatToString(n);
      assert r[..|r| - 1] == NatToString(n / 10);
      NatToStringRoundTrip(n / 10);
    }
  }

  /** Distinct naturals render as distinct decimal texts. */
  lemma NatToStringInjective(a: nat, b: nat)
    requires NatToString(a) == NatToString(b)
    ensures a == b
  {
    NatToStringRoundTrip(a);
    NatToStringRoundTrip(b);
  }

  /** The text of `i` starts with a minus sign exactly when `i` is negative. */
  lemma IntToStringSign(i: int)
    ensures |IntToString(i)| >= 1
    ensures IntToString(i)[0] == '-' <==> i < 0
  {
    if i >= 0 {
      assert IsDecimalDigit(NatToString(i)[0]);
    }
  }

  /** Distinct integers render as distinct decimal texts. */
  lemma IntToStringInjective(a: int, b: int)
    requires IntToString(a) == IntToString(b)
    ensures a == b
  {
    IntToStringSign(a);
    IntToStringSign(b);
    if a < 0 {
      assert NatToString(-a) == IntToString(a)[1..];
      assert NatToString(-b) == IntToString(b)[1..];
      NatToStringInjective(-a, -b);
    } else {
      NatToStringInjective(a, b);
    }
  }

  function Abs(x: int): nat
  {
    if x < 0 then -x else x
  }

  /** Java's `/`: the quotient truncated toward zero. */
  function JavaQuot(a: int, b: int): int
    requires b != 0
  {
    if (a >= 0) == (b > 0) then Abs(a) / Abs(b) else -(Abs(a) / Abs(b))
  }

  /**
   * Java's `%`: the remainder of division truncated toward zero, so it
   * takes the sign of the dividend (Dafny's own `%` never goes negative).
   */
  function JavaRem(a: int, b: int): (r: int)
    requires b != 0
    ensures Abs(r) < Abs(b)
    ensures r > 0 ==> a > 0
    ensures r < 0 ==> a < 0
  {
    var m := Abs(b);
    RemainderBound(Abs(a), m);
    var rem := Abs(a) % m;
    if a >= 0 then rem else -rem
  }

  /** The Euclidean remainder by a positive divisor lies below it, and that of 0 is 0. */
  lemma RemainderBound(x: nat, m: nat)
    requires m > 0
    ensures 0 <= x % m < m
    ensures x == 0 ==> x % m == 0
  {
  }

  /** Java's quotient and remainder put the dividend back together: `(a / b) * b + a % b == a`. */
  lemma JavaQuotRem(a: int, b: int)
    requires b != 0
    ensures JavaQuot(a, b) * b + JavaRem(a, b) == a
  {
    var m := Abs(b);
    var q := Abs(a) / m;
    var rem := Abs(a) % m;
    assert Abs(a) == q * m + rem;
    if b > 0 {
      assert m == b;
    } else {
      assert m == -b;
      assert q * m == -(q * b);
    }
  }

  const TwoTo31: int := 0x8000_0000
  const TwoTo32: int := 0x1_0000_0000

  predicate IsInt32(x: int)
  {
    -TwoTo31 <= x < TwoTo31
  }

  const TwoTo63: int := 0x8000_0000_0000_0000

  /** A value of Java's `long`. */
  predicate IsInt64(x: int)
  {
    -TwoTo63 <= x < TwoTo63
  }

  /** Java `int` arithmetic: keep the low 32 bits as a two's complement value. */
  function ToInt32(x: int): (r: int)
    ensures IsInt32(r)
    ensures (x - r) % TwoTo32 == 0
    ensures IsInt32(x) ==> r == x
  {
    var low := x % TwoTo32;
    if low < TwoTo31 then low else low - TwoTo32
  }

  /** `String.hashCode`: `h = 31 * h + c` over the characters, wrapping at 32 bits. */
  function StringHash(s: string): (r: int)
    ensures IsInt32(r)
  {
    if |s| == 0 then 0
    else ToInt32(31 * StringHash(s[..|s| - 1]) + s[|s| - 1] as int)
  }

  /** The elements of `parts` separated by `sep`, as `String.join` builds them. */
  function Join(sep: string, parts: seq<string>): string
  {
    if |parts| == 0 then ""
    else if |parts| == 1 then parts[0]
    else Join(sep, parts[..|parts| - 1]) + sep + parts[|parts| - 1]
  }
}

=== FILE: map_walks.dfy ===
/**
 * The order in which a Java hash map hands out its entries is not
 * specified. Loops over `keySet()`, `values()` or a sorted stream of them
 * are modelled by taking the walk order as a parameter: a listing of the
 * map's keys, each exactly once.
 */
module MapWalks {

  /** Each key of the map exactly once, and nothing else. */
  predicate IterationOrder<V>(m: map<string, V>, order: seq<string>)
  {
    (forall k :: k in m ==> k in order) && (forall i :: 0 <= i < |order| ==> order[i] in m)
    && forall i, j :: 0 <= i < j < |order| ==> order[i] != order[j]
  }
}

=== FILE: method_info.dfy ===
/**
 * `MethodInfo` of the core package: the reflective facts about one remote
 * method and a dispatch key that is built on construction or, after the
 * no-argument constructor, on first request.
 */
module MethodInfos {
  import opened Wrappers
  import opened JavaText
  import opened Reflect
  import opened MethodKeys

  class MethodInfo {
    /** The `method` field. */
    var reflected: Option<JMethod>
    var packageName: JString
    var fullName: JString
    /** Declared beside the names, but set by neither constructor. */
    var reqFullName: JString
    var className: JString
    var name: JString
    var responseType: Option<TypeRef>
    var reqTypes: Option<seq<TypeRef>>
    var version: JString
    var methodKey: JString

    /** The no-argument constructor: every field null, no key yet. */
    constructor Empty()
      ensures reflected == None && packageName == None && fullName == None && reqFullName == None
      ensures className == None && name == None && responseType == None
      ensures reqTypes == None && version == None && methodKey == None
    {
      reflected := None;
      packageName := None;
      fullName := None;
      reqFullName := None;
      className := None;
      name := None;
      responseType := None;
      reqTypes := None;
      version := None;
      methodKey := None;
    }

    /** Derives the names from the method and its declaring class, then builds the key. */
    constructor (m: JMethod, version: JString)
      ensures reflected == Some(m) && this.version == version
      ensures name == Some(m.name)
      ensures responseType == Some(m.returnType) && reqTypes == Some(m.parameterTypes)
      ensures className == Some(m.declaringClass.simpleName)
      ensures fullName == Some(m.declaringClass.name)
      ensures packageName == Some(m.declaringClass.packageName) && reqFullName == None
      ensures methodKey == Some(VersionedKey(version, Some(m.declaringClass.name), Some(m.name)))
    {
      reflected := Some(m);
      this.version := version;
      name := Some(m.name);
      responseType := Some(m.returnType);
      reqTypes := Some(m.parameterTypes);
      className := Some(m.declaringClass.simpleName);
      fullName := Some(m.declaringClass.name);
      packageName := Some(m.declaringClass.packageName);
      reqFullName := None;
      methodKey := Some(VersionedKey(version, Some(m.declaringClass.name), Some(m.name)));
    }

    /** `generateMethodKey`: version, full class name, ".", method name; no parameter types. */
    function GenerateMethodKey(): string
      reads this
    {
      VersionedKey(version, fullName, name)
    }

    /** The Lombok setters the no-argument path relies on. */
    method SetVersion(v: JString)
      modifies this
      ensures version == v
      ensures methodKey == old(methodKey) && fullName == old(fullName) && name == old(name)
      ensures reflected == old(reflected) && packageName == old(packageName) && reqFullName == old(reqFullName)
      ensures className == old(className) && responseType == old(responseType) && reqTypes == old(reqTypes)
    {
      version := v;
    }

    method SetFullName(f: JString)
      modifies this
      ensures fullName == f
      ensures methodKey == old(methodKey) && version == old(version) && name == old(name)
      ensures reflected == old(reflected) && packageName == old(packageName) && reqFullName == old(reqFullName)
      ensures className == old(className) && responseType == old(responseType) && reqTypes == old(reqTypes)
    {
      fullName := f;
    }

    method SetName(n: JString)
      modifies this
      ensures name == n
      ensures methodKey == old(methodKey) && version == old(version) && fullName == old(fullName)
      ensures reflected == old(reflected) && packageName == old(packageName) && reqFullName == old(reqFullName)
      ensures className == old(className) && responseType == old(responseType) && reqTypes == old(reqTypes)
    {
      name := n;
    }

    /** Computes and stores the key only while it is still null; afterwards returns the stored one. */
    method GetMethodKey() returns (k: string)
      modifies this
      ensures old(methodKey).Some? ==> k == old(methodKey).value
      ensures old(methodKey).None? ==> k == old(GenerateMethodKey())
      ensures methodKey == Some(k)
      ensures version == old(version) && fullName == old(fullName) && name == old(name)
      ensures reflected == old(reflected) && packageName == old(packageName) && reqFullName == old(reqFullName)
      ensures className == old(className) && responseType == old(responseType) && reqTypes == old(reqTypes)
    {
      if methodKey.None? {
        methodKey := Some(GenerateMethodKey());
      }
      k := methodKey.value;
    }
  }

  /**
   * The key of an info built by the no-argument constructor appears only on
   * the first request, and a later change of the name no longer affects it.
   */
  method LazyKeyIsFrozen() returns (before: JString, first: string, second: string)
    ensures before == None
    ensures first == "v1com.x.Svc.echo"
    ensures second == first
  {
    var info := new MethodInfo.Empty();
    info.SetVersion(Some("v1"));
    info.SetFullName(Some("com.x.Svc"));
    info.SetName(Some("echo"));
    before := info.methodKey;
    assert VersionedKey(Some("v1"), Some("com.x.Svc"), Some("echo")) == "v1com.x.Svc.echo";
    first := info.GetMethodKey();
    info.SetName(Some("other"));
    second := info.GetMethodKey();
  }

  /** Two overloads of one method get the same key: parameter types are not part of it. */
  method OverloadsShareKey(owner: TypeRef, ret: TypeRef, p: TypeRef) returns (k1: JString, k2: JString)
    ensures k1.Some? && k1 == k2
  {
    var a := new MethodInfo(JMethod("send", owner, ret, []), Some("v1"));
    var b := new MethodInfo(JMethod("send", owner, ret, [p]), Some("v1"));
    k1 := a.methodKey;
    k2 := b.methodKey;
  }
}

=== FILE: method_keys.dfy ===
/**
 * The dispatch key shared by `MethodRegistry`, `MethodInfo` and the two
 * dynamic proxy factories: the version, the owning type's full name, a dot
 * and the method name, run together by Java string concatenation.
 */
module MethodKeys {
  import opened Wrappers
  import opened JavaText

  /**
   * `version + owner + "." + name`. There is no separator between the
   * version and the owner, and a null part is rendered "null".
   */
  function VersionedKey(version: JString, owner: JString, name: JString): (r: string)
    ensures |r| == |JavaStr(version)| + |JavaStr(owner)| + 1 + |JavaStr(name)|
    ensures r[..|JavaStr(version)|] == JavaStr(version)
    ensures r[|JavaStr(version)|..|JavaStr(version)| + |JavaStr(owner)|] == JavaStr(owner)
    ensures r[|JavaStr(version)| + |JavaStr(owner)|] == '.'
    ensures r[|r| - |JavaStr(name)|..] == JavaStr(name)
  {
    var v := JavaStr(version);
    var o := JavaStr(owner);
    var n := JavaStr(name);
    var r := v + o + "." + n;
    assert r[..|v|] == v;
    assert r[|v|..|v| + |o|] == o;
    assert r[|r| - |n|..] == n;
    r
  }

  /** Under one version and owner, two names share a key exactly when they render alike. */
  lemma VersionedKeyNameInjective(version: JString, owner: JString, a: JString, b: JString)
    ensures VersionedKey(version, owner, a) == VersionedKey(version, owner, b)
        <==> JavaStr(a) == JavaStr(b)
  {
    var ka := VersionedKey(version, owner, a);
    var kb := VersionedKey(version, owner, b);
    if ka == kb {
      var p := |JavaStr(version)| + |JavaStr(owner)| + 1;
      assert JavaStr(a) == ka[p..];
      assert JavaStr(b) == kb[p..];
    }
  }

  /** The missing separator lets two different (version, owner) pairs share a key. */
  lemma VersionedKeyBoundaryCollision()
    ensures VersionedKey(Some("v1"), Some("com.A"), Some("m"))
         == VersionedKey(Some("v1c"), Some("om.A"), Some("m"))
  {
  }

  /** A null version (or owner, or name) cannot be told apart from the text "null". */
  lemma VersionedKeyNullIsText(owner: JString, name: JString)
    ensures VersionedKey(None, owner, name) == VersionedKey(Some("null"), owner, name)
  {
  }
}

=== FILE: method_registry.dfy ===
/**
 * `MethodRegistry`: the per-interface table from dispatch key to
 * `MethodInfo`. Callers pass bare method names; the table is keyed by the
 * full versioned key, so overloads of one name collapse into one entry.
 */
module MethodRegistries {
  import opened Wrappers
  import opened JavaText
  import opened MethodKeys
  import opened MethodInfos

  class MethodRegistry {
    var methodMap: map<string, MethodInfo>
    const version: JString
    const interfaceFullName: JString

    constructor (version: JString, interfaceFullName: JString)
      ensures methodMap == map[]
      ensures this.version == version && this.interfaceFullName == interfaceFullName
    {
      methodMap := map[];
      this.version := version;
      this.interfaceFullName := interfaceFullName;
    }

    /** `generateKey`: the registry's version and interface name in front of the bare name. */
    function GenerateKey(methodName: JString): string
    {
      VersionedKey(version, interfaceFullName, methodName)
    }

    /** Inserts or overwrites the entry for the name's key; nothing else changes. */
    method RegisterMethod(methodName: JString, info: MethodInfo)
      modifies this
      ensures methodMap == old(methodMap)[GenerateKey(methodName) := info]
    {
      methodMap := methodMap[GenerateKey(methodName) := info];
    }

    method GetMethod(methodName: JString) returns (r: Option<MethodInfo>)
      ensures GenerateKey(methodName) in methodMap ==> r == Some(methodMap[GenerateKey(methodName)])
      ensures GenerateKey(methodName) !in methodMap ==> r == None
    {
      var key := GenerateKey(methodName);
      if key in methodMap {
        r := Some(methodMap[key]);
      } else {
        r := None;
      }
    }

    method ContainsMethod(methodName: JString) returns (r: bool)
      ensures r <==> GenerateKey(methodName) in methodMap
    {
      r := GenerateKey(methodName) in methodMap;
    }

    /** The keys of the table: full versioned keys, not bare method names. */
    method GetMethodNames() returns (names: set<string>)
      ensures names == methodMap.Keys
    {
      names := methodMap.Keys;
    }

    method Size() returns (n: nat)
      ensures n == |methodMap|
    {
      n := |methodMap|;
    }

    method IsEmpty() returns (r: bool)
      ensures r <==> methodMap == map[]
    {
      r := |methodMap| == 0;
    }

    method Clear()
      modifies this
      ensures methodMap == map[]
    {
      methodMap := map[];
    }
  }

  /**
   * Registering one name twice keeps one entry, holding the later info;
   * the listed name is the full key; clearing empties the table.
   */
  method RegisterTwiceThenClear() returns (size: nat, found: Option<MethodInfo>, second: MethodInfo,
                                          names: set<string>, contains: bool, emptyAfter: bool)
    ensures size == 1
    ensures found == Some(second)
    ensures names == {"v1com.x.Svc.send"}
    ensures contains
    ensures emptyAfter
  {
    var registry := new MethodRegistry(Some("v1"), Some("com.x.Svc"));
    var first := new MethodInfo.Empty();
    second := new MethodInfo.Empty();
    registry.RegisterMethod(Some("send"), first);
    registry.RegisterMethod(Some("send"), second);
    size := registry.Size();
    found := registry.GetMethod(Some("send"));
    assert registry.GenerateKey(Some("send")) == "v1com.x.Svc.send";
    names := registry.GetMethodNames();
    contains := registry.ContainsMethod(Some("send"));
    registry.Clear();
    emptyAfter := registry.IsEmpty();
  }

  /** A name never registered is not found, even next to a registered one. */
  method UnknownNameMissing() returns (found: Option<MethodInfo>, contains: bool)
    ensures found == None && !contains
  {
    var registry := new MethodRegistry(Some("v1"), Some("com.x.Svc"));
    var info := new MethodInfo.Empty();
    registry.RegisterMethod(Some("send"), info);
    VersionedKeyNameInjective(Some("v1"), Some("com.x.Svc"), Some("send"), Some("recv"));
    found := registry.GetMethod(Some("recv"));
    contains := registry.ContainsMethod(Some("recv"));
  }
}

=== FILE: metrics_collector.dfy ===
/**
 * `MetricsCollector` (improved core): request, connection and
 * serialization counters, one `ResponseTimeStats` object per
 * "service.method" key and one error counter per
 * "service.method.errorType" key. Clock readings are `now` parameters.
 */
module MetricsCollectors {
  import opened Wrappers
  import opened JavaText

  /** `Long.MAX_VALUE`, the "no sample yet" value of a minimum. */
  const LongMax: int := 0x7fff_ffff_ffff_ffff

  function Min(a: int, b: int): int { if a <= b then a else b }
  function Max(a: int, b: int): int { if a >= b then a else b }

  /** The sum of the samples. */
  function Sum(s: seq<int>): int
  {
    if |s| == 0 then 0 else Sum(s[..|s| - 1]) + s[|s| - 1]
  }

  /** The least of `init` and the samples: what a minimum started at `init` holds after them. */
  function Least(init: int, s: seq<int>): int
  {
    if |s| == 0 then init else Min(Least(init, s[..|s| - 1]), s[|s| - 1])
  }

  /** The greatest of `init` and the samples. */
  function Greatest(init: int, s: seq<int>): int
  {
    if |s| == 0 then init else Max(Greatest(init, s[..|s| - 1]), s[|s| - 1])
  }

  /** `Least` is a lower bound of `init` and of every sample, and it is one of them. */
  lemma {:induction false} LeastIsMinimum(init: int, s: seq<int>)
    ensures Least(init, s) <= init && forall i :: 0 <= i < |s| ==> Least(init, s) <= s[i]
    ensures Least(init, s) == init || exists i :: 0 <= i < |s| && Least(init, s) == s[i]
  {
    if |s| > 0 {
      var p := s[..|s| - 1];
      LeastIsMinimum(init, p);
      assert forall i :: 0 <= i < |p| ==> p[i] == s[i];
      if Least(init, s) != init && Least(init, s) != s[|s| - 1] {
        var i :| 0 <= i < |p| && Least(init, p) == p[i];
        assert Least(init, s) == s[i];
      }
    }
  }

  /** `Greatest` is an upper bound of `init` and of every sample, and it is one of them. */
  lemma {:induction false} GreatestIsMaximum(init: int, s: seq<int>)
    ensures Greatest(init, s) >= init && forall i :: 0 <= i < |s| ==> Greatest(init, s) >= s[i]
    ensures Greatest(init, s) == init || exists i :: 0 <= i < |s| && Greatest(init, s) == s[i]
  {
    if |s| > 0 {
      var p := s[..|s| - 1];
      GreatestIsMaximum(init, p);
      assert forall i :: 0 <= i < |p| ==> p[i] == s[i];
      if Greatest(init, s) != init && Greatest(init, s) != s[|s| - 1] {
        var i :| 0 <= i < |p| && Greatest(init, p) == p[i];
        assert Greatest(init, s) == s[i];
      }
    }
  }

  /** The key of a method's response-time statistics; a `null` name reads "null". */
  function StatsKey(serviceName: JString, methodName: JString): string
  {
    JavaStr(serviceName) + "." + JavaStr(methodName)
  }

  /** The key of an error counter: the statistics key, a dot and the error type. */
  function ErrorKey(serviceName: JString, methodName: JString, errorType: JString): string
  {
    StatsKey(serviceName, methodName) + "." + JavaStr(errorType)
  }

  /**
   * The keys are joined with dots and nothing escapes a dot inside a name:
   * service "a.b" with method "c" shares its key with service "a" and
   * method "b.c", and so does the error counter of ("a", "b", "c").
   */
  lemma KeysCollide()
    ensures StatsKey(Some("a.b"), Some("c")) == StatsKey(Some("a"), Some("b.c")) == "a.b.c"
    ensures ErrorKey(Some("a"), Some("b"), Some("c")) == StatsKey(Some("a.b"), Some("c"))
  {
  }

  /** `ResponseTimeStats`: count, total, minimum, maximum and timeouts of one method's calls. */
  class ResponseTimeStats {
    var count: int
    var totalTime: int
    var minTime: int
    var maxTime: int
    var timeoutCount: int
    /** The durations recorded so far. */
    ghost var samples: seq<int>

    ghost predicate Valid()
      reads this
    {
      count == |samples| && totalTime == Sum(samples)
      && minTime == Least(LongMax, samples) && maxTime == Greatest(0, samples)
      && timeoutCount >= 0
    }

    constructor ()
      ensures Valid() && samples == [] && timeoutCount == 0
    {
      count, totalTime, minTime, maxTime, timeoutCount := 0, 0, LongMax, 0, 0;
      samples := [];
    }

    /**
     * `recordResponse`: one more sample. The compare-and-set loops of the
     * source succeed at once when no other thread updates the field, so
     * each is one conditional update here.
     */
    method RecordResponse(duration: int)
      requires Valid()
      modifies this
      ensures Valid() && samples == old(samples) + [duration] && timeoutCount == old(timeoutCount)
    {
      assert (samples + [duration])[..|samples|] == samples;
      count := count + 1;
      totalTime := totalTime + duration;
      if duration < minTime {
        minTime := duration;
      }
      if duration > maxTime {
        maxTime := duration;
      }
      samples := samples + [duration];
    }

    method RecordTimeout()
      requires Valid()
      modifies this
      ensures Valid() && samples == old(samples) && timeoutCount == old(timeoutCount) + 1
    {
      timeoutCount := timeoutCount + 1;
    }

    /** `getMinTime`: the stored minimum, reported as 0 while it is still `Long.MAX_VALUE`. */
    function MinTime(): int
      reads this
    {
      if minTime == LongMax then 0 else minTime
    }
  }

  /**
   * What `getMinTime` and `getMaxTime` report: 0 before any sample; once
   * there are samples below `Long.MAX_VALUE`, the least of them; the
   * maximum is the greatest sample, or 0 while every sample is negative.
   */
  lemma ReportedExtremes(stats: ResponseTimeStats)
    requires stats.Valid()
    ensures stats.samples == [] ==> stats.MinTime() == 0 && stats.maxTime == 0
    ensures stats.samples != [] && (forall i :: 0 <= i < |stats.samples| ==> stats.samples[i] < LongMax) ==>
              (exists i :: 0 <= i < |stats.samples| && stats.MinTime() == stats.samples[i])
              && forall i :: 0 <= i < |stats.samples| ==> stats.MinTime() <= stats.samples[i]
    ensures stats.maxTime >= 0 && forall i :: 0 <= i < |stats.samples| ==> stats.maxTime >= stats.samples[i]
    ensures stats.maxTime == 0 || exists i :: 0 <= i < |stats.samples| && stats.maxTime == stats.samples[i]
  {
    LeastIsMinimum(LongMax, stats.samples);
    GreatestIsMaximum(0, stats.samples);
  }

  /** The scalar counters of the collector. */
  datatype Counts = Counts(
    totalRequests: int, successfulRequests: int, failedRequests: int, timeoutRequests: int,
    requestsPerSecond: int,
    totalConnections: int, activeConnections: int, connectionErrors: int,
    serializationCount: int, deserializationCount: int, serializationErrors: int, deserializationErrors: int)

  function ZeroCounts(): Counts
  {
    Counts(0, 0, 0, 0, 0, 0, 0, 0, 0, 0, 0, 0)
  }

  /**
   * What every operation keeps: no counter below zero except the active
   * connections, never more active connections than were ever created, and
   * every timeout also counted as a failure.
   */
  predicate CountsInvariant(c: Counts)
  {
    c.totalRequests >= 0 && c.successfulRequests >= 0 && c.failedRequests >= 0 && c.timeoutRequests >= 0
    && c.requestsPerSecond >= 0 && c.totalConnections >= 0 && c.connectionErrors >= 0
    && c.serializationCount >= 0 && c.deserializationCount >= 0
    && c.serializationErrors >= 0 && c.deserializationErrors >= 0
    && c.activeConnections <= c.totalConnections
    && c.timeoutRequests <= c.failedRequests
  }

  class MetricsCollector {
    var counts: Counts
    var responseTimeStats: map<string, ResponseTimeStats>
    var errorCounters: map<string, int>
    var lastResetTime: int

    /** Each key has its own statistics object, in a consistent state; every error counter is positive. */
    ghost predicate Valid()
      reads this, responseTimeStats.Values
    {
      CountsInvariant(counts)
      && (forall k1, k2 :: k1 in responseTimeStats && k2 in responseTimeStats && k1 != k2 ==>
            responseTimeStats[k1] != responseTimeStats[k2])
      && (forall k :: k in responseTimeStats ==> responseTimeStats[k].Valid())
      && forall k :: k in errorCounters ==> errorCounters[k] >= 1
    }

    constructor (now: int)
      ensures Valid() && counts == ZeroCounts() && responseTimeStats == map[] && errorCounters == map[]
      ensures lastResetTime == now
    {
      counts := ZeroCounts();
      responseTimeStats, errorCounters := map[], map[];
      lastResetTime := now;
    }

    /** `recordRequest`: two counters up, and an empty statistics object for a key seen for the first time. */
    method RecordRequest(serviceName: JString, methodName: JString)
      requires Valid()
      modifies this
      ensures Valid()
      ensures counts == old(counts).(totalRequests := old(counts).totalRequests + 1,
                                     requestsPerSecond := old(counts).requestsPerSecond + 1)
      ensures var key := StatsKey(serviceName, methodName);
        key in old(responseTimeStats) ==> responseTimeStats == old(responseTimeStats)
      ensures var key := StatsKey(serviceName, methodName);
        key !in old(responseTimeStats) ==>
          key in responseTimeStats && fresh(responseTimeStats[key])
          && responseTimeStats == old(responseTimeStats)[key := responseTimeStats[key]]
          && responseTimeStats[key].samples == [] && responseTimeStats[key].timeoutCount == 0
      ensures errorCounters == old(errorCounters) && lastResetTime == old(lastResetTime)
    {
      counts := counts.(totalRequests := counts.totalRequests + 1,
                        requestsPerSecond := counts.requestsPerSecond + 1);
      var key := StatsKey(serviceName, methodName);
      if key !in responseTimeStats {
        var stats := new ResponseTimeStats();
        responseTimeStats := responseTimeStats[key := stats];
      }
    }

    /**
     * `recordResponse`: the key's statistics take the sample only if the key
     * was requested before; success or failure is counted either way.
     */
    method RecordResponse(serviceName: JString, methodName: JString, duration: int, success: bool)
      requires Valid()
      modifies this, responseTimeStats.Values
      ensures Valid()
      ensures responseTimeStats == old(responseTimeStats)
      ensures var key := StatsKey(serviceName, methodName);
        key in responseTimeStats ==>
          responseTimeStats[key].samples == old(responseTimeStats[key].samples) + [duration]
          && responseTimeStats[key].timeoutCount == old(responseTimeStats[key].timeoutCount)
      ensures forall k :: k in responseTimeStats && k != StatsKey(serviceName, methodName) ==>
                unchanged(responseTimeStats[k])
      ensures success ==> counts == old(counts).(successfulRequests := old(counts).successfulRequests + 1)
      ensures !success ==> counts == old(counts).(failedRequests := old(counts).failedRequests + 1)
      ensures errorCounters == old(errorCounters) && lastResetTime == old(lastResetTime)
    {
      var key := StatsKey(serviceName, methodName);
      if key in responseTimeStats {
        responseTimeStats[key].RecordResponse(duration);
      }
      if success {
        counts := counts.(successfulRequests := counts.successfulRequests + 1);
      } else {
        counts := counts.(failedRequests := counts.failedRequests + 1);
      }
    }

    /** `recordTimeout`: a timeout and a failure, and the key's timeout count if the key is known. */
    method RecordTimeout(serviceName: JString, methodName: JString)
      requires Valid()
      modifies this, responseTimeStats.Values
      ensures Valid()
      ensures responseTimeStats == old(responseTimeStats)
      ensures var key := StatsKey(serviceName, methodName);
        key in responseTimeStats ==>
          responseTimeStats[key].samples == old(responseTimeStats[key].samples)
          && responseTimeStats[key].timeoutCount == old(responseTimeStats[key].timeoutCount) + 1
      ensures forall k :: k in responseTimeStats && k != StatsKey(serviceName, methodName) ==>
                unchanged(responseTimeStats[k])
      ensures counts == old(counts).(timeoutRequests := old(counts).timeoutRequests + 1,
                                     failedRequests := old(counts).failedRequests + 1)
      ensures errorCounters == old(errorCounters) && lastResetTime == old(lastResetTime)
    {
      counts := counts.(timeoutRequests := counts.timeoutRequests + 1,
                        failedRequests := counts.failedRequests + 1);
      var key := StatsKey(serviceName, methodName);
      if key in responseTimeStats {
        responseTimeStats[key].RecordTimeout();
      }
    }

    /** `recordError`: the error key's counter (created at 1) and the failure count. */
    method RecordError(serviceName: JString, methodName: JString, errorType: JString)
      requires Valid()
      modifies this
      ensures Valid()
      ensures var key := ErrorKey(serviceName, methodName, errorType);
        errorCounters == old(errorCounters)[key := if key in old(errorCounters) then old(errorCounters)[key] + 1 else 1]
      ensures counts == old(counts).(failedRequests := old(counts).failedRequests + 1)
      ensures responseTimeStats == old(responseTimeStats) && lastResetTime == old(lastResetTime)
    {
      var key := ErrorKey(serviceName, methodName, errorType);
      var n := if key in errorCounters then errorCounters[key] else 0;
      errorCounters := errorCounters[key := n + 1];
      counts := counts.(failedRequests := counts.failedRequests + 1);
    }

    /** `recordConnectionCreated`: both the total and the active count up. */
    method RecordConnectionCreated()
      requires Valid()
      modifies this
      ensures Valid()
      ensures counts == old(counts).(totalConnections := old(counts).totalConnections + 1,
                                     activeConnections := old(counts).activeConnections + 1)
      ensures responseTimeStats == old(responseTimeStats) && errorCounters == old(errorCounters)
      ensures lastResetTime == old(lastResetTime)
    {
      counts := counts.(totalConnections := counts.totalConnections + 1,
                        activeConnections := counts.activeConnections + 1);
    }

    /** `recordConnectionClosed`: the active count down, with no floor at zero. */
    method RecordConnectionClosed()
      requires Valid()
      modifies this
      ensures Valid()
      ensures counts == old(counts).(activeConnections := old(counts).activeConnections - 1)
      ensures responseTimeStats == old(responseTimeStats) && errorCounters == old(errorCounters)
      ensures lastResetTime == old(lastResetTime)
    {
      counts := counts.(activeConnections := counts.activeConnections - 1);
    }

    method RecordConnectionError()
      requires Valid()
      modifies this
      ensures Valid()
      ensures counts == old(counts).(connectionErrors := old(counts).connectionErrors + 1)
      ensures responseTimeStats == old(responseTimeStats) && errorCounters == old(errorCounters)
      ensures lastResetTime == old(lastResetTime)
    {
      counts := counts.(connectionErrors := counts.connectionErrors + 1);
    }

    /** `recordSerialization`: the count on success, the error count otherwise. */
    method RecordSerialization(success: bool)
      requires Valid()
      modifies this
      ensures Valid()
      ensures success ==> counts == old(counts).(serializationCount := old(counts).serializationCount + 1)
      ensures !success ==> counts == old(counts).(serializationErrors := old(counts).serializationErrors + 1)
      ensures responseTimeStats == old(responseTimeStats) && errorCounters == old(errorCounters)
      ensures lastResetTime == old(lastResetTime)
    {
      if success {
        counts := counts.(serializationCount := counts.serializationCount + 1);
      } else {
        counts := counts.(serializationErrors := counts.serializationErrors + 1);
      }
    }

    method RecordDeserialization(success: bool)
      requires Valid()
      modifies this
      ensures Valid()
      ensures success ==> counts == old(counts).(deserializationCount := old(counts).deserializationCount + 1)
      ensures !success ==> counts == old(counts).(deserializationErrors := old(counts).deserializationErrors + 1)
      ensures responseTimeStats == old(responseTimeStats) && errorCounters == old(errorCounters)
      ensures lastResetTime == old(lastResetTime)
    {
      if success {
        counts := counts.(deserializationCount := counts.deserializationCount + 1);
      } else {
        counts := counts.(deserializationErrors := counts.deserializationErrors + 1);
      }
    }

    /**
     * `reset` as written: the request counters, the per-second count and
     * both maps are cleared and the reset time is taken, but the failure
     * count goes up by one instead of back to zero. Connection and
     * serialization counters are kept.
     */
    method Reset(now: int)
      requires Valid()
      modifies this
      ensures Valid()
      ensures counts == old(counts).(totalRequests := 0, successfulRequests := 0,
                                     failedRequests := old(counts).failedRequests + 1,
                                     timeoutRequests := 0, requestsPerSecond := 0)
      ensures responseTimeStats == map[] && errorCounters == map[] && lastResetTime == now
    {
      counts := counts.(totalRequests := 0, successfulRequests := 0,
                        failedRequests := counts.failedRequests + 1,
                        timeoutRequests := 0, requestsPerSecond := 0);
      responseTimeStats, errorCounters := map[], map[];
      lastResetTime := now;
    }

    /**
     * `reset` as evidently intended: every request counter back to zero, so
     * the request side reads as on a new collector.
     */
    method ResetIntended(now: int)
      requires Valid()
      modifies this
      ensures Valid()
      ensures counts == old(counts).(totalRequests := 0, successfulRequests := 0, failedRequests := 0,
                                     timeoutRequests := 0, requestsPerSecond := 0)
      ensures RequestSideCleared()
      ensures lastResetTime == now
    {
      counts := counts.(totalRequests := 0, successfulRequests := 0, failedRequests := 0,
                        timeoutRequests := 0, requestsPerSecond := 0);
      responseTimeStats, errorCounters := map[], map[];
      lastResetTime := now;
    }

    /** Every request counter and both maps as a new collector has them. */
    predicate RequestSideCleared()
      reads this
    {
      var z := ZeroCounts();
      counts.totalRequests == z.totalRequests && counts.successfulRequests == z.successfulRequests
      && counts.failedRequests == z.failedRequests && counts.timeoutRequests == z.timeoutRequests
      && counts.requestsPerSecond == z.requestsPerSecond
      && responseTimeStats == map[] && errorCounters == map[]
    }
  }

  /**
   * One failed call, then `reset`: as written the collector still reports
   * two failures and no requests; the intended reset reports none.
   */
  method ResetKeepsFailures() returns (asWritten: Counts, intended: Counts, cleared: bool)
    ensures asWritten.totalRequests == 0 && asWritten.failedRequests == 2
    ensures intended.totalRequests == 0 && intended.failedRequests == 0
    ensures cleared
  {
    var m := new MetricsCollector(0);
    m.RecordRequest(Some("calc"), Some("add"));
    m.RecordResponse(Some("calc"), Some("add"), 12, false);
    m.Reset(100);
    asWritten := m.counts;
    intended, cleared := FailureThenIntendedReset();
  }

  /** The same failed call followed by the intended reset: nothing of the request side is left. */
  method FailureThenIntendedReset() returns (intended: Counts, cleared: bool)
    ensures intended.totalRequests == 0 && intended.failedRequests == 0
    ensures cleared
  {
    var n := new MetricsCollector(0);
    n.RecordRequest(Some("calc"), Some("add"));
    n.RecordResponse(Some("calc"), Some("add"), 12, false);
    n.ResetIntended(100);
    intended := n.counts;
    cleared := n.RequestSideCleared();
  }

  /** Two responses and a timeout: both samples are summed, the extremes kept, the timeout counted apart. */
  method SampleStatistics() returns (count: int, total: int, least: int, greatest: int, timeouts: int)
    ensures count == 2 && total == 40 && least == 10 && greatest == 30 && timeouts == 1
  {
    var stats := new ResponseTimeStats();
    stats.RecordResponse(30);
    stats.RecordResponse(10);
    stats.RecordTimeout();
    assert stats.samples == [30, 10] && stats.samples[..1] == [30];
    count, total, least, greatest, timeouts := stats.count, stats.totalTime, stats.MinTime(), stats.maxTime, stats.timeoutCount;
  }

  /**
   * Only a requested method has statistics: a response for another method
   * is counted as a success but leaves no trace in the map, while a
   * timeout of the requested one reaches its statistics.
   */
  method ResponseWithoutRequest() returns (unknownTracked: bool, timeouts: int, c: Counts)
    ensures !unknownTracked && timeouts == 1
    ensures c == ZeroCounts().(totalRequests := 1, requestsPerSecond := 1, successfulRequests := 1,
                               failedRequests := 1, timeoutRequests := 1)
  {
    var m := new MetricsCollector(0);
    assert StatsKey(Some("calc"), Some("add")) == "calc.add";
    assert StatsKey(Some("calc"), Some("sub")) == "calc.sub";
    m.RecordRequest(Some("calc"), Some("add"));
    var stats := m.responseTimeStats["calc.add"];
    m.RecordResponse(Some("calc"), Some("sub"), 5, true);
    m.RecordTimeout(Some("calc"), Some("add"));
    unknownTracked := "calc.sub" in m.responseTimeStats;
    timeouts := stats.timeoutCount;
    c := m.counts;
  }

  /** Closing a connection that was never opened drives the active count below zero. */
  method ClosingUnopened() returns (c: Counts)
    ensures c.activeConnections == -1 && c.totalConnections == 0
  {
    var m := new MetricsCollector(0);
    m.RecordConnectionClosed();
    c := m.counts;
  }
}

=== FILE: net_rpc_message.dfy ===
/**
 * The .NET mirror of the message base class, `EF.RPC.Sharing.RpcMessage`.
 * Unlike the Java class it never keeps a null id (a fresh GUID, passed in
 * as `freshGuid`, takes its place), its type is a non-nullable enum whose
 * default is `Request`, and `Equals` compares id, type and timestamp.
 */
module NetRpcMessages {
  import opened Wrappers
  import opened JavaText
  import opened Reflect
  import opened RpcMessages

  /** The state every .NET envelope inherits. */
  class NetRpcMessage {
    var messageId: JString
    var messageType: MessageType
    var timestamp: int
    var metadata: Option<map<string, JValue>>

    /** `RpcMessage()`: a GUID id, the current time, an empty dictionary, the enum's default `Request`. */
    constructor Default(freshGuid: string, now: int)
      ensures messageId == Some(freshGuid) && messageType == REQUEST
      ensures timestamp == now && metadata == Some(map[])
    {
      messageId := Some(freshGuid);
      messageType := REQUEST;
      timestamp := now;
      metadata := Some(map[]);
    }

    /** `RpcMessage(messageId, messageType)`: a null id is replaced by a GUID. */
    constructor (messageId: JString, messageType: MessageType, freshGuid: string, now: int)
      ensures this.messageId == (if messageId.Some? then messageId else Some(freshGuid))
      ensures this.messageId.Some?
      ensures this.messageType == messageType && timestamp == now && metadata == Some(map[])
    {
      this.messageId := if messageId.Some? then messageId else Some(freshGuid);
      this.messageType := messageType;
      timestamp := now;
      metadata := Some(map[]);
    }

    method SetMessageType(t: MessageType)
      modifies this
      ensures messageType == t
      ensures messageId == old(messageId) && timestamp == old(timestamp) && metadata == old(metadata)
    {
      messageType := t;
    }

    method SetMetadata(m: Option<map<string, JValue>>)
      modifies this
      ensures metadata == m
      ensures messageId == old(messageId) && messageType == old(messageType) && timestamp == old(timestamp)
    {
      metadata := m;
    }

    /** Creates the dictionary when it is null, then sets the key, overwriting. */
    method AddMetadata(key: string, value: JValue)
      modifies this
      ensures metadata == Some((if old(metadata).None? then map[] else old(metadata).value)[key := value])
      ensures messageId == old(messageId) && messageType == old(messageType) && timestamp == old(timestamp)
    {
      if metadata.None? {
        metadata := Some(map[]);
      }
      metadata := Some(metadata.value[key := value]);
    }

    /** The value for the key, null when the dictionary is null or lacks it. */
    function GetMetadata(key: string): (v: JValue)
      reads this
      ensures ContainsMetadata(key) ==> v == metadata.value[key]
      ensures !ContainsMetadata(key) ==> v == JNull
    {
      if metadata.Some? && key in metadata.value then metadata.value[key] else JNull
    }

    predicate ContainsMetadata(key: string)
      reads this
    {
      metadata.Some? && key in metadata.value
    }

    /** Removes the key; false, and nothing changed, for a missing key or a null dictionary. */
    method RemoveMetadata(key: string) returns (removed: bool)
      modifies this
      ensures removed <==> old(ContainsMetadata(key))
      ensures removed ==> metadata == Some(old(metadata).value - {key})
      ensures !removed ==> metadata == old(metadata)
      ensures !ContainsMetadata(key)
      ensures messageId == old(messageId) && messageType == old(messageType) && timestamp == old(timestamp)
    {
      if metadata.Some? && key in metadata.value {
        metadata := Some(metadata.value - {key});
        removed := true;
      } else {
        removed := false;
      }
    }

    /** Empties the dictionary; a null dictionary stays null. */
    method ClearMetadata()
      modifies this
      ensures old(metadata).Some? ==> metadata == Some(map[])
      ensures old(metadata).None? ==> metadata == None
      ensures messageId == old(messageId) && messageType == old(messageType) && timestamp == old(timestamp)
    {
      if metadata.Some? {
        metadata := Some(map[]);
      }
    }

    /** `Equals`: the same object, or one with the same id, type and timestamp; metadata is ignored. */
    predicate Equals(other: NetRpcMessage?)
      reads this, other
    {
      other != null
      && (other == this
          || (messageId == other.messageId && messageType == other.messageType && timestamp == other.timestamp))
    }
  }

  /** `Equals` is an equivalence on messages. */
  lemma EqualsIsEquivalence(a: NetRpcMessage, b: NetRpcMessage, c: NetRpcMessage)
    ensures a.Equals(a)
    ensures a.Equals(b) <==> b.Equals(a)
    ensures a.Equals(b) && b.Equals(c) ==> a.Equals(c)
    ensures a.Equals(b) <==> a.messageId == b.messageId && a.messageType == b.messageType && a.timestamp == b.timestamp
  {
  }

  /**
   * A null id is replaced, a given one kept; metadata never enters
   * equality; removing a missing key reports false.
   */
  method MetadataIgnoredByEquals(now: int) returns (replaced: JString, equal: bool, removedMissing: bool)
    ensures replaced == Some("guid-1") && equal && !removedMissing
  {
    var blank := new NetRpcMessage(None, REQUEST, "guid-1", now);
    replaced := blank.messageId;
    var a := new NetRpcMessage(Some("m1"), RESPONSE, "guid-2", now);
    var b := new NetRpcMessage(Some("m1"), RESPONSE, "guid-3", now);
    a.AddMetadata("trace", JInt(7));
    b.ClearMetadata();
    equal := a.Equals(b);
    removedMissing := b.RemoveMetadata("trace");
  }
}

=== FILE: net_rpc_request.dfy ===
/**
 * The .NET mirror of the request envelope, `EF.RPC.Sharing.RpcRequest`.
 * Its keys interpolate a null name as the empty text, its argument array
 * is compared by reference, and its builder never yields a null id.
 */
module NetRpcRequests {
  import opened Wrappers
  import opened JavaText
  import opened Reflect
  import opened RpcMessages
  import opened RpcRequests
  import opened NetRpcMessages

  class NetRpcRequest {
    const base: NetRpcMessage
    var serviceName: JString
    var methodName: JString
    var version: JString
    /** The argument array itself: `Equals` compares it by reference. */
    var arguments: array?<JValue>
    var parameterTypes: Option<seq<TypeRef>>
    var returnType: Option<TypeRef>

    /** `RpcRequest()`: a GUID id, tagged `Request`. */
    constructor Default(freshGuid: string, now: int)
      ensures fresh(base)
      ensures base.messageId == Some(freshGuid) && base.messageType == REQUEST && base.timestamp == now
      ensures serviceName == None && methodName == None && version == None
      ensures arguments == null && parameterTypes == None && returnType == None
    {
      var b := new NetRpcMessage.Default(freshGuid, now);
      b.SetMessageType(REQUEST);
      base := b;
      serviceName, methodName, version := None, None, None;
      arguments, parameterTypes, returnType := null, None, None;
    }

    /** `RpcRequest(messageId, serviceName, methodName, version)`: a null id becomes a GUID. */
    constructor WithId(messageId: JString, serviceName: JString, methodName: JString, version: JString,
                       freshGuid: string, now: int)
      ensures fresh(base)
      ensures base.messageId == (if messageId.Some? then messageId else Some(freshGuid))
      ensures base.messageType == REQUEST && base.timestamp == now
      ensures this.serviceName == serviceName && this.methodName == methodName && this.version == version
      ensures arguments == null && parameterTypes == None && returnType == None
    {
      base := new NetRpcMessage(messageId, REQUEST, freshGuid, now);
      this.serviceName, this.methodName, this.version := serviceName, methodName, version;
      arguments, parameterTypes, returnType := null, None, None;
    }

    /** `RpcRequest(serviceName, methodName, version, arguments)`: a GUID id, tagged `Request`. */
    constructor (serviceName: JString, methodName: JString, version: JString, arguments: array?<JValue>,
                 freshGuid: string, now: int)
      ensures fresh(base)
      ensures base.messageId == Some(freshGuid) && base.messageType == REQUEST && base.timestamp == now
      ensures this.serviceName == serviceName && this.methodName == methodName && this.version == version
      ensures this.arguments == arguments && parameterTypes == None && returnType == None
    {
      var b := new NetRpcMessage.Default(freshGuid, now);
      b.SetMessageType(REQUEST);
      base := b;
      this.serviceName, this.methodName, this.version := serviceName, methodName, version;
      this.arguments, parameterTypes, returnType := arguments, None, None;
    }

    /** `GetServiceKey`: interpolation renders a null part as nothing. */
    function GetServiceKey(): string
      reads this
    {
      ServiceKeyOf(NetStr(serviceName), NetStr(version))
    }

    /** `GetMethodKey`: interpolation renders a null part as nothing. */
    function GetMethodKey(): string
      reads this
    {
      MethodKeyOf(NetStr(serviceName), NetStr(methodName), NetStr(version))
    }

    predicate HasArguments()
      reads this
    {
      arguments != null && arguments.Length > 0
    }

    function GetArgumentCount(): (n: nat)
      reads this
      ensures arguments != null ==> n == arguments.Length
      ensures arguments == null ==> n == 0
    {
      if arguments != null then arguments.Length else 0
    }

    /**
     * `Equals`: the same object; otherwise the inherited comparison of id,
     * type and timestamp, equal names and version, and the very same argument
     * array (or both null), since arrays do not override `Equals`.
     */
    predicate Equals(other: NetRpcRequest?)
      reads this, base, other, if other != null then {other.base} else {}
    {
      other != null
      && (other == this
          || (base.Equals(other.base) && serviceName == other.serviceName && methodName == other.methodName
              && version == other.version && arguments == other.arguments))
    }
  }

  /** A request has arguments exactly when it counts at least one. */
  lemma HasArgumentsIffCounted(r: NetRpcRequest)
    ensures r.HasArguments() <==> r.GetArgumentCount() > 0
  {
  }

  /**
   * Equality of two distinct requests is decided by id, type, timestamp,
   * names, version and the identity of the argument array.
   */
  lemma EqualsByValue(a: NetRpcRequest, b: NetRpcRequest)
    requires a != b
    ensures a.Equals(b) <==> a.base.messageId == b.base.messageId && a.base.messageType == b.base.messageType
                             && a.base.timestamp == b.base.timestamp && a.serviceName == b.serviceName
                             && a.methodName == b.methodName && a.version == b.version && a.arguments == b.arguments
    ensures a.Equals(b) <==> b.Equals(a)
  {
  }

  /** A null service name keys as "null" in Java but as nothing in .NET, so the two mirrors disagree. */
  lemma NullServiceKeysDiffer(version: string)
    ensures ServiceKeyOf(JavaStr(None), version) == "null:" + version
    ensures ServiceKeyOf(NetStr(None), version) == ":" + version
    ensures ServiceKeyOf(JavaStr(None), version) != ServiceKeyOf(NetStr(None), version)
  {
    assert |ServiceKeyOf(JavaStr(None), version)| != |ServiceKeyOf(NetStr(None), version)|;
  }

  /** `RpcRequest.Builder`. */
  class Builder {
    var messageId: JString
    var serviceName: JString
    var methodName: JString
    var version: JString
    var arguments: array?<JValue>
    var parameterTypes: Option<seq<TypeRef>>
    var returnType: Option<TypeRef>

    constructor ()
      ensures messageId == None && serviceName == None && methodName == None && version == None
      ensures arguments == null && parameterTypes == None && returnType == None
    {
      messageId, serviceName, methodName, version := None, None, None, None;
      arguments, parameterTypes, returnType := null, None, None;
    }

    method SetMessageId(id: JString) returns (self: Builder)
      modifies this
      ensures self == this && messageId == id
      ensures serviceName == old(serviceName) && methodName == old(methodName) && version == old(version)
      ensures arguments == old(arguments) && parameterTypes == old(parameterTypes) && returnType == old(returnType)
    {
      messageId := id;
      self := this;
    }

    method SetServiceName(name: JString) returns (self: Builder)
      modifies this
      ensures self == this && serviceName == name
      ensures messageId == old(messageId) && methodName == old(methodName) && version == old(version)
      ensures arguments == old(arguments) && parameterTypes == old(parameterTypes) && returnType == old(returnType)
    {
      serviceName := name;
      self := this;
    }

    method SetMethodName(name: JString) returns (self: Builder)
      modifies this
      ensures self == this && methodName == name
      ensures messageId == old(messageId) && serviceName == old(serviceName) && version == old(version)
      ensures arguments == old(arguments) && parameterTypes == old(parameterTypes) && returnType == old(returnType)
    {
      methodName := name;
      self := this;
    }

    method SetVersion(v: JString) returns (self: Builder)
      modifies this
      ensures self == this && version == v
      ensures messageId == old(messageId) && serviceName == old(serviceName) && methodName == old(methodName)
      ensures arguments == old(arguments) && parameterTypes == old(parameterTypes) && returnType == old(returnType)
    {
      version := v;
      self := this;
    }

    method SetArguments(a: array?<JValue>) returns (self: Builder)
      modifies this
      ensures self == this && arguments == a
      ensures messageId == old(messageId) && serviceName == old(serviceName) && methodName == old(methodName)
      ensures version == old(version) && parameterTypes == old(parameterTypes) && returnType == old(returnType)
    {
      arguments := a;
      self := this;
    }

    method SetParameterTypes(t: Option<seq<TypeRef>>) returns (self: Builder)
      modifies this
      ensures self == this && parameterTypes == t
      ensures messageId == old(messageId) && serviceName == old(serviceName) && methodName == old(methodName)
      ensures version == old(version) && arguments == old(arguments) && returnType == old(returnType)
    {
      parameterTypes := t;
      self := this;
    }

    method SetReturnType(t: Option<TypeRef>) returns (self: Builder)
      modifies this
      ensures self == this && returnType == t
      ensures messageId == old(messageId) && serviceName == old(serviceName) && methodName == old(methodName)
      ensures version == old(version) && arguments == old(arguments) && parameterTypes == old(parameterTypes)
    {
      returnType := t;
      self := this;
    }

    /** `Build`: the id-taking constructor plus the three properties; a missing id becomes a GUID. */
    method Build(freshGuid: string, now: int) returns (r: NetRpcRequest)
      ensures fresh(r) && fresh(r.base)
      ensures r.base.messageId == (if messageId.Some? then messageId else Some(freshGuid))
      ensures r.base.messageType == REQUEST && r.base.timestamp == now
      ensures r.serviceName == serviceName && r.methodName == methodName && r.version == version
      ensures r.arguments == arguments && r.parameterTypes == parameterTypes && r.returnType == returnType
    {
      r := new NetRpcRequest.WithId(messageId, serviceName, methodName, version, freshGuid, now);
      r.arguments := arguments;
      r.parameterTypes := parameterTypes;
      r.returnType := returnType;
    }
  }

  /**
   * Built without an id, a request still has one; two builds sharing one
   * argument array and an explicit id are equal, while an equal but separate
   * array makes them unequal.
   */
  method BuilderIdsAndArrayIdentity(now: int)
    returns (id: JString, count: nat, sameArray: bool, copiedArray: bool)
    ensures id == Some("guid-1") && count == 2
    ensures sameArray && !copiedArray
  {
    var args := new JValue[2](_ => JInt(5));
    var b := new Builder();
    var _ := b.SetServiceName(Some("CalculatorService"));
    var _ := b.SetArguments(args);
    var anonymous := b.Build("guid-1", now);
    id, count := anonymous.base.messageId, anonymous.GetArgumentCount();
    var _ := b.SetMessageId(Some("r1"));
    var x := b.Build("guid-2", now);
    var y := b.Build("guid-3", now);
    sameArray := x.Equals(y);
    var copy := new JValue[2](_ => JInt(5));
    var _ := b.SetArguments(copy);
    var z := b.Build("guid-4", now);
    copiedArray := x.Equals(z);
  }
}

=== FILE: net_rpc_response.dfy ===
/**
 * The .NET mirror of the response envelope, `EF.RPC.Sharing.RpcResponse`.
 * The status rules are the Java ones; the difference is that `Exception`
 * is a plain property, so assigning it leaves the status code alone.
 */
module NetRpcResponses {
  import opened Wrappers
  import opened JavaText
  import opened Reflect
  import opened RpcMessages
  import opened RpcResponses
  import opened NetRpcMessages

  class NetRpcResponse {
    const base: NetRpcMessage
    var requestId: JString
    var result: JValue
    var exception: Option<ObjRef>
    var statusCode: int
    var statusMessage: JString

    /** `RpcResponse()`: a GUID id, tagged `Response`, at 200 "OK". */
    constructor Default(freshGuid: string, now: int)
      ensures fresh(base)
      ensures base.messageId == Some(freshGuid) && base.messageType == RESPONSE && base.timestamp == now
      ensures requestId == None && result == JNull && exception == None
      ensures statusCode == OK && statusMessage == Some("OK")
    {
      var b := new NetRpcMessage.Default(freshGuid, now);
      b.SetMessageType(RESPONSE);
      base := b;
      requestId, result, exception := None, JNull, None;
      statusCode, statusMessage := OK, Some("OK");
    }

    /** `RpcResponse(messageId, requestId)`: a null id becomes a GUID; 200 "OK". */
    constructor WithIds(messageId: JString, requestId: JString, freshGuid: string, now: int)
      ensures fresh(base)
      ensures base.messageId == (if messageId.Some? then messageId else Some(freshGuid))
      ensures base.messageType == RESPONSE && base.timestamp == now
      ensures this.requestId == requestId && result == JNull && exception == None
      ensures statusCode == OK && statusMessage == Some("OK")
    {
      base := new NetRpcMessage(messageId, RESPONSE, freshGuid, now);
      this.requestId, result, exception := requestId, JNull, None;
      statusCode, statusMessage := OK, Some("OK");
    }

    /** `RpcResponse(requestId, object result)`: 200 "OK". */
    constructor Succeeded(requestId: JString, result: JValue, freshGuid: string, now: int)
      ensures fresh(base)
      ensures base.messageId == Some(freshGuid) && base.messageType == RESPONSE && base.timestamp == now
      ensures this.requestId == requestId && this.result == result && exception == None
      ensures statusCode == OK && statusMessage == Some("OK")
    {
      var b := new NetRpcMessage.Default(freshGuid, now);
      b.SetMessageType(RESPONSE);
      base := b;
      this.requestId, this.result, exception := requestId, result, None;
      statusCode, statusMessage := OK, Some("OK");
    }

    /** `RpcResponse(requestId, Exception exception)`: 500 "Internal Server Error". */
    constructor Failed(requestId: JString, exception: Option<ObjRef>, freshGuid: string, now: int)
      ensures fresh(base)
      ensures base.messageId == Some(freshGuid) && base.messageType == RESPONSE && base.timestamp == now
      ensures this.requestId == requestId && result == JNull && this.exception == exception
      ensures statusCode == INTERNAL_SERVER_ERROR && statusMessage == Some("Internal Server Error")
    {
      var b := new NetRpcMessage.Default(freshGuid, now);
      b.SetMessageType(RESPONSE);
      base := b;
      this.requestId, result, this.exception := requestId, JNull, exception;
      statusCode, statusMessage := INTERNAL_SERVER_ERROR, Some("Internal Server Error");
    }

    /** The `Exception` property setter: the status code and message are untouched. */
    method SetException(e: Option<ObjRef>)
      modifies this
      ensures exception == e
      ensures statusCode == old(statusCode) && statusMessage == old(statusMessage)
      ensures requestId == old(requestId) && result == old(result)
    {
      exception := e;
    }

    predicate HasException()
      reads this
    {
      exception.Some?
    }

    predicate IsSuccess()
      reads this
    {
      SuccessStatus(HasException(), statusCode)
    }

    predicate IsTimeout()
      reads this
    {
      statusCode == REQUEST_TIMEOUT
    }

    predicate IsServiceUnavailable()
      reads this
    {
      statusCode == SERVICE_UNAVAILABLE
    }

    /**
     * `Equals`: the same object; otherwise the inherited id, type and
     * timestamp, and equal request id, result, exception object, code and message.
     */
    predicate Equals(other: NetRpcResponse?)
      reads this, base, other, if other != null then {other.base} else {}
    {
      other != null
      && (other == this
          || (base.Equals(other.base) && requestId == other.requestId && result == other.result
              && exception == other.exception && statusCode == other.statusCode
              && statusMessage == other.statusMessage))
    }
  }

  /** `Success(requestId, result)`. */
  method SuccessResponse(requestId: JString, result: JValue, freshGuid: string, now: int) returns (r: NetRpcResponse)
    ensures fresh(r) && r.requestId == requestId && r.result == result && r.IsSuccess()
    ensures r.statusCode == OK && r.statusMessage == Some("OK")
  {
    r := new NetRpcResponse.Succeeded(requestId, result, freshGuid, now);
  }

  /** `Failure(requestId, exception)`. */
  method FailureResponse(requestId: JString, exception: Option<ObjRef>, freshGuid: string, now: int)
    returns (r: NetRpcResponse)
    ensures fresh(r) && r.requestId == requestId && r.exception == exception && !r.IsSuccess()
    ensures r.statusCode == INTERNAL_SERVER_ERROR && r.statusMessage == Some("Internal Server Error")
  {
    r := new NetRpcResponse.Failed(requestId, exception, freshGuid, now);
  }

  /** `Timeout(requestId)`: 408 "Request Timeout". */
  method TimeoutResponse(requestId: JString, freshGuid: string, now: int) returns (r: NetRpcResponse)
    ensures fresh(r) && r.requestId == requestId && r.exception == None
    ensures r.statusCode == REQUEST_TIMEOUT && r.statusMessage == Some("Request Timeout")
    ensures r.IsTimeout() && !r.IsSuccess() && !r.IsServiceUnavailable()
  {
    r := new NetRpcResponse.Default(freshGuid, now);
    r.requestId := requestId;
    r.statusCode := REQUEST_TIMEOUT;
    r.statusMessage := Some("Request Timeout");
  }

  /** `ServiceUnavailable(requestId)`: 503 "Service Unavailable". */
  method ServiceUnavailableResponse(requestId: JString, freshGuid: string, now: int) returns (r: NetRpcResponse)
    ensures fresh(r) && r.requestId == requestId && r.exception == None
    ensures r.statusCode == SERVICE_UNAVAILABLE && r.statusMessage == Some("Service Unavailable")
    ensures r.IsServiceUnavailable() && !r.IsSuccess() && !r.IsTimeout()
  {
    r := new NetRpcResponse.Default(freshGuid, now);
    r.requestId := requestId;
    r.statusCode := SERVICE_UNAVAILABLE;
    r.statusMessage := Some("Service Unavailable");
  }

  /** `RpcResponse.Builder`: 200 "OK" until told otherwise. */
  class Builder {
    var messageId: JString
    var requestId: JString
    var result: JValue
    var exception: Option<ObjRef>
    var statusCode: int
    var statusMessage: JString

    constructor ()
      ensures messageId == None && requestId == None && result == JNull && exception == None
      ensures statusCode == OK && statusMessage == Some("OK")
    {
      messageId, requestId, result, exception := None, None, JNull, None;
      statusCode, statusMessage := OK, Some("OK");
    }

    method SetMessageId(id: JString) returns (self: Builder)
      modifies this
      ensures self == this && messageId == id
      ensures requestId == old(requestId) && result == old(result) && exception == old(exception)
      ensures statusCode == old(statusCode) && statusMessage == old(statusMessage)
    {
      messageId := id;
      self := this;
    }

    method SetRequestId(id: JString) returns (self: Builder)
      modifies this
      ensures self == this && requestId == id
      ensures messageId == old(messageId) && result == old(result) && exception == old(exception)
      ensures statusCode == old(statusCode) && statusMessage == old(statusMessage)
    {
      requestId := id;
      self := this;
    }

    method SetResult(value: JValue) returns (self: Builder)
      modifies this
      ensures self == this && result == value
      ensures messageId == old(messageId) && requestId == old(requestId) && exception == old(exception)
      ensures statusCode == old(statusCode) && statusMessage == old(statusMessage)
    {
      result := value;
      self := this;
    }

    /** Records the exception; a non-null one also sets 500 "Internal Server Error". */
    method SetException(e: Option<ObjRef>) returns (self: Builder)
      modifies this
      ensures self == this && exception == e
      ensures e.Some? ==> statusCode == INTERNAL_SERVER_ERROR && statusMessage == Some("Internal Server Error")
      ensures e.None? ==> statusCode == old(statusCode) && statusMessage == old(statusMessage)
      ensures messageId == old(messageId) && requestId == old(requestId) && result == old(result)
    {
      exception := e;
      if e.Some? {
        statusCode := INTERNAL_SERVER_ERROR;
        statusMessage := Some("Internal Server Error");
      }
      self := this;
    }

    method SetStatusCode(code: int) returns (self: Builder)
      modifies this
      ensures self == this && statusCode == code
      ensures messageId == old(messageId) && requestId == old(requestId) && result == old(result)
      ensures exception == old(exception) && statusMessage == old(statusMessage)
    {
      statusCode := code;
      self := this;
    }

    method SetStatusMessage(message: JString) returns (self: Builder)
      modifies this
      ensures self == this && statusMessage == message
      ensures messageId == old(messageId) && requestId == old(requestId) && result == old(result)
      ensures exception == old(exception) && statusCode == old(statusCode)
    {
      statusMessage := message;
      self := this;
    }

    /** `Build`: the id-taking constructor, then the four fields copied as they stand. */
    method Build(freshGuid: string, now: int) returns (r: NetRpcResponse)
      ensures fresh(r) && fresh(r.base)
      ensures r.base.messageId == (if messageId.Some? then messageId else Some(freshGuid))
      ensures r.base.messageType == RESPONSE && r.base.timestamp == now
      ensures r.requestId == requestId && r.result == result && r.exception == exception
      ensures r.statusCode == statusCode && r.statusMessage == statusMessage
      ensures r.IsSuccess() <==> exception.None? && 200 <= statusCode < 300
    {
      r := new NetRpcResponse.WithIds(messageId, requestId, freshGuid, now);
      r.result := result;
      r.SetException(exception);
      r.statusCode := statusCode;
      r.statusMessage := statusMessage;
    }
  }

  /**
   * Assigning `Exception` to a success keeps 200 "OK", where Java's setter
   * would switch to 500; the response is still no success, because it now
   * carries an exception.
   */
  method ExceptionPropertyKeepsStatus(now: int, e: ObjRef) returns (code: int, message: JString, success: bool)
    ensures code == 200 && message == Some("OK") && !success
  {
    var r := SuccessResponse(Some("id"), JInt(1), "guid-1", now);
    r.SetException(Some(e));
    code, message, success := r.statusCode, r.statusMessage, r.IsSuccess();
  }

  /** In the builder the last call wins: a code after the exception replaces its 500, and vice versa. */
  method LastBuilderCallWins(now: int, e: ObjRef) returns (after: int, before: int, successAfter: bool, id: JString)
    ensures after == 200 && before == 500 && !successAfter && id == Some("guid-1")
  {
    var b1 := new Builder();
    var _ := b1.SetException(Some(e));
    var _ := b1.SetStatusCode(200);
    var r1 := b1.Build("guid-1", now);
    var b2 := new Builder();
    var _ := b2.SetStatusCode(404);
    var _ := b2.SetException(Some(e));
    var r2 := b2.Build("guid-2", now);
    after, before, successAfter, id := r1.statusCode, r2.statusCode, r1.IsSuccess(), r1.base.messageId;
  }

  /** Two responses with the same id and contents are equal, unlike in Java. */
  method EqualByValue(now: int) returns (equal: bool)
    ensures equal
  {
    var b := new Builder();
    var _ := b.SetMessageId(Some("m1"));
    var _ := b.SetResult(JInt(30));
    var x := b.Build("guid-1", now);
    var y := b.Build("guid-2", now);
    equal := x.Equals(y);
  }
}

=== FILE: object_proxy.dfy ===
/**
 * The client-side `ObjectProxy`: at construction it registers every
 * interface method under a queue name, and on each call it derives the same
 * queue name, sends the arguments and, unless the return type is
 * `Void.class`, waits for the reply. As written that wait always ends in a
 * `NullPointerException`; the intended wait-and-decode is modelled beside it.
 *
 * The queue name is the service key, ".", the method name, and for every
 * parameter the decimal text of `type.toString().hashCode() % 100`, with
 * Java's truncating remainder (so a digit group may carry a '-').
 */
module ObjectProxies {
  import opened Wrappers
  import opened JavaText
  import opened Reflect

  /** The names registration skips: the public methods of `Object`. */
  predicate IsObjectMethodName(n: string)
  {
    n == "toString" || n == "equals" || n == "hashCode" || n == "getClass"
      || n == "notify" || n == "notifyAll" || n == "wait"
  }

  /** The digit group one parameter type contributes to a queue name. */
  function ParamSuffix(t: TypeRef): (r: string)
    ensures 1 <= |r| <= 3
    ensures r[0] == '-' <==> JavaRem(StringHash(t.text), 100) < 0
  {
    var rem := JavaRem(StringHash(t.text), 100);
    IntToStringSign(rem);
    var mag := Abs(rem);
    assert |NatToString(mag)| <= 2 by {
      if mag >= 10 {
        assert NatToString(mag) == NatToString(mag / 10) + ["0123456789"[mag % 10]];
      }
    }
    IntToString(rem)
  }

  /** The digit groups of all parameter types, in declaration order. */
  function SuffixOf(types: seq<TypeRef>): string
  {
    if |types| == 0 then ""
    else SuffixOf(types[..|types| - 1]) + ParamSuffix(types[|types| - 1])
  }

  /** The reference definition of a queue name. */
  function QueueNameOf(serviceKey: string, name: string, types: seq<TypeRef>): string
  {
    serviceKey + "." + name + SuffixOf(types)
  }

  /** The `AtomicReference` accumulation shared by registration and `invoke`. */
  method QueueName(serviceKey: string, m: JMethod) returns (q: string)
    ensures q == QueueNameOf(serviceKey, m.name, m.parameterTypes)
  {
    var types := m.parameterTypes;
    q := serviceKey + "." + m.name;
    var i := 0;
    while i < |types|
      invariant 0 <= i <= |types|
      invariant q == serviceKey + "." + m.name + SuffixOf(types[..i])
    {
      assert types[..i + 1][..i] == types[..i];
      q := q + ParamSuffix(types[i]);
      i := i + 1;
    }
    assert types[..i] == types;
  }

  /** What registration stores for a method (`BaseMsgFun`'s inherited `MsgFun` fields). */
  datatype MsgFun = MsgFun(name: string, responseType: TypeRef, methodInfo: JMethod,
                           reqFullName: string, reqTypes: seq<TypeRef>, fullName: string)

  /** What the work after sending amounts to. */
  datatype AfterSend =
    | NoWait                                      // return type is exactly `Void.class`: null at once
    | ReplyMissing                                // waited; no reply was stored: null
    | ReplyDecoded(returnType: TypeRef, response: JValue)  // the response's text decoded as the return type
    | ReplyWithoutResponse                        // a reply whose response is null: `toString` throws
    | WaitFailed                                  // `acquire` dereferences a null latch map or a null `put` result

  datatype InvokeOutcome =
    | LocalEquals(same: bool)
    | LocalHashCode(hash: int)
    | LocalToString
    | IllegalState
    | ArgumentMissing                             // `args[0]` on an empty argument array
    | NoSuchMethod
    | Sent(queue: string, args: seq<JValue>, after: AfterSend)

  class ObjectProxy {
    /** `clazz.getMethods()`. */
    const methods: seq<JMethod>
    const version: JString
    /** The inherited `FullName` at the time registration runs. */
    const fullName: JString
    /** `ServiceUtil.makeServiceKey`, which is not part of this model. */
    const makeServiceKey: (string, JString) -> string
    /** The inherited `linkMap`. */
    var linkMap: map<string, MsgFun>

    /** The queue name of a method of this proxy. */
    function KeyOf(m: JMethod): string
    {
      QueueNameOf(makeServiceKey(m.name, version), m.name, m.parameterTypes)
    }

    function EntryOf(m: JMethod): MsgFun
    {
      MsgFun(m.name, m.returnType, m, JavaStr(version) + "." + JavaStr(fullName) + "." + m.name,
             m.parameterTypes, KeyOf(m))
    }

    /** The table after registering `ms` in order over `start`: later entries overwrite earlier ones. */
    function Registrations(start: map<string, MsgFun>, ms: seq<JMethod>): map<string, MsgFun>
    {
      if |ms| == 0 then start
      else
        var before := Registrations(start, ms[..|ms| - 1]);
        var m := ms[|ms| - 1];
        if IsObjectMethodName(m.name) then before else before[KeyOf(m) := EntryOf(m)]
    }

    constructor (methods: seq<JMethod>, version: JString, fullName: JString,
                 makeServiceKey: (string, JString) -> string)
      ensures this.methods == methods && this.version == version && this.fullName == fullName
      ensures this.makeServiceKey == makeServiceKey
      ensures linkMap == Registrations(map[], methods)
    {
      this.methods := methods;
      this.version := version;
      this.fullName := fullName;
      this.makeServiceKey := makeServiceKey;
      linkMap := map[];
      new;
      GetMathsInfoMulti();
    }

    /** Registers every method except those named like `Object`'s, under its queue name. */
    method GetMathsInfoMulti()
      modifies this
      ensures linkMap == Registrations(old(linkMap), methods)
    {
      ghost var start := linkMap;
      var i := 0;
      while i < |methods|
        invariant 0 <= i <= |methods|
        invariant linkMap == Registrations(start, methods[..i])
      {
        assert methods[..i + 1][..i] == methods[..i];
        var m := methods[i];
        if !IsObjectMethodName(m.name) {
          var serviceName := makeServiceKey(m.name, version);
          var queue := QueueName(serviceName, m);
          linkMap := linkMap[queue := EntryOf(m)];
        }
        i := i + 1;
      }
      assert methods[..i] == methods;
    }

    /** Exactly the methods not named like `Object`'s get a key, and each under its own queue name. */
    lemma {:induction false} RegisteredKeys(ms: seq<JMethod>, k: string)
      ensures k in Registrations(map[], ms)
          <==> exists j :: 0 <= j < |ms| && !IsObjectMethodName(ms[j].name) && k == KeyOf(ms[j])
    {
      if |ms| > 0 {
        var init := ms[..|ms| - 1];
        RegisteredKeys(init, k);
        var m := ms[|ms| - 1];
        if k in Registrations(map[], ms) && !(k in Registrations(map[], init)) {
          assert !IsObjectMethodName(m.name) && k == KeyOf(m);
        }
        if exists j :: 0 <= j < |ms| && !IsObjectMethodName(ms[j].name) && k == KeyOf(ms[j]) {
          var j :| 0 <= j < |ms| && !IsObjectMethodName(ms[j].name) && k == KeyOf(ms[j]);
          if j < |ms| - 1 {
            assert init[j] == ms[j];
          }
        }
        if exists j :: 0 <= j < |init| && !IsObjectMethodName(init[j].name) && k == KeyOf(init[j]) {
          var j :| 0 <= j < |init| && !IsObjectMethodName(init[j].name) && k == KeyOf(init[j]);
          assert ms[j] == init[j];
        }
      }
    }

    /**
     * Two overloads whose digit groups concatenate alike share a queue name,
     * and registering both keeps only the later one.
     */
    lemma CollidingOverloadsShareEntry(a: JMethod, b: JMethod)
      requires a.name == b.name && !IsObjectMethodName(a.name)
      requires SuffixOf(a.parameterTypes) == SuffixOf(b.parameterTypes)
      ensures KeyOf(a) == KeyOf(b)
      ensures Registrations(map[], [a, b]) == map[KeyOf(a) := EntryOf(b)]
    {
      assert [a, b][..1] == [a];
      assert [a][..0] == [];
      assert Registrations(map[], [a]) == map[KeyOf(a) := EntryOf(a)];
      assert Registrations(map[], [a, b]) == map[KeyOf(a) := EntryOf(a)][KeyOf(b) := EntryOf(b)];
    }

    /**
     * `invoke`: local answers for `Object` methods; otherwise look up the
     * queue, send, and unless the return type is `Void.class` call
     * `acquire`. The entries registration stores never get their latch map,
     * and `put` returns the previous latch, which for a new id is null, so
     * that call always throws.
     */
    method Invoke(proxy: ObjRef, m: JMethod, args: seq<JValue>, identityHash: int)
      returns (out: InvokeOutcome)
      ensures SameClass(m.declaringClass, ObjectClass) ==>
        (m.name == "equals" ==> out == (if |args| == 0 then ArgumentMissing else LocalEquals(args[0] == JObject(proxy))))
        && (m.name == "hashCode" ==> out == LocalHashCode(identityHash))
        && (m.name == "toString" ==> out == LocalToString)
        && (m.name !in {"equals", "hashCode", "toString"} ==> out == IllegalState)
      ensures !SameClass(m.declaringClass, ObjectClass) ==>
        (out == NoSuchMethod <==> KeyOf(m) !in linkMap)
        && (KeyOf(m) in linkMap ==> out.Sent? && out.queue == KeyOf(m) && out.args == args)
      ensures out.Sent? ==> out.after == (if SameClass(m.returnType, VoidBoxed) then NoWait else WaitFailed)
    {
      if SameClass(m.declaringClass, ObjectClass) {
        if m.name == "equals" {
          if |args| == 0 {
            out := ArgumentMissing;
          } else {
            out := LocalEquals(args[0] == JObject(proxy));
          }
        } else if m.name == "hashCode" {
          out := LocalHashCode(identityHash);
        } else if m.name == "toString" {
          out := LocalToString;
        } else {
          out := IllegalState;
        }
        return;
      }
      var serviceName := makeServiceKey(m.name, version);
      var queue := QueueName(serviceName, m);
      if queue !in linkMap {
        return NoSuchMethod;
      }
      if SameClass(m.returnType, VoidBoxed) {
        return Sent(queue, args, NoWait);
      }
      out := Sent(queue, args, WaitFailed);
    }

    /**
     * The intended `invoke`: the same dispatch, with a wait that returns the
     * reply stored for the request (`reply`, `None` when there is none), then
     * null for no reply or the response decoded as the return type.
     */
    method InvokeIntended(proxy: ObjRef, m: JMethod, args: seq<JValue>, identityHash: int, reply: Option<JValue>)
      returns (out: InvokeOutcome)
      ensures SameClass(m.declaringClass, ObjectClass) ==>
        (m.name == "equals" ==> out == (if |args| == 0 then ArgumentMissing else LocalEquals(args[0] == JObject(proxy))))
        && (m.name == "hashCode" ==> out == LocalHashCode(identityHash))
        && (m.name == "toString" ==> out == LocalToString)
        && (m.name !in {"equals", "hashCode", "toString"} ==> out == IllegalState)
      ensures !SameClass(m.declaringClass, ObjectClass) ==>
        (out == NoSuchMethod <==> KeyOf(m) !in linkMap)
        && (KeyOf(m) in linkMap ==> out.Sent? && out.queue == KeyOf(m) && out.args == args)
      ensures out.Sent? ==>
        (out.after == NoWait <==> SameClass(m.returnType, VoidBoxed))
        && (!SameClass(m.returnType, VoidBoxed) ==>
              out.after == match reply
                           case None => ReplyMissing
                           case Some(v) => if v == JNull then ReplyWithoutResponse else ReplyDecoded(m.returnType, v))
    {
      out := Invoke(proxy, m, args, identityHash);
      if out.Sent? && out.after == WaitFailed {
        match reply {
          case None =>
            out := out.(after := ReplyMissing);
          case Some(v) =>
            if v == JNull {
              out := out.(after := ReplyWithoutResponse);
            } else {
              out := out.(after := ReplyDecoded(m.returnType, v));
            }
        }
      }
    }
  }

  /** Every method a proxy registered is found again by `invoke` with the same queue name. */
  lemma RegisteredMethodIsFound(p: ObjectProxy, j: nat)
    requires p.linkMap == p.Registrations(map[], p.methods)
    requires j < |p.methods| && !IsObjectMethodName(p.methods[j].name)
    ensures p.KeyOf(p.methods[j]) in p.linkMap
  {
    p.RegisteredKeys(p.methods, p.KeyOf(p.methods[j]));
  }

  /** One step of `String.hashCode`. */
  lemma HashStep(s: string, h: int, c: char)
    requires StringHash(s) == h
    ensures StringHash(s + [c]) == ToInt32(31 * h + c as int)
  {
    assert (s + [c])[..|s|] == s;
  }

  lemma IntHash()
    ensures StringHash("int") == 104431
  {
    assert "" + ['i'] == "i";
    HashStep("", 0, 'i');
    assert "i" + ['n'] == "in";
    HashStep("i", 105, 'n');
    assert "in" + ['t'] == "int";
    HashStep("in", 3365, 't');
  }

  lemma ClassPrefixHash()
    ensures StringHash("class") == 94742904
  {
    assert "" + ['c'] == "c";
    HashStep("", 0, 'c');
    assert "c" + ['l'] == "cl";
    HashStep("c", 99, 'l');
    assert "cl" + ['a'] == "cla";
    HashStep("cl", 3177, 'a');
    assert "cla" + ['s'] == "clas";
    HashStep("cla", 98584, 's');
    assert "clas" + ['s'] == "class";
    HashStep("clas", 3056219, 's');
  }

  /** The text of `byte[].class`, "class [B", hashes past 2^31 on the way. */
  lemma ByteArrayHash()
    ensures StringHash("class [B") == 692373231
  {
    ClassPrefixHash();
    WrappingHashStep();
    assert "class [" + ['B'] == "class [B";
    HashStep("class [", 853618611, 'B');
  }

  /** The two steps of "class [B" after "class": the first of them passes 2^31 and wraps. */
  lemma WrappingHashStep()
    requires StringHash("class") == 94742904
    ensures StringHash("class [") == 853618611
  {
    assert "class" + [' '] == "class ";
    HashStep("class", 94742904, ' ');
    assert ToInt32(31 * 94742904 + 32) == -1357937240;
    assert "class " + ['['] == "class [";
    HashStep("class ", -1357937240, '[');
  }

  /** A non-negative hash whose last two decimal digits are 31 contributes "31". */
  lemma SuffixThirtyOne(t: TypeRef, q: nat)
    requires StringHash(t.text) == 100 * q + 31
    ensures ParamSuffix(t) == "31"
  {
    var h := StringHash(t.text);
    assert h % 100 == 31;
    assert JavaRem(h, 100) == 31;
    assert NatToString(31) == "31";
  }

  /** `int` and `byte[]` both contribute "31", so overloads on them share a queue name. */
  lemma IntAndByteArrayCollide()
    ensures ParamSuffix(TypeRef("int", "int", "", "int")) == "31"
    ensures ParamSuffix(TypeRef("[B", "byte[]", "", "class [B")) == "31"
  {
    IntHash();
    SuffixThirtyOne(TypeRef("int", "int", "", "int"), 1044);
    ByteArrayHash();
    SuffixThirtyOne(TypeRef("[B", "byte[]", "", "class [B"), 6923732);
  }

  /** The single-parameter digit groups of `int` and `byte[]` agree. */
  lemma IntAndByteArraySuffixes(intType: TypeRef, bytesType: TypeRef)
    requires intType == TypeRef("int", "int", "", "int")
    requires bytesType == TypeRef("[B", "byte[]", "", "class [B")
    ensures SuffixOf([intType]) == SuffixOf([bytesType])
  {
    IntAndByteArrayCollide();
    assert [intType][..0] == [] && [bytesType][..0] == [];
  }

  /**
   * Registering `send(int)` and then `send(byte[])` leaves one entry, the
   * later one; a call to `send(int)` is then routed to the `byte[]` entry.
   */
  method OverloadsCollapse(owner: TypeRef, ret: TypeRef, makeServiceKey: (string, JString) -> string)
    returns (size: nat, stored: JMethod, second: JMethod)
    ensures size == 1
    ensures stored == second
  {
    var intType := TypeRef("int", "int", "", "int");
    var bytesType := TypeRef("[B", "byte[]", "", "class [B");
    var first := JMethod("send", owner, ret, [intType]);
    second := JMethod("send", owner, ret, [bytesType]);
    IntAndByteArraySuffixes(intType, bytesType);
    var p := new ObjectProxy([first, second], Some("v1"), None, makeServiceKey);
    p.CollidingOverloadsShareEntry(first, second);
    size := |p.linkMap|;
    stored := p.linkMap[p.KeyOf(first)].methodInfo;
  }

  /**
   * As written, a call to a registered method that returns anything but
   * `Void.class` is sent and then throws in `acquire`, whatever reply arrives.
   */
  method RegisteredCallThrows(owner: TypeRef, text: TypeRef, proxyRef: ObjRef,
                              makeServiceKey: (string, JString) -> string)
    returns (out: InvokeOutcome)
    requires !SameClass(owner, ObjectClass) && !SameClass(text, VoidBoxed)
    ensures out.Sent? && out.args == [JText("hi")] && out.after == WaitFailed
  {
    var echo := JMethod("echo", owner, text, [text]);
    var p := new ObjectProxy([echo], Some("v1"), None, makeServiceKey);
    RegisteredMethodIsFound(p, 0);
    out := p.Invoke(proxyRef, echo, [JText("hi")], 7);
  }

  /** With the intended wait, the same call is sent and a stored reply is decoded as its return type. */
  method RegisteredCallIsAnswered(owner: TypeRef, text: TypeRef, proxyRef: ObjRef,
                                  makeServiceKey: (string, JString) -> string)
    returns (out: InvokeOutcome)
    requires !SameClass(owner, ObjectClass) && !SameClass(text, VoidBoxed)
    ensures out.Sent? && out.args == [JText("hi")] && out.after == ReplyDecoded(text, JText("ok"))
  {
    var echo := JMethod("echo", owner, text, [text]);
    var p := new ObjectProxy([echo], Some("v1"), None, makeServiceKey);
    RegisteredMethodIsFound(p, 0);
    out := p.InvokeIntended(proxyRef, echo, [JText("hi")], 7, Some(JText("ok")));
  }
}

=== FILE: proxy_enhanced.dfy ===
/**
 * `EnhancedDynamicProxyFactory`: like `DynamicProxyFactory`, but it also
 * keeps the handler each proxy was made with, can drop one interface's
 * proxy and handler, and reports the sizes of its three caches.
 */
module EnhancedProxyFactories {
  import opened Wrappers
  import opened JavaText
  import opened Reflect
  import opened DynamicProxyFactories

  /** `getCacheStats`: proxies, method infos, handlers. */
  datatype CacheStats = CacheStats(proxyCount: nat, methodInfoCount: nat, handlerCount: nat)

  class EnhancedDynamicProxyFactory {
    var proxyCache: map<TypeRef, ProxyObject>
    var methodInfoCache: map<string, MethodInfo>
    var handlerCache: map<TypeRef, Handler>

    /** Proxies and handlers are cached for the same interfaces, each handler the one its proxy was made with. */
    predicate Valid()
      reads this
    {
      handlerCache.Keys == proxyCache.Keys
      && forall i :: i in handlerCache ==> proxyCache[i].handler == handlerCache[i]
    }

    constructor ()
      ensures proxyCache == map[] && methodInfoCache == map[] && handlerCache == map[]
      ensures Valid()
    {
      proxyCache, methodInfoCache, handlerCache := map[], map[], map[];
    }

    /**
     * `createProxy`: a hit returns the cached proxy and leaves every cache
     * alone; a miss makes a proxy over the handler and caches both.
     */
    method CreateProxy(interfaceClass: TypeRef, handler: Handler) returns (p: ProxyObject)
      requires Valid()
      modifies this
      ensures Valid()
      ensures interfaceClass in old(proxyCache) ==>
                p == old(proxyCache)[interfaceClass] && proxyCache == old(proxyCache)
                && handlerCache == old(handlerCache)
      ensures interfaceClass !in old(proxyCache) ==>
                fresh(p) && p.interfaceClass == interfaceClass && p.handler == handler
                && proxyCache == old(proxyCache)[interfaceClass := p]
                && handlerCache == old(handlerCache)[interfaceClass := handler]
      ensures methodInfoCache == old(methodInfoCache)
    {
      if interfaceClass in proxyCache {
        return proxyCache[interfaceClass];
      }
      p := new ProxyObject(interfaceClass, handler);
      proxyCache := proxyCache[interfaceClass := p];
      handlerCache := handlerCache[interfaceClass := handler];
    }

    /** `createRpcProxy`: `createProxy` with the given handler; the version is not used. */
    method CreateRpcProxy(interfaceClass: TypeRef, version: JString, rpcHandler: ObjRef) returns (p: ProxyObject)
      requires Valid()
      modifies this
      ensures Valid()
      ensures interfaceClass in old(proxyCache) ==>
                p == old(proxyCache)[interfaceClass] && proxyCache == old(proxyCache)
                && handlerCache == old(handlerCache)
      ensures interfaceClass !in old(proxyCache) ==>
                fresh(p) && p.handler == Plain(rpcHandler)
                && proxyCache == old(proxyCache)[interfaceClass := p]
                && handlerCache == old(handlerCache)[interfaceClass := Plain(rpcHandler)]
      ensures methodInfoCache == old(methodInfoCache)
    {
      p := CreateProxy(interfaceClass, Plain(rpcHandler));
    }

    method GetMethodInfo(methodKey: string) returns (r: Option<MethodInfo>)
      ensures methodKey in methodInfoCache ==> r == Some(methodInfoCache[methodKey])
      ensures methodKey !in methodInfoCache ==> r == None
    {
      r := if methodKey in methodInfoCache then Some(methodInfoCache[methodKey]) else None;
    }

    method CacheMethodInfo(methodKey: string, info: MethodInfo)
      modifies this
      ensures methodInfoCache == old(methodInfoCache)[methodKey := info]
      ensures proxyCache == old(proxyCache) && handlerCache == old(handlerCache)
    {
      methodInfoCache := methodInfoCache[methodKey := info];
    }

    /** `getHandler`: the handler the interface's cached proxy was made with, or `null`. */
    method GetHandler(interfaceClass: TypeRef) returns (r: Option<Handler>)
      requires Valid()
      ensures interfaceClass in handlerCache ==> r == Some(handlerCache[interfaceClass])
      ensures interfaceClass !in handlerCache ==> r == None
      ensures r.Some? ==> interfaceClass in proxyCache && proxyCache[interfaceClass].handler == r.value
    {
      r := if interfaceClass in handlerCache then Some(handlerCache[interfaceClass]) else None;
    }

    /** `clearCache()`: all three caches emptied. */
    method ClearCache()
      modifies this
      ensures Valid()
      ensures proxyCache == map[] && methodInfoCache == map[] && handlerCache == map[]
    {
      proxyCache, methodInfoCache, handlerCache := map[], map[], map[];
    }

    /** `clearCache(interface)`: that interface's proxy and handler go; every method info stays. */
    method ClearInterface(interfaceClass: TypeRef)
      requires Valid()
      modifies this
      ensures Valid()
      ensures proxyCache == old(proxyCache) - {interfaceClass}
      ensures handlerCache == old(handlerCache) - {interfaceClass}
      ensures methodInfoCache == old(methodInfoCache)
    {
      proxyCache := proxyCache - {interfaceClass};
      handlerCache := handlerCache - {interfaceClass};
    }

    method GetCacheStats() returns (stats: CacheStats)
      requires Valid()
      ensures stats == CacheStats(|proxyCache|, |methodInfoCache|, |handlerCache|)
      ensures stats.handlerCount == stats.proxyCount
    {
      assert |handlerCache| == |handlerCache.Keys| && |proxyCache| == |proxyCache.Keys|;
      stats := CacheStats(|proxyCache|, |methodInfoCache|, |handlerCache|);
    }
  }

  /** A handler cache keyed by interfaces that all have proxies holds no more entries than the proxy cache. */
  lemma HandlersWithinProxies(proxies: map<TypeRef, ProxyObject>, handlers: map<TypeRef, Handler>)
    requires forall i :: i in handlers ==> i in proxies
    ensures |handlers| <= |proxies|
  {
    assert handlers.Keys <= proxies.Keys;
    SubsetSize(handlers.Keys, proxies.Keys);
  }

  lemma {:induction false} SubsetSize<T>(a: set<T>, b: set<T>)
    requires a <= b
    ensures |a| <= |b|
    decreases b
  {
    if a != {} {
      var x :| x in a;
      SubsetSize(a - {x}, b - {x});
    }
  }

  /** Two interfaces get proxies; dropping one keeps the other's proxy and handler, and the method info. */
  method DropOneInterface(a: TypeRef, b: TypeRef, ha: ObjRef, hb: ObjRef, key: string, info: MethodInfo)
    returns (after: CacheStats, kept: Option<Handler>)
    requires a != b
    ensures after == CacheStats(1, 1, 1) && kept == Some(Plain(hb))
  {
    var factory := new EnhancedDynamicProxyFactory();
    var pa := factory.CreateProxy(a, Plain(ha));
    var pb := factory.CreateProxy(b, Plain(hb));
    factory.CacheMethodInfo(key, info);
    ghost var proxies, handlers := factory.proxyCache, factory.handlerCache;
    assert proxies == map[a := pa, b := pb] && handlers == map[a := Plain(ha), b := Plain(hb)];
    factory.ClearInterface(a);
    assert factory.proxyCache == map[b := pb] by { assert factory.proxyCache == proxies - {a}; }
    assert factory.handlerCache == map[b := Plain(hb)] by { assert factory.handlerCache == handlers - {a}; }
    after := factory.GetCacheStats();
    kept := factory.GetHandler(b);
  }

  /** After its interface is dropped, the next request makes a new proxy over the new handler. */
  method RecreateAfterDrop(iface: TypeRef, h1: ObjRef, h2: ObjRef) returns (remade: bool, handler: Option<Handler>)
    ensures remade && handler == Some(Plain(h2))
  {
    var factory := new EnhancedDynamicProxyFactory();
    var first := factory.CreateProxy(iface, Plain(h1));
    factory.ClearInterface(iface);
    var second := factory.CreateProxy(iface, Plain(h2));
    remade := first != second;
    handler := factory.GetHandler(iface);
  }

  /** A cache hit ignores the new handler: the handler cache keeps the first one. */
  method HitKeepsHandler(iface: TypeRef, h1: ObjRef, h2: ObjRef) returns (same: bool, handler: Option<Handler>)
    ensures same && handler == Some(Plain(h1))
  {
    var factory := new EnhancedDynamicProxyFactory();
    var first := factory.CreateProxy(iface, Plain(h1));
    var second := factory.CreateProxy(iface, Plain(h2));
    same := first == second;
    handler := factory.GetHandler(iface);
  }
}

=== FILE: proxy_factory.dfy ===
/**
 * `DynamicProxyFactory`: one proxy per interface, created on the first
 * request and handed out from then on, plus a method-info cache.
 * `Proxy.newProxyInstance` is modelled by allocating a `ProxyObject` that
 * remembers its interface and its invocation handler.
 */
module DynamicProxyFactories {
  import opened Wrappers
  import opened JavaText
  import opened Reflect
  import opened MethodKeys

  /** An invocation handler: some caller-supplied object, or the factory's own RPC handler. */
  datatype Handler =
    | Plain(ref: ObjRef)
    | RpcInvocation(interfaceClass: TypeRef, version: JString, rpcHandler: ObjRef)

  /** What `Proxy.newProxyInstance` returns: a new object dispatching to its handler. */
  class ProxyObject {
    const interfaceClass: TypeRef
    const handler: Handler

    constructor (interfaceClass: TypeRef, handler: Handler)
      ensures this.interfaceClass == interfaceClass && this.handler == handler
    {
      this.interfaceClass := interfaceClass;
      this.handler := handler;
    }
  }

  /**
   * `MethodInfo`: the interface, the method, the version and the argument
   * array exactly as the proxy received it (`null` for a method without
   * parameters). `EnhancedDynamicProxyFactory.MethodInfo` is the same class.
   */
  datatype MethodInfo = MethodInfo(interfaceClass: TypeRef, javaMethod: JMethod, version: JString,
                                   arguments: Option<seq<JValue>>)

  /** `getMethodKey`: the version, the interface name, a dot and the method name. */
  function MethodKey(info: MethodInfo): string
  {
    VersionedKey(info.version, Some(info.interfaceClass.name), Some(info.javaMethod.name))
  }

  /** `RpcInvocationHandler.generateMethodKey`. */
  function InvocationKey(interfaceClass: TypeRef, m: JMethod, version: JString): string
  {
    JavaStr(version) + interfaceClass.name + "." + m.name
  }

  /**
   * `RpcInvocationHandler.invoke`: the handler is given a `MethodInfo`
   * built from its own interface and version and the call's method and
   * arguments, and its answer is returned. `handleRpcCall` is the
   * caller's code, passed in as `handle`.
   */
  function Invoke(interfaceClass: TypeRef, version: JString, m: JMethod, args: Option<seq<JValue>>,
                  handle: MethodInfo -> JValue): (r: JValue)
    ensures exists info :: r == handle(info) && info.javaMethod == m && info.arguments == args
                           && info.interfaceClass == interfaceClass && info.version == version
  {
    var info := MethodInfo(interfaceClass, m, version, args);
    handle(info)
  }

  /**
   * The key `invoke` computes and then leaves unused is the one the
   * handler can read back from the `MethodInfo`; under one interface and
   * version it tells methods apart by name only.
   */
  lemma InvocationKeyIsMethodKey(interfaceClass: TypeRef, version: JString, a: JMethod, b: JMethod,
                                 args: Option<seq<JValue>>)
    ensures InvocationKey(interfaceClass, a, version) == MethodKey(MethodInfo(interfaceClass, a, version, args))
    ensures MethodKey(MethodInfo(interfaceClass, a, version, args)) == MethodKey(MethodInfo(interfaceClass, b, version, None))
            <==> a.name == b.name
  {
    VersionedKeyNameInjective(version, Some(interfaceClass.name), Some(a.name), Some(b.name));
  }

  class DynamicProxyFactory {
    var proxyCache: map<TypeRef, ProxyObject>
    var methodInfoCache: map<string, MethodInfo>

    constructor ()
      ensures proxyCache == map[] && methodInfoCache == map[]
    {
      proxyCache, methodInfoCache := map[], map[];
    }

    /**
     * `createProxy`: the cached proxy of the interface, whatever handler is
     * passed now; else a new proxy over this handler, cached.
     */
    method CreateProxy(interfaceClass: TypeRef, handler: Handler) returns (p: ProxyObject)
      modifies this
      ensures interfaceClass in old(proxyCache) ==> p == old(proxyCache)[interfaceClass] && proxyCache == old(proxyCache)
      ensures interfaceClass !in old(proxyCache) ==>
                fresh(p) && p.interfaceClass == interfaceClass && p.handler == handler
                && proxyCache == old(proxyCache)[interfaceClass := p]
      ensures methodInfoCache == old(methodInfoCache)
    {
      if interfaceClass in proxyCache {
        return proxyCache[interfaceClass];
      }
      p := new ProxyObject(interfaceClass, handler);
      proxyCache := proxyCache[interfaceClass := p];
    }

    /** `createRpcProxy`: `createProxy` with a new RPC invocation handler for the interface and version. */
    method CreateRpcProxy(interfaceClass: TypeRef, version: JString, rpcHandler: ObjRef) returns (p: ProxyObject)
      modifies this
      ensures interfaceClass in old(proxyCache) ==> p == old(proxyCache)[interfaceClass] && proxyCache == old(proxyCache)
      ensures interfaceClass !in old(proxyCache) ==>
                fresh(p) && p.handler == RpcInvocation(interfaceClass, version, rpcHandler)
                && proxyCache == old(proxyCache)[interfaceClass := p]
      ensures methodInfoCache == old(methodInfoCache)
    {
      p := CreateProxy(interfaceClass, RpcInvocation(interfaceClass, version, rpcHandler));
    }

    method GetMethodInfo(methodKey: string) returns (r: Option<MethodInfo>)
      ensures methodKey in methodInfoCache ==> r == Some(methodInfoCache[methodKey])
      ensures methodKey !in methodInfoCache ==> r == None
    {
      r := if methodKey in methodInfoCache then Some(methodInfoCache[methodKey]) else None;
    }

    method CacheMethodInfo(methodKey: string, info: MethodInfo)
      modifies this
      ensures methodInfoCache == old(methodInfoCache)[methodKey := info] && proxyCache == old(proxyCache)
    {
      methodInfoCache := methodInfoCache[methodKey := info];
    }

    /** `clearCache`: both caches emptied. */
    method ClearCache()
      modifies this
      ensures proxyCache == map[] && methodInfoCache == map[]
    {
      proxyCache, methodInfoCache := map[], map[];
    }
  }

  /**
   * A second `createProxy` for the same interface returns the first proxy,
   * still bound to the first handler; after `clearCache` a new one is made.
   */
  method FirstHandlerWins(iface: TypeRef, h1: ObjRef, h2: ObjRef)
    returns (first: ProxyObject, second: ProxyObject, third: ProxyObject)
    ensures second == first && second.handler == Plain(h1)
    ensures third != first && third.handler == Plain(h2)
  {
    var factory := new DynamicProxyFactory();
    first := factory.CreateProxy(iface, Plain(h1));
    second := factory.CreateProxy(iface, Plain(h2));
    factory.ClearCache();
    third := factory.CreateProxy(iface, Plain(h2));
  }

  /** A cached method info is read back unchanged, and `clearCache` drops it. */
  method MethodInfoCached(key: string, info: MethodInfo) returns (before: Option<MethodInfo>, after: Option<MethodInfo>)
    ensures before == Some(info) && after == None
  {
    var factory := new DynamicProxyFactory();
    factory.CacheMethodInfo(key, info);
    before := factory.GetMethodInfo(key);
    factory.ClearCache();
    after := factory.GetMethodInfo(key);
  }
}

=== FILE: reflect.dfy ===
/**
 * What the RPC core reads from Java reflection, recorded as plain data:
 * classes, methods and the values that cross the serializer.
 */
module Reflect {

  /**
   * A `Class` object: `getName()`, `getSimpleName()`, the package name and
   * `toString()` ("class x.Y", "interface x.Y", or the bare primitive name).
   */
  datatype TypeRef = TypeRef(name: string, simpleName: string, packageName: string, text: string)

  /** A `java.lang.reflect.Method`. */
  datatype JMethod = JMethod(name: string, declaringClass: TypeRef, returnType: TypeRef,
                             parameterTypes: seq<TypeRef>)

  const ObjectClass: TypeRef := TypeRef("java.lang.Object", "Object", "java.lang", "class java.lang.Object")

  /** `Void.class`, the boxed void type. */
  const VoidBoxed: TypeRef := TypeRef("java.lang.Void", "Void", "java.lang", "class java.lang.Void")

  /** `void.class`, what `getReturnType()` reports for a `void` method. */
  const VoidPrimitive: TypeRef := TypeRef("void", "void", "", "void")

  /** Class objects of one class loader are equal exactly when their names are. */
  predicate SameClass(a: TypeRef, b: TypeRef)
  {
    a.name == b.name
  }

  /** A reference to some object; two references are `==` exactly when their ids are. */
  datatype ObjRef = ObjRef(id: nat)

  /** A value handed to or returned by an RPC method or the serializer. */
  datatype JValue = JNull | JBool(b: bool) | JInt(i: int) | JText(s: string) | JObject(ref: ObjRef)
}

=== FILE: rpc_exception_core.dfy ===
/**
 * The core `RpcException`: an error code, a message, an optional service
 * and method name and a cause, all fixed at construction; `toString`
 * names the service and the method only when they are set.
 */
module CoreRpcExceptions {
  import opened Wrappers
  import opened JavaText
  import opened Reflect

  /** `ErrorCodes`. */
  const TIMEOUT: string := "RPC_TIMEOUT"
  const SERVICE_NOT_FOUND: string := "SERVICE_NOT_FOUND"
  const METHOD_NOT_FOUND: string := "METHOD_NOT_FOUND"
  const SERIALIZATION_ERROR: string := "SERIALIZATION_ERROR"
  const NETWORK_ERROR: string := "NETWORK_ERROR"
  const INVOCATION_ERROR: string := "INVOCATION_ERROR"

  /** The code of every constructor that is given none. */
  const RPC_ERROR: string := "RPC_ERROR"

  /** The fields of the exception; `message` is `getMessage()`, `cause` is `getCause()`. */
  datatype RpcException = RpcException(errorCode: JString, message: JString, serviceName: JString,
                                       methodName: JString, cause: Option<ObjRef>)

  /** `RpcException(message)` and `RpcException(message, cause)`. */
  function FromMessage(message: JString, cause: Option<ObjRef>): (e: RpcException)
    ensures e.errorCode == Some(RPC_ERROR) && e.message == message && e.cause == cause
    ensures e.serviceName == None && e.methodName == None
  {
    RpcException(Some(RPC_ERROR), message, None, None, cause)
  }

  /** `RpcException(errorCode, message)` and `RpcException(errorCode, message, cause)`. */
  function Coded(errorCode: JString, message: JString, cause: Option<ObjRef>): (e: RpcException)
    ensures e.errorCode == errorCode && e.message == message && e.cause == cause
    ensures e.serviceName == None && e.methodName == None
  {
    RpcException(errorCode, message, None, None, cause)
  }

  /** `RpcException(errorCode, message, serviceName, methodName)`: the only one that keeps the names. */
  function Named(errorCode: JString, message: JString, serviceName: JString, methodName: JString): (e: RpcException)
    ensures e.errorCode == errorCode && e.message == message && e.cause == None
    ensures e.serviceName == serviceName && e.methodName == methodName
  {
    RpcException(errorCode, message, serviceName, methodName, None)
  }

  /**
   * The constructors are one shape: without a code they use "RPC_ERROR",
   * and naming no service and no method is not naming them at all.
   */
  lemma ConstructorsAgree(errorCode: JString, message: JString, cause: Option<ObjRef>)
    ensures FromMessage(message, cause) == Coded(Some(RPC_ERROR), message, cause)
    ensures Named(errorCode, message, None, None) == Coded(errorCode, message, None)
    ensures Named(errorCode, message, Some("s"), None) != Coded(errorCode, message, None)
  {
  }

  /** An optional clause of `toString`: present only for a name that is set. */
  function NameClause(field: string, name: JString): string
  {
    if name.Some? then ", " + field + "='" + name.value + "'" else ""
  }

  /** `toString`. */
  function ToString(e: RpcException): string
  {
    "RpcException{errorCode='" + JavaStr(e.errorCode) + "'"
    + NameClause("serviceName", e.serviceName) + NameClause("methodName", e.methodName)
    + ", message='" + JavaStr(e.message) + "'}"
  }

  /** The first and last parts of a three-part concatenation are its prefix and suffix. */
  lemma ConcatEnds(head: string, middle: string, tail: string)
    ensures (head + middle + tail)[..|head|] == head
    ensures (head + middle + tail)[|head + middle|..] == tail
  {
  }

  /** `toString` always opens with the code and closes with the message. */
  lemma ToStringFrames(e: RpcException)
    ensures var head := "RpcException{errorCode='" + JavaStr(e.errorCode) + "'";
      |head| <= |ToString(e)| && ToString(e)[..|head|] == head
    ensures var tail := ", message='" + JavaStr(e.message) + "'}";
      |tail| <= |ToString(e)| && ToString(e)[|ToString(e)| - |tail|..] == tail
  {
    var head := "RpcException{errorCode='" + JavaStr(e.errorCode) + "'";
    var names := NameClause("serviceName", e.serviceName) + NameClause("methodName", e.methodName);
    var tail := ", message='" + JavaStr(e.message) + "'}";
    assert ToString(e) == head + names + tail;
    ConcatEnds(head, names, tail);
  }

  /**
   * The length of `toString` grows by one clause for each name that is set,
   * and with neither set it is exactly the code and the message.
   */
  lemma ToStringShowsSetNames(e: RpcException)
    ensures |ToString(e)| == |ToString(e.(serviceName := None, methodName := None))|
                            + (if e.serviceName.Some? then 16 + |e.serviceName.value| else 0)
                            + (if e.methodName.Some? then 15 + |e.methodName.value| else 0)
    ensures e.serviceName.None? && e.methodName.None? ==>
              ToString(e) == "RpcException{errorCode='" + JavaStr(e.errorCode) + "', message='" + JavaStr(e.message) + "'}"
  {
  }

  /** The named codes differ from one another and from the default "RPC_ERROR". */
  lemma ErrorCodesDistinct()
    ensures |{TIMEOUT, SERVICE_NOT_FOUND, METHOD_NOT_FOUND, SERIALIZATION_ERROR, NETWORK_ERROR, INVOCATION_ERROR, RPC_ERROR}| == 7
  {
  }
}

=== FILE: rpc_exception_improved.dfy ===
/**
 * The improved `RpcException`: the core exception's fields plus the time it
 * was created, a richer set of error codes, and one factory per kind of
 * failure, each choosing the code and the message format.
 */
module ImprovedRpcExceptions {
  import opened Wrappers
  import opened JavaText
  import opened Reflect
  import Core = CoreRpcExceptions

  /** `ErrorCodes`. */
  const GENERAL_ERROR: string := "RPC_GENERAL_ERROR"
  const TIMEOUT: string := "RPC_TIMEOUT"
  const SERVICE_NOT_FOUND: string := "SERVICE_NOT_FOUND"
  const METHOD_NOT_FOUND: string := "METHOD_NOT_FOUND"
  const SERIALIZATION_ERROR: string := "SERIALIZATION_ERROR"
  const NETWORK_ERROR: string := "NETWORK_ERROR"
  const INVOCATION_ERROR: string := "INVOCATION_ERROR"
  const CONNECTION_ERROR: string := "CONNECTION_ERROR"
  const CONFIG_ERROR: string := "CONFIG_ERROR"
  const AUTHENTICATION_ERROR: string := "AUTHENTICATION_ERROR"
  const AUTHORIZATION_ERROR: string := "AUTHORIZATION_ERROR"
  const RATE_LIMIT_ERROR: string := "RATE_LIMIT_ERROR"
  const CIRCUIT_BREAKER_ERROR: string := "CIRCUIT_BREAKER_ERROR"

  /** The fields of the exception; `timestamp` is the clock reading `now` at construction. */
  datatype RpcException = RpcException(errorCode: JString, message: JString, serviceName: JString,
                                       methodName: JString, timestamp: int, cause: Option<ObjRef>)

  /** `RpcException(message)` and `RpcException(message, cause)`: the general code, no names. */
  function FromMessage(message: JString, cause: Option<ObjRef>, now: int): (e: RpcException)
    ensures e.errorCode == Some(GENERAL_ERROR) && e.serviceName == None && e.methodName == None
    ensures e.message == message && e.cause == cause && e.timestamp == now
  {
    RpcException(Some(GENERAL_ERROR), message, None, None, now, cause)
  }

  /** `RpcException(errorCode, message)` and `RpcException(errorCode, message, cause)`: no names. */
  function Coded(errorCode: JString, message: JString, cause: Option<ObjRef>, now: int): (e: RpcException)
    ensures e.errorCode == errorCode && e.serviceName == None && e.methodName == None
    ensures e.message == message && e.cause == cause && e.timestamp == now
  {
    RpcException(errorCode, message, None, None, now, cause)
  }

  /** The four- and five-argument constructors: every argument kept. */
  function Named(errorCode: JString, message: JString, serviceName: JString, methodName: JString,
                 cause: Option<ObjRef>, now: int): (e: RpcException)
    ensures e.errorCode == errorCode && e.serviceName == serviceName && e.methodName == methodName
    ensures e.message == message && e.cause == cause && e.timestamp == now
  {
    RpcException(errorCode, message, serviceName, methodName, now, cause)
  }

  /** "RPC call timeout after {timeout}ms". */
  function TimeoutMessage(timeout: int): string
  {
    "RPC call timeout after " + IntToString(timeout) + "ms"
  }

  /** "Service '{serviceName}' not found"; a `null` name reads "null". */
  function ServiceNotFoundMessage(serviceName: JString): string
  {
    "Service '" + JavaStr(serviceName) + "' not found"
  }

  /** `timeout`: the timeout code, the call's service and method, the timeout in the message. */
  function Timeout(serviceName: JString, methodName: JString, timeout: int, now: int): (e: RpcException)
    ensures e.errorCode == Some(TIMEOUT) && e.serviceName == serviceName && e.methodName == methodName
    ensures e.message == Some(TimeoutMessage(timeout)) && e.cause == None && e.timestamp == now
  {
    Named(Some(TIMEOUT), Some(TimeoutMessage(timeout)), serviceName, methodName, None, now)
  }

  /** `serviceNotFound`: the service is named, the method is not. */
  function ServiceNotFound(serviceName: JString, now: int): (e: RpcException)
    ensures e.errorCode == Some(SERVICE_NOT_FOUND) && e.serviceName == serviceName && e.methodName == None
    ensures e.message == Some(ServiceNotFoundMessage(serviceName)) && e.cause == None && e.timestamp == now
  {
    Named(Some(SERVICE_NOT_FOUND), Some(ServiceNotFoundMessage(serviceName)), serviceName, None, None, now)
  }

  /** `methodNotFound`: both names kept; the message names the method first. */
  function MethodNotFound(serviceName: JString, methodName: JString, now: int): (e: RpcException)
    ensures e.errorCode == Some(METHOD_NOT_FOUND) && e.serviceName == serviceName && e.methodName == methodName
    ensures e.message == Some("Method '" + JavaStr(methodName) + "' not found in service '" + JavaStr(serviceName) + "'")
    ensures e.cause == None && e.timestamp == now
  {
    Named(Some(METHOD_NOT_FOUND),
          Some("Method '" + JavaStr(methodName) + "' not found in service '" + JavaStr(serviceName) + "'"),
          serviceName, methodName, None, now)
  }

  /** `invocationError`: both names and the cause kept. */
  function InvocationError(serviceName: JString, methodName: JString, cause: Option<ObjRef>, now: int): (e: RpcException)
    ensures e.errorCode == Some(INVOCATION_ERROR) && e.serviceName == serviceName && e.methodName == methodName
    ensures e.cause == cause && e.timestamp == now
    ensures e.message == Some("Failed to invoke method '" + JavaStr(methodName) + "' in service '" + JavaStr(serviceName) + "'")
  {
    Named(Some(INVOCATION_ERROR),
          Some("Failed to invoke method '" + JavaStr(methodName) + "' in service '" + JavaStr(serviceName) + "'"),
          serviceName, methodName, cause, now)
  }

  /** The factories that take a message: `serializationError`, `networkError`, `connectionError`, `configError`. */
  datatype MessageFactory = Serialization | Network | Connection | Config

  function FactoryCode(kind: MessageFactory): string
  {
    match kind
    case Serialization => SERIALIZATION_ERROR
    case Network => NETWORK_ERROR
    case Connection => CONNECTION_ERROR
    case Config => CONFIG_ERROR
  }

  /** Each keeps the message as given and names nothing; `configError` takes no cause. */
  function FromFactory(kind: MessageFactory, message: JString, cause: Option<ObjRef>, now: int): (e: RpcException)
    ensures e.errorCode == Some(FactoryCode(kind)) && e.message == message
    ensures e.serviceName == None && e.methodName == None
    ensures e.cause == (if kind.Config? then None else cause) && e.timestamp == now
  {
    Coded(Some(FactoryCode(kind)), message, if kind.Config? then None else cause, now)
  }

  /**
   * Every code is different, so `getErrorCode` tells the factories apart,
   * and none of them yields the general code of the plain constructors.
   */
  lemma FactoryCodesDistinguish(a: MessageFactory, b: MessageFactory)
    ensures FactoryCode(a) == FactoryCode(b) <==> a == b
    ensures FactoryCode(a) !in {GENERAL_ERROR, TIMEOUT, SERVICE_NOT_FOUND, METHOD_NOT_FOUND, INVOCATION_ERROR}
    ensures |{GENERAL_ERROR, TIMEOUT, SERVICE_NOT_FOUND, METHOD_NOT_FOUND, SERIALIZATION_ERROR, NETWORK_ERROR,
              INVOCATION_ERROR, CONNECTION_ERROR, CONFIG_ERROR, AUTHENTICATION_ERROR, AUTHORIZATION_ERROR,
              RATE_LIMIT_ERROR, CIRCUIT_BREAKER_ERROR}| == 13
  {
  }

  /** The message of a timeout gives the timeout back, and that of `serviceNotFound` the service name. */
  lemma MessagesIdentify(t1: int, t2: int, s1: JString, s2: JString)
    ensures TimeoutMessage(t1) == TimeoutMessage(t2) ==> t1 == t2
    ensures ServiceNotFoundMessage(s1) == ServiceNotFoundMessage(s2) ==> JavaStr(s1) == JavaStr(s2)
  {
    var p := "RPC call timeout after ";
    if TimeoutMessage(t1) == TimeoutMessage(t2) {
      assert IntToString(t1) == TimeoutMessage(t1)[|p|..|TimeoutMessage(t1)| - 2];
      assert IntToString(t2) == TimeoutMessage(t2)[|p|..|TimeoutMessage(t2)| - 2];
      IntToStringInjective(t1, t2);
    }
    var q := "Service '";
    if ServiceNotFoundMessage(s1) == ServiceNotFoundMessage(s2) {
      assert JavaStr(s1) == ServiceNotFoundMessage(s1)[|q|..|ServiceNotFoundMessage(s1)| - 11];
      assert JavaStr(s2) == ServiceNotFoundMessage(s2)[|q|..|ServiceNotFoundMessage(s2)| - 11];
    }
  }

  /** `toString`: the code, each name that is set, the message and the timestamp. */
  function ToString(e: RpcException): string
  {
    "RpcException{errorCode='" + JavaStr(e.errorCode) + "'"
    + Core.NameClause("serviceName", e.serviceName) + Core.NameClause("methodName", e.methodName)
    + ", message='" + JavaStr(e.message) + "'" + ", timestamp=" + IntToString(e.timestamp) + "}"
  }

  /** The same exception without its timestamp, as the core class has it. */
  function AsCore(e: RpcException): Core.RpcException
  {
    Core.RpcException(e.errorCode, e.message, e.serviceName, e.methodName, e.cause)
  }

  /** The improved rendering is the core rendering with the timestamp clause before the closing brace. */
  lemma ToStringAddsTimestamp(e: RpcException)
    ensures var core := Core.ToString(AsCore(e));
      |core| >= 1 && ToString(e) == core[..|core| - 1] + ", timestamp=" + IntToString(e.timestamp) + "}"
  {
    var core := Core.ToString(AsCore(e));
    var body := "RpcException{errorCode='" + JavaStr(e.errorCode) + "'"
                + Core.NameClause("serviceName", e.serviceName) + Core.NameClause("methodName", e.methodName)
                + ", message='" + JavaStr(e.message) + "'";
    assert core == body + "}";
    assert core[..|core| - 1] == body;
  }
}

=== FILE: rpc_exception_sharing.dfy ===
/**
 * The shared `RpcException`: a code, a type, the creation time and, once
 * known, the request id and the service and method of the call. Every field
 * is final; the two `with…` operations build a new exception, which reads the
 * clock again.
 */
module SharingRpcExceptions {
  import opened Wrappers
  import opened JavaText
  import opened Reflect
  import Core = CoreRpcExceptions

  /** The type of every constructor that is given none. */
  const UNKNOWN: string := "UNKNOWN"

  /** The fields; `timestamp` is the clock reading `now` at construction. */
  datatype RpcException = RpcException(message: JString, errorCode: JString, errorType: JString,
                                       timestamp: int, requestId: JString, serviceName: JString,
                                       methodName: JString, cause: Option<ObjRef>)

  /**
   * The seven-argument constructor, which every other one reaches; the
   * constructors without the request fields pass `null` for them.
   */
  function Full(message: JString, errorCode: JString, errorType: JString, requestId: JString,
                serviceName: JString, methodName: JString, cause: Option<ObjRef>, now: int): (e: RpcException)
    ensures e.message == message && e.errorCode == errorCode && e.errorType == errorType
    ensures e.requestId == requestId && e.serviceName == serviceName && e.methodName == methodName
    ensures e.cause == cause && e.timestamp == now
  {
    RpcException(message, errorCode, errorType, now, requestId, serviceName, methodName, cause)
  }

  /**
   * `RpcException(message)` and `RpcException(message, cause)`: the code
   * `RpcErrorCodes.RPC_ERROR` (given as `rpcError`), the type "UNKNOWN",
   * no request fields.
   */
  function FromMessage(message: JString, cause: Option<ObjRef>, rpcError: JString, now: int): (e: RpcException)
    ensures e.errorCode == rpcError && e.errorType == Some(UNKNOWN) && e.message == message
    ensures e.requestId == None && e.serviceName == None && e.methodName == None
    ensures e.cause == cause && e.timestamp == now
  {
    Typed(message, rpcError, Some(UNKNOWN), cause, now)
  }

  /** The three- and four-argument constructors: code and type as given, no request fields. */
  function Typed(message: JString, errorCode: JString, errorType: JString, cause: Option<ObjRef>, now: int): (e: RpcException)
    ensures e.errorCode == errorCode && e.errorType == errorType && e.message == message
    ensures e.requestId == None && e.serviceName == None && e.methodName == None
    ensures e.cause == cause && e.timestamp == now
  {
    RpcException(message, errorCode, errorType, now, None, None, None, cause)
  }

  /** `withRequestId`: a new exception with this request id and a new timestamp; all else kept. */
  function WithRequestId(e: RpcException, requestId: JString, now: int): (r: RpcException)
    ensures r.requestId == requestId && r.timestamp == now
    ensures r.message == e.message && r.errorCode == e.errorCode && r.errorType == e.errorType
    ensures r.serviceName == e.serviceName && r.methodName == e.methodName && r.cause == e.cause
  {
    Full(e.message, e.errorCode, e.errorType, requestId, e.serviceName, e.methodName, e.cause, now)
  }

  /** `withServiceInfo`: a new exception with these names and a new timestamp; all else kept. */
  function WithServiceInfo(e: RpcException, serviceName: JString, methodName: JString, now: int): (r: RpcException)
    ensures r.serviceName == serviceName && r.methodName == methodName && r.timestamp == now
    ensures r.message == e.message && r.errorCode == e.errorCode && r.errorType == e.errorType
    ensures r.requestId == e.requestId && r.cause == e.cause
  {
    Full(e.message, e.errorCode, e.errorType, e.requestId, serviceName, methodName, e.cause, now)
  }

  /**
   * The withers compose as field updates: the later of two calls to the
   * same one wins, the two commute, and each one alone changes its own
   * fields and the timestamp, nothing else.
   */
  lemma WithersCompose(e: RpcException, r1: JString, r2: JString, s1: JString, m1: JString,
                       s2: JString, m2: JString, t1: int, t2: int)
    ensures WithRequestId(WithRequestId(e, r1, t1), r2, t2) == WithRequestId(e, r2, t2)
    ensures WithServiceInfo(WithServiceInfo(e, s1, m1, t1), s2, m2, t2) == WithServiceInfo(e, s2, m2, t2)
    ensures WithServiceInfo(WithRequestId(e, r1, t1), s1, m1, t2) == WithRequestId(WithServiceInfo(e, s1, m1, t1), r1, t2)
    ensures WithRequestId(e, r1, t1) == e.(requestId := r1, timestamp := t1)
    ensures WithServiceInfo(e, s1, m1, t1) == e.(serviceName := s1, methodName := m1, timestamp := t1)
  {
  }

  /** `toString`: every field in order; a `null` field reads "null". */
  function ToString(e: RpcException): string
  {
    Front(e) + RequestClause(e)
  }

  /** The part of `toString` fixed at construction: code, type, message and timestamp. */
  function Front(e: RpcException): string
  {
    "RpcException{errorCode='" + JavaStr(e.errorCode) + "', errorType='" + JavaStr(e.errorType)
    + "', message='" + JavaStr(e.message) + "', timestamp=" + IntToString(e.timestamp)
  }

  /** The rendering of the request fields, which closes every `toString`. */
  function RequestClause(e: RpcException): string
  {
    ", requestId='" + JavaStr(e.requestId) + "', serviceName='" + JavaStr(e.serviceName)
    + "', methodName='" + JavaStr(e.methodName) + "'}"
  }

  /**
   * After `withServiceInfo`, `toString` opens exactly as the original
   * exception rendered at the new time would: only the closing request
   * clause differs.
   */
  lemma ToStringSplits(e: RpcException, s: JString, m: JString, now: int)
    ensures var w := WithServiceInfo(e, s, m, now);
      var f := Front(e.(timestamp := now));
      |f| <= |ToString(w)| && |f| <= |ToString(e.(timestamp := now))|
      && ToString(w)[..|f|] == ToString(e.(timestamp := now))[..|f|]
      && ToString(w)[|f|..] == RequestClause(e.(serviceName := s, methodName := m))
  {
    var w := WithServiceInfo(e, s, m, now);
    var e' := e.(timestamp := now);
    var f := Front(e');
    assert Front(w) == f;
    Core.ConcatEnds(f, RequestClause(w), "");
    Core.ConcatEnds(f, RequestClause(e'), "");
    Core.ConcatEnds(f, "", RequestClause(w));
    assert RequestClause(w) == RequestClause(e.(serviceName := s, methodName := m));
  }

  /** For an exception built without request fields, the closing clause is three "null"s. */
  lemma RequestClauseUnset(message: JString, errorCode: JString, errorType: JString, cause: Option<ObjRef>, now: int)
    ensures RequestClause(Typed(message, errorCode, errorType, cause, now))
            == ", requestId='" + "null" + "', serviceName='" + "null" + "', methodName='" + "null" + "'}"
  {
  }

  /**
   * Since `null` reads "null", `toString` cannot tell a missing request id
   * from one that is the text "null".
   */
  lemma ToStringConflatesNull(e: RpcException)
    ensures ToString(e.(requestId := None)) == ToString(e.(requestId := Some("null")))
    ensures e.(requestId := None) != e.(requestId := Some("null"))
  {
  }
}

=== FILE: rpc_message.dfy ===
/**
 * The Java message base class of the sharing layer, `RpcMessage`, with its
 * metadata map, and the two small subclasses declared beside it,
 * `RpcHeartbeat` and `RpcErrorMessage`. Subclasses hold their inherited
 * part as a `base` object.
 */
module RpcMessages {
  import opened Wrappers
  import opened JavaText
  import opened Reflect

  datatype MessageType = REQUEST | RESPONSE | HEARTBEAT | ERROR

  /** The id of the default constructor: "msg_", the time in milliseconds, "_", the thread id. */
  function GeneratedMessageId(now: int, threadId: nat): string
  {
    "msg_" + IntToString(now) + "_" + NatToString(threadId)
  }

  /** Messages made at different times or on different threads get different generated ids. */
  lemma GeneratedMessageIdInjective(now1: int, thread1: nat, now2: int, thread2: nat)
    requires GeneratedMessageId(now1, thread1) == GeneratedMessageId(now2, thread2)
    ensures now1 == now2 && thread1 == thread2
  {
    var a := IntToString(now1);
    var b := IntToString(now2);
    var t1 := NatToString(thread1);
    var t2 := NatToString(thread2);
    TimeTextHasNoSeparator(now1);
    TimeTextHasNoSeparator(now2);
    SplitAtSeparator("msg_", a, t1, b, t2);
    IntToStringInjective(now1, now2);
    NatToStringInjective(thread1, thread2);
  }

  /** A time rendered as text holds a sign and digits, never '_'. */
  lemma TimeTextHasNoSeparator(now: int)
    ensures forall i :: 0 <= i < |IntToString(now)| ==> IntToString(now)[i] != '_'
  {
    var a := IntToString(now);
    IntToStringSign(now);
    assert forall i :: 0 <= i < |a| ==> a[i] == '-' || IsDecimalDigit(a[i]) by {
      if now < 0 { assert a == "-" + NatToString(-now); }
    }
  }

  /**
   * Two texts that agree after a common prefix, each a part free of '_'
   * followed by '_' and a tail, have equal parts and equal tails.
   */
  lemma SplitAtSeparator(prefix: string, a: string, t1: string, b: string, t2: string)
    requires forall i :: 0 <= i < |a| ==> a[i] != '_'
    requires forall i :: 0 <= i < |b| ==> b[i] != '_'
    requires prefix + a + "_" + t1 == prefix + b + "_" + t2
    ensures a == b && t1 == t2
  {
    var s := prefix + a + "_" + t1;
    var p := |prefix|;
    // Each '_' closes the part before it: the first '_' after the prefix is at both places.
    assert s[p + |a|] == '_' && (prefix + b + "_" + t2)[p + |b|] == '_';
    assert forall i :: 0 <= i < |a| ==> s[p + i] == a[i];
    assert forall i :: 0 <= i < |b| ==> s[p + i] == b[i];
    assert |a| == |b|;
    assert a == s[p..p + |a|];
    assert b == (prefix + b + "_" + t2)[p..p + |b|];
    assert t1 == s[p + |a| + 1..];
    assert t2 == (prefix + b + "_" + t2)[p + |b| + 1..];
  }

  class RpcMessage {
    var messageId: JString
    /** `None` is a null type, which the default constructor leaves in place. */
    var messageType: Option<MessageType>
    var timestamp: int
    /** `None` is a null map, possible after `setMetadata(null)`. */
    var metadata: Option<map<JString, JValue>>

    /** `RpcMessage()`: a generated id, the current time, empty metadata and no type. */
    constructor Default(now: int, threadId: nat)
      ensures messageId == Some(GeneratedMessageId(now, threadId))
      ensures messageType == None && timestamp == now && metadata == Some(map[])
    {
      messageId := Some(GeneratedMessageId(now, threadId));
      messageType := None;
      timestamp := now;
      metadata := Some(map[]);
    }

    /** `RpcMessage(messageId, messageType)`: the id kept as given, even null. */
    constructor (messageId: JString, messageType: Option<MessageType>, now: int)
      ensures this.messageId == messageId && this.messageType == messageType
      ensures timestamp == now && metadata == Some(map[])
    {
      this.messageId := messageId;
      this.messageType := messageType;
      timestamp := now;
      metadata := Some(map[]);
    }

    method SetMessageType(t: Option<MessageType>)
      modifies this
      ensures messageType == t
      ensures messageId == old(messageId) && timestamp == old(timestamp) && metadata == old(metadata)
    {
      messageType := t;
    }

    method SetMessageId(id: JString)
      modifies this
      ensures messageId == id
      ensures messageType == old(messageType) && timestamp == old(timestamp) && metadata == old(metadata)
    {
      messageId := id;
    }

    method SetMetadata(m: Option<map<JString, JValue>>)
      modifies this
      ensures metadata == m
      ensures messageId == old(messageId) && messageType == old(messageType) && timestamp == old(timestamp)
    {
      metadata := m;
    }

    /** Creates the map when it is null, then maps the key to the value, overwriting. */
    method AddMetadata(key: JString, value: JValue)
      modifies this
      ensures metadata == Some((if old(metadata).None? then map[] else old(metadata).value)[key := value])
      ensures messageId == old(messageId) && messageType == old(messageType) && timestamp == old(timestamp)
    {
      if metadata.None? {
        metadata := Some(map[]);
      }
      metadata := Some(metadata.value[key := value]);
    }

    /** The value for the key; null when the map is null or lacks the key. */
    function GetMetadata(key: JString): (v: JValue)
      reads this
      ensures metadata.Some? && key in metadata.value ==> v == metadata.value[key]
      ensures metadata.None? || key !in metadata.value ==> v == JNull
    {
      if metadata.Some? && key in metadata.value then metadata.value[key] else JNull
    }
  }

  /** `RpcHeartbeat`: a message tagged `HEARTBEAT`, naming the client and the server. */
  class RpcHeartbeat {
    const base: RpcMessage
    var clientId: JString
    var serverId: JString

    constructor (clientId: JString, serverId: JString, now: int, threadId: nat)
      ensures fresh(base)
      ensures base.messageType == Some(HEARTBEAT) && base.messageId == Some(GeneratedMessageId(now, threadId))
      ensures base.timestamp == now && base.metadata == Some(map[])
      ensures this.clientId == clientId && this.serverId == serverId
    {
      var b := new RpcMessage.Default(now, threadId);
      b.SetMessageType(Some(HEARTBEAT));
      base := b;
      this.clientId := clientId;
      this.serverId := serverId;
    }
  }

  /** `RpcErrorMessage`: a message tagged `ERROR`, carrying a code and a message. */
  class RpcErrorMessage {
    const base: RpcMessage
    var errorCode: JString
    var errorMessage: JString
    var errorDetails: JString

    constructor (errorCode: JString, errorMessage: JString, now: int, threadId: nat)
      ensures fresh(base)
      ensures base.messageType == Some(ERROR) && base.messageId == Some(GeneratedMessageId(now, threadId))
      ensures base.timestamp == now && base.metadata == Some(map[])
      ensures this.errorCode == errorCode && this.errorMessage == errorMessage && errorDetails == None
    {
      var b := new RpcMessage.Default(now, threadId);
      b.SetMessageType(Some(ERROR));
      base := b;
      this.errorCode := errorCode;
      this.errorMessage := errorMessage;
      errorDetails := None;
    }
  }

  /**
   * Metadata survives a null map: adding to it creates a fresh map, a second
   * add of the same key overwrites, and an absent key reads as null.
   */
  method MetadataOverNullMap(now: int) returns (hit: JValue, miss: JValue, size: nat)
    ensures hit == JInt(2) && miss == JNull && size == 1
  {
    var m := new RpcMessage(None, Some(REQUEST), now);
    m.SetMetadata(None);
    miss := m.GetMetadata(Some("trace"));
    m.AddMetadata(Some("trace"), JInt(1));
    m.AddMetadata(Some("trace"), JInt(2));
    hit := m.GetMetadata(Some("trace"));
    size := |m.metadata.value|;
  }

  /** Heartbeats and error messages are tagged as such; a plain default message has no type. */
  method SubclassesAreTagged(now: int, threadId: nat)
    returns (heartbeat: Option<MessageType>, error: Option<MessageType>, plain: Option<MessageType>)
    ensures heartbeat == Some(HEARTBEAT) && error == Some(ERROR) && plain == None
  {
    var h := new RpcHeartbeat(Some("client"), Some("server"), now, threadId);
    var e := new RpcErrorMessage(Some("E1"), Some("boom"), now, threadId);
    var p := new RpcMessage.Default(now, threadId);
    heartbeat, error, plain := h.base.messageType, e.base.messageType, p.messageType;
  }
}

=== FILE: rpc_method.dfy ===
/**
 * `RpcMethod` of the improved core: an immutable description of a remote
 * method whose identity is its key, version "." name, followed by the
 * simple names of the parameter types in parentheses when there are any.
 */
module RpcMethods {
  import opened Wrappers
  import opened JavaText
  import opened Reflect

  function SimpleNames(types: seq<TypeRef>): (r: seq<string>)
    ensures |r| == |types|
    ensures forall i :: 0 <= i < |types| ==> r[i] == types[i].simpleName
  {
    seq(|types|, i requires 0 <= i < |types| => types[i].simpleName)
  }

  /** The reference definition of the key: the parameter list is `String.join(",", simple names)`. */
  function MethodKeyOf(version: JString, methodName: JString, types: seq<TypeRef>): string
  {
    JavaStr(version) + "." + JavaStr(methodName)
      + (if |types| > 0 then "(" + Join(",", SimpleNames(types)) + ")" else "")
  }

  lemma JoinStep(parts: seq<string>, i: nat)
    requires 0 < i < |parts|
    ensures Join(",", parts[..i + 1]) == Join(",", parts[..i]) + "," + parts[i]
  {
    assert parts[..i + 1][..i] == parts[..i];
  }

  /** `generateMethodKey`: the `StringBuilder` loop, proved to build `MethodKeyOf`. */
  method GenerateMethodKey(version: JString, methodName: JString, types: seq<TypeRef>)
    returns (key: string)
    ensures key == MethodKeyOf(version, methodName, types)
  {
    var sb := JavaStr(version) + "." + JavaStr(methodName);
    if |types| > 0 {
      var head := sb;
      var names := SimpleNames(types);
      sb := sb + "(";
      var i := 0;
      while i < |types|
        invariant 0 <= i <= |types|
        invariant sb == head + "(" + Join(",", names[..i])
      {
        if i > 0 {
          sb := sb + ",";
          JoinStep(names, i);
        } else {
          assert names[..1] == [names[0]];
        }
        sb := sb + types[i].simpleName;
        i := i + 1;
      }
      assert names[..|types|] == names;
      sb := sb + ")";
    }
    key := sb;
  }

  class RpcMethod {
    const methodName: JString
    const reflected: JMethod
    const parameterTypes: seq<TypeRef>
    const returnType: TypeRef
    const methodKey: string
    const version: JString

    /** Copies the method's signature and fixes the key once; every field is final. */
    constructor (methodName: JString, m: JMethod, version: JString)
      ensures this.methodName == methodName && reflected == m && this.version == version
      ensures parameterTypes == m.parameterTypes && returnType == m.returnType
      ensures methodKey == MethodKeyOf(version, methodName, m.parameterTypes)
    {
      this.methodName := methodName;
      reflected := m;
      parameterTypes := m.parameterTypes;
      returnType := m.returnType;
      this.version := version;
      var key := GenerateMethodKey(version, methodName, m.parameterTypes);
      methodKey := key;
    }

    /** `equals`: the same object, or another `RpcMethod` with an equal key. */
    predicate Equals(o: RpcMethod?)
    {
      o == this || (o != null && methodKey == o.methodKey)
    }

    /** `hashCode`: the key's string hash. */
    function HashCode(): (h: int)
      ensures IsInt32(h)
    {
      StringHash(methodKey)
    }
  }

  /** Equality is decided by the key alone, and equal methods hash alike. */
  lemma EqualsIsKeyEquality(a: RpcMethod, b: RpcMethod)
    ensures a.Equals(b) <==> a.methodKey == b.methodKey
    ensures a.Equals(b) ==> a.HashCode() == b.HashCode()
    ensures a.Equals(b) <==> b.Equals(a)
  {
  }

  /** Without parameters the key is version "." name; with them it closes with ')'. */
  lemma MethodKeyShape(version: JString, methodName: JString, types: seq<TypeRef>)
    ensures |types| == 0 ==> MethodKeyOf(version, methodName, types) == JavaStr(version) + "." + JavaStr(methodName)
    ensures |types| > 0 ==> MethodKeyOf(version, methodName, types)[|MethodKeyOf(version, methodName, types)| - 1] == ')'
  {
  }

  /** Only simple names enter the key, so types from different packages can share it. */
  lemma SimpleNamesDecideKey(version: JString, methodName: JString, ts: seq<TypeRef>, us: seq<TypeRef>)
    requires |ts| == |us|
    requires forall i :: 0 <= i < |ts| ==> ts[i].simpleName == us[i].simpleName
    ensures MethodKeyOf(version, methodName, ts) == MethodKeyOf(version, methodName, us)
  {
    assert SimpleNames(ts) == SimpleNames(us);
  }

  /** `send(a.Msg)` and `send(b.Msg)` are one method to the key and hence to `equals`. */
  method SamePackagelessSignatureIsEqual(owner: TypeRef, ret: TypeRef) returns (equal: bool, key: string)
    ensures equal
    ensures key == "v2.send(Msg)"
  {
    var m1 := JMethod("send", owner, ret, [TypeRef("a.Msg", "Msg", "a", "class a.Msg")]);
    var m2 := JMethod("send", owner, ret, [TypeRef("b.Msg", "Msg", "b", "class b.Msg")]);
    var x := new RpcMethod(Some("send"), m1, Some("v2"));
    var y := new RpcMethod(Some("send"), m2, Some("v2"));
    SimpleNamesDecideKey(Some("v2"), Some("send"), m1.parameterTypes, m2.parameterTypes);
    equal := x.Equals(y);
    assert Join(",", SimpleNames(m1.parameterTypes)) == "Msg";
    key := x.methodKey;
  }
}

=== FILE: rpc_monitor.dfy ===
/**
 * `RpcMonitor`: global request, response, error and timeout counters, the
 * global minimum, maximum and total response time, and one statistics entry
 * per service name and per "service.method" key. A service map keyed by the
 * service name itself rejects a `null` name, as `ConcurrentHashMap` does, by
 * throwing `NullPointerException`.
 *
 * The statistics entries are values held in the maps; the monitor replaces
 * an entry when it records against it.
 */
module RpcMonitors {
  import opened Wrappers
  import opened JavaText
  import opened MetricsCollectors

  /** One thing recorded against a statistics entry. */
  datatype Event = Request | Succeeded(responseTime: int) | Error | Timeout

  /** What the events recorded so far add up to: three counts and the response times of the successes. */
  datatype Tally = Tally(requests: int, errors: int, timeouts: int, times: seq<int>)

  function Record(t: Tally, e: Event): Tally
  {
    match e
    case Request => t.(requests := t.requests + 1)
    case Succeeded(time) => t.(times := t.times + [time])
    case Error => t.(errors := t.errors + 1)
    case Timeout => t.(timeouts := t.timeouts + 1)
  }

  /**
   * Each event moves exactly its own count: a success adds one response
   * and its time, and nothing else moves.
   */
  lemma RecordMovesOneCount(t: Tally, e: Event)
    ensures var r := Record(t, e);
      (r.requests == t.requests + (if e.Request? then 1 else 0))
      && (r.errors == t.errors + (if e.Error? then 1 else 0))
      && (r.timeouts == t.timeouts + (if e.Timeout? then 1 else 0))
      && (e.Succeeded? ==> r.times == t.times + [e.responseTime])
      && (!e.Succeeded? ==> r.times == t.times)
  {
  }

  /**
   * `ServiceStats`, and `MethodStats`, which extends it and adds nothing:
   * five counters, the minimum and the maximum response time.
   */
  datatype ServiceStats = ServiceStats(requests: int, responses: int, errors: int, timeouts: int,
                                       totalTime: int, minTime: int, maxTime: int)

  /** A new entry: every counter 0, the minimum `Long.MAX_VALUE`, the maximum 0. */
  const NewStats: ServiceStats := ServiceStats(0, 0, 0, 0, 0, LongMax, 0)

  /**
   * `recordRequest`, `recordSuccess` (with `updateTimeStats`),
   * `recordError` and `recordTimeout`. Without a competing thread the first
   * compare-and-set of `updateTimeStats` succeeds, so each extreme is
   * replaced exactly when the new time beats it.
   */
  function RecordEvent(s: ServiceStats, e: Event): ServiceStats
  {
    match e
    case Request => s.(requests := s.requests + 1)
    case Succeeded(time) =>
      s.(responses := s.responses + 1, totalTime := s.totalTime + time,
         minTime := if time < s.minTime then time else s.minTime,
         maxTime := if time > s.maxTime then time else s.maxTime)
    case Error => s.(errors := s.errors + 1)
    case Timeout => s.(timeouts := s.timeouts + 1)
  }

  /**
   * An entry sums up a tally: its counters are the tally's counts, its
   * total, minimum and maximum those of the tally's times, each a `long`.
   */
  ghost predicate Summarises(s: ServiceStats, t: Tally)
  {
    (forall i :: 0 <= i < |t.times| ==> IsInt64(t.times[i]))
    && t.requests >= 0 && t.errors >= 0 && t.timeouts >= 0
    && s.requests == t.requests && s.errors == t.errors && s.timeouts == t.timeouts
    && s.responses == |t.times| && s.totalTime == Sum(t.times)
    && s.minTime == Least(LongMax, t.times) && s.maxTime == Greatest(0, t.times)
  }

  /** A new entry sums up no events, and recording an event into an entry records it into what it sums up. */
  lemma {:induction false} RecordEventSummarises(s: ServiceStats, t: Tally, e: Event)
    requires Summarises(s, t) && (e.Succeeded? ==> IsInt64(e.responseTime))
    ensures Summarises(NewStats, Tally(0, 0, 0, []))
    ensures Summarises(RecordEvent(s, e), Record(t, e))
  {
    if e.Succeeded? {
      assert (t.times + [e.responseTime])[..|t.times|] == t.times;
    }
  }

  /**
   * The reported extremes of an entry: before any success the minimum is
   * still `Long.MAX_VALUE` and the maximum 0; after one, the minimum is at
   * most the maximum, at most every time and one of them.
   */
  lemma StatsExtremes(s: ServiceStats, t: Tally)
    requires Summarises(s, t)
    ensures s.responses == 0 ==> s.minTime == LongMax && s.maxTime == 0
    ensures s.responses > 0 ==> s.minTime <= s.maxTime
    ensures s.responses > 0 ==> exists i :: 0 <= i < |t.times| && s.minTime == t.times[i]
    ensures forall i :: 0 <= i < |t.times| ==> s.minTime <= t.times[i] <= s.maxTime
  {
    LeastIsMinimum(LongMax, t.times);
    GreatestIsMaximum(0, t.times);
    if t.times != [] {
      assert s.minTime <= t.times[0] <= s.maxTime;
    }
  }

  /** The method map's key; a `null` name reads "null". */
  function MethodKey(serviceName: JString, methodName: JString): string
  {
    JavaStr(serviceName) + "." + JavaStr(methodName)
  }

  /** A dot inside a name makes two different pairs share one method entry. */
  lemma MethodKeysCollide()
    ensures MethodKey(Some("a.b"), Some("c")) == MethodKey(Some("a"), Some("b.c"))
    ensures MethodKey(None, Some("add")) == MethodKey(Some("null"), Some("add"))
  {
    assert MethodKey(Some("a.b"), Some("c")) == "a.b.c" == MethodKey(Some("a"), Some("b.c"));
    assert MethodKey(None, Some("add")) == "null.add" == MethodKey(Some("null"), Some("add"));
  }

  /** `computeIfAbsent(key, k -> new ServiceStats())`, then the event's `record*` call on the entry. */
  function Tallied(m: map<string, ServiceStats>, key: string, e: Event): (r: map<string, ServiceStats>)
    ensures key in r && r.Keys == m.Keys + {key}
    ensures r[key] == RecordEvent(if key in m then m[key] else NewStats, e)
    ensures forall k :: k in m && k != key ==> r[k] == m[k]
  {
    m[key := RecordEvent(if key in m then m[key] else NewStats, e)]
  }

  /** The same step on the tallies the entries sum up. */
  ghost function TalliedCounts(m: map<string, Tally>, key: string, e: Event): map<string, Tally>
  {
    m[key := Record(if key in m then m[key] else Tally(0, 0, 0, []), e)]
  }

  /** Every entry of a map sums up the tally under its key, and there is a tally for each entry and no other. */
  ghost predicate MapSummarises(m: map<string, ServiceStats>, tallies: map<string, Tally>)
  {
    m.Keys == tallies.Keys && forall k :: k in m ==> Summarises(m[k], tallies[k])
  }

  /** Recording into an entry of a consistent map keeps the map consistent. */
  lemma TalliedSummarises(m: map<string, ServiceStats>, tallies: map<string, Tally>, key: string, e: Event)
    requires MapSummarises(m, tallies) && (e.Succeeded? ==> IsInt64(e.responseTime))
    ensures MapSummarises(Tallied(m, key, e), TalliedCounts(tallies, key, e))
  {
    if key in m {
      RecordEventSummarises(m[key], tallies[key], e);
    } else {
      RecordEventSummarises(NewStats, Tally(0, 0, 0, []), e);
    }
  }

  /** The scalar part of `getOverallStats`; the rates and the average are floating point. */
  datatype OverallStats = OverallStats(totalRequests: int, totalResponses: int, totalErrors: int, totalTimeouts: int,
                                       minResponseTime: int, maxResponseTime: int)

  class RpcMonitor {
    var totalRequests: int
    var totalResponses: int
    var totalErrors: int
    var totalTimeouts: int
    var minResponseTime: int
    var maxResponseTime: int
    var totalResponseTime: int
    /** The response times of every success recorded, in order. */
    ghost var times: seq<int>
    var serviceStatsMap: map<string, ServiceStats>
    var methodStatsMap: map<string, ServiceStats>
    /** What each entry of the two maps sums up. */
    ghost var serviceTallies: map<string, Tally>
    ghost var methodTallies: map<string, Tally>

    ghost function Overall(): Tally
      reads this
    {
      Tally(totalRequests, totalErrors, totalTimeouts, times)
    }

    /** The global figures agree with the recorded times. */
    ghost predicate GlobalOk()
      reads this
    {
      totalRequests >= 0 && totalErrors >= 0 && totalTimeouts >= 0
      && totalResponses == |times| && totalResponseTime == Sum(times)
      && minResponseTime == Least(LongMax, times) && maxResponseTime == Greatest(0, times)
    }

    /** The global figures agree with the times, and every entry with its tally. */
    ghost predicate Valid()
      reads this
    {
      GlobalOk() && MapSummarises(serviceStatsMap, serviceTallies) && MapSummarises(methodStatsMap, methodTallies)
    }

    /** The monitoring executor and the connection pool are left out; every figure starts empty. */
    constructor ()
      ensures Valid() && Overall() == Tally(0, 0, 0, [])
      ensures serviceStatsMap == map[] && methodStatsMap == map[]
    {
      totalRequests, totalResponses, totalErrors, totalTimeouts := 0, 0, 0, 0;
      minResponseTime, maxResponseTime, totalResponseTime := LongMax, 0, 0;
      times := [];
      serviceStatsMap, methodStatsMap := map[], map[];
      serviceTallies, methodTallies := map[], map[];
    }

    /**
     * What a `record*` operation leaves behind: the global figure took the
     * event; then either the service name was `null` and the service map
     * threw before either map changed, or the service's entry and then the
     * method's took it.
     */
    twostate predicate Recorded(serviceName: JString, methodName: JString, e: Event, npe: bool)
      reads this
    {
      && Overall() == Record(old(Overall()), e)
      && (npe <==> serviceName.None?)
      && (npe ==> serviceStatsMap == old(serviceStatsMap) && methodStatsMap == old(methodStatsMap))
      && (!npe ==> serviceStatsMap == Tallied(old(serviceStatsMap), serviceName.value, e)
                   && methodStatsMap == Tallied(old(methodStatsMap), MethodKey(serviceName, methodName), e))
    }

    /** The common body of the four `record*` operations: the global figure first, then the two maps. */
    method Note(serviceName: JString, methodName: JString, e: Event) returns (npe: bool)
      requires Valid() && (e.Succeeded? ==> IsInt64(e.responseTime))
      modifies this
      ensures Valid() && Recorded(serviceName, methodName, e, npe)
    {
      CountGlobally(e);
      if serviceName.None? {
        return true;
      }
      npe := false;
      var serviceKey, methodKey := serviceName.value, MethodKey(serviceName, methodName);
      TalliedSummarises(serviceStatsMap, serviceTallies, serviceKey, e);
      TalliedSummarises(methodStatsMap, methodTallies, methodKey, e);
      serviceStatsMap := Tallied(serviceStatsMap, serviceKey, e);
      methodStatsMap := Tallied(methodStatsMap, methodKey, e);
      serviceTallies := TalliedCounts(serviceTallies, serviceKey, e);
      methodTallies := TalliedCounts(methodTallies, methodKey, e);
    }

    /** The global counter of the event, and for a success `updateResponseTimeStats`. */
    method CountGlobally(e: Event)
      requires GlobalOk()
      modifies this
      ensures GlobalOk() && Overall() == Record(old(Overall()), e)
      ensures serviceStatsMap == old(serviceStatsMap) && methodStatsMap == old(methodStatsMap)
      ensures serviceTallies == old(serviceTallies) && methodTallies == old(methodTallies)
    {
      match e {
        case Request =>
          totalRequests := totalRequests + 1;
        case Succeeded(time) =>
          totalResponses := totalResponses + 1;
          UpdateResponseTimeStats(time);
        case Error =>
          totalErrors := totalErrors + 1;
        case Timeout =>
          totalTimeouts := totalTimeouts + 1;
      }
    }

    /** `recordRequestStart`: the request counts, global, of the service and of the method. */
    method RecordRequestStart(serviceName: JString, methodName: JString) returns (npe: bool)
      requires Valid()
      modifies this
      ensures Valid() && Recorded(serviceName, methodName, Request, npe)
    {
      npe := Note(serviceName, methodName, Request);
    }

    /** `recordRequestSuccess`: one more response and its time, globally, for the service and for the method. */
    method RecordRequestSuccess(serviceName: JString, methodName: JString, responseTime: int) returns (npe: bool)
      requires Valid() && IsInt64(responseTime)
      modifies this
      ensures Valid() && Recorded(serviceName, methodName, Succeeded(responseTime), npe)
    {
      npe := Note(serviceName, methodName, Succeeded(responseTime));
    }

    /** `recordRequestError`: the error counts only; the error text is not kept. */
    method RecordRequestError(serviceName: JString, methodName: JString, error: JString) returns (npe: bool)
      requires Valid()
      modifies this
      ensures Valid() && Recorded(serviceName, methodName, Error, npe)
    {
      npe := Note(serviceName, methodName, Error);
    }

    /** `recordRequestTimeout`: the timeout counts only. */
    method RecordRequestTimeout(serviceName: JString, methodName: JString) returns (npe: bool)
      requires Valid()
      modifies this
      ensures Valid() && Recorded(serviceName, methodName, Timeout, npe)
    {
      npe := Note(serviceName, methodName, Timeout);
    }

    /** `updateResponseTimeStats`: the total, the minimum and the maximum take one more time. */
    method UpdateResponseTimeStats(time: int)
      requires totalResponseTime == Sum(times)
      requires minResponseTime == Least(LongMax, times) && maxResponseTime == Greatest(0, times)
      modifies this
      ensures times == old(times) + [time]
      ensures totalResponseTime == Sum(times)
      ensures minResponseTime == Least(LongMax, times) && maxResponseTime == Greatest(0, times)
      ensures totalRequests == old(totalRequests) && totalResponses == old(totalResponses)
      ensures totalErrors == old(totalErrors) && totalTimeouts == old(totalTimeouts)
      ensures serviceStatsMap == old(serviceStatsMap) && methodStatsMap == old(methodStatsMap)
      ensures serviceTallies == old(serviceTallies) && methodTallies == old(methodTallies)
    {
      assert (times + [time])[..|times|] == times;
      totalResponseTime := totalResponseTime + time;
      if time < minResponseTime {
        minResponseTime := time;
      }
      if time > maxResponseTime {
        maxResponseTime := time;
      }
      times := times + [time];
    }

    /** `getOverallStats`, without its floating-point figures. */
    method GetOverallStats() returns (stats: OverallStats)
      requires Valid()
      ensures stats == OverallStats(totalRequests, totalResponses, totalErrors, totalTimeouts,
                                    minResponseTime, maxResponseTime)
      ensures stats.totalResponses == 0 ==> stats.minResponseTime == LongMax && stats.maxResponseTime == 0
      ensures stats.totalResponses > 0 ==> stats.minResponseTime <= stats.maxResponseTime
    {
      GlobalExtremes();
      stats := OverallStats(totalRequests, totalResponses, totalErrors, totalTimeouts,
                            minResponseTime, maxResponseTime);
    }

    /** The global minimum and maximum behave as an entry's do. */
    lemma GlobalExtremes()
      requires Valid()
      ensures times == [] ==> minResponseTime == LongMax && maxResponseTime == 0
      ensures times != [] ==> minResponseTime <= maxResponseTime
      ensures forall i :: 0 <= i < |times| ==> minResponseTime <= times[i] <= maxResponseTime
    {
      LeastIsMinimum(LongMax, times);
      GreatestIsMaximum(0, times);
      if times != [] {
        assert minResponseTime <= times[0] <= maxResponseTime;
      }
    }

    /** `getServiceStats`: the service's entry, `null` for a name never recorded; a `null` name throws. */
    method GetServiceStats(serviceName: JString) returns (npe: bool, r: Option<ServiceStats>)
      ensures npe <==> serviceName.None?
      ensures !npe && serviceName.value in serviceStatsMap ==> r == Some(serviceStatsMap[serviceName.value])
      ensures !npe && serviceName.value !in serviceStatsMap ==> r == None
    {
      if serviceName.None? {
        return true, None;
      }
      npe := false;
      r := if serviceName.value in serviceStatsMap then Some(serviceStatsMap[serviceName.value]) else None;
    }

    /** `getMethodStats`: the entry under "service.method", `null` for a pair never recorded. */
    method GetMethodStats(serviceName: JString, methodName: JString) returns (r: Option<ServiceStats>)
      ensures var key := MethodKey(serviceName, methodName);
        (key in methodStatsMap ==> r == Some(methodStatsMap[key])) && (key !in methodStatsMap ==> r == None)
    {
      var key := MethodKey(serviceName, methodName);
      r := if key in methodStatsMap then Some(methodStatsMap[key]) else None;
    }
  }

  /**
   * Two successes of one method, 30 ms then 10 ms: the service's entry and
   * the method's both count two responses, a total of 40, a minimum of 10
   * and a maximum of 30; the global figures agree.
   */
  method TwoSuccesses() returns (service: Option<ServiceStats>, methodEntry: Option<ServiceStats>, overall: OverallStats)
    ensures service == Some(ServiceStats(0, 2, 0, 0, 40, 10, 30))
    ensures methodEntry == service
    ensures overall == OverallStats(0, 2, 0, 0, 10, 30)
  {
    var monitor := new RpcMonitor();
    var npe := monitor.RecordRequestSuccess(Some("calc"), Some("add"), 30);
    npe := monitor.RecordRequestSuccess(Some("calc"), Some("add"), 10);
    ThirtyThenTen(monitor.serviceStatsMap, monitor.methodStatsMap, monitor.Overall());
    npe, service := monitor.GetServiceStats(Some("calc"));
    methodEntry := monitor.GetMethodStats(Some("calc"), Some("add"));
    overall := monitor.GetOverallStats();
  }

  /** The figures `TwoSuccesses` reads, worked out on the maps and the tally. */
  lemma ThirtyThenTen(services: map<string, ServiceStats>, methods: map<string, ServiceStats>, overall: Tally)
    requires services == Tallied(Tallied(map[], "calc", Succeeded(30)), "calc", Succeeded(10))
    requires methods == Tallied(Tallied(map[], MethodKey(Some("calc"), Some("add")), Succeeded(30)),
                                MethodKey(Some("calc"), Some("add")), Succeeded(10))
    requires overall == Record(Record(Tally(0, 0, 0, []), Succeeded(30)), Succeeded(10))
    ensures services == map["calc" := ServiceStats(0, 2, 0, 0, 40, 10, 30)]
    ensures MethodKey(Some("calc"), Some("add")) in methods
    ensures methods[MethodKey(Some("calc"), Some("add"))] == ServiceStats(0, 2, 0, 0, 40, 10, 30)
    ensures overall.times == [30, 10] && Least(LongMax, overall.times) == 10 && Greatest(0, overall.times) == 30
    ensures overall.requests == 0 && overall.errors == 0 && overall.timeouts == 0
  {
    assert MethodKey(Some("calc"), Some("add")) == "calc.add";
    assert [30] + [10] == [30, 10];
    assert [30, 10][..1] == [30];
  }

  /**
   * An error but no success: the entry still reports the initial extremes,
   * `Long.MAX_VALUE` and 0, and so does the monitor.
   */
  method ExtremesBeforeSuccess() returns (service: Option<ServiceStats>, overall: OverallStats)
    ensures service == Some(ServiceStats(0, 0, 1, 0, 0, LongMax, 0))
    ensures overall == OverallStats(0, 0, 1, 0, LongMax, 0)
  {
    var monitor := new RpcMonitor();
    var npe := monitor.RecordRequestError(Some("calc"), Some("add"), Some("boom"));
    npe, service := monitor.GetServiceStats(Some("calc"));
    overall := monitor.GetOverallStats();
  }

  /**
   * A `null` service name: the global request counter moves, then the
   * service map throws, so not even the method entry "null.add" appears.
   */
  method NullServiceName() returns (npe: bool, methodEntry: Option<ServiceStats>, overall: OverallStats)
    ensures npe && methodEntry == None
    ensures overall.totalRequests == 1
  {
    var monitor := new RpcMonitor();
    npe := monitor.RecordRequestStart(None, Some("add"));
    methodEntry := monitor.GetMethodStats(None, Some("add"));
    overall := monitor.GetOverallStats();
  }
}

=== FILE: rpc_request.dfy ===
/**
 * The Java request envelope of the sharing layer, `RpcRequest`, and its
 * builder. The inherited `RpcMessage` part is held as `base`. The routing
 * keys are defined once, on plain text, and shared with the .NET mirror,
 * which renders a null name differently.
 */
module RpcRequests {
  import opened Wrappers
  import opened JavaText
  import opened Reflect
  import opened RpcMessages

  /** The routing key: service name, ':', version. */
  function ServiceKeyOf(service: string, version: string): (r: string)
    ensures |r| == |service| + 1 + |version|
    ensures r[..|service|] == service && r[|service|] == ':' && r[|service| + 1..] == version
  {
    service + ":" + version
  }

  /** The caching key: service name, '.', method name, ':', version. */
  function MethodKeyOf(service: string, methodName: string, version: string): (r: string)
    ensures |r| == |service| + |methodName| + 2 + |version|
    ensures r[..|service|] == service && r[|service|] == '.'
    ensures r[|service| + 1..|service| + 1 + |methodName|] == methodName
    ensures r[|service| + 1 + |methodName|] == ':' && r[|service| + |methodName| + 2..] == version
  {
    service + "." + methodName + ":" + version
  }

  predicate Lacks(s: string, c: char)
  {
    forall i :: 0 <= i < |s| ==> s[i] != c
  }

  /**
   * A service name without ':' is read back from its key, and so is the
   * version: two such keys are equal exactly when both parts are.
   */
  lemma ServiceKeyInjective(s1: string, v1: string, s2: string, v2: string)
    requires Lacks(s1, ':') && Lacks(s2, ':')
    ensures ServiceKeyOf(s1, v1) == ServiceKeyOf(s2, v2) <==> s1 == s2 && v1 == v2
  {
    if ServiceKeyOf(s1, v1) == ServiceKeyOf(s2, v2) {
      var k := ServiceKeyOf(s1, v1);
      assert k[|s1|] == k[|s2|];
      assert forall i :: 0 <= i < |s1| ==> k[i] == s1[i];
      assert forall i :: 0 <= i < |s2| ==> k[i] == s2[i];
      assert |s1| == |s2|;
    }
  }

  /**
   * The method key refines the service key: for a service name without '.'
   * and a method name without ':', equal method keys mean equal service,
   * method and version, and the method key ends in the same ":" version as
   * the service key.
   */
  lemma MethodKeyInjective(s1: string, m1: string, v1: string, s2: string, m2: string, v2: string)
    requires Lacks(s1, '.') && Lacks(s2, '.') && Lacks(m1, ':') && Lacks(m2, ':')
    ensures MethodKeyOf(s1, m1, v1) == MethodKeyOf(s2, m2, v2) <==> s1 == s2 && m1 == m2 && v1 == v2
  {
    if MethodKeyOf(s1, m1, v1) == MethodKeyOf(s2, m2, v2) {
      var k := MethodKeyOf(s1, m1, v1);
      assert k[|s1|] == k[|s2|];
      assert forall i :: 0 <= i < |s1| ==> k[i] == s1[i];
      assert forall i :: 0 <= i < |s2| ==> k[i] == s2[i];
      assert |s1| == |s2|;
      var o := |s1| + 1;
      assert k[o + |m1|] == k[o + |m2|];
      assert forall i :: 0 <= i < |m1| ==> k[o + i] == m1[i];
      assert forall i :: 0 <= i < |m2| ==> k[o + i] == m2[i];
      assert |m1| == |m2|;
    }
  }

  /** Both keys of one request end in ':' followed by the version. */
  lemma KeysShareVersionSuffix(service: string, methodName: string, version: string)
    ensures var sk := ServiceKeyOf(service, version);
            var mk := MethodKeyOf(service, methodName, version);
            sk[|sk| - |version| - 1..] == mk[|mk| - |version| - 1..] == ":" + version
  {
  }

  class RpcRequest {
    const base: RpcMessage
    var serviceName: JString
    var methodName: JString
    var version: JString
    var arguments: Option<seq<JValue>>
    var parameterTypes: Option<seq<TypeRef>>
    var returnType: Option<TypeRef>

    /** `RpcRequest()`: a default message tagged `REQUEST`. */
    constructor Default(now: int, threadId: nat)
      ensures fresh(base)
      ensures base.messageId == Some(GeneratedMessageId(now, threadId)) && base.messageType == Some(REQUEST)
      ensures base.timestamp == now && base.metadata == Some(map[])
      ensures serviceName == None && methodName == None && version == None
      ensures arguments == None && parameterTypes == None && returnType == None
    {
      var b := new RpcMessage.Default(now, threadId);
      b.SetMessageType(Some(REQUEST));
      base := b;
      serviceName, methodName, version := None, None, None;
      arguments, parameterTypes, returnType := None, None, None;
    }

    /** `RpcRequest(messageId, serviceName, methodName, version)`: the id kept as given. */
    constructor WithId(messageId: JString, serviceName: JString, methodName: JString, version: JString, now: int)
      ensures fresh(base)
      ensures base.messageId == messageId && base.messageType == Some(REQUEST)
      ensures base.timestamp == now && base.metadata == Some(map[])
      ensures this.serviceName == serviceName && this.methodName == methodName && this.version == version
      ensures arguments == None && parameterTypes == None && returnType == None
    {
      base := new RpcMessage(messageId, Some(REQUEST), now);
      this.serviceName, this.methodName, this.version := serviceName, methodName, version;
      arguments, parameterTypes, returnType := None, None, None;
    }

    /** `RpcRequest(serviceName, methodName, version, arguments)`: a generated id. */
    constructor (serviceName: JString, methodName: JString, version: JString, arguments: Option<seq<JValue>>,
                 now: int, threadId: nat)
      ensures fresh(base)
      ensures base.messageId == Some(GeneratedMessageId(now, threadId)) && base.messageType == Some(REQUEST)
      ensures base.timestamp == now && base.metadata == Some(map[])
      ensures this.serviceName == serviceName && this.methodName == methodName && this.version == version
      ensures this.arguments == arguments && parameterTypes == None && returnType == None
    {
      var b := new RpcMessage.Default(now, threadId);
      b.SetMessageType(Some(REQUEST));
      base := b;
      this.serviceName, this.methodName, this.version := serviceName, methodName, version;
      this.arguments, parameterTypes, returnType := arguments, None, None;
    }

    method SetArguments(a: Option<seq<JValue>>)
      modifies this
      ensures arguments == a
      ensures serviceName == old(serviceName) && methodName == old(methodName) && version == old(version)
      ensures parameterTypes == old(parameterTypes) && returnType == old(returnType)
    {
      arguments := a;
    }

    method SetParameterTypes(t: Option<seq<TypeRef>>)
      modifies this
      ensures parameterTypes == t
      ensures serviceName == old(serviceName) && methodName == old(methodName) && version == old(version)
      ensures arguments == old(arguments) && returnType == old(returnType)
    {
      parameterTypes := t;
    }

    method SetReturnType(t: Option<TypeRef>)
      modifies this
      ensures returnType == t
      ensures serviceName == old(serviceName) && methodName == old(methodName) && version == old(version)
      ensures arguments == old(arguments) && parameterTypes == old(parameterTypes)
    {
      returnType := t;
    }

    /** `getServiceKey`: a null part concatenates as "null". */
    function GetServiceKey(): string
      reads this
    {
      ServiceKeyOf(JavaStr(serviceName), JavaStr(version))
    }

    /** `getMethodKey`: a null part concatenates as "null". */
    function GetMethodKey(): string
      reads this
    {
      MethodKeyOf(JavaStr(serviceName), JavaStr(methodName), JavaStr(version))
    }

    predicate HasArguments()
      reads this
    {
      arguments.Some? && |arguments.value| > 0
    }

    function GetArgumentCount(): (n: nat)
      reads this
      ensures arguments.Some? ==> n == |arguments.value|
      ensures arguments.None? ==> n == 0
    {
      if arguments.Some? then |arguments.value| else 0
    }

    /**
     * The field comparison of `equals` after the inherited check: names and
     * version null-aware, the argument arrays both null or element by element equal.
     */
    predicate FieldsEqual(that: RpcRequest?)
      reads this, that
    {
      that != null && serviceName == that.serviceName && methodName == that.methodName && version == that.version
      && arguments == that.arguments
    }

    /**
     * `equals`: the same object; otherwise a request for which the inherited
     * `equals` holds, which `RpcMessage` leaves as `Object`'s identity check,
     * and whose fields compare equal.
     */
    predicate Equals(obj: RpcRequest?)
      reads this, obj
    {
      obj == this || (obj != null && obj == this && FieldsEqual(obj))
    }
  }

  /** A request has arguments exactly when it counts at least one. */
  lemma HasArgumentsIffCounted(r: RpcRequest)
    ensures r.HasArguments() <==> r.GetArgumentCount() > 0
  {
  }

  /** Because the inherited check is identity, a request equals only itself, whatever its fields. */
  lemma EqualsIsIdentity(a: RpcRequest, b: RpcRequest)
    ensures a.Equals(b) <==> a == b
  {
  }

  /** `RpcRequest.Builder`: every field starts null and each setter records one. */
  class Builder {
    var messageId: JString
    var serviceName: JString
    var methodName: JString
    var version: JString
    var arguments: Option<seq<JValue>>
    var parameterTypes: Option<seq<TypeRef>>
    var returnType: Option<TypeRef>

    constructor ()
      ensures messageId == None && serviceName == None && methodName == None && version == None
      ensures arguments == None && parameterTypes == None && returnType == None
    {
      messageId, serviceName, methodName, version := None, None, None, None;
      arguments, parameterTypes, returnType := None, None, None;
    }

    method MessageId(id: JString) returns (self: Builder)
      modifies this
      ensures self == this && messageId == id
      ensures serviceName == old(serviceName) && methodName == old(methodName) && version == old(version)
      ensures arguments == old(arguments) && parameterTypes == old(parameterTypes) && returnType == old(returnType)
    {
      messageId := id;
      self := this;
    }

    method ServiceName(name: JString) returns (self: Builder)
      modifies this
      ensures self == this && serviceName == name
      ensures messageId == old(messageId) && methodName == old(methodName) && version == old(version)
      ensures arguments == old(arguments) && parameterTypes == old(parameterTypes) && returnType == old(returnType)
    {
      serviceName := name;
      self := this;
    }

    method MethodName(name: JString) returns (self: Builder)
      modifies this
      ensures self == this && methodName == name
      ensures messageId == old(messageId) && serviceName == old(serviceName) && version == old(version)
      ensures arguments == old(arguments) && parameterTypes == old(parameterTypes) && returnType == old(returnType)
    {
      methodName := name;
      self := this;
    }

    method Version(v: JString) returns (self: Builder)
      modifies this
      ensures self == this && version == v
      ensures messageId == old(messageId) && serviceName == old(serviceName) && methodName == old(methodName)
      ensures arguments == old(arguments) && parameterTypes == old(parameterTypes) && returnType == old(returnType)
    {
      version := v;
      self := this;
    }

    method Arguments(a: Option<seq<JValue>>) returns (self: Builder)
      modifies this
      ensures self == this && arguments == a
      ensures messageId == old(messageId) && serviceName == old(serviceName) && methodName == old(methodName)
      ensures version == old(version) && parameterTypes == old(parameterTypes) && returnType == old(returnType)
    {
      arguments := a;
      self := this;
    }

    method ParameterTypes(t: Option<seq<TypeRef>>) returns (self: Builder)
      modifies this
      ensures self == this && parameterTypes == t
      ensures messageId == old(messageId) && serviceName == old(serviceName) && methodName == old(methodName)
      ensures version == old(version) && arguments == old(arguments) && returnType == old(returnType)
    {
      parameterTypes := t;
      self := this;
    }

    method ReturnType(t: Option<TypeRef>) returns (self: Builder)
      modifies this
      ensures self == this && returnType == t
      ensures messageId == old(messageId) && serviceName == old(serviceName) && methodName == old(methodName)
      ensures version == old(version) && arguments == old(arguments) && parameterTypes == old(parameterTypes)
    {
      returnType := t;
      self := this;
    }

    /** `build`: the id-taking constructor, then the three setters; the id stays as given, even null. */
    method Build(now: int) returns (r: RpcRequest)
      ensures fresh(r) && fresh(r.base)
      ensures r.base.messageId == messageId && r.base.messageType == Some(REQUEST) && r.base.timestamp == now
      ensures r.serviceName == serviceName && r.methodName == methodName && r.version == version
      ensures r.arguments == arguments && r.parameterTypes == parameterTypes && r.returnType == returnType
    {
      r := new RpcRequest.WithId(messageId, serviceName, methodName, version, now);
      r.SetArguments(arguments);
      r.SetParameterTypes(parameterTypes);
      r.SetReturnType(returnType);
    }
  }

  /**
   * The calculator request built without an id: the id is null, the type
   * is `REQUEST`, two arguments are counted and the keys follow the names.
   */
  method BuiltCalculatorRequest(now: int)
    returns (id: JString, kind: Option<MessageType>, count: nat, has: bool, serviceKey: string, methodKey: string)
    ensures id == None && kind == Some(REQUEST)
    ensures count == 2 && has
    ensures serviceKey == "CalculatorService:v1" && methodKey == "CalculatorService.add:v1"
  {
    var b := new Builder();
    var _ := b.ServiceName(Some("CalculatorService"));
    var _ := b.MethodName(Some("add"));
    var _ := b.Version(Some("v1"));
    var _ := b.Arguments(Some([JInt(10), JInt(20)]));
    var r := b.Build(now);
    id, kind := r.base.messageId, r.base.messageType;
    count := r.GetArgumentCount();
    has := r.HasArguments();
    assert r.serviceName == Some("CalculatorService") && r.methodName == Some("add") && r.version == Some("v1");
    serviceKey, methodKey := r.GetServiceKey(), r.GetMethodKey();
    assert serviceKey == ServiceKeyOf("CalculatorService", "v1");
    assert methodKey == MethodKeyOf("CalculatorService", "add", "v1");
    CalculatorKeys();
  }

  lemma CalculatorKeys()
    ensures ServiceKeyOf("CalculatorService", "v1") == "CalculatorService:v1"
    ensures MethodKeyOf("CalculatorService", "add", "v1") == "CalculatorService.add:v1"
  {
  }

  /** Two requests built from the same builder have equal fields, yet are not equal. */
  method SameFieldsNotEqual(now: int) returns (fieldsEqual: bool, equal: bool)
    ensures fieldsEqual && !equal
  {
    var b := new Builder();
    var _ := b.ServiceName(Some("CalculatorService"));
    var x := b.Build(now);
    var y := b.Build(now);
    fieldsEqual := x.FieldsEqual(y);
    equal := x.Equals(y);
  }

  /** A request without arguments keys a null service and version as "null". */
  method NullNamesInKeys(now: int, threadId: nat) returns (serviceKey: string, count: nat)
    ensures serviceKey == "null:null" && count == 0
  {
    var r := new RpcRequest.Default(now, threadId);
    serviceKey := r.GetServiceKey();
    count := r.GetArgumentCount();
  }
}

=== FILE: rpc_response.dfy ===
/**
 * The Java response envelope of the sharing layer, `RpcResponse`, its
 * status rules and its builder. The status predicates are defined once on
 * (exception present, status code) and shared with the .NET mirror.
 */
module RpcResponses {
  import opened Wrappers
  import opened JavaText
  import opened Reflect
  import opened RpcMessages

  const OK := 200
  const REQUEST_TIMEOUT := 408
  const INTERNAL_SERVER_ERROR := 500
  const SERVICE_UNAVAILABLE := 503

  /** A success carries no exception and a 2xx code. */
  predicate SuccessStatus(hasException: bool, statusCode: int)
  {
    !hasException && 200 <= statusCode < 300
  }

  /**
   * The three verdicts exclude one another, and the four codes the
   * envelope sets itself read as intended: only 200 can be a success.
   */
  lemma StatusVerdictsExclusive(hasException: bool, statusCode: int)
    ensures SuccessStatus(hasException, statusCode) ==> statusCode != REQUEST_TIMEOUT && statusCode != SERVICE_UNAVAILABLE
    ensures SuccessStatus(hasException, OK) <==> !hasException
    ensures !SuccessStatus(hasException, REQUEST_TIMEOUT) && !SuccessStatus(hasException, INTERNAL_SERVER_ERROR)
    ensures !SuccessStatus(hasException, SERVICE_UNAVAILABLE)
    ensures hasException ==> !SuccessStatus(hasException, statusCode)
  {
  }

  class RpcResponse {
    const base: RpcMessage
    var requestId: JString
    var result: JValue
    /** The thrown object, `None` for null. */
    var exception: Option<ObjRef>
    var statusCode: int
    var statusMessage: JString

    /** `RpcResponse()`: a default message tagged `RESPONSE`, at 200 "OK". */
    constructor Default(now: int, threadId: nat)
      ensures fresh(base)
      ensures base.messageId == Some(GeneratedMessageId(now, threadId)) && base.messageType == Some(RESPONSE)
      ensures base.timestamp == now
      ensures requestId == None && result == JNull && exception == None
      ensures statusCode == OK && statusMessage == Some("OK")
    {
      var b := new RpcMessage.Default(now, threadId);
      b.SetMessageType(Some(RESPONSE));
      base := b;
      requestId, result, exception := None, JNull, None;
      statusCode, statusMessage := OK, Some("OK");
    }

    /** `RpcResponse(messageId, requestId)`: the id kept as given, at 200 "OK". */
    constructor WithIds(messageId: JString, requestId: JString, now: int)
      ensures fresh(base)
      ensures base.messageId == messageId && base.messageType == Some(RESPONSE) && base.timestamp == now
      ensures this.requestId == requestId && result == JNull && exception == None
      ensures statusCode == OK && statusMessage == Some("OK")
    {
      base := new RpcMessage(messageId, Some(RESPONSE), now);
      this.requestId, result, exception := requestId, JNull, None;
      statusCode, statusMessage := OK, Some("OK");
    }

    /** `RpcResponse(requestId, Object result)`: a generated id, at 200 "OK". */
    constructor Succeeded(requestId: JString, result: JValue, now: int, threadId: nat)
      ensures fresh(base)
      ensures base.messageId == Some(GeneratedMessageId(now, threadId)) && base.messageType == Some(RESPONSE)
      ensures base.timestamp == now
      ensures this.requestId == requestId && this.result == result && exception == None
      ensures statusCode == OK && statusMessage == Some("OK")
    {
      var b := new RpcMessage.Default(now, threadId);
      b.SetMessageType(Some(RESPONSE));
      base := b;
      this.requestId, this.result, exception := requestId, result, None;
      statusCode, statusMessage := OK, Some("OK");
    }

    /** `RpcResponse(requestId, Throwable exception)`: a generated id, at 500 "Internal Server Error". */
    constructor Failed(requestId: JString, exception: Option<ObjRef>, now: int, threadId: nat)
      ensures fresh(base)
      ensures base.messageId == Some(GeneratedMessageId(now, threadId)) && base.messageType == Some(RESPONSE)
      ensures base.timestamp == now
      ensures this.requestId == requestId && result == JNull && this.exception == exception
      ensures statusCode == INTERNAL_SERVER_ERROR && statusMessage == Some("Internal Server Error")
    {
      var b := new RpcMessage.Default(now, threadId);
      b.SetMessageType(Some(RESPONSE));
      base := b;
      this.requestId, result, this.exception := requestId, JNull, exception;
      statusCode, statusMessage := INTERNAL_SERVER_ERROR, Some("Internal Server Error");
    }

    method SetRequestId(id: JString)
      modifies this
      ensures requestId == id
      ensures result == old(result) && exception == old(exception)
      ensures statusCode == old(statusCode) && statusMessage == old(statusMessage)
    {
      requestId := id;
    }

    method SetResult(value: JValue)
      modifies this
      ensures result == value
      ensures requestId == old(requestId) && exception == old(exception)
      ensures statusCode == old(statusCode) && statusMessage == old(statusMessage)
    {
      result := value;
    }

    /** Stores the exception; a non-null one forces 500 "Internal Server Error", a null one keeps the status. */
    method SetException(e: Option<ObjRef>)
      modifies this
      ensures exception == e
      ensures e.Some? ==> statusCode == INTERNAL_SERVER_ERROR && statusMessage == Some("Internal Server Error")
      ensures e.None? ==> statusCode == old(statusCode) && statusMessage == old(statusMessage)
      ensures e.Some? ==> !IsSuccess()
      ensures requestId == old(requestId) && result == old(result)
    {
      exception := e;
      if e.Some? {
        statusCode := INTERNAL_SERVER_ERROR;
        statusMessage := Some("Internal Server Error");
      }
    }

    method SetStatusCode(code: int)
      modifies this
      ensures statusCode == code
      ensures requestId == old(requestId) && result == old(result) && exception == old(exception)
      ensures statusMessage == old(statusMessage)
    {
      statusCode := code;
    }

    method SetStatusMessage(message: JString)
      modifies this
      ensures statusMessage == message
      ensures requestId == old(requestId) && result == old(result) && exception == old(exception)
      ensures statusCode == old(statusCode)
    {
      statusMessage := message;
    }

    predicate HasException()
      reads this
    {
      exception.Some?
    }

    predicate IsSuccess()
      reads this
    {
      SuccessStatus(HasException(), statusCode)
    }

    predicate IsTimeout()
      reads this
    {
      statusCode == REQUEST_TIMEOUT
    }

    predicate IsServiceUnavailable()
      reads this
    {
      statusCode == SERVICE_UNAVAILABLE
    }

    /** The field comparison of `equals` after the inherited check. */
    predicate FieldsEqual(that: RpcResponse?)
      reads this, that
    {
      that != null && statusCode == that.statusCode && requestId == that.requestId && result == that.result
      && exception == that.exception && statusMessage == that.statusMessage
    }

    /** `equals`: the inherited check is `Object`'s identity, so only the object itself passes. */
    predicate Equals(obj: RpcResponse?)
      reads this, obj
    {
      obj == this || (obj != null && obj == this && FieldsEqual(obj))
    }
  }

  /** A response equals only itself. */
  lemma EqualsIsIdentity(a: RpcResponse, b: RpcResponse)
    ensures a.Equals(b) <==> a == b
  {
  }

  /** `success(requestId, result)`. */
  method SuccessResponse(requestId: JString, result: JValue, now: int, threadId: nat) returns (r: RpcResponse)
    ensures fresh(r) && r.requestId == requestId && r.result == result && r.IsSuccess()
    ensures r.statusCode == OK && r.statusMessage == Some("OK")
  {
    r := new RpcResponse.Succeeded(requestId, result, now, threadId);
  }

  /** `failure(requestId, exception)`: never a success when the exception is present. */
  method FailureResponse(requestId: JString, exception: Option<ObjRef>, now: int, threadId: nat) returns (r: RpcResponse)
    ensures fresh(r) && r.requestId == requestId && r.exception == exception && !r.IsSuccess()
    ensures r.statusCode == INTERNAL_SERVER_ERROR && r.statusMessage == Some("Internal Server Error")
  {
    r := new RpcResponse.Failed(requestId, exception, now, threadId);
  }

  /** `timeout(requestId)`: 408 "Request Timeout", not a success. */
  method TimeoutResponse(requestId: JString, now: int, threadId: nat) returns (r: RpcResponse)
    ensures fresh(r) && r.requestId == requestId && r.exception == None
    ensures r.statusCode == REQUEST_TIMEOUT && r.statusMessage == Some("Request Timeout")
    ensures r.IsTimeout() && !r.IsSuccess() && !r.IsServiceUnavailable()
  {
    r := new RpcResponse.Default(now, threadId);
    r.SetRequestId(requestId);
    r.SetStatusCode(REQUEST_TIMEOUT);
    r.SetStatusMessage(Some("Request Timeout"));
  }

  /** `serviceUnavailable(requestId)`: 503 "Service Unavailable", not a success. */
  method ServiceUnavailableResponse(requestId: JString, now: int, threadId: nat) returns (r: RpcResponse)
    ensures fresh(r) && r.requestId == requestId && r.exception == None
    ensures r.statusCode == SERVICE_UNAVAILABLE && r.statusMessage == Some("Service Unavailable")
    ensures r.IsServiceUnavailable() && !r.IsSuccess() && !r.IsTimeout()
  {
    r := new RpcResponse.Default(now, threadId);
    r.SetRequestId(requestId);
    r.SetStatusCode(SERVICE_UNAVAILABLE);
    r.SetStatusMessage(Some("Service Unavailable"));
  }

  /** `RpcResponse.Builder`: 200 "OK" until told otherwise. */
  class Builder {
    var messageId: JString
    var requestId: JString
    var result: JValue
    var exception: Option<ObjRef>
    var statusCode: int
    var statusMessage: JString

    constructor ()
      ensures messageId == None && requestId == None && result == JNull && exception == None
      ensures statusCode == OK && statusMessage == Some("OK")
    {
      messageId, requestId, result, exception := None, None, JNull, None;
      statusCode, statusMessage := OK, Some("OK");
    }

    method MessageId(id: JString) returns (self: Builder)
      modifies this
      ensures self == this && messageId == id
      ensures requestId == old(requestId) && result == old(result) && exception == old(exception)
      ensures statusCode == old(statusCode) && statusMessage == old(statusMessage)
    {
      messageId := id;
      self := this;
    }

    method RequestId(id: JString) returns (self: Builder)
      modifies this
      ensures self == this && requestId == id
      ensures messageId == old(messageId) && result == old(result) && exception == old(exception)
      ensures statusCode == old(statusCode) && statusMessage == old(statusMessage)
    {
      requestId := id;
      self := this;
    }

    method Result(value: JValue) returns (self: Builder)
      modifies this
      ensures self == this && result == value
      ensures messageId == old(messageId) && requestId == old(requestId) && exception == old(exception)
      ensures statusCode == old(statusCode) && statusMessage == old(statusMessage)
    {
      result := value;
      self := this;
    }

    /** Records the exception; a non-null one also sets 500 "Internal Server Error". */
    method Exception(e: Option<ObjRef>) returns (self: Builder)
      modifies this
      ensures self == this && exception == e
      ensures e.Some? ==> statusCode == INTERNAL_SERVER_ERROR && statusMessage == Some("Internal Server Error")
      ensures e.None? ==> statusCode == old(statusCode) && statusMessage == old(statusMessage)
      ensures messageId == old(messageId) && requestId == old(requestId) && result == old(result)
    {
      exception := e;
      if e.Some? {
        statusCode := INTERNAL_SERVER_ERROR;
        statusMessage := Some("Internal Server Error");
      }
      self := this;
    }

    method StatusCode(code: int) returns (self: Builder)
      modifies this
      ensures self == this && statusCode == code
      ensures messageId == old(messageId) && requestId == old(requestId) && result == old(result)
      ensures exception == old(exception) && statusMessage == old(statusMessage)
    {
      statusCode := code;
      self := this;
    }

    method StatusMessage(message: JString) returns (self: Builder)
      modifies this
      ensures self == this && statusMessage == message
      ensures messageId == old(messageId) && requestId == old(requestId) && result == old(result)
      ensures exception == old(exception) && statusCode == old(statusCode)
    {
      statusMessage := message;
      self := this;
    }

    /**
     * `build`: the id-taking constructor, then result, exception, code and
     * message in that order, so the builder's code and message are the final
     * ones even after the exception's 500.
     */
    method Build(now: int) returns (r: RpcResponse)
      ensures fresh(r) && fresh(r.base)
      ensures r.base.messageId == messageId && r.base.messageType == Some(RESPONSE) && r.base.timestamp == now
      ensures r.requestId == requestId && r.result == result && r.exception == exception
      ensures r.statusCode == statusCode && r.statusMessage == statusMessage
      ensures r.IsSuccess() <==> exception.None? && 200 <= statusCode < 300
    {
      r := new RpcResponse.WithIds(messageId, requestId, now);
      r.SetResult(result);
      r.SetException(exception);
      r.SetStatusCode(statusCode);
      r.SetStatusMessage(statusMessage);
    }
  }

  /** A builder given a request id and a result only: 200, a success, the result kept. */
  method ResultOnlyBuilderSucceeds(now: int) returns (code: int, success: bool, hasException: bool, result: JValue)
    ensures code == 200 && success && !hasException && result == JInt(30)
  {
    var b := new Builder();
    var _ := b.RequestId(None);
    var _ := b.Result(JInt(30));
    var r := b.Build(now);
    code, success, hasException, result := r.statusCode, r.IsSuccess(), r.HasException(), r.result;
  }

  /** A builder given an exception: 500 "Internal Server Error", not a success. */
  method ExceptionBuilderFails(now: int, e: ObjRef) returns (code: int, message: JString, success: bool)
    ensures code == 500 && message == Some("Internal Server Error") && !success
  {
    var b := new Builder();
    var _ := b.RequestId(Some("test-request-id"));
    var _ := b.Exception(Some(e));
    var r := b.Build(now);
    code, message, success := r.statusCode, r.statusMessage, r.IsSuccess();
  }

  /**
   * The last call wins: a code set after the exception replaces the 500, a
   * code set before it is replaced by 500; with the exception present the
   * response is no success either way.
   */
  method LastBuilderCallWins(now: int, e: ObjRef) returns (after: int, before: int, successAfter: bool)
    ensures after == 200 && before == 500 && !successAfter
  {
    var b1 := new Builder();
    var _ := b1.Exception(Some(e));
    var _ := b1.StatusCode(200);
    var r1 := b1.Build(now);
    var b2 := new Builder();
    var _ := b2.StatusCode(404);
    var _ := b2.Exception(Some(e));
    var r2 := b2.Build(now);
    after, before, successAfter := r1.statusCode, r2.statusCode, r1.IsSuccess();
  }

  /** Clearing the exception of a timeout keeps it a timeout; setting one turns a success into a 500. */
  method SetExceptionCoupling(now: int, threadId: nat, e: ObjRef)
    returns (timeoutCode: int, stillTimeout: bool, failedCode: int, stillSuccess: bool)
    ensures timeoutCode == 408 && stillTimeout && failedCode == 500 && !stillSuccess
  {
    var t := TimeoutResponse(Some("id"), now, threadId);
    t.SetException(None);
    timeoutCode, stillTimeout := t.statusCode, t.IsTimeout();
    var s := SuccessResponse(Some("id"), JInt(1), now, threadId);
    s.SetException(Some(e));
    failedCode, stillSuccess := s.statusCode, s.IsSuccess();
  }
}

=== FILE: server_handler.dfy ===
/**
 * `RpcServerHandler`: the server side of a call. It decodes each argument
 * of the envelope with the matching parameter type, invokes the service
 * bean, and, unless the return type is `Void.class`, stores the result in
 * the envelope and returns its serialization.
 */
module ServerHandlers {
  import opened Wrappers
  import opened JavaText
  import opened Reflect
  import opened SuperMessages

  /**
   * The serializer the handler is built with. Its library is not part of
   * this model, so its three operations are uninterpreted.
   */
  datatype Codec = Codec(
    deSerializeString: (string, TypeRef) -> JValue,  // `DeSerializeString(text, type)`
    serializeString: JValue -> string,               // `SerializeString(value)`
    toText: JValue -> string)                        // `toString()` of a non-null value

  /**
   * What `Method.invoke` does once its arguments have the right number:
   * return the target's result, or throw (the target's own exception
   * wrapped in `InvocationTargetException`, or an argument it refuses).
   */
  datatype Invocation = Returned(value: JValue) | Threw(exception: ObjRef)

  datatype Fault =
    | NullPointer                                    // `toString()` of a null argument
    | IndexOutOfBounds                               // an argument without a parameter type
    | WrongArgumentCount                             // `Method.invoke` with fewer arguments than parameters
    | InvocationFailed(exception: ObjRef)            // `Method.invoke` threw

  datatype HandleOutcome =
    | NoService                                      // null bean: null, nothing invoked
    | NoArguments                                    // null or empty argument array: null, nothing invoked
    | Failed(fault: Fault)                           // `handle` throws; nothing is written back
    | InvokedVoid(args: seq<JValue>)                 // invoked; `Void.class` result: null
    | Replied(args: seq<JValue>, result: JValue, text: string)

  /**
   * The reference definition of the decode loop, argument by argument from
   * the left: a null argument fails its `toString()` before the parameter
   * type is read, and an argument without a parameter type fails the index.
   */
  function DecodeAll(codec: Codec, msg: seq<JValue>, types: seq<TypeRef>): (r: Result<seq<JValue>, Fault>)
    ensures r.Failure? ==> r.error == NullPointer || r.error == IndexOutOfBounds
  {
    if |msg| == 0 then Success([])
    else
      var j := |msg| - 1;
      match DecodeAll(codec, msg[..j], types)
      case Failure(f) => Failure(f)
      case Success(prefix) =>
        if msg[j] == JNull then Failure(NullPointer)
        else if j >= |types| then Failure(IndexOutOfBounds)
        else Success(prefix + [codec.deSerializeString(codec.toText(msg[j]), types[j])])
  }

  /** Decoding succeeds exactly when no argument is null and every argument has a parameter type. */
  lemma {:induction false} DecodeAllSucceeds(codec: Codec, msg: seq<JValue>, types: seq<TypeRef>)
    ensures DecodeAll(codec, msg, types).Success?
        <==> (forall j :: 0 <= j < |msg| ==> msg[j] != JNull) && |msg| <= |types|
    ensures DecodeAll(codec, msg, types).Success? ==>
        |DecodeAll(codec, msg, types).value| == |msg|
        && forall j :: 0 <= j < |msg| ==>
             DecodeAll(codec, msg, types).value[j] == codec.deSerializeString(codec.toText(msg[j]), types[j])
  {
    if |msg| > 0 {
      var j := |msg| - 1;
      DecodeAllSucceeds(codec, msg[..j], types);
      if (forall i :: 0 <= i < |msg| ==> msg[i] != JNull) && |msg| <= |types| {
        assert forall i :: 0 <= i < j ==> msg[..j][i] == msg[i];
      }
      if DecodeAll(codec, msg[..j], types).Success? {
        assert forall i :: 0 <= i < j ==> msg[..j][i] == msg[i];
      }
    }
  }

  /** The decode loop filling the `objs` array. */
  method DecodeArguments(codec: Codec, msg: seq<JValue>, types: seq<TypeRef>)
    returns (r: Result<seq<JValue>, Fault>)
    ensures r == DecodeAll(codec, msg, types)
  {
    var objs := new JValue[|msg|](_ => JNull);
    var j := 0;
    while j < |msg|
      invariant 0 <= j <= |msg|
      invariant DecodeAll(codec, msg[..j], types) == Success(objs[..j])
    {
      assert msg[..j + 1][..j] == msg[..j];
      if msg[j] == JNull {
        assert DecodeAll(codec, msg[..j + 1], types) == Failure(NullPointer);
        DecodeFailureSticks(codec, msg, types, j + 1);
        return Failure(NullPointer);
      }
      if j >= |types| {
        assert DecodeAll(codec, msg[..j + 1], types) == Failure(IndexOutOfBounds);
        DecodeFailureSticks(codec, msg, types, j + 1);
        return Failure(IndexOutOfBounds);
      }
      objs[j] := codec.deSerializeString(codec.toText(msg[j]), types[j]);
      assert objs[..j + 1] == objs[..j] + [objs[j]];
      j := j + 1;
    }
    assert msg[..j] == msg;
    assert objs[..j] == objs[..];
    r := Success(objs[..]);
  }

  /** Once a prefix fails, the whole decode fails the same way. */
  lemma {:induction false} DecodeFailureSticks(codec: Codec, msg: seq<JValue>, types: seq<TypeRef>, k: nat)
    requires k <= |msg| && DecodeAll(codec, msg[..k], types).Failure?
    ensures DecodeAll(codec, msg, types) == DecodeAll(codec, msg[..k], types)
    decreases |msg| - k
  {
    if k < |msg| {
      assert msg[..k + 1][..k] == msg[..k];
      DecodeFailureSticks(codec, msg, types, k + 1);
    } else {
      assert msg[..k] == msg;
    }
  }

  /**
   * What `handle` returns for an envelope whose argument array is `msg`.
   * `Method.invoke` refuses an argument array shorter than the parameter
   * list before the target runs; a longer one never gets past decoding.
   */
  function HandleSpec(codec: Codec, msg: Option<seq<JValue>>, serviceBean: Option<ObjRef>, m: JMethod,
                      invoke: (ObjRef, seq<JValue>) -> Invocation): HandleOutcome
  {
    if serviceBean.None? then NoService
    else if msg.None? || |msg.value| == 0 then NoArguments
    else match DecodeAll(codec, msg.value, m.parameterTypes)
      case Failure(f) => Failed(f)
      case Success(args) =>
        if |args| != |m.parameterTypes| then Failed(WrongArgumentCount)
        else match invoke(serviceBean.value, args)
          case Threw(e) => Failed(InvocationFailed(e))
          case Returned(result) =>
            if SameClass(m.returnType, VoidBoxed) then InvokedVoid(args)
            else Replied(args, result, codec.serializeString(result))
  }

  /** `handle(SuperMsgMulti, bean, method)`. */
  method Handle(codec: Codec, superMsg: SuperMsgMulti, serviceBean: Option<ObjRef>, m: JMethod,
                invoke: (ObjRef, seq<JValue>) -> Invocation) returns (out: HandleOutcome)
    modifies superMsg
    ensures out == HandleSpec(codec, old(superMsg.msg), serviceBean, m, invoke)
    ensures out.Replied? ==> superMsg.response == out.result
    ensures !out.Replied? ==> superMsg.response == old(superMsg.response)
    ensures superMsg.msg == old(superMsg.msg) && superMsg.id == old(superMsg.id)
    ensures superMsg.creationDate == old(superMsg.creationDate)
  {
    if serviceBean.None? {
      return NoService;
    }
    var types := m.parameterTypes;
    if superMsg.msg.Some? && |superMsg.msg.value| > 0 {
      var decoded := DecodeArguments(codec, superMsg.msg.value, types);
      if decoded.Failure? {
        return Failed(decoded.error);
      }
      if |decoded.value| != |types| {
        return Failed(WrongArgumentCount);
      }
      var call := invoke(serviceBean.value, decoded.value);
      if call.Threw? {
        return Failed(InvocationFailed(call.exception));
      }
      var response := call.value;
      if !SameClass(m.returnType, VoidBoxed) {
        superMsg.SetResponse(response);
        return Replied(decoded.value, response, codec.serializeString(response));
      }
      return InvokedVoid(decoded.value);
    }
    return NoArguments;
  }

  /** The fields the JSON deserializer reads back into a `SuperMsgMulti`. */
  datatype EnvelopeFields = EnvelopeFields(id: JString, creationDate: int, msg: Option<seq<JValue>>,
                                           response: JValue)

  /** `handle(String, bean, method)`: deserialize the envelope, then the envelope overload. */
  method HandleText(codec: Codec, request: string, parse: string -> EnvelopeFields,
                    serviceBean: Option<ObjRef>, m: JMethod, invoke: (ObjRef, seq<JValue>) -> Invocation)
    returns (out: HandleOutcome)
    ensures out == HandleSpec(codec, parse(request).msg, serviceBean, m, invoke)
  {
    var fields := parse(request);
    var superMsg := new SuperMsgMulti.Decoded(fields.id, fields.creationDate, fields.msg, fields.response);
    out := Handle(codec, superMsg, serviceBean, m, invoke);
  }

  /**
   * A method without parameters is never invoked: with no arguments the
   * handler stops early, and any argument has no parameter type to decode with.
   */
  lemma ZeroParameterMethodNeverRuns(codec: Codec, msg: Option<seq<JValue>>, serviceBean: Option<ObjRef>,
                                     m: JMethod, invoke: (ObjRef, seq<JValue>) -> Invocation)
    requires |m.parameterTypes| == 0
    ensures !HandleSpec(codec, msg, serviceBean, m, invoke).InvokedVoid?
    ensures !HandleSpec(codec, msg, serviceBean, m, invoke).Replied?
  {
    if serviceBean.Some? && msg.Some? && |msg.value| > 0 {
      DecodeAllSucceeds(codec, msg.value, m.parameterTypes);
    }
  }

  /** Argument `j` decoded with parameter type `j`. */
  function Decoded(codec: Codec, msg: seq<JValue>, types: seq<TypeRef>): (r: seq<JValue>)
    requires |msg| <= |types|
    ensures |r| == |msg| && forall j :: 0 <= j < |msg| ==> r[j] == codec.deSerializeString(codec.toText(msg[j]), types[j])
  {
    seq(|msg|, j requires 0 <= j < |msg| => codec.deSerializeString(codec.toText(msg[j]), types[j]))
  }

  /** A bean and a non-empty, null-free argument array of exactly the method's arity. */
  predicate Callable(msg: Option<seq<JValue>>, serviceBean: Option<ObjRef>, m: JMethod)
  {
    serviceBean.Some? && msg.Some? && 0 < |msg.value| == |m.parameterTypes|
    && forall j :: 0 <= j < |msg.value| ==> msg.value[j] != JNull
  }

  /**
   * The target runs exactly for a callable envelope, on the decoded
   * arguments; a shorter null-free argument array is refused by
   * `Method.invoke`; the handler answers exactly when the target returns,
   * and a reply carries the serialized result.
   */
  lemma InvokedExactlyWhenDecodable(codec: Codec, msg: Option<seq<JValue>>, serviceBean: Option<ObjRef>,
                                    m: JMethod, invoke: (ObjRef, seq<JValue>) -> Invocation)
    ensures var out := HandleSpec(codec, msg, serviceBean, m, invoke);
      (out.InvokedVoid? || out.Replied? || (out.Failed? && out.fault.InvocationFailed?))
        <==> Callable(msg, serviceBean, m)
    ensures var out := HandleSpec(codec, msg, serviceBean, m, invoke);
      (out == Failed(WrongArgumentCount))
        <==> serviceBean.Some? && msg.Some? && 0 < |msg.value| < |m.parameterTypes|
             && forall j :: 0 <= j < |msg.value| ==> msg.value[j] != JNull
    ensures Callable(msg, serviceBean, m) ==>
      var out := HandleSpec(codec, msg, serviceBean, m, invoke);
      var call := invoke(serviceBean.value, Decoded(codec, msg.value, m.parameterTypes));
      && (call.Threw? ==> out == Failed(InvocationFailed(call.exception)))
      && (call.Returned? && SameClass(m.returnType, VoidBoxed) ==>
            out == InvokedVoid(Decoded(codec, msg.value, m.parameterTypes)))
      && (call.Returned? && !SameClass(m.returnType, VoidBoxed) ==>
            out == Replied(Decoded(codec, msg.value, m.parameterTypes), call.value, codec.serializeString(call.value)))
  {
    if serviceBean.Some? && msg.Some? && |msg.value| > 0 {
      DecodeAllSucceeds(codec, msg.value, m.parameterTypes);
      if DecodeAll(codec, msg.value, m.parameterTypes).Success? {
        assert DecodeAll(codec, msg.value, m.parameterTypes).value == Decoded(codec, msg.value, m.parameterTypes);
      }
    }
  }

  /** A reply overwrites the envelope's response with the result; a `Void.class` call leaves it. */
  method ReplyLandsInEnvelope(codec: Codec, owner: TypeRef, ret: TypeRef, p: TypeRef, bean: ObjRef,
                              invoke: (ObjRef, seq<JValue>) -> Invocation)
    returns (out: HandleOutcome, stored: JValue)
    requires !SameClass(ret, VoidBoxed)
    requires invoke(bean, [codec.deSerializeString(codec.toText(JInt(5)), p)]).Returned?
    ensures out.Replied? && stored == out.result
    ensures out.args == [codec.deSerializeString(codec.toText(JInt(5)), p)]
    ensures stored == invoke(bean, out.args).value
  {
    var envelope := new SuperMsgMulti("id-1", 0);
    var same := envelope.SetMsg(Some([JInt(5)]));
    DecodeAllSucceeds(codec, [JInt(5)], [p]);
    var d := DecodeAll(codec, [JInt(5)], [p]);
    assert d.Success?;
    assert |d.value| == 1;
    assert d.value[0] == codec.deSerializeString(codec.toText(JInt(5)), p);
    assert d.value == [codec.deSerializeString(codec.toText(JInt(5)), p)];
    assert DecodeAll(codec, [JInt(5)], [p]) == Success([codec.deSerializeString(codec.toText(JInt(5)), p)]);
    out := Handle(codec, envelope, Some(bean), JMethod("square", owner, ret, [p]), invoke);
    stored := envelope.response;
  }

  /** One argument for a two-parameter method: `Method.invoke` refuses it and no reply is written. */
  method FewerArgumentsRefused(codec: Codec, owner: TypeRef, ret: TypeRef, p: TypeRef, q: TypeRef, bean: ObjRef,
                               invoke: (ObjRef, seq<JValue>) -> Invocation)
    returns (out: HandleOutcome, stored: JValue)
    ensures out == Failed(WrongArgumentCount) && stored == JNull
  {
    var envelope := new SuperMsgMulti("id-2", 0);
    var same := envelope.SetMsg(Some([JInt(5)]));
    DecodeAllSucceeds(codec, [JInt(5)], [p, q]);
    out := Handle(codec, envelope, Some(bean), JMethod("add", owner, ret, [p, q]), invoke);
    stored := envelope.response;
  }
}

=== FILE: super_msg.dfy ===
/**
 * The wire envelope of the MQTT transport: `BaseMsg` (an id and a creation
 * date) extended by `SuperMsgMulti` (the argument array of a request and the
 * result of a reply).
 */
module SuperMessages {
  import opened Wrappers
  import opened JavaText
  import opened Reflect

  class SuperMsgMulti {
    /** `BaseMsg.Id`. */
    var id: JString
    /** `BaseMsg.CreationDate`, as milliseconds. */
    var creationDate: int
    /** The request arguments; `None` is a null array. */
    var msg: Option<seq<JValue>>
    /** The reply value; `JNull` when there is none. */
    var response: JValue

    /** The implicit constructor runs `BaseMsg()`: a generated id and the current time. */
    constructor(generatedId: string, now: int)
      ensures id == Some(generatedId) && creationDate == now
      ensures msg == None && response == JNull
    {
      id := Some(generatedId);
      creationDate := now;
      msg := None;
      response := JNull;
    }

    /** The envelope the JSON deserializer rebuilds from the fields it read. */
    constructor Decoded(id: JString, creationDate: int, msg: Option<seq<JValue>>, response: JValue)
      ensures this.id == id && this.creationDate == creationDate
      ensures this.msg == msg && this.response == response
    {
      this.id := id;
      this.creationDate := creationDate;
      this.msg := msg;
      this.response := response;
    }

    /** The generated `setResponse` setter. */
    method SetResponse(result: JValue)
      modifies this
      ensures response == result
      ensures msg == old(msg) && id == old(id) && creationDate == old(creationDate)
    {
      response := result;
    }

    /** Installs the request arguments and returns the same envelope. */
    method SetMsg(args: Option<seq<JValue>>) returns (self: SuperMsgMulti)
      modifies this
      ensures self == this
      ensures msg == args
      ensures response == old(response) && id == old(id) && creationDate == old(creationDate)
    {
      msg := args;
      self := this;
    }

    /** Turns the envelope into a reply: the arguments are dropped and the result installed. */
    method SetReq(result: JValue) returns (self: SuperMsgMulti)
      modifies this
      ensures self == this
      ensures msg == None && response == result
      ensures id == old(id) && creationDate == old(creationDate)
    {
      msg := None;
      response := result;
      self := this;
    }
  }

  /**
   * A request envelope that becomes a reply: the arguments are gone, the
   * result is in place, and the id and date are those of the request.
   */
  method RequestBecomesReply(generatedId: string, now: int, args: seq<JValue>, result: JValue)
    returns (id: JString, date: int, msg: Option<seq<JValue>>, response: JValue)
    ensures id == Some(generatedId) && date == now
    ensures msg == None && response == result
  {
    var envelope := new SuperMsgMulti(generatedId, now);
    var same := envelope.SetMsg(Some(args));
    same := same.SetReq(result);
    id, date, msg, response := envelope.id, envelope.creationDate, envelope.msg, envelope.response;
  }

  /** Installing arguments on an envelope that already holds a result keeps that result. */
  method SetMsgKeepsResponse(generatedId: string, now: int, args: seq<JValue>, result: JValue)
    returns (msg: Option<seq<JValue>>, response: JValue)
    ensures msg == Some(args) && response == result
  {
    var envelope := new SuperMsgMulti(generatedId, now);
    var same := envelope.SetReq(result);
    same := envelope.SetMsg(Some(args));
    msg, response := envelope.msg, envelope.response;
  }
}

=== FILE: sync_manager.dfy ===
/**
 * The registry of in-flight requests used by the MQTT client path: one
 * synchronizer per request id, plus the replies that arrived for them.
 * Every synchronizer expires a fixed 30 seconds after it was created,
 * whatever wait bound its creator asked for.
 */
module SyncManager {
  import opened Wrappers
  import opened JavaText
  import opened Synchronizers
  import opened SuperMessages

  /** The expiry window of every `UnsafeSynchronizer`, in milliseconds. */
  const ExpiryMs: int := 30000

  /** A synchronizer that refuses waiters once its fixed window has passed. */
  class UnsafeSynchronizer {
    /** The `Synchronizer` state this subclass inherits. */
    const base: Synchronizer
    var timeout: bool
    const startTime: int
    const timeoutMs: int

    constructor(now: int)
      ensures fresh(base) && base.Valid()
      ensures base.currentThread == None && base.sleepTime == 0
      ensures !base.released && base.latchCount == 1
      ensures !timeout && startTime == now && timeoutMs == ExpiryMs
    {
      base := new Synchronizer();
      timeout := false;
      startTime := now;
      timeoutMs := ExpiryMs;
    }

    predicate WindowPassed(now: int)
    {
      now - startTime > timeoutMs
    }

    /** Refuses (and marks the timeout) once the window has passed; otherwise the inherited test. */
    method TryAcquire(now: int) returns (r: bool)
      modifies this
      ensures WindowPassed(now) ==> timeout && !r
      ensures !WindowPassed(now) ==> timeout == old(timeout) && (r <==> !base.released)
    {
      if now - startTime > timeoutMs {
        timeout := true;
        r := false;
      } else {
        r := !base.released;
      }
    }

    predicate IsTimeout(now: int)
      reads this
    {
      timeout || WindowPassed(now)
    }

    /** The inherited `acquire`, which dispatches to the overriding `tryAcquire`. */
    method Acquire(thread: ThreadId, now: int) returns (w: WaitKind)
      modifies this, base
      ensures w == NoWait <==> WindowPassed(now) || old(base.released)
      ensures w != NoWait ==> base.currentThread == Some(thread)
      ensures w != NoWait ==> w == (if base.sleepTime > 0 then TimedWait(base.sleepTime) else UntimedWait)
      ensures base.released == old(base.released) && base.latchCount == old(base.latchCount)
      ensures base.sleepTime == old(base.sleepTime)
      ensures timeout == (old(timeout) || WindowPassed(now))
    {
      var admitted := TryAcquire(now);
      if admitted {
        w := base.Await(thread);
      } else {
        w := NoWait;
      }
    }
  }

  class SynchronizerManager {
    var synchronizerMap: map<string, UnsafeSynchronizer>
    var responseMap: map<string, SuperMsgMulti>

    /** Every request id owns its own synchronizer. */
    ghost predicate Valid()
      reads this
    {
      forall i, j :: i in synchronizerMap && j in synchronizerMap && i != j ==>
        synchronizerMap[i] != synchronizerMap[j] && synchronizerMap[i].base != synchronizerMap[j].base
    }

    constructor()
      ensures Valid() && synchronizerMap == map[] && responseMap == map[]
    {
      synchronizerMap := map[];
      responseMap := map[];
    }

    /** A new synchronizer bound to `requestId`, replacing any earlier one. */
    method CreateSynchronizer(requestId: string, timeout: int, now: int) returns (s: UnsafeSynchronizer)
      requires Valid()
      modifies this
      ensures Valid()
      ensures fresh(s) && fresh(s.base)
      ensures synchronizerMap == old(synchronizerMap)[requestId := s]
      ensures responseMap == old(responseMap)
      ensures s.base.Valid() && s.base.sleepTime == timeout && !s.base.released
      ensures !s.timeout && s.startTime == now && s.timeoutMs == ExpiryMs
    {
      s := new UnsafeSynchronizer(now);
      s.base.SetSleepTime(timeout);
      synchronizerMap := synchronizerMap[requestId := s];
    }

    method GetSynchronizer(requestId: string) returns (s: Option<UnsafeSynchronizer>)
      ensures s.Some? <==> requestId in synchronizerMap
      ensures s.Some? ==> s.value == synchronizerMap[requestId]
    {
      if requestId in synchronizerMap {
        s := Some(synchronizerMap[requestId]);
      } else {
        s := None;
      }
    }

    /**
     * Unbinds `requestId` and releases its synchronizer; true only if the
     * id was bound and this was the first release of its synchronizer.
     */
    method ReleaseSynchronizer(requestId: string) returns (r: bool)
      requires Valid()
      requires requestId in synchronizerMap ==> synchronizerMap[requestId].base.Valid()
      modifies this, if requestId in synchronizerMap then {synchronizerMap[requestId].base} else {}
      ensures Valid()
      ensures synchronizerMap == old(synchronizerMap) - {requestId}
      ensures responseMap == old(responseMap)
      ensures requestId !in old(synchronizerMap) ==> !r
      ensures requestId in old(synchronizerMap) ==>
        var s := old(synchronizerMap)[requestId];
        s.base.released && (r <==> !old(s.base.released)) && s.base.Valid()
        && s.base.latchCount == (if r then 0 else old(s.base.latchCount))
        && s.base.sleepTime == old(s.base.sleepTime) && s.base.currentThread == old(s.base.currentThread)
    {
      if requestId in synchronizerMap {
        var s := synchronizerMap[requestId];
        synchronizerMap := synchronizerMap - {requestId};
        r := s.base.Release();
      } else {
        r := false;
      }
    }

    /** Forgets `requestId` in both maps. */
    method RemoveSynchronizer(requestId: string)
      requires Valid()
      modifies this
      ensures Valid()
      ensures synchronizerMap == old(synchronizerMap) - {requestId}
      ensures responseMap == old(responseMap) - {requestId}
    {
      synchronizerMap := synchronizerMap - {requestId};
      responseMap := responseMap - {requestId};
    }

    method SetResponse(requestId: string, response: SuperMsgMulti)
      modifies this
      ensures responseMap == old(responseMap)[requestId := response]
      ensures synchronizerMap == old(synchronizerMap)
    {
      responseMap := responseMap[requestId := response];
    }

    /** Reads a reply without removing it. */
    method GetResponse(requestId: string) returns (r: Option<SuperMsgMulti>)
      ensures r.Some? <==> requestId in responseMap
      ensures r.Some? ==> r.value == responseMap[requestId]
    {
      if requestId in responseMap {
        r := Some(responseMap[requestId]);
      } else {
        r := None;
      }
    }

    /** Drops every synchronizer that has timed out at `now`, and the reply stored under its id. */
    method CleanupTimeoutSynchronizers(now: int)
      requires Valid()
      modifies this
      ensures Valid()
      ensures forall id :: id in synchronizerMap <==>
        id in old(synchronizerMap) && !old(synchronizerMap)[id].IsTimeout(now)
      ensures forall id :: id in synchronizerMap ==> synchronizerMap[id] == old(synchronizerMap)[id]
      ensures forall id :: id in responseMap <==>
        id in old(responseMap) && !(id in old(synchronizerMap) && old(synchronizerMap)[id].IsTimeout(now))
      ensures forall id :: id in responseMap ==> responseMap[id] == old(responseMap)[id]
    {
      ghost var syncs0 := synchronizerMap;
      ghost var replies0 := responseMap;
      var pending := synchronizerMap.Keys;
      while pending != {}
        invariant pending <= syncs0.Keys
        invariant forall id :: id in synchronizerMap <==>
          id in syncs0 && (id in pending || !syncs0[id].IsTimeout(now))
        invariant forall id :: id in synchronizerMap ==> synchronizerMap[id] == syncs0[id]
        invariant forall id :: id in responseMap <==>
          id in replies0 && !(id in syncs0 && id !in pending && syncs0[id].IsTimeout(now))
        invariant forall id :: id in responseMap ==> responseMap[id] == replies0[id]
        invariant Valid()
        decreases pending
      {
        var id :| id in pending;
        var s := synchronizerMap[id];
        if s.IsTimeout(now) {
          synchronizerMap := synchronizerMap - {id};
          responseMap := responseMap - {id};
        }
        pending := pending - {id};
      }
    }

    method GetSynchronizerCount() returns (n: nat)
      ensures n == |synchronizerMap|
    {
      n := |synchronizerMap|;
    }
  }

  /** The request id the scenarios below use for their `i`-th request. */
  function RequestId(i: int): string
  {
    "test-request-" + IntToString(i)
  }

  function RequestIds(lo: int, hi: int): set<string>
  {
    set i | lo <= i < hi :: RequestId(i)
  }

  lemma RequestIdInjective(a: int, b: int)
    requires RequestId(a) == RequestId(b)
    ensures a == b
  {
    var p := "test-request-";
    assert IntToString(a) == RequestId(a)[|p|..];
    assert IntToString(b) == RequestId(b)[|p|..];
    IntToStringInjective(a, b);
  }

  /** Dropping the first id of a range leaves the rest of the range. */
  lemma RequestIdsStep(lo: int, hi: int)
    requires lo < hi
    ensures RequestIds(lo, hi) - {RequestId(lo)} == RequestIds(lo + 1, hi)
  {
    forall i | lo + 1 <= i < hi
      ensures RequestId(i) != RequestId(lo)
    {
      if RequestId(i) == RequestId(lo) {
        RequestIdInjective(i, lo);
      }
    }
  }

  /** The last index of a range adds one id, new to the rest of the range. */
  lemma RequestIdsLast(lo: int, hi: int)
    requires lo < hi
    ensures RequestIds(lo, hi) == RequestIds(lo, hi - 1) + {RequestId(hi - 1)}
    ensures RequestId(hi - 1) !in RequestIds(lo, hi - 1)
  {
    forall i | lo <= i < hi - 1
      ensures RequestId(i) != RequestId(hi - 1)
    {
      if RequestId(i) == RequestId(hi - 1) {
        RequestIdInjective(i, hi - 1);
      }
    }
  }

  /** `hi - lo` distinct indices give `hi - lo` distinct request ids. */
  lemma {:induction false} RequestIdsCount(lo: int, hi: int)
    requires lo <= hi
    ensures |RequestIds(lo, hi)| == hi - lo
    decreases hi - lo
  {
    if lo < hi {
      RequestIdsCount(lo, hi - 1);
      RequestIdsLast(lo, hi);
    } else {
      assert RequestIds(lo, hi) == {};
    }
  }

  /** Creating ten synchronizers and releasing five of them leaves five bound. */
  method CreateTenReleaseFive(now: int) returns (count: nat)
    ensures count == 5
  {
    var manager := new SynchronizerManager();
    var i := 0;
    while i < 10
      invariant 0 <= i <= 10
      invariant manager.Valid()
      invariant manager.synchronizerMap.Keys == RequestIds(0, i)
      invariant forall id :: id in manager.synchronizerMap ==> manager.synchronizerMap[id].base.Valid()
      invariant forall id :: id in manager.synchronizerMap ==> fresh(manager.synchronizerMap[id].base)
    {
      var _ := manager.CreateSynchronizer(RequestId(i), 5000, now);
      i := i + 1;
    }
    i := 0;
    while i < 5
      invariant 0 <= i <= 5
      invariant manager.Valid()
      invariant manager.synchronizerMap.Keys == RequestIds(i, 10)
      invariant forall id :: id in manager.synchronizerMap ==> manager.synchronizerMap[id].base.Valid()
      invariant forall id :: id in manager.synchronizerMap ==> fresh(manager.synchronizerMap[id].base)
    {
      var released := manager.ReleaseSynchronizer(RequestId(i));
      RequestIdsStep(i, 10);
      i := i + 1;
    }
    RequestIdsCount(5, 10);
    count := manager.GetSynchronizerCount();
  }

  /**
   * The wait bound handed to `createSynchronizer` does not decide expiry:
   * a synchronizer created with a 100 ms bound has not timed out 200 ms later.
   */
  method ShortTimeoutDoesNotExpire(now: int) returns (expired: bool)
    ensures !expired
  {
    var manager := new SynchronizerManager();
    var s := manager.CreateSynchronizer("timeout-test", 100, now);
    expired := s.IsTimeout(now + 200);
  }

  /** Reading a reply leaves it in place for the next reader. */
  method ResponseReadTwice(now: int) returns (first: Option<SuperMsgMulti>, second: Option<SuperMsgMulti>)
    ensures first.Some? && second.Some? && first == second
  {
    var manager := new SynchronizerManager();
    var reply := new SuperMsgMulti("reply", now);
    manager.SetResponse("req", reply);
    first := manager.GetResponse("req");
    second := manager.GetResponse("req");
  }
}

=== FILE: synchronizer.dfy ===
/**
 * The one-shot gate a calling thread parks on while its RPC request is in
 * flight: a released flag set at most once, a one-count latch, and an
 * optional wait bound in milliseconds.
 */
module Synchronizers {
  import opened Wrappers

  type ThreadId = nat

  /**
   * How a call to `acquire` waits: not at all (the gate was already released
   * or the caller was refused), on the latch for at most `ms` milliseconds,
   * or on the latch without bound. Expiry of a bounded wait only logs.
   */
  datatype WaitKind = NoWait | TimedWait(ms: int) | UntimedWait

  class Synchronizer {
    var currentThread: Option<ThreadId>
    /** The wait bound in milliseconds; 0 or less means wait without bound. */
    var sleepTime: int
    /** The `AtomicBoolean` that `tryRelease` sets. */
    var released: bool
    /** The `CountDownLatch(1)` waiters park on. */
    var latchCount: nat

    /** The latch opens only through `release`, which also sets the flag. */
    ghost predicate Valid()
      reads this
    {
      latchCount <= 1 && (latchCount == 0 ==> released)
    }

    constructor()
      ensures Valid()
      ensures currentThread == None && sleepTime == 0 && !released && latchCount == 1
    {
      currentThread := None;
      sleepTime := 0;
      released := false;
      latchCount := 1;
    }

    /** A caller may still wait exactly while the gate has not been released. */
    method TryAcquire() returns (r: bool)
      ensures r <==> !released
    {
      r := !released;
    }

    /** Sets the released flag; true only for the call that changed it. The latch is not touched. */
    method TryRelease() returns (r: bool)
      modifies this
      ensures r <==> !old(released)
      ensures released
      ensures latchCount == old(latchCount) && sleepTime == old(sleepTime)
      ensures currentThread == old(currentThread)
    {
      r := !released;
      released := true;
    }

    /** The body of `acquire` once the caller is admitted: record the thread and pick the wait. */
    method Await(thread: ThreadId) returns (w: WaitKind)
      modifies this
      ensures currentThread == Some(thread)
      ensures w == (if sleepTime > 0 then TimedWait(sleepTime) else UntimedWait)
      ensures released == old(released) && latchCount == old(latchCount) && sleepTime == old(sleepTime)
    {
      currentThread := Some(thread);
      if sleepTime > 0 {
        w := TimedWait(sleepTime);
      } else {
        w := UntimedWait;
      }
    }

    /** A released gate lets the caller through; otherwise the caller waits and never releases. */
    method Acquire(thread: ThreadId) returns (w: WaitKind)
      modifies this
      ensures w == NoWait <==> old(released)
      ensures w != NoWait ==> currentThread == Some(thread)
      ensures w != NoWait ==> w == (if sleepTime > 0 then TimedWait(sleepTime) else UntimedWait)
      ensures old(released) ==> currentThread == old(currentThread)
      ensures released == old(released) && latchCount == old(latchCount) && sleepTime == old(sleepTime)
    {
      var admitted := TryAcquire();
      if admitted {
        w := Await(thread);
      } else {
        w := NoWait;
      }
    }

    /** Releases the gate and opens the latch; true only for the first release. */
    method Release() returns (r: bool)
      requires Valid()
      modifies this
      ensures Valid()
      ensures r <==> !old(released)
      ensures released && latchCount == (if r then 0 else old(latchCount))
      ensures sleepTime == old(sleepTime) && currentThread == old(currentThread)
    {
      r := TryRelease();
      if r {
        latchCount := 0;
      }
    }

    method SetSleepTime(t: int)
      modifies this
      ensures sleepTime == t
      ensures released == old(released) && latchCount == old(latchCount)
      ensures currentThread == old(currentThread)
    {
      sleepTime := t;
    }

    function IsReleased(): bool
      reads this
    {
      released
    }
  }

  /** Of two releases of one gate only the first succeeds, and it opens the latch. */
  method ReleaseIsOneShot() returns (first: bool, second: bool, latchOpen: bool)
    ensures first && !second && latchOpen
  {
    var s := new Synchronizer();
    first := s.Release();
    second := s.Release();
    latchOpen := s.latchCount == 0;
  }

  /**
   * `tryRelease` alone sets the flag but leaves the latch closed, so a thread
   * already parked in `acquire` is not woken; a later `acquire` passes.
   */
  method TryReleaseLeavesLatchClosed() returns (flag: bool, latchClosed: bool, later: WaitKind)
    ensures flag && latchClosed && later == NoWait
  {
    var s := new Synchronizer();
    var _ := s.TryRelease();
    flag := s.IsReleased();
    latchClosed := s.latchCount == 1;
    later := s.Acquire(7);
  }
}

=== FILE: wrappers.dfy ===
/** Optional values and results shared by every module of the model. */
module Wrappers {

  /** A value that may be absent; Java's and C#'s `null` references are `None`. */
  datatype Option<T> = None | Some(value: T)

  /** The outcome of an operation that may throw: `Failure` carries the exception. */
  datatype Result<T, E> = Success(value: T) | Failure(error: E)
}
